=== FILE: README.md ===
# minAEC3 core, modelled in Dafny

minAEC3 is a small acoustic echo canceller in the style of WebRTC's AEC3,
run on 16 kHz mono audio in blocks of 64 samples. The render signal (what the
loudspeaker plays) is buffered in a set of ring buffers. A bank of matched
filters, a histogram lag aggregator and a consistency counter estimate the
echo path delay, and the render delay buffer aligns to it. A partitioned
frequency-domain adaptive FIR filter (the subtractor) predicts the echo and
subtracts it from the capture signal. ERLE and filter-quality state then
decide how the residual echo is estimated, and a suppression gain and an
overlap-add suppression filter remove what is left. `EchoCanceller3` wraps
the block processor with a bounded render queue and 16-bit conversion. Three
harnesses surround the canceller: a RIFF/WAVE PCM16 reader and writer with a
64-sample block queue (`cancel_live.js`), a PortAudio bridge with two bounded
sample FIFOs (`PANode/panode.cpp`), and an echo-back loop with a capture FIFO,
a reference FIFO, a loopback delay line, a jitter buffer and command-line
option parsing (`echoback.cc`).

The model has one Dafny module per component; the four render ring buffers
(blocks, spectra, FFTs and the down-sampled history) share the generic `Ring`
of `RingBuffers`, and `Subtractors` covers the subtractor's header and its
implementation:

- Stateful components are classes whose methods change their fields under
  `modifies` frames. The ring buffers, the render delay buffer, the matched
  filter, the lag aggregator, the adaptive filter, the gain and ERLE
  estimators, the suppressor, the block processor and the FIFOs are classes.
- Loops are methods proved against recursive specification functions.
- Pure helpers are functions: the index arithmetic, the constants, the
  packed-FFT permutation, the gain formulas and the byte codecs.
- Floats are `real` and 16-bit samples are a subset type of `int`.
- The FFT, the square-root Hanning window and the square root are parameters
  of the model, not definitions.

The properties proved include:

- every ring cursor stays in range, and the render rings stay in lockstep;
- the packed FFT round-trips;
- the lag histogram always sums to zero;
- ERLE stays in [1, 64], `H_error` in [0.001, 2] and every gain in [0, 1];
- PCM16 conversion round-trips;
- reading back the WAV bytes the writer produces returns the samples;
- the echo-back loop consumes whole blocks and keeps its delay line's length.

## Model

| member | source | states |
|---|---|---|
| RingIndex.IncIndex | ring_index.h:5-7 | for an index in range, the result is the next slot cyclically: `(index + 1) mod size`, still in range |
| RingIndex.DecIndex | ring_index.h:9-11 | for an index in range, the result is the previous slot cyclically: `(index - 1) mod size`, still in range |
| RingIndex.CRem | ring_index.h:14 | C++ `%` truncates toward zero: a non-negative dividend gives a remainder in [0, n), a negative one a remainder in (-n, 0] |
| RingIndex.OffsetIndex | ring_index.h:13-15 | while `size + index + offset >= 0` the result is the slot `(index + offset) mod size`; below that it is a non-positive C++ remainder, not a slot |
| RingIndex.StepIndex | ring_index.h:5-7 | a cursor at `(start + k) mod size` advanced by `IncIndex` sits at `(start + k + 1) mod size` |
| RingIndex.IncDecInverse | ring_index.h:5-11 | `IncIndex` and `DecIndex` undo each other on every in-range index |
| RingIndex.OffsetSpecialCases | ring_index.h:5-15 | offsets 0, +1 and -1 are the identity, `IncIndex` and `DecIndex` |
| RingIndex.OffsetCompose | ring_index.h:13-15 | two offsets compose into one when every intermediate `size + index + offset` is non-negative |
| RingIndex.OffsetComposeNeedsSideCondition | ring_index.h:13-15 | without that side condition composition fails: offsetting 0 by -5 then -14 in a ring of 10 gives 1, offsetting by -19 at once gives -9 |
| Aec3Common.GetDownSampledBufferSize | aec3_common.h:20-25 | the down-sampled ring holds `kBlockSize / factor` samples per sub-block times `24 * filters + 32 + 1` sub-blocks (zero when the factor exceeds the block size) |
| Aec3Common.GetRenderDelayBufferSize | aec3_common.h:27-33 | the render ring holds one block per down-sampled sub-block, plus the filter length, plus one |
| Aec3Common.DefaultSizes | aec3_common.h:4-33 | with factor 4, 5 filters and 13 partitions: an alignment shift of 24 sub-blocks, a 2448-sample down-sampled ring and a 167-block render ring |
| Blocks.Filled | block.h:5-8 | a block of 64 samples, each equal to the default value |
| Blocks.View | block.h:20-26 | the view is the block's 64 samples in order |
| Fft.Assign | fft_data.h:9-13 | the copy keeps every real part and every interior imaginary part, and zeroes the imaginary parts of bins 0 and 64 |
| Fft.Cleared | fft_data.h:16-19 | every real and imaginary part is zero |
| Fft.PowerSpectrum | fft_data.h:22-25 | bin k is `re[k]² + im[k]²`, hence never negative |
| Fft.PackUnpack | fft_data.h:28-47 | unpacking a 128-value packed array and packing it again gives the array back |
| Fft.UnpackPack | fft_data.h:28-47 | packing then unpacking gives the spectrum back exactly when its imaginary parts at bins 0 and 64 are zero |
| Fft.AssignIsRoundTrip | fft_data.h:9-47 | a pack/unpack round trip is the same copy `Assign` makes |
| Fft.CopyFromPackedArray | fft_data.h:28-36 | the loop produces the unpacked spectrum: `re[0]`, `re[64]` from the first two values and interleaved pairs after them |
| Fft.CopyToPackedArray | fft_data.h:39-47 | the loop produces the packed array of the spectrum |
| Fft.ColumnSumNonNegative | fft_data.h:22-25 | a per-bin sum of power spectra is never negative |
| RingBuffers.Ring.constructor | block_buffer.h:8-9 | a ring of `size` equal slots with both cursors at 0 |
| RingBuffers.Ring.IncIndex | block_buffer.h:12 | the ring's own `IncIndex`: the next slot cyclically |
| RingBuffers.Ring.DecIndex | block_buffer.h:14 | the ring's own `DecIndex`: the previous slot cyclically |
| RingBuffers.Ring.OffsetIndex | block_buffer.h:16-18 | the ring's own `OffsetIndex`: `(index + offset) mod size` while `size + index + offset >= 0` |
| RingBuffers.Ring.UpdateWriteIndex | block_buffer.h:20 | only the write cursor moves, to `(write + offset) mod size` |
| RingBuffers.Ring.IncWriteIndex | block_buffer.h:21 | only the write cursor moves, one slot forward cyclically |
| RingBuffers.Ring.DecWriteIndex | block_buffer.h:22 | only the write cursor moves, one slot back cyclically |
| RingBuffers.Ring.UpdateReadIndex | block_buffer.h:23 | only the read cursor moves, to `(read + offset) mod size` |
| RingBuffers.Ring.IncReadIndex | block_buffer.h:24 | only the read cursor moves, one slot forward cyclically |
| RingBuffers.Ring.DecReadIndex | block_buffer.h:25 | only the read cursor moves, one slot back cyclically |
| RingBuffers.NewBlockBuffer | block_buffer.h:7-31 | a fresh ring of `size` all-zero blocks, cursors at 0 |
| RingBuffers.NewSpectrumBuffer | spectrum_buffer.h:8-36 | a fresh ring of `size` spectra whose 65 bins are all zero, cursors at 0 |
| RingBuffers.NewFftBuffer | fft_buffer.h:7-35 | a fresh ring of `size` cleared spectra, cursors at 0 |
| RingBuffers.NewDownsampledRenderBuffer | downsampled_render_buffer.h:3-30 | a fresh ring of `size` zero samples, cursors at 0 |
| Decimator.WindowCount | decimator.h:15-18 | window j takes at most 4 samples; none exactly when it starts at or past the end of the input; the ones it takes lie inside the input |
| Decimator.DecimateBy4 | decimator.h:9-21 | the nested loops produce `n` outputs, output j being the mean of window j (0 for an empty window) |
| Decimator.FullWindow | decimator.h:9-21 | a window wholly inside the input is the plain mean of its four samples |
| Decimator.EmptyWindow | decimator.h:19 | a window past the end of the input yields 0 |
| Decimator.WindowMeanBounds | decimator.h:9-21 | each output lies between the smallest and largest input sample |
| RenderBuffers.RenderBuffer.constructor | render_buffer.h:8-13 | the view shares the three rings it is given |
| RenderBuffers.RenderBuffer.GetBlock | render_buffer.h:19-23 | the block `offset` slots from the block ring's read cursor, taken cyclically |
| RenderBuffers.RenderBuffer.Spectrum | render_buffer.h:25-30 | the spectrum `offset` slots from the spectrum ring's read cursor, taken cyclically |
| RenderBuffers.RenderBuffer.GetFftBuffer | render_buffer.h:33 | the whole FFT ring, of the ring's size |
| RenderBuffers.RenderBuffer.Position | render_buffer.h:36-40 | the FFT ring's read cursor, a valid slot |
| RenderBuffers.Rotation | render_buffer.h:46-53 | the `n` ring slots visited from `start` onwards, wrapping at the end |
| RenderBuffers.SpectralSumOf | render_buffer.h:43-54 | bin k is the sum, over the `n` spectra from the read cursor onwards, of their bin k |
| RenderBuffers.RenderBuffer.SpectralSum | render_buffer.h:43-54 | the nested loops compute exactly that per-bin sum |
| RenderBuffers.RenderBuffer.SpectralSumOfNothing | render_buffer.h:45 | summing no spectra gives all zeros |
| RenderDelay.WriteReversed | render_delay_buffer.h:126 | the down-sampled samples are written back to front at the write cursor; every other slot is unchanged |
| RenderDelay.Gap | render_delay_buffer.h:92 | the distance from one cursor forward to the other, `(to - from) mod n`, in [0, n) |
| RenderDelay.WriteStepGap | render_delay_buffer.h:133 | moving the down-sampled write cursor back one sub-block lengthens the read-to-write stretch by one sub-block, unless it lands on the read cursor |
| RenderDelay.ReadStepGap | render_delay_buffer.h:138 | moving the down-sampled read cursor back one sub-block shortens a non-empty stretch by one sub-block |
| RenderDelay.RenderDelayBuffer.constructor | render_delay_buffer.h:14-29 | rings of 167 blocks and 2448 zero samples; delay unknown (-1); read cursors aligned 10 blocks behind the writers; down-sampled read cursor one sub-block ahead |
| RenderDelay.RenderDelayBuffer.ApplyTotalDelay | render_delay_buffer.h:113-117 | the block read cursor sits `t` slots behind its writer; the spectrum and FFT read cursors sit `t` slots ahead of theirs |
| RenderDelay.RenderDelayBuffer.Reset | render_delay_buffer.h:33-37 | the down-sampled reader goes one sub-block past the writer, the alignment becomes 10 blocks and the delay becomes unknown |
| RenderDelay.RenderDelayBuffer.BufferLatency | render_delay_buffer.h:90-95 | the whole sub-blocks between the down-sampled read and write cursors, in [0, 153) |
| RenderDelay.RenderDelayBuffer.MaxDelay | render_delay_buffer.h:82 | 167 - 1 - 13 = 153 blocks |
| RenderDelay.RenderDelayBuffer.InsertBlock | render_delay_buffer.h:118-131 | the block lands in the write slot; its 16 window means go reversed into the down-sampled ring; its padded FFT and power spectrum go into their write slots |
| RenderDelay.RenderDelayBuffer.IncrementWriteIndices | render_delay_buffer.h:132-137 | the down-sampled writer moves back 16 samples, the block writer forward one slot, the spectrum and FFT writers back one slot |
| RenderDelay.RenderDelayBuffer.IncrementReadIndices | render_delay_buffer.h:139-145 | the three read cursors step (block forward, spectrum and FFT back) unless the block reader already sits on its writer, in which case nothing moves |
| RenderDelay.RenderDelayBuffer.Insert | render_delay_buffer.h:40-49 | the writers advance and the block is stored; an overrun (a reader met by its writer) resets the alignment and the delay; otherwise the latency grows by exactly one block and no reader moves |
| RenderDelay.RenderDelayBuffer.PrepareCaptureProcessing | render_delay_buffer.h:53-64 | an underrun happens exactly at zero latency, keeps the down-sampled reader and decrements a positive delay; otherwise the down-sampled reader consumes one sub-block and the latency drops by one; in both cases the block, spectrum and FFT readers advance by one unless they have caught up with the writer; the writers and contents never change |
| RenderDelay.RenderDelayBuffer.AlignFromDelay | render_delay_buffer.h:69-78 | reports a change exactly when the delay differs; on a change the readers align to latency + delay capped at the maximum delay; otherwise nothing changes |
| RenderDelay.RenderDelayBuffer.GetRenderBuffer | render_delay_buffer.h:85 | the echo remover's view shares the block, spectrum and FFT rings |
| RenderDelay.AlignedIsConsistent | render_delay_buffer.h:113-117 | after `ApplyTotalDelay(t)` the block ring lags its writer by as many slots as the spectrum ring leads its writer |
| LagAggregation.CountUpdate | matched_filter_lag_aggregator.h:54-56 | overwriting one history slot moves one vote from the old lag's bin to the new lag's bin |
| LagAggregation.BinSumCounts | matched_filter_lag_aggregator.h:53-57 | while each bin equals its number of votes in the history, the bins below n add up to the votes for lags below n |
| LagAggregation.FirstMaxIndex | matched_filter_lag_aggregator.h:58-60 | the index of the first largest bin, as `std::max_element` finds it |
| LagAggregation.HighestPeakAggregator.constructor | matched_filter_lag_aggregator.h:44-47 | `max_filter_lag + 1` empty bins, an all-zero history, cursor 0 and no candidate |
| LagAggregation.HighestPeakAggregator.Reset | matched_filter_lag_aggregator.h:48-52 | all bins and all history entries zero, cursor 0; the candidate is kept |
| LagAggregation.HighestPeakAggregator.Aggregate | matched_filter_lag_aggregator.h:53-61 | the lag replaces the oldest history entry, its bin gains the vote that the replaced entry's bin loses, the cursor moves on cyclically over 250 entries, and the candidate is the first highest bin |
| LagAggregation.HighestPeakAggregator.HistogramSumsToZero | matched_filter_lag_aggregator.h:45-56 | the bins always sum to zero: the 250 zero entries of the initial history are never counted in bin 0 |
| LagAggregation.ZerosCounted | matched_filter_lag_aggregator.h:46-51 | an all-zero history has every vote in bin 0 |
| LagAggregation.AsWrittenThresholds | matched_filter_lag_aggregator.h:10-13 | the constructor's `thresholds_()` value-initialises the thresholds, which overrides the `{5, 20}` default: both are 0 |
| LagAggregation.IntendedThresholds | matched_filter_lag_aggregator.h:74 | the declared thresholds: initial 5, converged 20 |
| LagAggregation.Decide | matched_filter_lag_aggregator.h:30-36 | a significant candidate is found once any count exceeds the converged threshold; a lag is reported when the count exceeds the converged threshold, or the initial one before anything significant was found |
| LagAggregation.AsWrittenReportsFirstLag | matched_filter_lag_aggregator.h:11-36 | with the as-written thresholds any single vote is reported: a count is reported exactly when it is positive |
| LagAggregation.IntendedNeedsSixVotes | matched_filter_lag_aggregator.h:30-36 | with thresholds 5 and 20 a report needs more than 5 votes, more than 20 once something significant was found, and more than 20 always suffices |
| LagAggregation.MatchedFilterLagAggregator.constructor | matched_filter_lag_aggregator.h:10-13 | a fresh peak aggregator over `max_filter_lag + 1` bins, the given thresholds, nothing significant found |
| LagAggregation.MatchedFilterLagAggregator.Reset | matched_filter_lag_aggregator.h:17-22 | the histogram and all 250 history entries are zero; the significant flag is cleared only on a hard reset |
| LagAggregation.Voted | matched_filter_lag_aggregator.h:27 | the vote is never negative and never below the estimate minus the 8-sample headroom, and equals the estimate minus 8 from 8 upwards |
| LagAggregation.MatchedFilterLagAggregator.Aggregate | matched_filter_lag_aggregator.h:25-39 | a negative estimate changes nothing and gives -1; otherwise `max(0, lag - 8)` is voted for, and the first highest bin is returned exactly when `Decide` says to report it, -1 otherwise; the outcome, bins and candidate included, is `AggregateOutcome` of the old history, cursor and flag, and the new history, cursor and flag are `AggregatedState`: the vote overwrites the slot at the cursor, the cursor advances modulo 250 and the flag is `Decide`'s for the candidate bin |
| LagAggregation.FirstMaxUnique | matched_filter_lag_aggregator.h:58-60 | there is only one first highest bin |
| LagAggregation.AggregateOutcomeDeterministic | matched_filter_lag_aggregator.h:25-39 | the old history, cursor, flag, thresholds and estimate fix the reported lag, and for a vote also the histogram and its first fullest bin: two outcomes allowed by `AggregateOutcome` agree |
| DelayEstimation.HalfSecond | echo_path_delay_estimator.h:44 | the consistency limit is half a second of blocks, 125 |
| DelayEstimation.NextCounter | echo_path_delay_estimator.h:37-42 | the counter grows by one when the same non-negative lag repeats and drops to 0 otherwise |
| DelayEstimation.EchoPathDelayEstimator.constructor | echo_path_delay_estimator.h:8-11 | no previous lag, counter 0, and an aggregator with the corrected thresholds 5 and 20 (the code as written gets 0 and 0, see Findings) |
| DelayEstimation.EchoPathDelayEstimator.Reset | echo_path_delay_estimator.h:17 | the same state as `ResetInternal` leaves (`IsResetState`), and no previous lag and a zero counter |
| DelayEstimation.EchoPathDelayEstimator.ResetInternal | echo_path_delay_estimator.h:63-68 | `IsResetState`: five filters of 512 zero taps, a zero history at cursor 0 and no significant candidate; the reported lag, the previous lag and the counter are forgotten |
| DelayEstimation.EchoPathDelayEstimator.State | echo_path_delay_estimator.h:8-11 | the estimator's filters and aggregator history as a value: five filters, a history of 250 entries and a cursor inside it |
| DelayEstimation.EchoPathDelayEstimator.AggregatedLag | echo_path_delay_estimator.h:23-31 | `Estimated`: every filter runs (`FilterRun`) from the old taps over the capture decimated by four, giving the new taps and the candidates; the filter reports the lag the candidates select (`ReportedLag`); the result is the aggregator's `AggregateOutcome` for that lag (-1 or a lag within the filter span); `Advanced`: the new taps are the updated filters and the history, cursor and flag are the `AggregatedState` after that lag; the histogram and candidate are the ones the outcome names |
| DelayEstimation.EchoPathDelayEstimator.EstimateDelay | echo_path_delay_estimator.h:20-49 | `DelayEstimated`: the estimation `AggregatedLag` states, and a delay of 4 × the aggregated lag in samples (or -1); `EstimatorAfter`: after more than 125 consecutive equal estimates the state is `IsResetState` with no previous lag and a zero counter, otherwise it is the `Advanced` state, the previous lag is the delay and the counter is `NextCounter` |
| DelayEstimation.DelayEstimatedDeterministic | echo_path_delay_estimator.h:20-49 | one estimator state, render buffer and capture block admit only one estimation: the updated filters, the candidates and the delay are determined |
| DelayEstimation.ResetStateUnique | echo_path_delay_estimator.h:63-68 | there is one reset state: two states that both satisfy `IsResetState` are equal |
| DelayEstimation.EstimatorAfterDeterministic | echo_path_delay_estimator.h:20-49 | the estimator, previous lag and counter an estimate leaves (`EstimatorAfter`) and its delay are fixed by the estimator it started from, the render ring and the capture |
| EchoPathVariability.DelayChanged | echo_path_variability.h:11 | true exactly for a buffer flush or a newly detected delay |
| MatchedFilters.Dimensions | matched_filter.h:17-21 | 5 filters of 512 taps spaced 384 samples apart over 16-sample sub-blocks, a maximum lag of 2432 and an excitation threshold of 512 · 150² |
| MatchedFilters.MaxSquarePeakIndex | matched_filter.h:34-64 | the two-lane scan returns the `IsScanPeak` index: its square is at least every tap's square (0 for fewer than two taps); on ties each lane keeps its first maximum, the odd lane wins only when strictly greater than the even one, and the unpaired last tap only when strictly greater than both |
| MatchedFilters.LaneSpan | matched_filter.h:40-52 | the paired scan covers the taps up to the largest even count, leaving at most one tap over |
| MatchedFilters.ScanPeakUnique | matched_filter.h:34-64 | the tie rule fixes the peak: two indices that both satisfy `IsScanPeak` are equal |
| MatchedFilters.ZeroTapsPeakAtZero | matched_filter.h:34-64 | on an all-zero filter the scan reports tap 0 |
| MatchedFilters.LanesCover | matched_filter.h:43-58 | bounding the even lane and the odd lane bounds every tap scanned so far |
| MatchedFilters.WindowEnergyNonNegative | matched_filter.h:74-78 | the render energy over a window is never negative |
| MatchedFilters.CoreKeepsTapsUnlessUpdated | matched_filter.h:86-94 | when `filters_updated` stays false the taps are exactly the old taps |
| MatchedFilters.CoreErrorNonNegative | matched_filter.h:83-84 | the accumulated error is a sum of squares, never negative |
| MatchedFilters.CoreUpdatedIff | matched_filter.h:73-97 | the filter adapts if and only if, for some capture sample `i`, the render window `i` samples further back has energy above the threshold |
| MatchedFilters.WindowStats | matched_filter.h:74-81 | the inner loop computes the window energy and the tap correlation, the render index wrapping at the buffer end |
| MatchedFilters.AdaptTaps | matched_filter.h:87-92 | each tap `k` moves by `alpha` times the render sample `k` places into the window |
| MatchedFilters.Adapted | matched_filter.h:87-92 | the NLMS update keeps the number of taps |
| MatchedFilters.CoreStep | matched_filter.h:74-94 | one capture sample keeps the number of taps |
| MatchedFilters.Back | matched_filter.h:95-96 | the window start moves back one render sample, wrapping from 0 to the last |
| MatchedFilters.Core | matched_filter.h:66-98 | the whole capture block keeps the number of taps |
| MatchedFilters.CoreSample | matched_filter.h:74-94 | one capture sample: its squared prediction error, and an NLMS step of size 0.7·e/energy exactly when the energy exceeds the threshold |
| MatchedFilters.MatchedFilterCore | matched_filter.h:66-98 | the loop over the capture equals `Core`: one sample at a time with the window start moving back one render sample, wrapping to the end |
| MatchedFilters.SelectFacts | matched_filter.h:108-150 | the winner search keeps the last proposed lag; a winner exists only if some filter adapted and is reliable, its lag is what such a filter proposed, and its error is no larger than the capture energy or any eligible filter's error |
| MatchedFilters.ReportedLagRange | matched_filter.h:127-150 | the reported lag is -1 or an eligible filter's peak plus its alignment shift, hence within [3, 2037] |
| MatchedFilters.SelectAppend | matched_filter.h:133-145 | one more filter takes over exactly when it adapted, is reliable and beats the current error; if it proposes the previous filter's lag the earlier filter is credited |
| MatchedFilters.Energy | matched_filter.h:103-106 | the anchor is the sum of squares of the capture |
| MatchedFilters.StartIndex | matched_filter.h:119-121 | filter `n` starts at `(read + n·384 + 15) mod size`, a slot of the buffer |
| MatchedFilters.RunFilter | matched_filter.h:119-127 | runs one filter from its start slot and records whether it adapted, its error and its square peak |
| MatchedFilters.RunFilters | matched_filter.h:113-146 | every filter runs in turn and the winner index and lag are those of `Select` over the five candidates |
| MatchedFilters.MatchedFilter.constructor | matched_filter.h:23-27 | five all-zero filters of 512 taps, no lag |
| MatchedFilters.MatchedFilter.Reset | matched_filter.h:154-160 | every tap zero, both lags -1 |
| MatchedFilters.MatchedFilter.GetBestLagEstimate | matched_filter.h:163 | the reported lag, which is -1 or within [3, 2037] |
| MatchedFilters.MatchedFilter.Update | matched_filter.h:31-151 | every filter is run over the capture from its own start slot, `winner_lag_` is the winner search's lag and `reported_lag_` is it when a filter won, -1 otherwise |
| AdaptiveFir.FilterOutput | adaptive_fir_filter.h:44-61 | the output bin `k` is the sum over partitions of the complex product of the render spectrum (read cyclically from the current position) and the partition |
| AdaptiveFir.ConstrainPartition | adaptive_fir_filter.h:121-130 | only the constrained partition changes; it becomes the transform of its time-constrained impulse response |
| AdaptiveFir.ZeroFilterIsSilent | adaptive_fir_filter.h:44-61 | a filter whose partitions are all cleared outputs zero in every bin |
| AdaptiveFir.AdaptAll | adaptive_fir_filter.h:26-41 | partitions from `num_partitions` onwards are left untouched |
| AdaptiveFir.Negated | adaptive_fir_filter.h:36-37 | the negated gain, bin by bin |
| AdaptiveFir.AdaptWithNegatedGainUndoes | adaptive_fir_filter.h:26-41 | an adaptation with gain G followed by one with -G restores the filter: the update is linear in the gain |
| AdaptiveFir.Response | adaptive_fir_filter.h:10-23 | one row per H2 entry: the power spectrum of each of the first `num_partitions` partitions, zeros after them |
| AdaptiveFir.ZeroBins | adaptive_fir_filter.h:14-16 | every bin zero |
| AdaptiveFir.AdaptAllStep | adaptive_fir_filter.h:32-40 | adapting one more partition changes only that partition, using the render spectrum at the next cyclic position |
| AdaptiveFir.ApplyFilter | adaptive_fir_filter.h:44-61 | the loop produces `FilterOutput` bin by bin |
| AdaptiveFir.Accumulate | adaptive_fir_filter.h:55-58 | every bin grows by the complex product of the render spectrum and the partition |
| AdaptiveFir.AdaptPartition | adaptive_fir_filter.h:35-38 | one partition plus the product of the render spectrum and the conjugate-weighted gain, bin by bin |
| AdaptiveFir.AdaptPartitions | adaptive_fir_filter.h:26-41 | the loop produces `AdaptAll`: the first `num_partitions` partitions adapted against cyclically advancing render spectra |
| AdaptiveFir.ComputeFrequencyResponse | adaptive_fir_filter.h:10-23 | the result is `Response`, so every entry is a power and never negative |
| AdaptiveFir.ComputeErl | adaptive_fir_filter.h:64-72 | the ERL of bin `j` is the sum of column `j` over every frequency response row |
| AdaptiveFir.ErlNonNegative | adaptive_fir_filter.h:64-72 | the ERL built from a frequency response is never negative |
| AdaptiveFir.TimeConstrained | adaptive_fir_filter.h:125-128 | the first 64 samples are scaled by 1/64 and the last 64 are zero |
| AdaptiveFir.CursorAfterIsModular | adaptive_fir_filter.h:131-134 | after `m` constraints the cursor is `(c + m) mod size` |
| AdaptiveFir.CursorAfter | adaptive_fir_filter.h:131-134 | the cursor stays a partition index |
| AdaptiveFir.RoundRobinVisitsAll | adaptive_fir_filter.h:121-135 | within `size` consecutive constraints every partition is visited |
| AdaptiveFir.AdaptiveFirFilter.constructor | adaptive_fir_filter.h:78-83 | `size_partitions` cleared partitions and the constraint cursor at 0 |
| AdaptiveFir.AdaptiveFirFilter.Filter | adaptive_fir_filter.h:89-91 | the filter output over all partitions |
| AdaptiveFir.AdaptiveFirFilter.Adapt | adaptive_fir_filter.h:94-97 | every partition is adapted, then the one under the cursor is constrained and the cursor advances cyclically |
| AdaptiveFir.AdaptiveFirFilter.HandleEchoPathChange | adaptive_fir_filter.h:101-105 | every partition cleared, the cursor kept |
| AdaptiveFir.AdaptiveFirFilter.SizePartitions | adaptive_fir_filter.h:108 | the fixed, positive partition count |
| AdaptiveFir.AdaptiveFirFilter.FrequencyResponse | adaptive_fir_filter.h:111-115 | one power spectrum per partition, never negative |
| AdaptiveFir.AdaptiveFirFilter.Constrain | adaptive_fir_filter.h:121-135 | the partition under the cursor is constrained and the cursor moves to the next partition, wrapping to 0 |
| FilterUpdate.Mu | filter_update_gain.h:36-44 | the step size is 0 below the noise gate; at or above it, it is positive and is exactly H_error divided by `0.5·H_error·X2 + size_partitions·E2` |
| FilterUpdate.SteppedNonNegative | filter_update_gain.h:45-47 | the stepped error estimate stays between 0 and its old value |
| FilterUpdate.Leakage | filter_update_gain.h:53-59 | the converged leakage 0.00005 when `e2 <= 0.5·y2`, the diverged leakage 0.05 otherwise |
| FilterUpdate.NextHError | filter_update_gain.h:45-62 | after the step and the leakage the error estimate is clamped into [0.001, 2] |
| FilterUpdate.Gain | filter_update_gain.h:31-52 | a zero gain while suppressed, and a zero bin wherever the render power is below the noise gate |
| FilterUpdate.FilterUpdateGain.constructor | filter_update_gain.h:3-6 | every error estimate 10000, poor-excitation counter 1000, call counter 0 |
| FilterUpdate.FilterUpdateGain.HandleEchoPathChange | filter_update_gain.h:12-18 | both counters are reset; the error estimates return to 10000 exactly when the delay changed |
| FilterUpdate.FilterUpdateGain.Compute | filter_update_gain.h:21-63 | both counters advance, the gain is `Gain` under the warm-up test on the incremented counters, and every error estimate becomes `NextHError`, within [0.001, 2] |
| FilterUpdate.StepErrors | filter_update_gain.h:45-47 | the loop applies `Stepped` to every bin |
| FilterUpdate.ScaledGain | filter_update_gain.h:48-51 | every gain bin is the step size times the error spectrum |
| FilterUpdate.LeakAndClamp | filter_update_gain.h:54-62 | every bin gains the leakage times the ERL and is clamped into [0.001, 2] |
| FilterUpdate.StepSizes | filter_update_gain.h:37-44 | the loop computes `Mu` for every bin |
| FilterUpdate.WarmUpSuppresses | filter_update_gain.h:30-34 | for the first `size_partitions` calls after a reset the gain is suppressed |
| FilterUpdate.WarmUpEnds | filter_update_gain.h:30-32 | the gain is computed if and only if the incremented poor-excitation counter reaches `size_partitions` and more than `size_partitions` calls were made |
| SubtractorOutputs.SubtractorOutput.constructor | subtractor_output.h:4-13 | zero powers; the arrays, left indeterminate by the source, start at zero |
| SubtractorOutputs.SubtractorOutput.ComputeMetrics | subtractor_output.h:16-20 | `y2` is the capture's sum of squares and `e2` the error's, both non-negative; nothing else changes |
| SubtractorOutputs.Energy | subtractor_output.h:17-19 | the accumulation is the sum of squares and is never negative |
| SubtractorOutputAnalysis.ConvergenceThresholdValue | subtractor_output_analyzer.h:23 | the threshold is 50² · 64 |
| SubtractorOutputAnalysis.SubtractorOutputAnalyzer.constructor | subtractor_output_analyzer.h:29 | not converged |
| SubtractorOutputAnalysis.SubtractorOutputAnalyzer.Update | subtractor_output_analyzer.h:18-27 | converged exactly when `e2 < 0.5·y2` and `y2` exceeds the threshold; the flag reported is the flag stored |
| SubtractorOutputAnalysis.SubtractorOutputAnalyzer.HandleEchoPathChange | subtractor_output_analyzer.h:30 | not converged |
| Subtractors.EchoEstimate | subtractor.h:14-22 | the echo estimate is the second half of the inverse transform scaled by 1/64 |
| Subtractors.PredictionError | subtractor.h:9-24 | the error is the capture minus the echo estimate; the estimate is returned exactly when asked for, and then error plus estimate gives back the capture |
| Subtractors.Subtractor.constructor | subtractor.h:30-39 | a cleared 13-partition filter and an all-zero frequency response |
| Subtractors.Subtractor.HandleEchoPathChange | subtractor.cc:44-56 | on a delay change the filter is cleared and the gain's counters and error estimates reset; otherwise nothing changes |
| Subtractors.Subtractor.Process | subtractor.cc:60-106 | the output holds the echo estimate of the old filter, an error that with it sums to the capture, their powers and the error spectrum; the gain is `Gain` on the render spectral sum over 13 blocks with the ERL of the old frequency response; the error estimate per bin becomes `NextHError` of the old one with the leakage the error-to-capture energy ratio selects, both gain counters advance by one, the filter is adapted with the gain and constrained in turn, and the frequency response becomes the power spectra of the new partitions |
| Subtractors.Subtractor.Predict | subtractor.cc:77-91 | the prediction half of `Process`: estimate, error, powers and spectrum from the current filter |
| Subtractors.Subtractor.Learn | subtractor.cc:93-100 | the adaptation half of `Process`: the gain against the old error estimate, the new error estimate per bin, both gain counters advanced by one, the filter update, round-robin constraint and new frequency response |
| AecStates.Thresholds | aec_state.h:73-76 | the ERLE start-up phase is 2 s of blocks, the activity thresholds are 0.4 s and 0.2 s of blocks, and the render-activity energy threshold is 100² · 64 |
| AecStates.FilteringQualityAnalyzer.constructor | aec_state.h:85-88 | not usable, both counters 0, no convergence seen |
| AecStates.FilteringQualityAnalyzer.LinearFilterUsable | aec_state.h:72-81 | a usable verdict implies more than 100 active blocks since start, more than 50 since reset and a convergence seen |
| AecStates.FilteringQualityAnalyzer.Reset | aec_state.h:61-64 | the verdict and the since-reset counter are cleared; the since-start counter and the convergence flag are kept |
| AecStates.FilteringQualityAnalyzer.Update | aec_state.h:67-82 | both counters grow by one exactly on active render, convergence once seen stays seen, and the verdict is `Usable` on the new counters |
| AecStates.CounterCountsActive | aec_state.h:69 | after a run of updates the since-reset counter has grown by the number of active blocks in the run |
| AecStates.ActiveCount | aec_state.h:69 | at most one count per block |
| AecStates.NoVerdictWithinFiftyBlocks | aec_state.h:61-79 | after a reset no run of at most 50 updates makes the linear estimate usable |
| AecStates.AecState.constructor | aec_state.h:4-7 | not usable and not converged, with a 500-block ERLE start-up phase |
| AecStates.AecState.UsableLinearEstimate | aec_state.h:12 | the quality analyzer's verdict, which implies a convergence was seen |
| AecStates.AecState.Erle | aec_state.h:14-16 | the ERLE estimate, every bin within [1, 64] |
| AecStates.AecState.HandleEchoPathChange | aec_state.h:22-31 | on a delay change the ERLE returns to 1 with its counter at 0 and the quality verdict and since-reset counter are cleared; otherwise they are kept; convergence is cleared in any case and the since-start state is kept |
| AecStates.AecState.Update | aec_state.h:34-47 | convergence is judged on the subtractor output, render activity on the energy of the aligned render block against 100² · 64, the quality analysis is updated with both, the ERLE counter advances, and once past the start-up phase every ERLE bin is the clamped ratio `ErleOf` of capture to error power, before it the ERLE is kept |
| Erle.ErleOf | erle_estimator.h:37-43 | the per-bin ERLE lies within [1, 64] |
| Erle.ErleOfMonotone | erle_estimator.h:38-42 | the ERLE never decreases as the capture power grows |
| Erle.ErleOfIsRatio | erle_estimator.h:38-42 | with both powers above the floor and their ratio within [1, 64], the ERLE is exactly the ratio |
| Erle.RatioInRange | erle_estimator.h:40-42 | a ratio between 1 and 64 is left unclipped |
| Erle.ErleEstimator.constructor | erle_estimator.h:15-18 | every bin 1 and the counter 0 |
| Erle.ErleEstimator.Reset | erle_estimator.h:22-27 | every bin returns to 1; the counter returns to 0 only on a delay change |
| Erle.ErleEstimator.Update | erle_estimator.h:30-44 | the counter advances; during the start-up phase the estimate is kept, afterwards every bin becomes `ErleOf` of the two powers |
| Erle.ErleEstimator.Erle | erle_estimator.h:46 | the estimate, every bin within [1, 64] |
| ResidualEcho.NoiseGated | residual_echo_estimator.h:37-43 | a power at or above the gate power is left as is; below it, a non-negative power is lowered but stays non-negative |
| ResidualEcho.WindowMax | residual_echo_estimator.h:53-58 | the per-bin maximum over the window, never negative, and at least every spectrum in it |
| ResidualEcho.WindowAtDelayZero | residual_echo_estimator.h:24-54 | at filter delay 0, on a ring of at least three spectra, the window is the spectrum at the read cursor and the one after it |
| ResidualEcho.WindowEmptyForTinyRing | residual_echo_estimator.h:31-54 | on a ring of one or two spectra the stop slot equals the start slot, so the loop visits nothing |
| ResidualEcho.StepsToReach | residual_echo_estimator.h:54 | walking forward from the start slot, the stop slot is reached after exactly `(stop - start) mod size` steps |
| ResidualEcho.NextFloor | residual_echo_estimator.h:94-105 | a lower render power becomes the floor and restarts the hold counter; otherwise the counter counts up to 50, the floor being raised only once it has |
| ResidualEcho.FloorHeld | residual_echo_estimator.h:98-104 | for up to 50 blocks at or above the floor after it was set, the floor is held and the counter counts those blocks |
| ResidualEcho.LinearResidualBounded | residual_echo_estimator.h:66-69 | dividing a non-negative power by an ERLE of at least 1 gives a power between 0 and the original |
| ResidualEcho.ResidualEchoEstimator.constructor | residual_echo_estimator.h:86-89 | every hold counter at 50 and every floor at the minimum floor power |
| ResidualEcho.ResidualEchoEstimator.Reset | residual_echo_estimator.h:86-89 | every hold counter at 50 and every floor at the minimum floor power |
| ResidualEcho.ResidualEchoEstimator.UpdateRenderNoisePower | residual_echo_estimator.h:92-107 | every bin's floor state moves by `NextFloor` on the current render spectrum |
| ResidualEcho.ResidualEchoEstimator.Estimate | residual_echo_estimator.h:19-83 | the floors are updated; with a usable linear estimate the residual is the linear echo power over the ERLE; otherwise it is the noise-gated window maximum minus ten times the floor, clipped at 0; a non-negative linear power gives a non-negative residual |
| ResidualEcho.LinearResidual | residual_echo_estimator.h:66-69 | every bin is the linear power over the ERLE and lies between 0 and that power |
| ResidualEcho.NonlinearResidual | residual_echo_estimator.h:77-81 | every bin is the power minus ten times the floor, clipped at 0 |
| ResidualEcho.ApplyNoiseGate | residual_echo_estimator.h:37-43 | the loop applies `NoiseGated` to every bin |
| ResidualEcho.EchoGeneratingPower | residual_echo_estimator.h:45-59 | every bin is the maximum over the spectra of the window |
| ResidualEcho.WindowMaxStep | residual_echo_estimator.h:54-57 | one more spectrum in the window raises the maximum to that spectrum's value where it is larger |
| ResidualEcho.MaxInto | residual_echo_estimator.h:55-57 | every bin becomes the larger of itself and the spectrum |
| MovingAverages.SlotSumConstant | moving_average.h:24-27 | when every slot holds the same value, the slots add up to their count times that value |
| MovingAverages.SteadyInputIsFixedPoint | moving_average.h:22-36 | a steady input whose value fills the memory averages to itself |
| MovingAverages.SlotAge | moving_average.h:31-35 | the age of a slot is within the ring |
| MovingAverages.SlotAgeStep | moving_average.h:34 | after a write the written slot is the newest and every other slot is one input older |
| MovingAverages.MovingAverage.constructor | moving_average.h:12-17 | `mem_len - 1` zeroed slots of `num_elem` values, scaling `1/mem_len`, nothing seen |
| MovingAverages.MovingAverage.Average | moving_average.h:22-36 | each output value is the input plus every stored slot times `1/mem_len`; the input is stored in the slot under the cursor, which advances cyclically, so every slot holds the input of its age |
| MovingAverages.MovingAverage.Store | moving_average.h:31-35 | the input replaces the oldest slot and the cursor advances cyclically; with no slots nothing changes |
| MovingAverages.Scaled | moving_average.h:28-30 | every value multiplied by the scaling |
| MovingAverages.Accumulate | moving_average.h:23-27 | every value is the input plus the sum of the stored slots at that position |
| SuppressionGains.BlendWeight | suppression_gain.h:45-52 | the blend weight is 0 up to band 5, 1 from band 8 and between them in bands 6 and 7 |
| SuppressionGains.ThresholdsOrdered | suppression_gain.h:36-55 | in every band the suppress threshold exceeds the transparent one, which is positive, and the echo-to-masking threshold is 0.3 |
| SuppressionGains.NoAudibleEchoGain | suppression_gain.h:44-64 | the gain lies in (0, 1], and is below 1 if and only if both the echo-to-nearend ratio and the echo power exceed their transparent thresholds |
| SuppressionGains.Quotient | suppression_gain.h:60-61 | a quotient with a positive denominator is below 1 when the numerator is smaller and positive when it is |
| SuppressionGains.AudibilityWeighted | suppression_gain.h:94-104 | an echo at or above the audibility threshold is left as is; a non-negative echo below it is weighted down but stays non-negative |
| SuppressionGains.AudibilityConstants | suppression_gain.h:105-117 | the threshold is ten times the 128 floor power in every band, and the normalizer is one over the threshold minus the floor |
| SuppressionGains.MaxGainOf | suppression_gain.h:164-170 | twice the previous gain, kept within [0.00001, 1] |
| SuppressionGains.BaseMinGain | suppression_gain.h:145-151 | the minimum gain lies in (0, 1], and is 1 for echo powers up to 64 |
| SuppressionGains.MinGainOf | suppression_gain.h:141-162 | the minimum gain lies in (0, 1]; in a smoothed low band it is at least a quarter of the previous gain (capped at 1), elsewhere it is the base minimum gain |
| SuppressionGains.Combined | suppression_gain.h:124-125 | the combined gain lies between the minimum gain and 1, is at most the maximum gain when the bounds are ordered, and leaves an in-range gain unchanged |
| SuppressionGains.RiseLimitNotGuaranteed | suppression_gain.h:124-168 | the minimum gain can exceed the maximum gain, so from a previous gain of 0.00001 the gain can jump to 1, beyond the factor-2 rise |
| SuppressionGains.LimitLow | suppression_gain.h:73-75 | bins 0 and 1 both take the smaller of bins 1 and 2; the others are kept |
| SuppressionGains.LimitHigh | suppression_gain.h:76-82 | bins up to 16 are kept, bins 17 to 63 are capped at bin 16, and bin 64 copies bin 63 |
| SuppressionGains.HighBinsBelowTwoKilohertz | suppression_gain.h:77-81 | after the high limiter no bin above 16 exceeds bin 16 |
| SuppressionGains.LimitersKeepRange | suppression_gain.h:130-131 | both limiters keep gains within the interval they were in |
| SuppressionGains.MaxGains | suppression_gain.h:164-170 | every maximum gain lies within [0.00001, 1] |
| SuppressionGains.MinGains | suppression_gain.h:141-162 | every minimum gain lies in (0, 1] |
| SuppressionGains.NoAudibleEchoGains | suppression_gain.h:33-65 | for non-negative near-end powers every gain lies in (0, 1] |
| SuppressionGains.ShapedGainInUnitInterval | suppression_gain.h:123-131 | with minimum gains in (0, 1], the combined, limited gain lies in (0, 1] in every bin |
| SuppressionGains.WeightEchoForAudibility | suppression_gain.h:92-119 | the three loops apply `AudibilityWeighted` to every bin |
| SuppressionGains.SlotSumNonNegative | suppression_gain.h:89 | stored non-negative spectra sum to a non-negative value |
| SuppressionGains.Smoothed | suppression_gain.h:89 | the smoothed near end is the input plus the stored spectra, over 4 |
| SuppressionGains.SuppressionGain.constructor | suppression_gain.h:14-19 | previous gain 1 and previous near end and echo 0 in every bin, with a 4-block near-end average |
| SuppressionGains.SuppressionGain.GetMaxGain | suppression_gain.h:164-170 | the loop gives `MaxGains` of the previous gain |
| SuppressionGains.SuppressionGain.GetMinGain | suppression_gain.h:141-162 | the loops give `MinGains` of the weighted echo and the previous state |
| SuppressionGains.SuppressionGain.GainToNoAudibleEcho | suppression_gain.h:33-65 | the loop gives `NoAudibleEchoGains` |
| SuppressionGains.SuppressionGain.LowerBandGain | suppression_gain.h:68-138 | the near end is smoothed, the echo weighted, the gain combined between the maximum and minimum gains and limited; the state remembers all three, and the returned gain is the square root of the remembered one |
| SuppressionGains.SuppressionGain.Remember | suppression_gain.h:127-132 | the previous near end, echo and gain become the given ones |
| SuppressionGains.SuppressionGain.SmoothNearend | suppression_gain.h:89 | the moving average of the near end, non-negative for non-negative input |
| SuppressionGains.WeightedEchoes | suppression_gain.h:92-119 | the audibility weighting of every bin, which keeps a non-negative echo between 0 and itself |
| SuppressionGains.LowerBandGainOf | suppression_gain.h:68-132 | the remembered gain for a nearend spectrum and residual echo, from the memory of the previous block, lies in (0, 1] in every bin |
| SuppressionGains.SuppressionGain.Memory | suppression_gain.h:127-132 | what the next block's gain depends on (the smoother's spectra, the last nearend, echo and gain) holds 65-bin spectra of non-negative power |
| SuppressionGains.SuppressionGain.GetGain | suppression_gain.h:23-30 | the new remembered gain is `LowerBandGainOf` the nearend spectrum and the residual echo from the memory before the call, the remembered echo and nearend are the weighted echo and the smoothed nearend, and the result is the square root of the remembered gain in every bin; the echo spectrum argument is not read |
| SuppressionGains.CombineAndShape | suppression_gain.h:123-131 | the loop gives `ShapedGain`, within (0, 1] |
| SuppressionGains.SquareRoots | suppression_gain.h:133-137 | the square root of every non-negative gain |
| SuppressionFilters.GainScaled | suppression_filter.h:10-15 | every real part is scaled by its gain, the imaginary parts of bins 1 to 63 too, and the imaginary parts of bins 0 and 64 are zero after `Assign` |
| SuppressionFilters.UnitGainIsAssign | suppression_filter.h:10-15 | a unit gain leaves the assigned spectrum unchanged |
| SuppressionFilters.ZeroGainClears | suppression_filter.h:10-15 | a zero gain clears the spectrum |
| SuppressionFilters.Clip | suppression_filter.h:28-31 | the sample is clamped into [-32768, 32767] and left alone inside it |
| SuppressionFilters.SuppressionFilter.constructor | suppression_filter.h:3 | the previous half block is all zero |
| SuppressionFilters.SuppressionFilter.ApplyGain | suppression_filter.h:7-32 | each output sample is the clipped windowed overlap-add of the previous half and the new inverse transform, scaled by 2/128; the second half of the transform becomes the previous half |
| SuppressionFilters.ScaleBins | suppression_filter.h:10-15 | the loop gives `GainScaled` |
| SuppressionFilters.OverlapAddHalves | suppression_filter.h:21-25 | every sample is the overlap-add of the previous and the new half |
| SuppressionFilters.ClipSamples | suppression_filter.h:28-31 | every sample is clipped |
| EchoRemovers.MeanErleInRange | echo_remover.h:110-115 | the mean of ERLE values within [1, 64] lies within [1, 64] |
| EchoRemovers.LinearEchoPower | echo_remover.h:41-48 | the power of the capture spectrum minus the error spectrum, never negative |
| EchoRemovers.NoSubtractionNoLinearEcho | echo_remover.h:78-87 | when the error equals the capture the linear echo power is 0 in every bin |
| EchoRemovers.MinBins | echo_remover.h:100-103 | each bin is the smaller of the two |
| EchoRemovers.NearendSpectrum | echo_remover.h:100-104 | the nearend spectrum is non-negative and never above the capture power, and when the linear estimate is usable never above the error power either |
| EchoRemovers.EchoRemover.constructor | echo_remover.h:128-132 | both modes enabled, both kept blocks zero, metrics zero and not usable |
| EchoRemovers.EchoRemover.SetProcessingModes | echo_remover.h:17-21 | only the two mode flags change, to the given values |
| EchoRemovers.EchoRemover.ProcessCapture | echo_remover.h:27-120 | with both modes off the capture passes through and nothing is remembered; linear only gives the error, which with the echo estimate sums to the capture; nonlinear without linear treats the capture as the error; with the suppressor on (`Suppressed`), the residual echo is the estimator's (the linear echo over the ERLE when usable, else the gated render power less ten times the noise floor), the remembered gain is `LowerBandGainOf` the nearend spectrum (the error power capped by the capture power when usable, else the capture power) and that residual echo from the gain memory before the call, the output is the clipped overlap-add of the suppressed spectrum (the error's when usable, else the capture's) scaled by the square roots of that gain, and the metrics are updated |
| EchoRemovers.EchoRemover.Dispatch | echo_remover.h:62-87 | the mode dispatch after the delay-change handling, with the same outcomes as `ProcessCapture`; without the linear filter the filter is untouched |
| EchoRemovers.EchoRemover.Nonlinear | echo_remover.h:78-119 | the error is the linear stage's or the capture itself, and the suppressed result is as `Suppressed` states: the estimator's residual echo, the gain of the nearend spectrum against it from the previous gain memory, and the overlap-add output |
| EchoRemovers.EchoRemover.LinearStage | echo_remover.h:67-70 | the subtractor's error and echo estimate sum to the capture |
| EchoRemovers.EchoRemover.HandleDelayChange | echo_remover.h:57-60 | on a delay change the filter is cleared |
| EchoRemovers.EchoRemover.Suppress | echo_remover.h:89-119 | the padded transforms, the state update, the residual estimate, the gain and the filter produce `Suppressed`: the residual echo is the estimator's, the remembered gain is `LowerBandGainOf` the nearend spectrum and that residual echo, and the output applies its square roots |
| EchoRemovers.EchoRemover.ReportMetrics | echo_remover.h:109-119 | the metrics hold the error and capture powers, the mean ERLE (within [1, 64]) and the usability verdict |
| EchoRemovers.EchoRemover.Spectra | echo_remover.h:49-55 | each spectrum is the padded transform of the old and new block, and the new blocks are kept |
| EchoRemovers.EchoRemover.SpectraAndResidualEcho | echo_remover.h:90-99 | both padded spectra of the new and kept blocks, the new blocks kept, and the residual echo as the estimator gives it |
| EchoRemovers.EchoRemover.Analyse | echo_remover.h:92-99 | the reported usability is the AEC state's after its update, and the residual echo is the linear echo power over the ERLE when usable, else the gated render power of the delay window less ten times the noise floor, never negative |
| EchoRemovers.EchoRemover.ApplySuppression | echo_remover.h:97-107 | the spectrum suppressed is the error's when usable, else the capture's; the remembered gain is `LowerBandGainOf` the nearend spectrum (the error power capped by the capture power when usable, else the capture power) and the residual echo; the applied gain is its square root; the output is the clipped overlap-add |
| EchoRemovers.EchoRemover.ComputeGain | echo_remover.h:100-106 | the nearend spectrum is the error power capped by the capture power when usable, else the capture power, and the remembered gain is `LowerBandGainOf` it and the residual echo; the result is its square root in every bin |
| EchoRemovers.ErleAverage | echo_remover.h:110-115 | the loop computes the mean ERLE, within [1, 64] |
| BlockProcessors.DelayBlocks | block_processor.h:35-39 | a negative delay gives -1; otherwise the block count `d >> 6`, the whole blocks in `d` samples |
| BlockProcessors.ReportedChange | block_processor.h:22-45 | a delay change is reported exactly on an overrun or a realignment; a realignment wins over the buffer flush |
| BlockProcessors.DelayTracedDeterministic | block_processor.h:12-46 | consecutive blocks chain: the delay a block reports and the estimator it leaves for the next block are fixed by the estimator it found, whether it restarted, the down-sampled ring and the capture |
| BlockProcessors.BlockProcessor.constructor | block_processor.h:69-75 | neither side started, no render event, no delay estimate, both echo-remover modes on |
| BlockProcessors.BlockProcessor.ProcessCapture | block_processor.h:11-51 | before the first render block the capture passes through and nothing changes; afterwards capture is started, the event is consumed, the delay estimator restarts on the first capture or an overrun, the delay is `DelayTraced`: the estimation `DelayEstimated` states over the render buffer's down-sampled ring and read cursor, from the reset estimator after a restart and from the old one otherwise, and the estimator is left as `EstimatorAfter` says; the estimated delay in blocks follows the estimate in samples (a multiple of 4), the render buffer is aligned to it, a new detected delay is reported exactly when the block delay is known and differs from the buffer's delay before the alignment (-1 on the first capture, the old delay when nothing restarted), any change is reported exactly on an overrun or a new delay, and the echo remover's outcome follows its modes: with the suppressor on, the block is `Suppressed` from the linear output, the spectra and the gain memory before the call |
| BlockProcessors.BlockProcessor.TrackDelay | block_processor.h:12-46 | the start-up, overrun, underrun, estimation and alignment steps with the outcomes `ProcessCapture` states for them: the delay `DelayTraced` over the render buffer's down-sampled ring, the estimator left as `EstimatorAfter` says, and a new detected delay exactly when the block delay is known and differs from the delay before the alignment |
| BlockProcessors.BlockProcessor.Restart | block_processor.h:12-32 | capture is started and the event consumed; an overrun is reported exactly when one was pending; the estimator is in `IsResetState` with no previous lag and a zero counter after the first capture or an overrun, and its state, lag and counter are unchanged otherwise; the buffer's delay is -1 after the first capture and unchanged when nothing restarted |
| BlockProcessors.BlockProcessor.StartCapture | block_processor.h:13-17 | on the first capture the buffer is reset (delay -1) and the estimator is in `IsResetState`; otherwise the estimator and the buffer's delay are untouched |
| BlockProcessors.BlockProcessor.ResetEstimation | block_processor.h:15-16 | the render buffer has no delay and the estimator is in `IsResetState` with no previous lag and a zero counter |
| BlockProcessors.BlockProcessor.MarkCaptureStarted | block_processor.h:14 | capture is started |
| BlockProcessors.BlockProcessor.FlushOnOverrun | block_processor.h:23-27 | on a pending overrun the estimator is in `IsResetState`; the event is consumed in any case |
| BlockProcessors.BlockProcessor.ConsumeRender | block_processor.h:29-32 | on an underrun the estimator is in `IsResetState`, otherwise it and the buffer's delay are untouched; an unknown delay stays unknown |
| BlockProcessors.BlockProcessor.EstimateDelay | block_processor.h:34-39 | the estimate is `DelayEstimated` from the estimator's old state over the down-sampled render ring, so -1 or a non-negative multiple of 4 samples, the estimator is left as `EstimatorAfter` says (reset past 125 equal estimates, otherwise `Advanced` with the new lag and `NextCounter`), and the block estimate follows it |
| BlockProcessors.BlockProcessor.Align | block_processor.h:41-46 | with a non-negative estimate the buffer's delay becomes it; a realignment happens exactly when the estimate is known and differs from the old delay; the down-sampled ring is untouched, and with no estimate nothing changes |
| BlockProcessors.BlockProcessor.BufferRender | block_processor.h:54-57 | the block is written to the render ring, render is started, and the event is recorded; an overrun also drops the delay |
| BlockProcessors.BlockProcessor.SetProcessingModes | block_processor.h:60-63 | the echo remover's two mode flags become the given values |
| AudioBuffers.TruncateTowardZero | audio_buffer.h:37 | the integer part of the value, truncated toward zero as a C++ cast does |
| AudioBuffers.ToInt16 | audio_buffer.h:34-37 | the sample clamped to [-32768, 32767] and rounded to the nearest integer, ties away from zero; the extremes saturate |
| AudioBuffers.ToInt16OfInteger | audio_buffer.h:34-37 | a 16-bit integer converts back to itself |
| AudioBuffers.ToInt16Error | audio_buffer.h:34-37 | the conversion is within half a step of the clamped sample |
| AudioBuffers.ToInt16Monotone | audio_buffer.h:34-37 | the conversion never reverses the order of two samples |
| AudioBuffers.AudioBuffer.constructor | audio_buffer.h:13 | 64 zero samples |
| AudioBuffers.AudioBuffer.CopyFrom | audio_buffer.h:21-27 | every sample becomes the 16-bit input sample as a float |
| AudioBuffers.AudioBuffer.CopyTo | audio_buffer.h:30-39 | 64 samples, each the `ToInt16` conversion of the stored sample |
| AudioBuffers.CopyRoundTrip | audio_buffer.h:21-39 | copying 16-bit samples in and straight back out gives back the first 64 of them |
| EchoCancellers.Enqueue | echo_canceller3.h:50-53 | a queue within the cap of 100 stays within it, and its last block is the new one |
| EchoCancellers.EnqueueKeepsNewest | echo_canceller3.h:50-53 | the queue after one render call is the newest blocks, up to 100, in arrival order |
| EchoCancellers.EnqueueAllKeepsNewest | echo_canceller3.h:45-54 | after any run of render calls the queue is the last at most 100 blocks of the old queue followed by the new ones, in order |
| EchoCancellers.EchoCanceller3.constructor | echo_canceller3.h:19-23 | an empty queue, zero render and capture blocks, neither side of the block processor started |
| EchoCancellers.EchoCanceller3.AnalyzeRender | echo_canceller3.h:45-54 | the render block is queued by `Enqueue` |
| EchoCancellers.EchoCanceller3.ProcessCapture | echo_canceller3.h:29-42 | the queue is drained into the block processor, render counts as started once any render block arrived, and the capture buffer is replaced by the processed block; it is left as it was before render started and when both modes are off; with only the linear filter on it holds the linear output `e`, and `e` plus the filter output is the old capture in every sample; with the suppressor on it is `Suppressed` from the linear output, the spectra and the gain memory before the call |
| EchoCancellers.EchoCanceller3.ProcessCaptureBlock | echo_canceller3.h:35-41 | the capture is copied in, processed and copied back: unchanged before render started or with both modes off, the linear output `e` with only the linear filter, `Suppressed` with the suppressor |
| EchoCancellers.EchoCanceller3.WriteBack | echo_canceller3.h:39-41 | the capture block and the capture buffer both hold the processed block |
| EchoCancellers.EchoCanceller3.RunBlockProcessor | echo_canceller3.h:38 | the block processor's outcome: the block itself before render started or with both modes off, the linear output `e` (with `e` plus the filter output equal to the input) with only the linear filter, `Suppressed` with the suppressor |
| EchoCancellers.EchoCanceller3.DrainRenderQueue | echo_canceller3.h:30-34 | the queue ends empty, and the d-th queued block sits d slots past the old write cursor for each of the last 167, the ring size (`RingSlot`), so the ring holds the queue in first-in, first-out order; slots not reached keep their old blocks, the write cursor moved by the queue length, the last block is the current render block, and the echo remover is untouched |
| EchoCancellers.EchoCanceller3.BufferAll | echo_canceller3.h:30-34 | each pending block is buffered in turn: `Drained` after all of them, so the ring holds the pending blocks in order past the old write cursor and the other slots unchanged; the echo remover is untouched |
| EchoCancellers.DrainedStep | echo_canceller3.h:30-34 | writing the next pending block one slot further keeps the ring `Drained` with one more block: the newest blocks stay in order and the overwritten slot is the oldest |
| EchoCancellers.EchoCanceller3.SetProcessingModes | echo_canceller3.h:57-61 | the echo remover's two mode flags become the given values |
| CancelLive.Rd16le | cancel_live.js:14 | the unsigned little-endian 16-bit value of the two bytes: low byte first |
| CancelLive.Unsigned32 | cancel_live.js:13 | the four bytes as an unsigned little-endian 32-bit value |
| CancelLive.Rd32le | cancel_live.js:13 | the same four bytes read as a signed 32-bit value: negative exactly when the top byte is at least 0x80, and equal to the unsigned value modulo 2³² |
| CancelLive.ReadInt16LE | cancel_live.js:35 | the signed 16-bit sample whose two's-complement bits are the two bytes |
| CancelLive.Le16 | cancel_live.js:50-55 | two bytes that read back as the value |
| CancelLive.Le32 | cancel_live.js:46-57 | four bytes that read back as the value, unsigned, and signed too below 2³¹ |
| CancelLive.Int16Le | cancel_live.js:58 | two bytes that read back as the sample |
| CancelLive.WavHeader | cancel_live.js:44-57 | the header is 44 bytes |
| CancelLive.PcmBytes | cancel_live.js:58 | two bytes per sample |
| CancelLive.WavBytes | cancel_live.js:44-58 | 44 + 2n bytes |
| CancelLive.DecodeSamples | cancel_live.js:33-35 | one sample per two bytes |
| CancelLive.StepWithSize | cancel_live.js:22-29 | a `fmt ` chunk that is not PCM16 fails; a `data` chunk ends the walk with its offset just past the header and its size; any other chunk moves the cursor by 8 + size and keeps what was found |
| CancelLive.AsWrittenChunkStep | cancel_live.js:13-29 | with the size read by `rd32le`, the cursor moves by 8 plus a possibly negative size |
| CancelLive.ChunkStep | cancel_live.js:22-29 | with the size read unsigned the cursor moves forward by at least 8, and a found `data` size is never negative |
| CancelLive.Walk | cancel_live.js:21-30 | the loop ends with no `data` chunk only when no further chunk header fits; a `data` chunk found lies inside the file after its header |
| CancelLive.Finish | cancel_live.js:31-35 | success needs a `data` chunk with a non-zero size, a rate of 16000 and one channel, and gives floor(size/2) samples decoded from the chunk |
| CancelLive.ReadWav | cancel_live.js:16-37 | fewer than 44 bytes fail as too small; success needs `RIFF` at 0 and `WAVE` at 8 |
| CancelLive.ReadWavPcm16Mono16k | cancel_live.js:16-37 | the imperative reader gives `ReadWav` |
| CancelLive.ScanChunks | cancel_live.js:20-30 | the loop mutating `pos` gives `Walk` |
| CancelLive.ReadSamples | cancel_live.js:31-35 | the checks and the decoding loop give `Finish` |
| CancelLive.HeaderFields | cancel_live.js:45-57 | the writer's header carries `RIFF`/`WAVE`, a 16-byte PCM `fmt ` chunk with one channel at 16000 Hz and 16 bits, and a `data` chunk of 2n bytes |
| CancelLive.RiffTags | cancel_live.js:45-47 | the header starts with `RIFF` and has `WAVE` at 8 |
| CancelLive.FormatFields | cancel_live.js:48-55 | the `fmt ` chunk fields as written |
| CancelLive.DataFields | cancel_live.js:56-57 | the `data` tag and the payload size 2n |
| CancelLive.WalkOverWrittenFile | cancel_live.js:21-58 | on the writer's output the walk reads `fmt ` and stops at `data` at offset 44 with size 2n |
| CancelLive.ReadWriteRoundTrip | cancel_live.js:16-60 | reading what the writer produced from a non-empty recording gives back exactly the samples |
| CancelLive.DecodeWrittenSamples | cancel_live.js:35-58 | decoding the writer's payload gives back every sample |
| CancelLive.PcmBytesAt | cancel_live.js:58 | sample `i` sits at payload bytes `2i` and `2i + 1` |
| CancelLive.ReadWrittenFile | cancel_live.js:16-58 | reading the writer's output comes down to the checks on the `data` chunk it finds |
| CancelLive.EmptyFileHasNoData | cancel_live.js:31-57 | an empty recording is written with an empty `data` chunk, which the reader rejects |
| CancelLive.DataBeforeFormatRejected | cancel_live.js:26-32 | a `data` chunk before any `fmt ` chunk is rejected as not 16 kHz mono |
| CancelLive.AsWrittenWalkRepeats | cancel_live.js:13-29 | with a chunk size of 0xFFFFFFF8 read as -8, the walk comes back to the same chunk in the same state, so the loop never ends |
| CancelLive.LoopingFileRejected | cancel_live.js:21-31 | with the size read unsigned the same file is walked past and rejected for having no `data` chunk |
| CancelLive.WriteTag | cancel_live.js:45-56 | four tag bytes written at the offset, nothing after them touched |
| CancelLive.WriteUInt32LE | cancel_live.js:46-57 | the value's four little-endian bytes written at the offset |
| CancelLive.WriteUInt16LE | cancel_live.js:50-55 | the value's two little-endian bytes written at the offset |
| CancelLive.WriteInt16LE | cancel_live.js:58 | the sample's two little-endian bytes written at the offset |
| CancelLive.WriteWavPcm16Mono16k | cancel_live.js:39-60 | a fresh buffer holding exactly `WavBytes` of the samples |
| CancelLive.WriteHeader | cancel_live.js:45-57 | the first 44 bytes are the header |
| CancelLive.WriteRiffHeader | cancel_live.js:45-47 | the first 12 bytes are the header's |
| CancelLive.WriteFormatFields | cancel_live.js:48-51 | bytes 12 to 23 are the header's |
| CancelLive.WriteRateFields | cancel_live.js:52-55 | bytes 24 to 35 are the header's |
| CancelLive.WriteDataHeader | cancel_live.js:56-57 | bytes 36 to 43 are the header's |
| CancelLive.SampleQueue.constructor | cancel_live.js:123-124 | an empty queue |
| CancelLive.SampleQueue.PushArray | cancel_live.js:62 | the samples appended in order |
| CancelLive.SampleQueue.PopBlockI16 | cancel_live.js:63-68 | nothing, and no change, below 64 samples; otherwise exactly the first 64 in order, removed from the front |
| PaNode.Dropped | PANode/panode.cpp:40-48 | nothing is dropped while the samples fit; on overflow min(num, used) of the oldest are dropped |
| PaNode.DroppedMakesRoom | PANode/panode.cpp:47-53 | for up to 48000 new samples the drop makes room; it drops all `num` oldest whenever there are that many, more than needed unless the buffer was exactly full |
| PaNode.SampleBuffer.constructor | PANode/panode.cpp:34-37 | all 48000 slots zero and nothing held |
| PaNode.SampleBuffer.ShiftSamples | PANode/panode.cpp:39-46 | returns min(num, used); that many leading samples are copied out when an output is given, and the rest keep their order at the front with `used` lowered by the count |
| PaNode.SampleBuffer.DropFront | PANode/panode.cpp:43-44 | the samples after the first `count` move to the front in order |
| PaNode.SampleBuffer.CopyFront | PANode/panode.cpp:42 | the first `count` samples are copied out; the rest of the output is untouched |
| PaNode.SampleBuffer.PushSamples | PANode/panode.cpp:47-53 | after the overflow drop the new samples follow the kept ones in order, and `used` grows by their number |
| PaNode.SampleBuffer.CopyRecorded | PANode/panode.cpp:72-77 | min(maxnum, used) leading samples copied out, the buffer untouched; a negative count copies nothing |
| PaNode.Node.constructor | PANode/panode.cpp:28-38 | the rates are recorded, the callback period is capped at 1024 and both buffers are zeroed and empty |
| PaNode.Node.GetRecordedSamples | PANode/panode.cpp:72-77 | min(maxnum, used) recorded samples copied out, the record buffer untouched |
| PaNode.Node.DiscardRecordedSamples | PANode/panode.cpp:78-80 | the first min(num, used) recorded samples are removed |
| PaNode.Node.PushSamplesForPlay | PANode/panode.cpp:65-67 | the samples are appended to the play buffer after the overflow drop |
| PaNode.Node.RecordCallback | PANode/panode.cpp:103-122 | the period's input, or zeros without one, is appended to the record buffer |
| PaNode.Node.PlayCallback | PANode/panode.cpp:192-199 | silence without consuming anything when fewer than a period of samples wait; otherwise exactly one period is played, in order, and removed |
| PaNode.FillSilence | PANode/panode.cpp:195 | the period is zeroed and the rest of the output untouched |
| Echoback.Silence | echoback.cc:84 | `n` zero samples |
| Echoback.ZeroFill | echoback.cc:136-139 | a short block is padded with zeros up to the length; a full one is unchanged |
| Echoback.PopSamples | echoback.cc:64-68 | takes min(size, n) samples from the front, in order, and leaves the rest |
| Echoback.PushBlock | echoback.cc:70-72 | the block is appended in order |
| Echoback.RefBlock | echoback.cc:80-85 | 64 samples: the reference FIFO's first 64 when it holds that many, silence otherwise |
| Echoback.OutBlock | echoback.cc:86-94 | 64 samples; in passthrough mode exactly the capture block |
| Echoback.Looped | echoback.cc:133-139 | the 64 samples the delay line gives out are the first 64 of the line followed by the new block |
| Echoback.RefRest | echoback.cc:81-82 | the reference FIFO loses its first 64 samples when it has them and is untouched otherwise |
| Echoback.PlayoutStep | echoback.cc:142-154 | always 64 samples are played; the jitter latch only ever clears; no sample is lost or invented: the jitter queue plus the looped block equals what was played from it plus what stays |
| Echoback.BlockStepMovesOneBlock | echoback.cc:76-155 | one block consumes 64 capture samples, plays 64, keeps the delay line's length, gives out what it takes in delayed by that length, feeds the processed block back as reference, and never re-arms the jitter latch |
| Echoback.DrainConsumesWholeBlocks | echoback.cc:74-156 | the loop stops with fewer than 64 capture samples left, having consumed and played exactly 64 per block, with the delay line's length kept and the jitter latch never re-armed |
| Echoback.PassthroughEchoesCapture | echoback.cc:86-135 | in passthrough mode the capture block itself becomes the next reference and enters the loopback delay line |
| Echoback.State.constructor | echoback.cc:259-263 | empty FIFOs, the jitter latch armed, the latency converted to samples and a delay line of that many zero samples |
| Echoback.State.ProcessAvailableBlocks | echoback.cc:74-156 | the FIFOs end as `Drain` of the old ones |
| Echoback.State.ProcessBlock | echoback.cc:77-154 | the FIFOs end as one `BlockStep` of the old ones |
| Echoback.State.TakeBlocks | echoback.cc:77-85 | the first 64 capture samples are popped, and the reference block is popped or silence |
| Echoback.State.LoopBack | echoback.cc:130-139 | the processed block is appended to the reference FIFO and the delay line, and the line's first 64 samples are given out |
| Echoback.State.PlayOut | echoback.cc:142-154 | the jitter queue, its latch and the speaker FIFO end as `PlayoutStep` says |
| Echoback.MsToSamples | echoback.cc:259-260 | 16 samples per millisecond at 16 kHz |
| Echoback.SkipSpace | echoback.cc:214 | the index of the first non-space character from `i`, everything before it being space |
| Echoback.DigitsEnd | echoback.cc:214 | the end of the run of decimal digits from `i` |
| Echoback.Strtol | echoback.cc:214 | `endp` is the start, and the value 0, exactly when no digit follows the white space and optional sign; otherwise `endp` is the end of the digit run and the value is that run's decimal value, negated only after a `-` sign |
| Echoback.DigitsValueShift | echoback.cc:214 | a digit run's value does not depend on what precedes it |
| Echoback.StrtolDecimal | echoback.cc:214 | `strtol` reads back the decimal spelling of any number, with or without a minus sign, and stops at its end |
| Echoback.ParseMs | echoback.cc:214-219 | an accepted value lies in [0, 10000) |
| Echoback.ParseMsAcceptsOnlyDecimal | echoback.cc:214-215 | an accepted non-empty value has nothing but digits after the sign; the empty string is accepted as 0 |
| Echoback.Decimal | echoback.cc:214 | a non-empty run of digits |
| Echoback.DigitsOfDecimal | echoback.cc:214 | the digits of a number read back as the number |
| Echoback.DigitsRun | echoback.cc:214 | an all-digit string is read to its end |
| Echoback.DigitsValuePrefix | echoback.cc:214 | a digit run's value depends only on its own characters |
| Echoback.ParseMsDecimal | echoback.cc:209-219 | every value below 10000 written in decimal is accepted as itself |
| Echoback.TakeMs | echoback.cc:214-222 | an accepted value replaces the option; a rejected one leaves it unchanged |
| Echoback.ArgStep | echoback.cc:192-257 | each argument advances the loop by one, or by two for an option with a separate value, and leaves each millisecond option unchanged or in [0, 10000) |
| Echoback.ArgsKeepRange | echoback.cc:192-258 | options that start in range stay in range across the whole loop |
| Echoback.ParseArgs | echoback.cc:189-258 | the options are those of the argument loop from the defaults, and both millisecond values are in [0, 10000) |
| Echoback.ApplyArg | echoback.cc:193-257 | one argument applied as `ArgStep` says |

## Left out

- The FFT (`Aec3Fft::Fft`, `Ifft`, `PaddedFft`, `ZeroPaddedFft`) and its Ooura implementation are not defined in the code base. They are function parameters of the model, and only their 65-bin shape is assumed.
- The `kSqrtHanning128` table is a parameter of the model for the same reason. `window_tables.h` is not part of this model.
- `std::sqrt` and `log10` are not modelled. The square root of the suppression gain is a parameter.
- IEEE-754 single-precision rounding is not modelled: every `float` is an exact real. The properties proved are orderings, clamps, sums and index facts. The adaptation quality, convergence speed and cancellation depth are empirical and not stated.
- I/O is not modelled:
  - PortAudio stream set-up and callbacks, and `pa_callback`/`main` stream handling in `echoback.cc`;
  - the V8 bindings and the rest of `PANode/panode.cpp`, and `PANode/recplay.js`;
  - the timers, device calls, file reads and writes and main loop of `cancel_live.js`;
  - all logging to `stderr`, including the echo-back delay notice and the once-per-second ERLE report.
- `wasm/aec3_wasm.cc` is not part of this model. It is an Emscripten wrapper whose queue cap repeats `echo_canceller3.h:50-53`.
- `EchoCanceller3::ProcessBlock`, `Block::CopyFromPcm16`/`CopyToPcm16` and `EchoRemover::last_metrics()` are called but defined nowhere in the code base. In `Echoback`, the canceller that turns a capture and a reference block into an output block is therefore a function parameter `aec`. It is a pure function of the two blocks: the state that `EchoCanceller3` carries from one block to the next in `echoback.cc` is not modelled there, so the echo-back loop's output depends only on the current blocks. The `SetProcessingModes` call in `echoback.cc` `main` is left out with it.
- There is no concurrency: the render/capture interleaving is a sequence of method calls.
- `Blocks.View`: the span returned by the mutable `View()` aliases the block's storage. The model treats a block as a value, so a write through the span is a new block, not a change in place.
- `Subtractors`: `subtractor.h` and `subtractor.cc` define the same `Subtractor` members twice, and the two definitions agree. They are modelled once. Each row cites one of the two definitions.
- `Subtractors.Subtractor.Process`: the `aec_state` argument, which the source never reads, is not a parameter.
- `SubtractorOutputs.SubtractorOutput.constructor`: `s`, `e`, `E` and `E2` start at zero. The source leaves them default-initialised, and only `e2 = y2 = 0` are given values.
- `MovingAverages.MovingAverage.constructor` requires `memLength >= 1`. The source's `mem_len - 1` is a `size_t` and wraps at 0. The memory is kept as a sequence of per-slot vectors rather than one flat vector of `num_elem * (mem_len - 1)` floats.
- `AecStates.AecState`: `MinDirectPathFilterDelay()` always returns 0, so the model fixes the filter delay at 0 and the residual estimator's window is always spectrum-read offsets 0 and 1.
- `SuppressionGains.NoAudibleEchoGain` requires `nearend != -1`, where the source divides by `nearend + 1`. It is only called on power spectra, which are non-negative.
- `SuppressionGains.SuppressionGain.LowerBandGain` and the other gain methods require non-negative power spectra, which is what the echo remover passes them.
- `RenderBuffers.RenderBuffer.GetBlock` and `RenderBuffers.RenderBuffer.Spectrum` require `size + read + offset >= 0`. Below that the source's C++ `%` gives a negative index, which is out of bounds.
- `EchoCancellers.EchoCanceller3.ProcessCapture`: the capture `AudioBuffer` is required not to be one of the canceller's own objects.
- `EchoCancellers.EchoCanceller3.DrainRenderQueue`: the queue is taken out whole and emptied, and its blocks are then buffered oldest first. The source pops them one at a time. The same blocks reach `BufferRender` in the same order.
- `PaNode.SampleBuffer.PushSamples` requires at most 48000 new samples. Above that the source writes past the end of its buffer.
- `PaNode.SampleBuffer.ShiftSamples` requires `num >= 0`, as its callers guarantee.
- `CancelLive.WriteWavPcm16Mono16k` requires the RIFF size `36 + 2n` to fit in 32 bits. Above that `writeUInt32LE` throws.
- `DelayEstimation.EchoPathDelayEstimator.constructor` builds its aggregator with the corrected thresholds 5 and 20 (`LagAggregation.IntendedThresholds`), so the composed pipeline (`BlockProcessor`, `EchoCanceller3`) runs the intended behaviour. The code as written passes 0 and 0 (`LagAggregation.AsWrittenThresholds`, see Findings), and the pipeline with those thresholds is not modelled end to end; `LagAggregation.MatchedFilterLagAggregator` takes its thresholds as a parameter, and its contracts hold for both.
- `CancelLive.ChunkStep` reads the chunk size unsigned, as RIFF defines it (the corrected half of the second finding). The source's signed `rd32le` can move the cursor backwards; that step is `CancelLive.AsWrittenChunkStep`, and its non-terminating walk is `CancelLive.AsWrittenWalkRepeats`.
- `CancelLive.Walk`, `CancelLive.ScanChunks`: built on the unsigned `ChunkStep`, so they always terminate. On a file with a chunk size of 2^31 or more the source instead loops or lands on a different chunk; that behaviour is not part of these members.
- `CancelLive.ReadWav`, `CancelLive.ReadWavPcm16Mono16k`: the same unsigned chunk walk. Their result on files whose chunk sizes are 2^31 or more differs from the source's, which may not return at all.
- `Echoback.Strtol`: values beyond the range of `long` are not clamped to `LONG_MAX`/`LONG_MIN`. Such values are rejected by the range check either way.

## Findings

| source | as written | input that shows it | evidently intended | confidence | as-written member | corrected member |
|---|---|---|---|---|---|---|
| matched_filter_lag_aggregator.h:11,74 | the constructor's `thresholds_()` value-initialises both thresholds to 0, overriding the `{5, 20}` default member initialiser, so any histogram count above 0 is reported | a first lag estimate of 9 or more: it is voted into bin `lag - 8`, which then holds 1, and `Aggregate` reports it at once (a first estimate of 8 or less goes to bin 0, whose count nets to 0, and is not reported) | a lag is reported only after more than 5 votes, or more than 20 once convergence has been seen | not executed | LagAggregation.AsWrittenReportsFirstLag | LagAggregation.IntendedNeedsSixVotes |
| cancel_live.js:13,22,29 | the chunk size is read with the signed `rd32le`, so a size of 2^31 or more moves the cursor backwards | a 44-byte WAVE file whose first chunk has size 0xFFFFFFF8: the size reads as -8, `pos` returns to the same chunk, and the loop never ends | chunk sizes are unsigned 32-bit values as RIFF defines them, so the cursor always advances | not executed | CancelLive.AsWrittenWalkRepeats | CancelLive.LoopingFileRejected |


=== FILE: adaptive_fir_filter.dfy ===
/**
 * The partitioned frequency-domain adaptive filter: partition `p` of the filter
 * multiplies the render spectrum `p` slots after the read position of the FFT
 * ring; adaptation adds the conjugate render spectrum times the gain; one
 * partition per adaptation is constrained back to a causal 64-tap response.
 */
module AdaptiveFir {
  import RingIndex
  import opened Aec3Common
  import opened Numerics
  import opened Fft
  import opened RingBuffers
  import opened RenderBuffers

  /** Real part of bin `k` of the complex product `x h`. */
  function MulRe(x: Fft65, h: Fft65, k: int): real
    requires 0 <= k < 65
  {
    x.re[k] * h.re[k] - x.im[k] * h.im[k]
  }

  /** Imaginary part of bin `k` of the complex product `x h`. */
  function MulIm(x: Fft65, h: Fft65, k: int): real
    requires 0 <= k < 65
  {
    x.re[k] * h.im[k] + x.im[k] * h.re[k]
  }

  /** The render spectrum partition `p` is multiplied with: `p` slots after `pos`, wrapping. */
  function RenderAt(X: seq<Fft65>, pos: int, p: int): Fft65
    requires |X| > 0
  {
    X[(pos + p) % |X|]
  }

  /** Real part of bin `k` of the filter output using the first `n` partitions. */
  function OutputRe(X: seq<Fft65>, pos: int, H: seq<Fft65>, n: nat, k: int): real
    requires |X| > 0 && n <= |H| && 0 <= k < 65
  {
    if n == 0 then 0.0 else OutputRe(X, pos, H, n - 1, k) + MulRe(RenderAt(X, pos, n - 1), H[n - 1], k)
  }

  /** Imaginary part of bin `k` of the filter output using the first `n` partitions. */
  function OutputIm(X: seq<Fft65>, pos: int, H: seq<Fft65>, n: nat, k: int): real
    requires |X| > 0 && n <= |H| && 0 <= k < 65
  {
    if n == 0 then 0.0 else OutputIm(X, pos, H, n - 1, k) + MulIm(RenderAt(X, pos, n - 1), H[n - 1], k)
  }

  /** The filter output using the first `n` partitions, bin by bin. */
  function FilterOutput(X: seq<Fft65>, pos: int, H: seq<Fft65>, n: nat): (S: Fft65)
    requires |X| > 0 && n <= |H|
    ensures forall k :: 0 <= k < 65 ==> S.re[k] == OutputRe(X, pos, H, n, k) && S.im[k] == OutputIm(X, pos, H, n, k)
  {
    FftData(seq(65, k requires 0 <= k < 65 => OutputRe(X, pos, H, n, k)),
            seq(65, k requires 0 <= k < 65 => OutputIm(X, pos, H, n, k)))
  }

  /** Partition `c` replaced by the transform of its time-constrained impulse response. */
  function ConstrainPartition(fft: Aec3Fft, H: seq<Fft65>, c: nat): (r: seq<Fft65>)
    requires c < |H|
    ensures |r| == |H| && forall p :: 0 <= p < |H| && p != c ==> r[p] == H[p]
  {
    H[c := fft.Fft(TimeConstrained(fft.Ifft(H[c])))]
  }

  /** A filter whose first `n` partitions are all zero produces a zero output. */
  lemma {:induction false} ZeroFilterIsSilent(X: seq<Fft65>, pos: int, H: seq<Fft65>, n: nat, k: int)
    requires |X| > 0 && n <= |H| && 0 <= k < 65
    requires forall p :: 0 <= p < n ==> H[p] == Cleared()
    ensures OutputRe(X, pos, H, n, k) == 0.0 && OutputIm(X, pos, H, n, k) == 0.0
  {
    if n > 0 {
      ZeroFilterIsSilent(X, pos, H, n - 1, k);
      assert H[n - 1] == Cleared();
    }
  }

  /** One partition after adaptation: `h + conj(x) g`, bin by bin. */
  function AdaptedPartition(h: Fft65, x: Fft65, g: Fft65): (r: Fft65)
  {
    FftData(
      seq(65, k requires 0 <= k < 65 => h.re[k] + ConjProductRe(x, g, k)),
      seq(65, k requires 0 <= k < 65 => h.im[k] + ConjProductIm(x, g, k)))
  }

  /** Real part of `conj(X[k]) G[k]`. */
  function ConjProductRe(x: Fft65, g: Fft65, k: int): real
    requires 0 <= k < 65
  {
    x.re[k] * g.re[k] + x.im[k] * g.im[k]
  }

  /** Imaginary part of `conj(X[k]) G[k]`. */
  function ConjProductIm(x: Fft65, g: Fft65, k: int): real
    requires 0 <= k < 65
  {
    x.re[k] * g.im[k] - x.im[k] * g.re[k]
  }

  /** Every partition below `n` adapted against its render spectrum; the others as they were. */
  function AdaptAll(H: seq<Fft65>, X: seq<Fft65>, pos: int, G: Fft65, n: nat): (r: seq<Fft65>)
    requires |X| > 0
    ensures |r| == |H|
    ensures forall p :: n <= p < |H| ==> r[p] == H[p]
  {
    seq(|H|, p requires 0 <= p < |H| => if p < n then AdaptedPartition(H[p], RenderAt(X, pos, p), G) else H[p])
  }

  function Negated(g: Fft65): (r: Fft65)
    ensures forall k :: 0 <= k < 65 ==> r.re[k] == -g.re[k] && r.im[k] == -g.im[k]
  {
    FftData(seq(65, k requires 0 <= k < 65 => -g.re[k]), seq(65, k requires 0 <= k < 65 => -g.im[k]))
  }

  /** Adaptation is additive: a step with the negated gain undoes a step with the gain. */
  lemma AdaptWithNegatedGainUndoes(H: seq<Fft65>, X: seq<Fft65>, pos: int, G: Fft65, n: nat)
    requires |X| > 0
    ensures AdaptAll(AdaptAll(H, X, pos, G, n), X, pos, Negated(G), n) == H
  {
    var A := AdaptAll(H, X, pos, G, n);
    var B := AdaptAll(A, X, pos, Negated(G), n);
    forall p | 0 <= p < |H|
      ensures B[p] == H[p]
    {
      if p < n {
        var x := RenderAt(X, pos, p);
        forall k | 0 <= k < 65
          ensures B[p].re[k] == H[p].re[k] && B[p].im[k] == H[p].im[k]
        {
          assert x.re[k] * -G.re[k] + x.im[k] * -G.im[k] == -(x.re[k] * G.re[k] + x.im[k] * G.im[k]);
          assert x.re[k] * -G.im[k] - x.im[k] * -G.re[k] == -(x.re[k] * G.im[k] - x.im[k] * G.re[k]);
        }
        assert B[p].re == H[p].re && B[p].im == H[p].im;
      }
    }
  }

  /** The frequency response of the first `n` partitions, zero rows for the rest of `h2Count` rows. */
  function Response(H: seq<Fft65>, n: nat, h2Count: nat): (r: seq<Bins>)
    requires n <= |H| && n <= h2Count
    ensures |r| == h2Count
  {
    seq(h2Count, p requires 0 <= p < h2Count => ResponseRow(H, n, p))
  }

  function ResponseRow(H: seq<Fft65>, n: nat, p: nat): Bins
    requires n <= |H|
  {
    if p < n then PowerSpectrum(H[p]) else ZeroBins()
  }

  function ZeroBins(): (z: Bins)
    ensures forall k :: 0 <= k < 65 ==> z[k] == 0.0
  {
    Zeros(65)
  }

  /** Adapting one more partition extends the adapted prefix by one. */
  lemma AdaptAllStep(H: seq<Fft65>, X: seq<Fft65>, pos: int, G: Fft65, p: nat)
    requires |X| > 0 && p < |H|
    ensures AdaptAll(H, X, pos, G, p)[p := AdaptedPartition(H[p], RenderAt(X, pos, p), G)] == AdaptAll(H, X, pos, G, p + 1)
  {
  }

  /**
   * `ApplyFilter`: clear `S`, then accumulate the complex products of each
   * partition with its render spectrum, the render index wrapping at the end of
   * the FFT ring.
   */
  method ApplyFilter(renderBuffer: RenderBuffer, numPartitions: nat, H: seq<Fft65>) returns (S: Fft65)
    requires renderBuffer.fftBuffer.Valid() && numPartitions <= |H|
    ensures forall k :: 0 <= k < 65 ==>
      S.re[k] == OutputRe(renderBuffer.fftBuffer.buffer, renderBuffer.fftBuffer.read, H, numPartitions, k) &&
      S.im[k] == OutputIm(renderBuffer.fftBuffer.buffer, renderBuffer.fftBuffer.read, H, numPartitions, k)
  {
    var X := renderBuffer.GetFftBuffer();
    var pos := renderBuffer.Position();
    var size := |X|;
    var re := new real[65](_ => 0.0);
    var im := new real[65](_ => 0.0);
    var index := pos;
    var p := 0;
    while p < numPartitions
      invariant 0 <= p <= numPartitions
      invariant 0 <= index < size && index == (pos + p) % size
      invariant forall k :: 0 <= k < 65 ==> re[k] == OutputRe(X, pos, H, p, k) && im[k] == OutputIm(X, pos, H, p, k)
    {
      assert X[index] == RenderAt(X, pos, p);
      Accumulate(re, im, X[index], H[p]);
      RingIndex.ModAdd(pos + p, 1, size, index);
      RingIndex.ModSmall(index + 1, size);
      index := if index < size - 1 then index + 1 else 0;
      p := p + 1;
    }
    S := FftData(re[..], im[..]);
  }

  /** Add the complex product `x h` to the accumulators, bin by bin. */
  method Accumulate(re: array<real>, im: array<real>, x: Fft65, h: Fft65)
    requires re.Length == 65 && im.Length == 65 && re != im
    modifies re, im
    ensures forall k :: 0 <= k < 65 ==> re[k] == old(re[k]) + MulRe(x, h, k) && im[k] == old(im[k]) + MulIm(x, h, k)
  {
    var k := 0;
    while k < 65
      invariant 0 <= k <= 65
      invariant forall i :: 0 <= i < k ==> re[i] == old(re[i]) + MulRe(x, h, i) && im[i] == old(im[i]) + MulIm(x, h, i)
      invariant forall i :: k <= i < 65 ==> re[i] == old(re[i]) && im[i] == old(im[i])
    {
      re[k] := re[k] + MulRe(x, h, k);
      im[k] := im[k] + MulIm(x, h, k);
      k := k + 1;
    }
  }

  /** One partition's adaptation, bin by bin. */
  method AdaptPartition(h: Fft65, x: Fft65, g: Fft65) returns (r: Fft65)
    ensures r == AdaptedPartition(h, x, g)
  {
    ghost var target := AdaptedPartition(h, x, g);
    var re := h.re;
    var im := h.im;
    var k := 0;
    while k < 65
      invariant 0 <= k <= 65 && |re| == 65 && |im| == 65
      invariant forall i :: 0 <= i < k ==> re[i] == target.re[i] && im[i] == target.im[i]
      invariant forall i :: k <= i < 65 ==> re[i] == h.re[i] && im[i] == h.im[i]
    {
      re := re[k := re[k] + ConjProductRe(x, g, k)];
      im := im[k := im[k] + ConjProductIm(x, g, k)];
      k := k + 1;
    }
    assert re == target.re && im == target.im;
    r := FftData(re, im);
  }

  /**
   * `AdaptPartitions`: add `conj(X) G` to each of the first `numPartitions`
   * partitions, the render index wrapping at the end of the FFT ring.
   */
  method AdaptPartitions(renderBuffer: RenderBuffer, G: Fft65, numPartitions: nat, H: seq<Fft65>)
    returns (adapted: seq<Fft65>)
    requires renderBuffer.fftBuffer.Valid() && numPartitions <= |H|
    ensures adapted == AdaptAll(H, renderBuffer.fftBuffer.buffer, renderBuffer.fftBuffer.read, G, numPartitions)
  {
    var X := renderBuffer.GetFftBuffer();
    var pos := renderBuffer.Position();
    var size := |X|;
    adapted := H;
    var index := pos;
    var p := 0;
    while p < numPartitions
      invariant 0 <= p <= numPartitions
      invariant 0 <= index < size && index == (pos + p) % size
      invariant adapted == AdaptAll(H, X, pos, G, p)
    {
      assert X[index] == RenderAt(X, pos, p) && adapted[p] == H[p];
      var hp := AdaptPartition(adapted[p], X[index], G);
      AdaptAllStep(H, X, pos, G, p);
      adapted := adapted[p := hp];
      RingIndex.ModAdd(pos + p, 1, size, index);
      RingIndex.ModSmall(index + 1, size);
      index := if index < size - 1 then index + 1 else 0;
      p := p + 1;
    }
  }

  /**
   * `ComputeFrequencyResponse`: clear every row of `H2`, then store in row `p`
   * the larger of 0 and the power of partition `p`, for `p < numPartitions`.
   */
  method ComputeFrequencyResponse(numPartitions: nat, H: seq<Fft65>, h2Count: nat) returns (H2: seq<Bins>)
    requires numPartitions <= |H| && numPartitions <= h2Count
    ensures H2 == Response(H, numPartitions, h2Count)
    ensures forall p, j :: 0 <= p < h2Count && 0 <= j < 65 ==> H2[p][j] >= 0.0
  {
    H2 := seq(h2Count, _ => ZeroBins());
    var p := 0;
    while p < numPartitions
      invariant 0 <= p <= numPartitions && |H2| == h2Count
      invariant forall q :: 0 <= q < h2Count ==> H2[q] == if q < p then PowerSpectrum(H[q]) else ZeroBins()
    {
      var row := new real[65](_ => 0.0);
      var j := 0;
      while j < 65
        modifies row
        invariant 0 <= j <= 65
        invariant forall i :: 0 <= i < j ==> row[i] == PowerSpectrum(H[p])[i]
        invariant forall i :: j <= i < 65 ==> row[i] == 0.0
      {
        var tmp := H[p].re[j] * H[p].re[j] + H[p].im[j] * H[p].im[j];
        row[j] := Max(row[j], tmp);
        j := j + 1;
      }
      H2 := H2[p := row[..]];
      p := p + 1;
    }
    assert H2 == Response(H, numPartitions, h2Count);
  }

  /** `ComputeErl`: the echo return loss, bin `j` summed over every row of `H2`. */
  method ComputeErl(H2: seq<Bins>) returns (erl: Bins)
    ensures forall j :: 0 <= j < 65 ==> erl[j] == ColumnSum(H2, j)
  {
    var a := new real[65](_ => 0.0);
    var p := 0;
    while p < |H2|
      invariant 0 <= p <= |H2|
      invariant forall j :: 0 <= j < 65 ==> a[j] == ColumnSum(H2[..p], j)
    {
      assert H2[..p + 1] == H2[..p] + [H2[p]];
      var j := 0;
      while j < 65
        invariant 0 <= j <= 65
        invariant forall i :: 0 <= i < j ==> a[i] == ColumnSum(H2[..p + 1], i)
        invariant forall i :: j <= i < 65 ==> a[i] == ColumnSum(H2[..p], i)
      {
        ColumnSumAppend(H2[..p], H2[p], j);
        a[j] := a[j] + H2[p][j];
        j := j + 1;
      }
      p := p + 1;
    }
    assert H2[..|H2|] == H2;
    erl := a[..];
  }

  /** The echo return loss of a frequency response is never negative. */
  lemma ErlNonNegative(H: seq<Fft65>, n: nat, h2Count: nat, j: int)
    requires n <= |H| && n <= h2Count && 0 <= j < 65
    ensures ColumnSum(Response(H, n, h2Count), j) >= 0.0
  {
    ColumnSumNonNegative(Response(H, n, h2Count), j);
  }

  /** The time-domain constraint: keep the first 64 samples scaled by 1/64, zero the rest. */
  function TimeConstrained(h: Packed): (c: Packed)
    ensures forall i :: 0 <= i < 64 ==> c[i] == h[i] / 64.0
    ensures forall i :: 64 <= i < 128 ==> c[i] == 0.0
  {
    seq(128, i requires 0 <= i < 128 => if i < 64 then h[i] * (1.0 / 64.0) else 0.0)
  }

  /** The cursor after `m` constraints starting at `c`, for a filter of `size` partitions. */
  function CursorAfter(c: nat, m: nat, size: nat): (r: nat)
    requires c < size
    ensures r < size
  {
    if m == 0 then c else RingIndex.IncIndex(CursorAfter(c, m - 1, size), size)
  }

  /** The round-robin cursor after `m` steps is `c + m` modulo the partition count. */
  lemma {:induction false} CursorAfterIsModular(c: nat, m: nat, size: nat)
    requires c < size
    ensures CursorAfter(c, m, size) == (c + m) % size
  {
    if m > 0 {
      CursorAfterIsModular(c, m - 1, size);
      RingIndex.ModAdd(c + m - 1, 1, size, CursorAfter(c, m - 1, size));
    }
  }

  /** Within `size` consecutive constraints, every partition is constrained. */
  lemma RoundRobinVisitsAll(c: nat, q: nat, size: nat)
    requires c < size && q < size
    ensures exists m :: 0 <= m < size && CursorAfter(c, m, size) == q
  {
    var m := if q >= c then q - c else q - c + size;
    CursorAfterIsModular(c, m, size);
    RingIndex.ModSmall(c + m, size);
    assert CursorAfter(c, m, size) == q;
  }

  class AdaptiveFirFilter {
    const fft: Aec3Fft
    const sizePartitions: nat
    var H: seq<Fft65>
    var partitionToConstrain: nat

    ghost predicate Valid()
      reads this
    {
      sizePartitions > 0 && |H| == sizePartitions && partitionToConstrain < sizePartitions
    }

    /** Every partition cleared; constraining starts at partition 0. */
    constructor (fft: Aec3Fft, sizePartitions: nat)
      requires sizePartitions > 0
      ensures Valid() && this.fft == fft && this.sizePartitions == sizePartitions
      ensures forall p :: 0 <= p < sizePartitions ==> H[p] == Cleared()
      ensures partitionToConstrain == 0
    {
      this.fft := fft;
      this.sizePartitions := sizePartitions;
      H := seq(sizePartitions, _ => Cleared());
      partitionToConstrain := 0;
    }

    /** `Filter`: the output of all partitions; the filter is not changed. */
    method Filter(renderBuffer: RenderBuffer) returns (S: Fft65)
      requires Valid() && renderBuffer.fftBuffer.Valid()
      ensures S == FilterOutput(renderBuffer.fftBuffer.buffer, renderBuffer.fftBuffer.read, H, sizePartitions)
    {
      S := ApplyFilter(renderBuffer, sizePartitions, H);
      ghost var T := FilterOutput(renderBuffer.fftBuffer.buffer, renderBuffer.fftBuffer.read, H, sizePartitions);
      assert S.re == T.re && S.im == T.im;
    }

    /** `Adapt`: adapt every partition with `G`, then constrain the next partition in turn. */
    method Adapt(renderBuffer: RenderBuffer, G: Fft65)
      requires Valid() && renderBuffer.fftBuffer.Valid()
      modifies this
      ensures Valid()
      ensures H == ConstrainPartition(fft, AdaptAll(old(H), renderBuffer.fftBuffer.buffer, renderBuffer.fftBuffer.read, G, sizePartitions),
                                      old(partitionToConstrain))
      ensures partitionToConstrain == (old(partitionToConstrain) + 1) % sizePartitions
    {
      H := AdaptPartitions(renderBuffer, G, sizePartitions, H);
      Constrain();
    }

    /** `HandleEchoPathChange`: clear every partition; the constraint cursor stays. */
    method HandleEchoPathChange()
      requires Valid()
      modifies this
      ensures Valid() && partitionToConstrain == old(partitionToConstrain)
      ensures forall p :: 0 <= p < sizePartitions ==> H[p] == Cleared()
    {
      var p := 0;
      while p < |H|
        invariant 0 <= p <= |H| == sizePartitions && partitionToConstrain == old(partitionToConstrain)
        invariant forall q :: 0 <= q < p ==> H[q] == Cleared()
      {
        H := H[p := Cleared()];
        p := p + 1;
      }
    }

    function SizePartitions(): (n: nat)
      reads this
      requires Valid()
      ensures n == |H| && n > 0
    {
      sizePartitions
    }

    /** `ComputeFrequencyResponse`: one power-spectrum row per partition. */
    method FrequencyResponse() returns (H2: seq<Bins>)
      requires Valid()
      ensures |H2| == sizePartitions
      ensures forall p :: 0 <= p < sizePartitions ==> H2[p] == PowerSpectrum(H[p])
      ensures forall p, j :: 0 <= p < sizePartitions && 0 <= j < 65 ==> H2[p][j] >= 0.0
    {
      H2 := ComputeFrequencyResponse(sizePartitions, H, sizePartitions);
    }

    /**
     * `Constrain`: replace the partition under the cursor by the transform of its
     * time-constrained impulse response; advance the cursor cyclically.
     */
    method Constrain()
      requires Valid()
      modifies this
      ensures Valid()
      ensures H == ConstrainPartition(fft, old(H), old(partitionToConstrain))
      ensures partitionToConstrain == (old(partitionToConstrain) + 1) % sizePartitions
      ensures partitionToConstrain == CursorAfter(old(partitionToConstrain), 1, sizePartitions)
    {
      var c := partitionToConstrain;
      var h := fft.Ifft(H[c]);
      var a := new real[128](i requires 0 <= i < 128 => h[i]);
      var i := 0;
      while i < 64
        modifies a
        invariant 0 <= i <= 64
        invariant forall j :: 0 <= j < i ==> a[j] == h[j] * (1.0 / 64.0)
        invariant forall j :: i <= j < 128 ==> a[j] == h[j]
      {
        a[i] := a[i] * (1.0 / 64.0);
        i := i + 1;
      }
      while i < 128
        modifies a
        invariant 64 <= i <= 128
        invariant forall j :: 0 <= j < 64 ==> a[j] == h[j] * (1.0 / 64.0)
        invariant forall j :: 64 <= j < i ==> a[j] == 0.0
      {
        a[i] := 0.0;
        i := i + 1;
      }
      assert a[..] == TimeConstrained(h);
      H := H[c := fft.Fft(a[..])];
      partitionToConstrain := if c < sizePartitions - 1 then c + 1 else 0;
      RingIndex.ModSmall(c + 1, sizePartitions);
    }
  }
}

=== FILE: aec3_common.dfy ===
/** Frame constants of the 16 kHz single-band canceller and the buffer-size formulas. */
module Aec3Common {
  import RingIndex

  const NumBlocksPerSecond: nat := 250
  const FftLengthBy2: nat := 64
  const FftLengthBy2Plus1: nat := FftLengthBy2 + 1
  const FftLengthBy2Minus1: nat := FftLengthBy2 - 1
  const FftLength: nat := 2 * FftLengthBy2
  const FftLengthBy2Log2: nat := 6
  const BlockSize: nat := FftLengthBy2
  const BlockSizeLog2: nat := FftLengthBy2Log2
  const MatchedFilterWindowSizeSubBlocks: nat := 32
  const MatchedFilterAlignmentShiftSizeSubBlocks: nat := MatchedFilterWindowSizeSubBlocks * 3 / 4

  /** Number of sub-blocks the down-sampled render history must cover. */
  function DownSampledSubBlocks(numMatchedFilters: nat): nat
  {
    MatchedFilterAlignmentShiftSizeSubBlocks * numMatchedFilters + MatchedFilterWindowSizeSubBlocks + 1
  }

  /**
   * Length of the down-sampled render history: a whole number of sub-blocks of
   * `BlockSize / downSamplingFactor` samples each.
   */
  function GetDownSampledBufferSize(downSamplingFactor: nat, numMatchedFilters: nat): (r: nat)
    requires downSamplingFactor > 0
    ensures BlockSize / downSamplingFactor > 0 ==>
      r % (BlockSize / downSamplingFactor) == 0 &&
      r / (BlockSize / downSamplingFactor) == DownSampledSubBlocks(numMatchedFilters)
    ensures BlockSize / downSamplingFactor == 0 ==> r == 0
  {
    var subBlockSize := BlockSize / downSamplingFactor;
    var n := DownSampledSubBlocks(numMatchedFilters);
    if subBlockSize > 0 then
      RingIndex.DivModUnique(subBlockSize * n, subBlockSize, n, 0);
      subBlockSize * n
    else
      0
  }

  /**
   * Number of full-band blocks held by the render delay buffer: one per sub-block of
   * the down-sampled history, plus the filter length, plus one.
   */
  function GetRenderDelayBufferSize(downSamplingFactor: nat, numMatchedFilters: nat,
                                    filterLengthBlocks: nat): (r: nat)
    requires 0 < downSamplingFactor <= BlockSize
    ensures r == DownSampledSubBlocks(numMatchedFilters) + filterLengthBlocks + 1
  {
    GetDownSampledBufferSize(downSamplingFactor, numMatchedFilters) / (BlockSize / downSamplingFactor)
      + filterLengthBlocks + 1
  }

  /** The sizes the canceller is built with: down-sampling by 4, five matched filters, 13 partitions. */
  lemma DefaultSizes()
    ensures MatchedFilterAlignmentShiftSizeSubBlocks == 24
    ensures GetDownSampledBufferSize(4, 5) == 2448
    ensures GetRenderDelayBufferSize(4, 5, 13) == 167
  {
  }
}

=== FILE: aec_state.dfy ===
/**
 * The echo remover's view of how the linear filter is doing: the ERLE
 * estimates, the per-block convergence verdict, and whether the linear
 * estimate is usable.
 */
module AecStates {
  import opened Aec3Common
  import opened Numerics
  import opened Blocks
  import opened Fft
  import opened RingBuffers
  import opened RenderBuffers
  import opened EchoPathVariability
  import opened SubtractorOutputs
  import opened SubtractorOutputAnalysis
  import opened Erle

  /** ERLE startup phase: two seconds of blocks. */
  const StartupPhaseLengthBlocks: nat := 500
  /** `kNumBlocksPerSecond * 0.4f` and `* 0.2f`, both exact in single precision. */
  const StartupActiveBlocks: nat := 100
  const ResetActiveBlocks: nat := 50
  /** Render energy above `100 * 100 * 64` marks an active render block. */
  const ActiveRenderThreshold: real := 640000.0

  lemma Thresholds()
    ensures StartupPhaseLengthBlocks == 2 * NumBlocksPerSecond
    ensures (StartupActiveBlocks as real) == (NumBlocksPerSecond as real) * 0.4
    ensures (ResetActiveBlocks as real) == (NumBlocksPerSecond as real) * 0.2
    ensures ActiveRenderThreshold == 100.0 * 100.0 * (FftLengthBy2 as real)
  {
  }

  /** The linear estimate is usable: enough active blocks since start and since reset, and convergence seen. */
  predicate Usable(blocksSinceStart: nat, blocksSinceReset: nat, convergenceSeen: bool)
  {
    blocksSinceStart > StartupActiveBlocks && blocksSinceReset > ResetActiveBlocks && convergenceSeen
  }

  class FilteringQualityAnalyzer {
    var overallUsableLinearEstimates: bool
    var blocksSinceReset: nat
    var blocksSinceStart: nat
    var convergenceSeen: bool

    /**
     * Active blocks since the last reset never exceed those since start, and a
     * usable verdict always has its three reasons.
     */
    ghost predicate Valid()
      reads this
    {
      blocksSinceReset <= blocksSinceStart &&
      (overallUsableLinearEstimates ==> Usable(blocksSinceStart, blocksSinceReset, convergenceSeen))
    }

    constructor ()
      ensures Valid()
      ensures !overallUsableLinearEstimates && blocksSinceReset == 0 && blocksSinceStart == 0 && !convergenceSeen
    {
      overallUsableLinearEstimates := false;
      blocksSinceReset, blocksSinceStart := 0, 0;
      convergenceSeen := false;
    }

    function LinearFilterUsable(): (r: bool)
      reads this
      requires Valid()
      ensures r ==> blocksSinceStart > StartupActiveBlocks && blocksSinceReset > ResetActiveBlocks && convergenceSeen
    {
      overallUsableLinearEstimates
    }

    /** `Reset`: not usable, no active blocks since reset; the start count and the convergence memory stay. */
    method Reset()
      requires Valid()
      modifies this
      ensures Valid()
      ensures !overallUsableLinearEstimates && blocksSinceReset == 0
      ensures blocksSinceStart == old(blocksSinceStart) && convergenceSeen == old(convergenceSeen)
    {
      overallUsableLinearEstimates := false;
      blocksSinceReset := 0;
    }

    /** `Update`: count an active block in both counters, remember convergence, recompute the verdict. */
    method Update(activeRender: bool, anyFilterConverged: bool)
      requires Valid()
      modifies this
      ensures Valid()
      ensures blocksSinceReset == old(blocksSinceReset) + (if activeRender then 1 else 0)
      ensures blocksSinceStart == old(blocksSinceStart) + (if activeRender then 1 else 0)
      ensures convergenceSeen == (old(convergenceSeen) || anyFilterConverged)
      ensures overallUsableLinearEstimates == Usable(blocksSinceStart, blocksSinceReset, convergenceSeen)
    {
      var filterUpdate := activeRender;
      blocksSinceReset := blocksSinceReset + if filterUpdate then 1 else 0;
      blocksSinceStart := blocksSinceStart + if filterUpdate then 1 else 0;
      convergenceSeen := convergenceSeen || anyFilterConverged;
      var sufficientAtStartup := blocksSinceStart > StartupActiveBlocks;
      var sufficientAtReset := sufficientAtStartup && blocksSinceReset > ResetActiveBlocks;
      overallUsableLinearEstimates := sufficientAtStartup && sufficientAtReset;
      overallUsableLinearEstimates := overallUsableLinearEstimates && convergenceSeen;
    }
  }

  /** The number of active blocks in a run of updates. */
  function ActiveCount(active: seq<bool>): (n: nat)
    ensures n <= |active|
  {
    if active == [] then 0 else ActiveCount(active[..|active| - 1]) + (if active[|active| - 1] then 1 else 0)
  }

  /** The since-reset counter after a run of updates that starts from a reset. */
  function CounterAfter(counter: nat, active: seq<bool>): (c: nat)
  {
    if active == [] then counter
    else CounterAfter(counter, active[..|active| - 1]) + (if active[|active| - 1] then 1 else 0)
  }

  /**
   * After a reset, the verdict needs more than 50 active blocks: the counter
   * only grows with active blocks.
   */
  lemma {:induction false} CounterCountsActive(counter: nat, active: seq<bool>)
    ensures CounterAfter(counter, active) == counter + ActiveCount(active)
  {
    if active != [] {
      CounterCountsActive(counter, active[..|active| - 1]);
    }
  }

  /** After a reset, a run of at most 50 blocks cannot make the linear estimate usable. */
  lemma NoVerdictWithinFiftyBlocks(active: seq<bool>, blocksSinceStart: nat, convergenceSeen: bool)
    requires |active| <= ResetActiveBlocks
    ensures !Usable(blocksSinceStart, CounterAfter(0, active), convergenceSeen)
  {
    CounterCountsActive(0, active);
  }

  class AecState {
    const filterQualityState: FilteringQualityAnalyzer
    const erleEstimator: ErleEstimator
    const subtractorOutputAnalyzer: SubtractorOutputAnalyzer
    ghost const Repr: set<object>

    ghost predicate Valid()
      reads this, Repr
    {
      Repr == {this, filterQualityState, erleEstimator, subtractorOutputAnalyzer} &&
      filterQualityState.Valid() && erleEstimator.Valid() &&
      erleEstimator.startupPhaseLengthBlocks == StartupPhaseLengthBlocks
    }

    constructor ()
      ensures Valid() && fresh(Repr)
      ensures !filterQualityState.overallUsableLinearEstimates && !subtractorOutputAnalyzer.filterConverged
    {
      filterQualityState := new FilteringQualityAnalyzer();
      erleEstimator := new ErleEstimator(StartupPhaseLengthBlocks);
      subtractorOutputAnalyzer := new SubtractorOutputAnalyzer();
      Repr := {this, filterQualityState, erleEstimator, subtractorOutputAnalyzer};
    }

    /** Whether the subtractor's output can stand in for the residual echo. */
    function UsableLinearEstimate(): (r: bool)
      reads this, Repr
      requires Valid()
      ensures r == filterQualityState.overallUsableLinearEstimates
      ensures r ==> filterQualityState.convergenceSeen
    {
      filterQualityState.LinearFilterUsable()
    }

    function Erle(): (r: Bins)
      reads this, Repr
      requires Valid()
      ensures forall k :: 0 <= k < 65 ==> 1.0 <= r[k] <= MaxErle
    {
      erleEstimator.Erle()
    }

    /** The direct-path delay of the linear filter, fixed at 0 blocks. */
    function MinDirectPathFilterDelay(): int
    {
      0
    }

    /**
     * `HandleEchoPathChange`: a delay change resets the ERLE and the quality
     * analysis; the convergence flag of the output analyzer is cleared in any case.
     */
    method HandleEchoPathChange(variability: Variability)
      requires Valid()
      modifies Repr
      ensures Valid()
      ensures !subtractorOutputAnalyzer.filterConverged
      ensures DelayChanged(variability) ==>
        (forall k :: 0 <= k < 65 ==> erleEstimator.erle[k] == 1.0) && erleEstimator.blocksSinceReset == 0 &&
        !filterQualityState.overallUsableLinearEstimates && filterQualityState.blocksSinceReset == 0
      ensures !DelayChanged(variability) ==>
        erleEstimator.erle == old(erleEstimator.erle) && erleEstimator.blocksSinceReset == old(erleEstimator.blocksSinceReset) &&
        filterQualityState.overallUsableLinearEstimates == old(filterQualityState.overallUsableLinearEstimates) &&
        filterQualityState.blocksSinceReset == old(filterQualityState.blocksSinceReset)
      ensures filterQualityState.blocksSinceStart == old(filterQualityState.blocksSinceStart)
      ensures filterQualityState.convergenceSeen == old(filterQualityState.convergenceSeen)
    {
      if variability.delayChange != NoDelayChange {
        erleEstimator.Reset(true);
        filterQualityState.Reset();
      }
      subtractorOutputAnalyzer.HandleEchoPathChange();
    }

    /**
     * `Update`: judge the subtractor output, measure the aligned render block,
     * update the ERLE, and count the block in the quality analysis when the
     * render is active.
     */
    method Update(renderBuffer: RenderBuffer, E2: Bins, Y2: Bins, output: SubtractorOutput)
      requires Valid() && renderBuffer.blockBuffer.Valid()
      modifies Repr
      ensures Valid()
      ensures subtractorOutputAnalyzer.filterConverged == ConvergedNow(output.e2, output.y2)
      ensures var active := SumSquares(renderBuffer.blockBuffer.buffer[renderBuffer.blockBuffer.read]) > ActiveRenderThreshold;
        filterQualityState.blocksSinceStart == old(filterQualityState.blocksSinceStart) + (if active then 1 else 0) &&
        filterQualityState.blocksSinceReset == old(filterQualityState.blocksSinceReset) + (if active then 1 else 0)
      ensures filterQualityState.convergenceSeen == (old(filterQualityState.convergenceSeen) || ConvergedNow(output.e2, output.y2))
      ensures filterQualityState.overallUsableLinearEstimates ==
        Usable(filterQualityState.blocksSinceStart, filterQualityState.blocksSinceReset, filterQualityState.convergenceSeen)
      ensures erleEstimator.blocksSinceReset == old(erleEstimator.blocksSinceReset) + 1
      ensures erleEstimator.blocksSinceReset < erleEstimator.startupPhaseLengthBlocks ==> erleEstimator.erle == old(erleEstimator.erle)
      ensures erleEstimator.blocksSinceReset >= erleEstimator.startupPhaseLengthBlocks ==>
        forall k :: 0 <= k < 65 ==> erleEstimator.erle[k] == ErleOf(Y2[k], E2[k])
    {
      var anyFilterConverged := subtractorOutputAnalyzer.Update(output);
      var alignedRenderBlock := renderBuffer.GetBlock(0);
      assert alignedRenderBlock == renderBuffer.blockBuffer.buffer[renderBuffer.blockBuffer.read];
      var renderEnergy := Energy(alignedRenderBlock);
      var activeRender := renderEnergy > 100.0 * 100.0 * (FftLengthBy2 as real);
      erleEstimator.Update(Y2, E2);
      filterQualityState.Update(activeRender, anyFilterConverged);
    }
  }
}

=== FILE: audio_buffer.dfy ===
/**
 * The audio buffer: one block of mono samples, filled from 16-bit PCM and
 * written back as 16-bit PCM with saturation and rounding half away from zero.
 */
module AudioBuffers {
  import opened Numerics
  import opened Aec3Common
  import opened Blocks

  /** `static_cast` of a real to an integer: truncation toward zero. */
  function TruncateTowardZero(x: real): (r: int)
    ensures x >= 0.0 ==> r >= 0 && r as real <= x < r as real + 1.0
    ensures x < 0.0 ==> r <= 0 && r as real - 1.0 < x <= r as real
  {
    if x >= 0.0 then x.Floor else -((-x).Floor)
  }

  /**
   * One output sample: saturate to [-32768, 32767], add half a unit with the
   * sample's sign and truncate, which rounds to the nearest integer with ties
   * away from zero.
   */
  function ToInt16(v: real): (r: Int16)
    ensures var c := Clamp(v, -32768.0, 32767.0);
      (c >= 0.0 ==> r as real - 0.5 <= c < r as real + 0.5) &&
      (c < 0.0 ==> r as real - 0.5 < c <= r as real + 0.5)
    ensures v >= 32767.0 ==> r == 32767
    ensures v <= -32768.0 ==> r == -32768
  {
    var c := Clamp(v, -32768.0, 32767.0);
    var half := if c < 0.0 then -0.5 else 0.5;
    TruncateTowardZero(c + half)
  }

  /** Integers are written back unchanged: converting a 16-bit sample in and out is the identity. */
  lemma ToInt16OfInteger(x: Int16)
    ensures ToInt16(x as real) == x
  {
    var r := ToInt16(x as real);
    assert x as real - 0.5 <= r as real <= x as real + 0.5;
  }

  /** Rounding never moves a sample by more than half a unit from its saturated value. */
  lemma ToInt16Error(v: real)
    ensures -0.5 <= ToInt16(v) as real - Clamp(v, -32768.0, 32767.0) <= 0.5
  {
  }

  /** Rounding preserves order. */
  lemma ToInt16Monotone(u: real, v: real)
    requires u <= v
    ensures ToInt16(u) <= ToInt16(v)
  {
    var cu, cv := Clamp(u, -32768.0, 32767.0), Clamp(v, -32768.0, 32767.0);
    assert cu <= cv;
  }

  class AudioBuffer {
    var data: Block

    /** `AudioBuffer()`: one block of zeros. */
    constructor ()
      ensures data == Filled(0.0)
    {
      data := Filled(0.0);
    }

    /** `CopyFrom`: each 16-bit sample becomes the equal real sample. */
    method CopyFrom(src: seq<Int16>)
      requires |src| >= BlockSize
      modifies this`data
      ensures forall j :: 0 <= j < BlockSize ==> data[j] == src[j] as real
    {
      var j := 0;
      while j < BlockSize
        invariant 0 <= j <= BlockSize
        invariant forall i :: 0 <= i < j ==> data[i] == src[i] as real
      {
        data := data[j := src[j] as real];
        j := j + 1;
      }
    }

    /** `CopyTo`: each sample saturated and rounded to 16 bits. */
    method CopyTo() returns (dst: seq<Int16>)
      ensures |dst| == BlockSize
      ensures forall j :: 0 <= j < BlockSize ==> dst[j] == ToInt16(data[j])
    {
      dst := [];
      var j := 0;
      while j < BlockSize
        invariant 0 <= j <= BlockSize && |dst| == j
        invariant forall i :: 0 <= i < j ==> dst[i] == ToInt16(data[i])
      {
        dst := dst + [ToInt16(data[j])];
        j := j + 1;
      }
    }
  }

  /** Copying 16-bit samples in and straight back out returns the first block of them. */
  lemma CopyRoundTrip(src: seq<Int16>, data: Block, dst: seq<Int16>)
    requires |src| >= BlockSize
    requires forall j :: 0 <= j < BlockSize ==> data[j] == src[j] as real
    requires |dst| == BlockSize && forall j :: 0 <= j < BlockSize ==> dst[j] == ToInt16(data[j])
    ensures dst == src[..BlockSize]
  {
    forall j | 0 <= j < BlockSize
      ensures dst[j] == src[j]
    {
      ToInt16OfInteger(src[j]);
    }
  }
}

=== FILE: block.dfy ===
/** A block: 4 ms of single-band 16 kHz audio, 64 samples. */
module Blocks {
  import opened Aec3Common

  type Block = s: seq<real> | |s| == 64 witness seq(64, _ => 0.0)

  /** A block whose every sample is `defaultValue` (the constructor's default is 0). */
  function Filled(defaultValue: real): (b: Block)
    ensures |b| == BlockSize
    ensures forall i :: 0 <= i < |b| ==> b[i] == defaultValue
  {
    seq(64, _ => defaultValue)
  }

  /** The 64-sample view of a block: all of its data, in order. */
  function View(b: Block): (v: seq<real>)
    ensures |v| == BlockSize
    ensures forall i :: 0 <= i < BlockSize ==> v[i] == b[i]
  {
    b
  }
}

=== FILE: block_processor.dfy ===
/**
 * The block processor: the per-block state machine that ties the render delay
 * buffer, the delay estimator and the echo remover together. Capture is ignored
 * until render has started; render overruns and underruns restart the delay
 * estimation; a new delay estimate re-aligns the render buffer and is reported
 * to the echo remover as a detected delay change.
 */
module BlockProcessors {
  import opened Aec3Common
  import opened Blocks
  import opened Fft
  import opened EchoPathVariability
  import opened RenderDelay
  import opened DelayEstimation
  import opened EchoRemovers
  import opened SubtractorOutputs
  import opened LagAggregation

  /** The delay in blocks for a delay estimate in samples: `d >> 6` when known, -1 otherwise. */
  function DelayBlocks(delaySamples: int): (r: int)
    ensures delaySamples < 0 ==> r == -1
    ensures delaySamples >= 0 ==> r >= 0 && r * BlockSize <= delaySamples < (r + 1) * BlockSize
  {
    if delaySamples >= 0 then delaySamples / BlockSize else -1
  }

  /** The delay change reported for a block: a re-alignment wins over a buffer flush. */
  function ReportedChange(overrun: bool, realigned: bool): (v: Variability)
    ensures DelayChanged(v) <==> overrun || realigned
    ensures realigned ==> v.delayChange == NewDetectedDelay
    ensures v.delayChange == BufferFlush <==> overrun && !realigned
  {
    if realigned then Variability(NewDetectedDelay)
    else if overrun then Variability(BufferFlush)
    else Variability(NoDelayChange)
  }

  /**
   * How a block's delay estimate came about: the estimator it started from
   * (after any restart), the down-sampled render ring and read cursor it used,
   * what it computed, and the render buffer's delay before the alignment.
   */
  datatype DelayTrace = DelayTrace(start: Snapshot, lowRate: seq<real>, lowRead: int, est: Estimation, priorDelay: int)

  /**
   * The block's delay estimate is `delay`, computed from the estimator `before`
   * the block found, or from a reset estimator when the block restarted the
   * estimation, and the estimator is left as `after`.
   */
  ghost predicate DelayTraced(trace: DelayTrace, capture: Block, t: Thresholds, delay: int, restarted: bool,
                              before: Snapshot, after: Snapshot)
  {
    DelayEstimated(trace.start.state, trace.lowRate, trace.lowRead, capture, t, trace.est, delay) &&
    (restarted ==> IsResetState(trace.start.state) && trace.start.lastLag == -1 && trace.start.counter == 0) &&
    (!restarted ==> trace.start == before) &&
    EstimatorAfter(trace.start, t, trace.est, delay, after)
  }

  /**
   * Consecutive blocks chain: the delay a block reports and the estimator it
   * leaves for the next block are fixed by the estimator it found, whether it
   * restarted, the down-sampled render ring and the capture.
   */
  lemma DelayTracedDeterministic(tr1: DelayTrace, tr2: DelayTrace, capture: Block, t: Thresholds, restarted: bool,
                                 before: Snapshot, d1: int, after1: Snapshot, d2: int, after2: Snapshot)
    requires DelayTraced(tr1, capture, t, d1, restarted, before, after1)
    requires DelayTraced(tr2, capture, t, d2, restarted, before, after2)
    requires tr1.lowRate == tr2.lowRate && tr1.lowRead == tr2.lowRead
    ensures d1 == d2 && after1 == after2
  {
    if restarted {
      ResetStateUnique(tr1.start.state, tr2.start.state);
    }
    assert tr1.start == tr2.start;
    EstimatorAfterDeterministic(tr1.start, tr1.lowRate, tr1.lowRead, capture, t,
                                tr1.est, d1, after1, tr2.est, d2, after2);
  }

  class BlockProcessor {
    var captureProperlyStarted: bool
    var renderProperlyStarted: bool
    const renderBuffer: RenderDelayBuffer
    const delayEstimator: EchoPathDelayEstimator
    const echoRemover: EchoRemover
    var renderEvent: BufferingEvent
    var estimatedDelayBlocks: int
    ghost const Repr: set<object>

    /**
     * The three components own disjoint parts of the state; the stored render
     * event is never an underrun, and the delay in blocks is -1 or a block count.
     */
    ghost predicate Valid()
      reads this, Repr
    {
      Repr == {this} + renderBuffer.Repr + delayEstimator.Repr + echoRemover.Repr &&
      renderBuffer.Repr !! delayEstimator.Repr && renderBuffer.Repr !! echoRemover.Repr &&
      delayEstimator.Repr !! echoRemover.Repr &&
      this !in renderBuffer.Repr + delayEstimator.Repr + echoRemover.Repr &&
      renderBuffer in renderBuffer.Repr && delayEstimator in delayEstimator.Repr &&
      echoRemover in echoRemover.Repr &&
      renderBuffer.Valid() && delayEstimator.Valid() && echoRemover.Valid() &&
      renderEvent != RenderUnderrun && estimatedDelayBlocks >= -1
    }

    /** Fresh components, nothing started, no render event and no delay. */
    constructor (fft: Aec3Fft, window: Packed, sqrt: real -> real)
      ensures Valid() && fresh(Repr)
      ensures !captureProperlyStarted && !renderProperlyStarted
      ensures renderEvent == NoEvent && estimatedDelayBlocks == -1
      ensures echoRemover.enableLinearFilter && echoRemover.enableNonlinearSuppressor
    {
      var rb := new RenderDelayBuffer(fft);
      var de := new EchoPathDelayEstimator();
      var er := new EchoRemover(fft, window, sqrt);
      renderBuffer, delayEstimator, echoRemover := rb, de, er;
      captureProperlyStarted, renderProperlyStarted := false, false;
      renderEvent := NoEvent;
      estimatedDelayBlocks := -1;
      Repr := {this} + rb.Repr + de.Repr + er.Repr;
    }

    /**
     * `ProcessCapture`: nothing happens before the first render block. Otherwise
     * the first capture block resets the render buffer and the estimator, a
     * pending overrun is reported as a buffer flush and restarts the estimation,
     * an underrun restarts it too, the estimate (in samples) becomes a delay in
     * blocks, a changed delay re-aligns the render buffer and is reported as a
     * new detected delay, and the echo remover produces the output block.
     */
    method ProcessCapture(capture: Block)
      returns (block: Block, output: SubtractorOutput, variability: Variability, ghost delaySamples: int,
               ghost restarted: bool, ghost trace: DelayTrace, ghost spectrum: Fft65, ghost gain: Bins, ghost R2: Bins)
      requires Valid()
      modifies Repr
      ensures Valid()
      ensures !old(renderProperlyStarted) ==> block == capture && unchanged(Repr)
      ensures old(renderProperlyStarted) ==>
        captureProperlyStarted && renderProperlyStarted && renderEvent == NoEvent &&
        (delaySamples == -1 || (delaySamples >= 0 && delaySamples % 4 == 0))
      ensures old(renderProperlyStarted) ==>
        estimatedDelayBlocks == DelayBlocks(delaySamples) &&
        (estimatedDelayBlocks >= 0 ==> renderBuffer.delay == estimatedDelayBlocks)
      ensures old(renderProperlyStarted) ==>
        (!old(captureProperlyStarted) || old(renderEvent) == RenderOverrun ==> restarted) &&
        (restarted ==> delayEstimator.consistentEstimateCounter == 0 && delayEstimator.oldAggregatedLag == delaySamples)
      ensures old(renderProperlyStarted) ==>
        (variability.delayChange != NoDelayChange <==>
          old(renderEvent) == RenderOverrun || variability.delayChange == NewDetectedDelay)
      ensures old(renderProperlyStarted) && variability.delayChange == NewDetectedDelay ==> estimatedDelayBlocks >= 0
      ensures old(renderProperlyStarted) ==>
        (variability.delayChange == NewDetectedDelay <==> estimatedDelayBlocks >= 0 && trace.priorDelay != estimatedDelayBlocks)
      ensures old(renderProperlyStarted) ==>
        (!old(captureProperlyStarted) ==> trace.priorDelay == -1) &&
        (!restarted ==> trace.priorDelay == old(renderBuffer.delay))
      ensures old(renderProperlyStarted) ==>
        echoRemover.enableLinearFilter == old(echoRemover.enableLinearFilter) &&
        echoRemover.enableNonlinearSuppressor == old(echoRemover.enableNonlinearSuppressor)
      ensures old(renderProperlyStarted) && !echoRemover.enableLinearFilter && !echoRemover.enableNonlinearSuppressor ==>
        block == capture
      ensures old(renderProperlyStarted) && echoRemover.enableLinearFilter ==>
        forall k :: 0 <= k < BlockSize ==> output.e[k] + output.s[k] == capture[k]
      ensures old(renderProperlyStarted) && echoRemover.enableLinearFilter && !echoRemover.enableNonlinearSuppressor ==>
        block == output.e
      ensures old(renderProperlyStarted) ==>
        DelayTraced(trace, capture, delayEstimator.aggregator.thresholds, delaySamples, restarted,
                    old(delayEstimator.Snap()), delayEstimator.Snap())
      ensures old(renderProperlyStarted) ==>
        trace.lowRate == renderBuffer.lowRate.buffer && trace.lowRead == renderBuffer.lowRate.read
      ensures old(renderProperlyStarted) && echoRemover.enableNonlinearSuppressor ==>
        echoRemover.Suppressed(block, output, capture, spectrum, gain, old(echoRemover.eOld), old(echoRemover.yOld),
                               old(echoRemover.suppressionFilter.outputOld), renderBuffer.GetRenderBuffer(), R2,
                               old(echoRemover.suppressionGain.Memory()))
    {
      if !renderProperlyStarted {
        block := capture;
        delaySamples, restarted, variability := -1, false, Variability(NoDelayChange);
        trace := DelayTrace(delayEstimator.Snap(), [], 0, Estimation([], [], -1, [], 0, -1), -1);
        spectrum, gain, R2 := Cleared(), seq(65, _ => 0.0), seq(65, _ => 0.0);
        output := new SubtractorOutput();
        return;
      }
      var v;
      v, delaySamples, restarted, trace := TrackDelay(capture);
      variability := v;
      label tracked:
      var rendered := renderBuffer.GetRenderBuffer();
      block, output, spectrum, gain, R2 := echoRemover.ProcessCapture(variability, rendered, capture);
      assert unchanged@tracked(renderBuffer.Repr) && unchanged@tracked(delayEstimator.Repr);
    }

    /** Everything `ProcessCapture` does before the echo remover runs. */
    method TrackDelay(capture: Block)
      returns (variability: Variability, ghost delaySamples: int, ghost restarted: bool, ghost trace: DelayTrace)
      requires Valid() && renderProperlyStarted
      modifies this, renderBuffer.Repr, delayEstimator.Repr
      ensures Valid() && unchanged(echoRemover.Repr)
      ensures captureProperlyStarted && renderProperlyStarted && renderEvent == NoEvent
      ensures delaySamples == -1 || (delaySamples >= 0 && delaySamples % 4 == 0)
      ensures estimatedDelayBlocks == DelayBlocks(delaySamples)
      ensures estimatedDelayBlocks >= 0 ==> renderBuffer.delay == estimatedDelayBlocks
      ensures !old(captureProperlyStarted) || old(renderEvent) == RenderOverrun ==> restarted
      ensures restarted ==> delayEstimator.consistentEstimateCounter == 0 && delayEstimator.oldAggregatedLag == delaySamples
      ensures variability.delayChange != NoDelayChange <==>
        old(renderEvent) == RenderOverrun || variability.delayChange == NewDetectedDelay
      ensures variability.delayChange == NewDetectedDelay ==> estimatedDelayBlocks >= 0
      ensures variability.delayChange == NewDetectedDelay <==>
        estimatedDelayBlocks >= 0 && trace.priorDelay != estimatedDelayBlocks
      ensures !old(captureProperlyStarted) ==> trace.priorDelay == -1
      ensures !restarted ==> trace.priorDelay == old(renderBuffer.delay)
      ensures DelayTraced(trace, capture, delayEstimator.aggregator.thresholds, delaySamples, restarted,
                          old(delayEstimator.Snap()), delayEstimator.Snap())
      ensures trace.lowRate == renderBuffer.lowRate.buffer && trace.lowRead == renderBuffer.lowRate.read
    {
      var overrun;
      overrun, restarted := Restart();
      ghost var start, lowRate, lowRead := delayEstimator.Snap(), renderBuffer.lowRate.buffer, renderBuffer.lowRate.read;
      ghost var est;
      delaySamples, est := EstimateDelay(capture);
      trace := DelayTrace(start, lowRate, lowRead, est, renderBuffer.delay);
      var realigned := Align();
      variability := ReportedChange(overrun, realigned);
    }

    /**
     * The restarts that precede the delay estimate: on the first capture block,
     * after a render overrun (reported as a buffer flush) and after a render underrun.
     */
    method Restart() returns (overrun: bool, ghost restarted: bool)
      requires Valid() && renderProperlyStarted
      modifies this`captureProperlyStarted, this`renderEvent, renderBuffer.Repr, delayEstimator.Repr
      ensures Valid() && captureProperlyStarted && renderProperlyStarted && renderEvent == NoEvent
      ensures estimatedDelayBlocks == old(estimatedDelayBlocks)
      ensures overrun <==> old(renderEvent) == RenderOverrun
      ensures !old(captureProperlyStarted) || overrun ==> restarted
      ensures restarted ==> delayEstimator.oldAggregatedLag == -1 && delayEstimator.consistentEstimateCounter == 0
      ensures restarted ==> IsResetState(delayEstimator.State())
      ensures !restarted ==> delayEstimator.Snap() == old(delayEstimator.Snap())
      ensures !old(captureProperlyStarted) ==> renderBuffer.delay == -1
      ensures !restarted ==> renderBuffer.delay == old(renderBuffer.delay)
    {
      var firstCapture := StartCapture();
      overrun := FlushOnOverrun();
      var underrun := ConsumeRender();
      restarted := firstCapture || overrun || underrun;
    }

    /** The first capture block after render has started resets the render buffer and the estimator. */
    method StartCapture() returns (firstCapture: bool)
      requires Valid()
      modifies this`captureProperlyStarted, renderBuffer.Repr, delayEstimator.Repr
      ensures Valid() && captureProperlyStarted
      ensures firstCapture == !old(captureProperlyStarted)
      ensures firstCapture ==> delayEstimator.oldAggregatedLag == -1 && delayEstimator.consistentEstimateCounter == 0
      ensures firstCapture ==> IsResetState(delayEstimator.State())
      ensures !firstCapture ==> unchanged(delayEstimator.Repr) && renderBuffer.delay == old(renderBuffer.delay)
      ensures firstCapture ==> renderBuffer.delay == -1
    {
      firstCapture := !captureProperlyStarted;
      if firstCapture {
        ResetEstimation();
        MarkCaptureStarted();
      }
    }

    /** `render_buffer_.Reset()` followed by `delay_estimator_.Reset()`. */
    method ResetEstimation()
      requires Valid()
      modifies renderBuffer.Repr, delayEstimator.Repr
      ensures Valid()
      ensures renderBuffer.delay == -1
      ensures delayEstimator.oldAggregatedLag == -1 && delayEstimator.consistentEstimateCounter == 0
      ensures IsResetState(delayEstimator.State())
    {
      renderBuffer.Reset();
      delayEstimator.Reset();
      assert unchanged(echoRemover.Repr);
    }

    method MarkCaptureStarted()
      requires Valid()
      modifies this`captureProperlyStarted
      ensures Valid() && captureProperlyStarted
    {
      captureProperlyStarted := true;
    }

    /** A pending render overrun restarts the estimator; the pending event is consumed either way. */
    method FlushOnOverrun() returns (overrun: bool)
      requires Valid()
      modifies this`renderEvent, delayEstimator.Repr
      ensures Valid() && renderEvent == NoEvent
      ensures overrun <==> old(renderEvent) == RenderOverrun
      ensures overrun ==> delayEstimator.oldAggregatedLag == -1 && delayEstimator.consistentEstimateCounter == 0
      ensures overrun ==> IsResetState(delayEstimator.State())
      ensures !overrun ==> unchanged(delayEstimator.Repr)
    {
      overrun := renderEvent == RenderOverrun;
      if overrun {
        delayEstimator.Reset();
      }
      renderEvent := NoEvent;
    }

    /** Consume one render block; an underrun restarts the estimator. */
    method ConsumeRender() returns (underrun: bool)
      requires Valid()
      modifies renderBuffer.Repr, delayEstimator.Repr
      ensures Valid() && estimatedDelayBlocks == old(estimatedDelayBlocks)
      ensures underrun ==> delayEstimator.oldAggregatedLag == -1 && delayEstimator.consistentEstimateCounter == 0
      ensures underrun ==> IsResetState(delayEstimator.State())
      ensures !underrun ==> unchanged(delayEstimator.Repr) && renderBuffer.delay == old(renderBuffer.delay)
      ensures old(renderBuffer.delay) == -1 ==> renderBuffer.delay == -1
    {
      var event := renderBuffer.PrepareCaptureProcessing();
      underrun := event == RenderUnderrun;
      if underrun {
        delayEstimator.Reset();
      }
      assert unchanged(echoRemover.Repr);
      assert renderBuffer.Valid() && delayEstimator.Valid() && echoRemover.Valid();
    }

    /** Estimate the delay in samples and convert it to blocks. */
    method EstimateDelay(capture: Block) returns (delaySamples: int, ghost est: Estimation)
      requires Valid()
      modifies delayEstimator.Repr, this`estimatedDelayBlocks
      ensures Valid()
      ensures delaySamples == -1 || (delaySamples >= 0 && delaySamples % 4 == 0)
      ensures estimatedDelayBlocks == DelayBlocks(delaySamples)
      ensures old(delayEstimator.oldAggregatedLag) == -1 && old(delayEstimator.consistentEstimateCounter) == 0 ==>
        delayEstimator.consistentEstimateCounter == 0 && delayEstimator.oldAggregatedLag == delaySamples
      ensures DelayEstimated(old(delayEstimator.State()), renderBuffer.lowRate.buffer, renderBuffer.lowRate.read, capture,
                             delayEstimator.aggregator.thresholds, est, delaySamples)
      ensures EstimatorAfter(old(delayEstimator.Snap()), delayEstimator.aggregator.thresholds, est, delaySamples,
                             delayEstimator.Snap())
      ensures renderBuffer.delay == old(renderBuffer.delay)
    {
      delaySamples, est := delayEstimator.EstimateDelay(renderBuffer.lowRate, capture);
      if delaySamples >= 0 {
        estimatedDelayBlocks := delaySamples / BlockSize;
      } else {
        estimatedDelayBlocks := -1;
      }
      assert unchanged(echoRemover.Repr) && unchanged(renderBuffer.Repr);
    }

    /** A known delay that differs from the buffer's re-aligns the render buffer. */
    method Align() returns (realigned: bool)
      requires Valid()
      modifies renderBuffer.Repr
      ensures Valid()
      ensures realigned <==> estimatedDelayBlocks >= 0 && old(renderBuffer.delay) != estimatedDelayBlocks
      ensures unchanged(renderBuffer.lowRate)
      ensures estimatedDelayBlocks >= 0 ==> renderBuffer.delay == estimatedDelayBlocks
      ensures estimatedDelayBlocks < 0 ==> !realigned && unchanged(renderBuffer.Repr)
    {
      realigned := false;
      if estimatedDelayBlocks >= 0 {
        realigned := renderBuffer.AlignFromDelay(estimatedDelayBlocks);
      }
    }

    /** `BufferRender`: insert the block; the insertion's event replaces any pending one. */
    method BufferRender(block: Block) returns (ghost event: BufferingEvent)
      requires Valid()
      modifies this`renderEvent, this`renderProperlyStarted, renderBuffer.Repr
      ensures Valid() && renderProperlyStarted && renderEvent == event
      ensures event == NoEvent || event == RenderOverrun
      ensures renderBuffer.blocks.buffer == old(renderBuffer.blocks.buffer)[renderBuffer.blocks.write := block]
      ensures renderBuffer.blocks.write == (old(renderBuffer.blocks.write) + 1) % NumBlocks
      ensures event == RenderOverrun ==> renderBuffer.delay == -1
    {
      var e := renderBuffer.Insert(block);
      assert delayEstimator.Valid();
      assert echoRemover.Valid();
      renderEvent := e;
      event := e;
      renderProperlyStarted := true;
    }

    /** `SetProcessingModes`: forwarded to the echo remover. */
    method SetProcessingModes(enableLinear: bool, enableNonlinear: bool)
      requires Valid()
      modifies echoRemover`enableLinearFilter, echoRemover`enableNonlinearSuppressor
      ensures Valid()
      ensures echoRemover.enableLinearFilter == enableLinear && echoRemover.enableNonlinearSuppressor == enableNonlinear
    {
      echoRemover.SetProcessingModes(enableLinear, enableNonlinear);
    }

    /** `GetLastMetrics`: the echo remover's metrics of the last processed block. */
    function GetLastMetrics(): LastMetrics
      reads this, Repr
      requires Valid()
    {
      echoRemover.lastMetrics
    }
  }
}

=== FILE: cancel_live.dfy ===
/**
 * The byte-level parts of the live canceller script: little-endian field
 * readers, the RIFF/WAVE PCM16 reader and writer (16 kHz mono only), and the
 * 64-sample block FIFO that feeds the canceller.
 *
 * A WAVE file is a RIFF header ("RIFF", a 32-bit size, "WAVE") followed by
 * chunks, each an id, a 32-bit little-endian size and that many bytes of
 * payload; the reader needs a `fmt ` chunk describing 16-bit PCM and a `data`
 * chunk with the samples.
 */
module CancelLive {
  import opened Numerics

  type Byte = x: int | 0 <= x < 256

  const SampleRate: int := 16000
  const BlockLength: int := 64
  const HeaderSize: int := 44
  /** `fmt ` and `data` read as little-endian 32-bit ids. */
  const FmtId: int := 0x20746d66
  const DataId: int := 0x61746164
  const TwoTo16: int := 0x1_0000
  const TwoTo31: int := 0x8000_0000
  const TwoTo32: int := 0x1_0000_0000

  const Riff: seq<Byte> := [0x52, 0x49, 0x46, 0x46]
  const Wave: seq<Byte> := [0x57, 0x41, 0x56, 0x45]
  const FmtTag: seq<Byte> := [0x66, 0x6d, 0x74, 0x20]
  const DataTag: seq<Byte> := [0x64, 0x61, 0x74, 0x61]

  /**
   * A byte of the buffer; reading past either end yields 0, as an `undefined`
   * element does inside JavaScript's bitwise operators.
   */
  function ByteAt(buf: seq<Byte>, i: int): (b: Byte)
    ensures 0 <= i < |buf| ==> b == buf[i]
    ensures !(0 <= i < |buf|) ==> b == 0
  {
    if 0 <= i < |buf| then buf[i] else 0
  }

  /** `rd16le`: an unsigned little-endian 16-bit value. */
  function Rd16le(buf: seq<Byte>, off: int): (r: int)
    ensures 0 <= r < TwoTo16
    ensures r % 256 == ByteAt(buf, off) && r / 256 == ByteAt(buf, off + 1)
  {
    ByteAt(buf, off) + 256 * ByteAt(buf, off + 1)
  }

  /** The four bytes at `off` as an unsigned little-endian 32-bit value. */
  function Unsigned32(buf: seq<Byte>, off: int): (r: int)
    ensures 0 <= r < TwoTo32
  {
    ByteAt(buf, off) + 256 * ByteAt(buf, off + 1) + 65536 * ByteAt(buf, off + 2) + 16777216 * ByteAt(buf, off + 3)
  }

  /**
   * `rd32le`: the bitwise-or of the shifted bytes is a signed 32-bit integer, so
   * a top byte of 0x80 or more yields a negative value.
   */
  function Rd32le(buf: seq<Byte>, off: int): (r: int)
    ensures -TwoTo31 <= r < TwoTo31
    ensures r % TwoTo32 == Unsigned32(buf, off)
    ensures r < 0 <==> ByteAt(buf, off + 3) >= 0x80
  {
    var u := Unsigned32(buf, off);
    if u >= TwoTo31 then u - TwoTo32 else u
  }

  /** `Buffer.readInt16LE`: a signed little-endian 16-bit value. */
  function ReadInt16LE(buf: seq<Byte>, off: int): (r: Int16)
    requires 0 <= off && off + 2 <= |buf|
    ensures r % TwoTo16 == Rd16le(buf, off)
  {
    var u := buf[off] as int + 256 * buf[off + 1] as int;
    if u >= 0x8000 then u - TwoTo16 else u
  }

  /** `writeUInt16LE`. */
  function Le16(v: int): (b: seq<Byte>)
    requires 0 <= v < TwoTo16
    ensures |b| == 2 && Rd16le(b, 0) == v
  {
    [v % 256, v / 256]
  }

  /** `writeUInt32LE`. */
  function Le32(v: int): (b: seq<Byte>)
    requires 0 <= v < TwoTo32
    ensures |b| == 4 && Unsigned32(b, 0) == v
    ensures v < TwoTo31 ==> Rd32le(b, 0) == v
  {
    [v % 256, (v / 256) % 256, (v / 65536) % 256, v / 16777216]
  }

  /** `writeInt16LE`: the two's-complement bytes of a sample. */
  function Int16Le(v: Int16): (b: seq<Byte>)
    ensures |b| == 2 && ReadInt16LE(b, 0) == v
  {
    Le16(if v < 0 then v + TwoTo16 else v)
  }

  /**
   * The 44-byte header the writer emits for `n` samples: "RIFF", the RIFF size
   * 36 + 2n, "WAVE"; a 16-byte `fmt ` chunk with format 1 (PCM), one channel,
   * rate 16000, byte rate 32000, block align 2 and 16 bits per sample; and the
   * `data` chunk header with size 2n.
   */
  function WavHeader(n: nat): (h: seq<Byte>)
    requires 36 + 2 * n < TwoTo32
    ensures |h| == HeaderSize
  {
    var r, d := Le32(36 + 2 * n), Le32(2 * n);
    [0x52, 0x49, 0x46, 0x46, r[0], r[1], r[2], r[3], 0x57, 0x41, 0x56, 0x45] +
    FmtChunk +
    [0x64, 0x61, 0x74, 0x61, d[0], d[1], d[2], d[3]]
  }

  /** The whole `fmt ` chunk: PCM, mono, 16000 Hz, 32000 bytes/s, block align 2, 16 bits. */
  const FmtChunk: seq<Byte> :=
    [0x66, 0x6d, 0x74, 0x20, 16, 0, 0, 0, 1, 0, 1, 0, 0x80, 0x3e, 0, 0, 0x00, 0x7d, 0, 0, 2, 0, 16, 0]

  /** The sample payload: each sample as two little-endian bytes, in order. */
  function PcmBytes(samples: seq<Int16>): (b: seq<Byte>)
    ensures |b| == 2 * |samples|
  {
    seq(2 * |samples|, j requires 0 <= j < 2 * |samples| => Int16Le(samples[j / 2])[j % 2])
  }

  /** The whole file `writeWavPcm16Mono16k` writes. */
  function WavBytes(samples: seq<Int16>): (b: seq<Byte>)
    requires 36 + 2 * |samples| < TwoTo32
    ensures |b| == HeaderSize + 2 * |samples|
  {
    WavHeader(|samples|) + PcmBytes(samples)
  }

  /** `ns` samples decoded from `off` on. */
  function DecodeSamples(buf: seq<Byte>, off: int, ns: nat): (s: seq<Int16>)
    requires 0 <= off && off + 2 * ns <= |buf|
    ensures |s| == ns
  {
    seq(ns, i requires 0 <= i < ns => ReadInt16LE(buf, off + 2 * i))
  }

  datatype WavError = TooSmall | NotRiffWave | ExpectedPcm16 | NoDataChunk | Expected16kMono | OutOfRange

  datatype Result<T> = Success(value: T) | Failure(error: WavError)

  /** The reader's variables between chunks: the cursor, what `fmt ` said, and the `data` chunk if found. */
  datatype Scan = Scan(pos: int, sampleRate: int, channels: int, dataOff: int, dataSize: int, found: bool)

  /**
   * One pass of the chunk loop once the chunk's size is known: a `fmt ` chunk
   * must be PCM with 16 bits and sets the rate and channel count; a `data`
   * chunk ends the walk; any chunk moves the cursor past its header and payload.
   */
  function StepWithSize(buf: seq<Byte>, s: Scan, size: int): (r: Result<Scan>)
    requires !s.found
    ensures r.Success? ==> r.value.found || r.value.pos == s.pos + 8 + size
    ensures r.Success? && r.value.found ==> r.value.dataOff == s.pos + 8 && r.value.dataSize == size
    ensures r.Success? && !r.value.found ==> r.value.dataOff == s.dataOff && r.value.dataSize == s.dataSize
    ensures r.Failure? ==> r.error == ExpectedPcm16 && Rd32le(buf, s.pos) == FmtId
  {
    var id := Rd32le(buf, s.pos);
    var start := s.pos + 8;
    if id == FmtId then
      var format := Rd16le(buf, start);
      var channels := Rd16le(buf, start + 2);
      var rate := Rd32le(buf, start + 4);
      var bits := Rd16le(buf, start + 14);
      if format != 1 || bits != 16 then Failure(ExpectedPcm16)
      else Success(s.(pos := start + size, sampleRate := rate, channels := channels))
    else if id == DataId then
      Success(s.(pos := start, dataOff := start, dataSize := size, found := true))
    else
      Success(s.(pos := start + size))
  }

  /** The step as written: the chunk size comes from `rd32le`, so it can be negative. */
  function AsWrittenChunkStep(buf: seq<Byte>, s: Scan): (r: Result<Scan>)
    requires !s.found
    ensures r.Success? && !r.value.found ==> r.value.pos == s.pos + 8 + Rd32le(buf, s.pos + 4)
  {
    StepWithSize(buf, s, Rd32le(buf, s.pos + 4))
  }

  /** The step with the chunk size read unsigned, as RIFF defines it: the cursor always advances. */
  function ChunkStep(buf: seq<Byte>, s: Scan): (r: Result<Scan>)
    requires !s.found
    ensures r.Success? && !r.value.found ==> r.value.pos >= s.pos + 8
    ensures r.Success? && r.value.found ==> r.value.dataOff == s.pos + 8 && r.value.dataSize >= 0
    ensures r.Success? && !r.value.found ==> r.value.dataOff == s.dataOff && r.value.dataSize == s.dataSize
  {
    StepWithSize(buf, s, Unsigned32(buf, s.pos + 4))
  }

  /** The chunk loop: step while a whole chunk header fits, stopping at the first `data` chunk. */
  function Walk(buf: seq<Byte>, s: Scan): (r: Result<Scan>)
    requires !s.found
    ensures r.Success? && !r.value.found ==>
      r.value.pos + 8 > |buf| && r.value.dataOff == s.dataOff && r.value.dataSize == s.dataSize
    ensures r.Success? && r.value.found ==>
      0 <= r.value.dataSize && 8 <= r.value.dataOff - s.pos && r.value.dataOff <= |buf|
    decreases |buf| - s.pos
  {
    if s.pos + 8 > |buf| then Success(s)
    else
      match ChunkStep(buf, s)
      case Failure(e) => Failure(e)
      case Success(t) => if t.found then Success(t) else Walk(buf, t)
  }

  /** What the reader does after the walk: check what was found and decode the samples. */
  function Finish(buf: seq<Byte>, s: Scan): (r: Result<seq<Int16>>)
    requires 0 <= s.dataOff <= |buf| && s.dataSize >= 0
    ensures r.Success? ==> s.dataOff != 0 && s.sampleRate == SampleRate && s.channels == 1
    ensures r.Success? ==>
      s.dataOff + 2 * (s.dataSize / 2) <= |buf| && r.value == DecodeSamples(buf, s.dataOff, s.dataSize / 2)
  {
    if s.dataOff == 0 || s.dataSize == 0 then Failure(NoDataChunk)
    else if s.sampleRate != SampleRate || s.channels != 1 then Failure(Expected16kMono)
    else
      var ns := s.dataSize / 2;
      if s.dataOff + 2 * ns > |buf| then Failure(OutOfRange) else Success(DecodeSamples(buf, s.dataOff, ns))
  }

  /** The state the reader starts its walk in: just after "RIFF", the size and "WAVE". */
  const InitialScan: Scan := Scan(12, 0, 0, 0, 0, false)

  /** `readWavPcm16Mono16k` on the file's bytes, with chunk sizes read unsigned. */
  function ReadWav(buf: seq<Byte>): (r: Result<seq<Int16>>)
    ensures |buf| < HeaderSize ==> r == Failure(TooSmall)
    ensures r.Success? ==> |buf| >= HeaderSize && buf[..4] == Riff && buf[8..12] == Wave
  {
    if |buf| < HeaderSize then Failure(TooSmall)
    else if buf[..4] != Riff || buf[8..12] != Wave then Failure(NotRiffWave)
    else
      match Walk(buf, InitialScan)
      case Failure(e) => Failure(e)
      case Success(s) => Finish(buf, s)
  }

  /**
   * `readWavPcm16Mono16k`: the header checks, the chunk walk and the sample
   * decoding.
   */
  method ReadWavPcm16Mono16k(buf: seq<Byte>) returns (r: Result<seq<Int16>>)
    ensures r == ReadWav(buf)
  {
    if |buf| < HeaderSize {
      return Failure(TooSmall);
    }
    if buf[..4] != Riff || buf[8..12] != Wave {
      return Failure(NotRiffWave);
    }
    var scan := ScanChunks(buf);
    if scan.Failure? {
      return Failure(scan.error);
    }
    r := ReadSamples(buf, scan.value);
  }

  /** The chunk loop, moving `pos` past each chunk until a `data` chunk or the end of the buffer. */
  method ScanChunks(buf: seq<Byte>) returns (r: Result<Scan>)
    ensures r == Walk(buf, InitialScan)
  {
    var pos, sr, ch := 12, 0, 0;
    while pos + 8 <= |buf|
      invariant 12 <= pos
      invariant Walk(buf, Scan(pos, sr, ch, 0, 0, false)) == Walk(buf, InitialScan)
      decreases |buf| - pos
    {
      var id := Rd32le(buf, pos);
      pos := pos + 4;
      var size := Unsigned32(buf, pos);
      pos := pos + 4;
      var start := pos;
      if id == FmtId {
        var format := Rd16le(buf, start + 0);
        ch := Rd16le(buf, start + 2);
        sr := Rd32le(buf, start + 4);
        var bits := Rd16le(buf, start + 14);
        if format != 1 || bits != 16 {
          return Failure(ExpectedPcm16);
        }
      } else if id == DataId {
        return Success(Scan(start, sr, ch, start, size, true));
      }
      pos := start + size;
    }
    r := Success(Scan(pos, sr, ch, 0, 0, false));
  }

  /** The end of the reader: the found-chunk and format checks, then the decoding loop. */
  method ReadSamples(buf: seq<Byte>, s: Scan) returns (r: Result<seq<Int16>>)
    requires 0 <= s.dataOff <= |buf| && s.dataSize >= 0
    ensures r == Finish(buf, s)
  {
    var sr, ch, dataOff, dataSize := s.sampleRate, s.channels, s.dataOff, s.dataSize;
    if dataOff == 0 || dataSize == 0 {
      return Failure(NoDataChunk);
    }
    if sr != SampleRate || ch != 1 {
      return Failure(Expected16kMono);
    }
    var ns := dataSize / 2;
    var arr := new Int16[ns];
    var i := 0;
    while i < ns
      invariant 0 <= i <= ns
      invariant dataOff + 2 * i <= |buf|
      invariant forall j :: 0 <= j < i ==> arr[j] == ReadInt16LE(buf, dataOff + 2 * j)
    {
      if dataOff + i * 2 + 2 > |buf| {
        return Failure(OutOfRange);
      }
      arr[i] := ReadInt16LE(buf, dataOff + i * 2);
      i := i + 1;
    }
    assert arr[..] == DecodeSamples(buf, dataOff, ns);
    r := Success(arr[..]);
  }

  /** The header the writer emits, field by field as the reader sees it. */
  lemma HeaderFields(buf: seq<Byte>, n: nat)
    requires 36 + 2 * n < TwoTo32 && |buf| >= HeaderSize && buf[..HeaderSize] == WavHeader(n)
    ensures buf[..4] == Riff && buf[8..12] == Wave
    ensures Rd32le(buf, 12) == FmtId && Unsigned32(buf, 16) == 16
    ensures Rd16le(buf, 20) == 1 && Rd16le(buf, 22) == 1 && Rd32le(buf, 24) == SampleRate && Rd16le(buf, 34) == 16
    ensures Rd32le(buf, 36) == DataId && Unsigned32(buf, 40) == 2 * n
  {
    var h := WavHeader(n);
    assert forall i :: 0 <= i < HeaderSize ==> buf[i] == h[i];
    RiffTags(buf, n);
    FormatFields(buf, n);
    DataFields(buf, n);
  }

  /** The two tags the reader checks first. */
  lemma RiffTags(buf: seq<Byte>, n: nat)
    requires 36 + 2 * n < TwoTo32 && |buf| >= HeaderSize && forall i :: 0 <= i < HeaderSize ==> buf[i] == WavHeader(n)[i]
    ensures buf[..4] == Riff && buf[8..12] == Wave
  {
    var h := WavHeader(n);
    assert buf[..4] == h[..4] && buf[8..12] == h[8..12];
    assert h[..4] == Riff && h[8..12] == Wave;
  }

  /** The `fmt ` chunk id, size and fields. */
  lemma FormatFields(buf: seq<Byte>, n: nat)
    requires 36 + 2 * n < TwoTo32 && |buf| >= HeaderSize && forall i :: 0 <= i < HeaderSize ==> buf[i] == WavHeader(n)[i]
    ensures Rd32le(buf, 12) == FmtId && Unsigned32(buf, 16) == 16
    ensures Rd16le(buf, 20) == 1 && Rd16le(buf, 22) == 1 && Rd32le(buf, 24) == SampleRate && Rd16le(buf, 34) == 16
  {
  }

  /** The `data` chunk id and size. */
  lemma DataFields(buf: seq<Byte>, n: nat)
    requires 36 + 2 * n < TwoTo32 && |buf| >= HeaderSize && forall i :: 0 <= i < HeaderSize ==> buf[i] == WavHeader(n)[i]
    ensures Rd32le(buf, 36) == DataId && Unsigned32(buf, 40) == 2 * n
  {
    assert Unsigned32(buf, 40) == Unsigned32(Le32(2 * n), 0);
  }

  /** The chunk walk over the writer's output finds `fmt ` and then `data` with the whole payload. */
  lemma WalkOverWrittenFile(samples: seq<Int16>)
    requires 36 + 2 * |samples| < TwoTo32
    ensures Walk(WavBytes(samples), InitialScan) ==
      Success(Scan(HeaderSize, SampleRate, 1, HeaderSize, 2 * |samples|, true))
  {
    var buf := WavBytes(samples);
    assert buf[..HeaderSize] == WavHeader(|samples|);
    HeaderFields(buf, |samples|);
    var afterFmt := Scan(36, SampleRate, 1, 0, 0, false);
    assert ChunkStep(buf, InitialScan) == Success(afterFmt);
    assert ChunkStep(buf, afterFmt) == Success(Scan(HeaderSize, SampleRate, 1, HeaderSize, 2 * |samples|, true));
  }

  /** Reading the writer's bytes gives back the samples it was given, for any non-empty recording. */
  lemma ReadWriteRoundTrip(samples: seq<Int16>)
    requires 0 < |samples| && 36 + 2 * |samples| < TwoTo32
    ensures ReadWav(WavBytes(samples)) == Success(samples)
  {
    ReadWrittenFile(samples);
    assert 2 * |samples| / 2 == |samples|;
    DecodeWrittenSamples(samples);
  }

  /** Decoding the writer's payload gives back each sample. */
  lemma DecodeWrittenSamples(samples: seq<Int16>)
    requires 36 + 2 * |samples| < TwoTo32
    ensures DecodeSamples(WavBytes(samples), HeaderSize, |samples|) == samples
  {
    var buf := WavBytes(samples);
    var decoded := DecodeSamples(buf, HeaderSize, |samples|);
    forall i | 0 <= i < |samples|
      ensures decoded[i] == samples[i]
    {
      var b := Int16Le(samples[i]);
      PcmBytesAt(samples, i);
      assert buf[HeaderSize + 2 * i] == b[0] && buf[HeaderSize + 2 * i + 1] == b[1];
      assert ReadInt16LE(buf, HeaderSize + 2 * i) == ReadInt16LE(b, 0);
    }
  }

  /** Sample `i` sits at bytes `2i` and `2i + 1` of the payload. */
  lemma PcmBytesAt(samples: seq<Int16>, i: int)
    requires 0 <= i < |samples|
    ensures PcmBytes(samples)[2 * i] == Int16Le(samples[i])[0]
    ensures PcmBytes(samples)[2 * i + 1] == Int16Le(samples[i])[1]
  {
    assert (2 * i) / 2 == i && (2 * i + 1) / 2 == i && (2 * i) % 2 == 0 && (2 * i + 1) % 2 == 1;
  }

  /** The reader's checks on the writer's output come down to those on the `data` chunk it finds. */
  lemma ReadWrittenFile(samples: seq<Int16>)
    requires 36 + 2 * |samples| < TwoTo32
    ensures ReadWav(WavBytes(samples)) == Finish(WavBytes(samples), Scan(HeaderSize, SampleRate, 1, HeaderSize, 2 * |samples|, true))
  {
    var buf := WavBytes(samples);
    assert buf[..HeaderSize] == WavHeader(|samples|);
    HeaderFields(buf, |samples|);
    WalkOverWrittenFile(samples);
  }

  /** An empty recording is written with an empty `data` chunk, which the reader rejects. */
  lemma EmptyFileHasNoData()
    ensures ReadWav(WavBytes([])) == Failure(NoDataChunk)
  {
    ReadWrittenFile([]);
  }

  /**
   * A `data` chunk that comes before any `fmt ` chunk is rejected as not
   * 16 kHz mono: the rate and channel count are still zero when the walk stops.
   */
  lemma DataBeforeFormatRejected(buf: seq<Byte>)
    requires |buf| >= HeaderSize && buf[..4] == Riff && buf[8..12] == Wave
    requires Rd32le(buf, 12) == DataId && Unsigned32(buf, 16) > 0
    ensures ReadWav(buf) == Failure(Expected16kMono)
  {
    assert Walk(buf, InitialScan) == Success(Scan(20, 0, 0, 20, Unsigned32(buf, 16), true));
  }

  /** A chunk with a size of 0xFFFFFFF8: `rd32le` reads it as -8. */
  const LoopingFile: seq<Byte> :=
    Riff + [0, 0, 0, 0] + Wave + [0x4a, 0x55, 0x4e, 0x4b] + [0xf8, 0xff, 0xff, 0xff] + seq(24, _ => 0)

  /**
   * With the size read signed, the walk over `LoopingFile` comes back to the
   * same chunk with the same state, so the reader's loop never ends.
   */
  lemma AsWrittenWalkRepeats()
    ensures |LoopingFile| >= HeaderSize && LoopingFile[..4] == Riff && LoopingFile[8..12] == Wave
    ensures InitialScan.pos + 8 <= |LoopingFile|
    ensures AsWrittenChunkStep(LoopingFile, InitialScan) == Success(InitialScan)
  {
    assert Rd32le(LoopingFile, 16) == -8;
  }

  /** With the size read unsigned, the same file is walked past in one step and rejected. */
  lemma LoopingFileRejected()
    ensures ReadWav(LoopingFile) == Failure(NoDataChunk)
  {
    assert Unsigned32(LoopingFile, 16) == 0xffff_fff8;
    assert Walk(LoopingFile, InitialScan) == Success(Scan(20 + 0xffff_fff8, 0, 0, 0, 0, false));
  }

  /** The first `upTo` bytes of `a` are those of `target`. */
  ghost predicate Agrees(a: array<Byte>, target: seq<Byte>, upTo: int)
    reads a
  {
    0 <= upTo <= |target| && upTo <= a.Length && forall i :: 0 <= i < upTo ==> a[i] == target[i]
  }

  /** `buf.write` of a four-character chunk tag at `off`, extending the bytes that agree with `target`. */
  method WriteTag(out: array<Byte>, tag: seq<Byte>, off: nat, ghost target: seq<Byte>)
    requires |tag| == 4 && Agrees(out, target, off) && off + 4 <= |target| && off + 4 <= out.Length
    requires target[off] == tag[0] && target[off + 1] == tag[1] && target[off + 2] == tag[2] && target[off + 3] == tag[3]
    modifies out
    ensures Agrees(out, target, off + 4)
    ensures forall i :: off + 4 <= i < out.Length ==> out[i] == old(out[i])
  {
    out[off], out[off + 1], out[off + 2], out[off + 3] := tag[0], tag[1], tag[2], tag[3];
  }

  /** `writeUInt32LE(v, off)`. */
  method WriteUInt32LE(out: array<Byte>, v: int, off: nat, ghost target: seq<Byte>)
    requires 0 <= v < TwoTo32 && Agrees(out, target, off) && off + 4 <= |target| && off + 4 <= out.Length
    requires var b := Le32(v); target[off] == b[0] && target[off + 1] == b[1] && target[off + 2] == b[2] && target[off + 3] == b[3]
    modifies out
    ensures Agrees(out, target, off + 4)
    ensures forall i :: off + 4 <= i < out.Length ==> out[i] == old(out[i])
  {
    var b := Le32(v);
    out[off], out[off + 1], out[off + 2], out[off + 3] := b[0], b[1], b[2], b[3];
  }

  /** `writeUInt16LE(v, off)`. */
  method WriteUInt16LE(out: array<Byte>, v: int, off: nat, ghost target: seq<Byte>)
    requires 0 <= v < TwoTo16 && Agrees(out, target, off) && off + 2 <= |target| && off + 2 <= out.Length
    requires var b := Le16(v); target[off] == b[0] && target[off + 1] == b[1]
    modifies out
    ensures Agrees(out, target, off + 2)
    ensures forall i :: off + 2 <= i < out.Length ==> out[i] == old(out[i])
  {
    var b := Le16(v);
    out[off], out[off + 1] := b[0], b[1];
  }

  /** `writeInt16LE(v, off)`. */
  method WriteInt16LE(out: array<Byte>, v: Int16, off: nat, ghost target: seq<Byte>)
    requires Agrees(out, target, off) && off + 2 <= |target| && off + 2 <= out.Length
    requires var b := Int16Le(v); target[off] == b[0] && target[off + 1] == b[1]
    modifies out
    ensures Agrees(out, target, off + 2)
    ensures forall i :: off + 2 <= i < out.Length ==> out[i] == old(out[i])
  {
    var b := Int16Le(v);
    out[off], out[off + 1] := b[0], b[1];
  }

  /** `writeWavPcm16Mono16k`'s Buffer: zero-filled, the header fields at their offsets, then each sample. */
  method WriteWavPcm16Mono16k(samples: seq<Int16>) returns (out: array<Byte>)
    requires 36 + 2 * |samples| < TwoTo32
    ensures fresh(out) && out[..] == WavBytes(samples)
  {
    var n := |samples|;
    ghost var target := WavBytes(samples);
    out := new Byte[HeaderSize + 2 * n](_ => 0);
    WriteHeader(out, n);
    assert Agrees(out, target, HeaderSize);
    var i := 0;
    while i < n
      invariant 0 <= i <= n
      invariant Agrees(out, target, HeaderSize + 2 * i)
    {
      PcmBytesAt(samples, i);
      WriteInt16LE(out, samples[i], HeaderSize + 2 * i, target);
      i := i + 1;
    }
    assert out[..] == target;
  }

  /** The 44 header bytes, written field by field. */
  method WriteHeader(out: array<Byte>, n: nat)
    requires 36 + 2 * n < TwoTo32 && out.Length >= HeaderSize
    modifies out
    ensures Agrees(out, WavHeader(n), HeaderSize)
  {
    WriteRiffHeader(out, n);
    WriteFormatFields(out, n);
    WriteRateFields(out, n);
    WriteDataHeader(out, n);
  }

  /** "RIFF", the RIFF size 36 + 2n and "WAVE". */
  method WriteRiffHeader(out: array<Byte>, n: nat)
    requires 36 + 2 * n < TwoTo32 && out.Length >= HeaderSize
    modifies out
    ensures Agrees(out, WavHeader(n), 12)
  {
    ghost var h := WavHeader(n);
    WriteTag(out, Riff, 0, h);
    WriteUInt32LE(out, 36 + 2 * n, 4, h);
    WriteTag(out, Wave, 8, h);
  }

  /** "fmt ", its size 16, format 1 (PCM) and one channel. */
  method WriteFormatFields(out: array<Byte>, n: nat)
    requires 36 + 2 * n < TwoTo32 && out.Length >= HeaderSize && Agrees(out, WavHeader(n), 12)
    modifies out
    ensures Agrees(out, WavHeader(n), 24)
  {
    ghost var h := WavHeader(n);
    WriteTag(out, FmtTag, 12, h);
    WriteUInt32LE(out, 16, 16, h);
    WriteUInt16LE(out, 1, 20, h);
    WriteUInt16LE(out, 1, 22, h);
  }

  /** The sample rate, the byte rate, the block align and the bits per sample. */
  method WriteRateFields(out: array<Byte>, n: nat)
    requires 36 + 2 * n < TwoTo32 && out.Length >= HeaderSize && Agrees(out, WavHeader(n), 24)
    modifies out
    ensures Agrees(out, WavHeader(n), 36)
  {
    ghost var h := WavHeader(n);
    WriteUInt32LE(out, SampleRate, 24, h);
    WriteUInt32LE(out, SampleRate * 2, 28, h);
    WriteUInt16LE(out, 2, 32, h);
    WriteUInt16LE(out, 16, 34, h);
  }

  /** "data" and the payload size 2n. */
  method WriteDataHeader(out: array<Byte>, n: nat)
    requires 36 + 2 * n < TwoTo32 && out.Length >= HeaderSize && Agrees(out, WavHeader(n), 36)
    modifies out
    ensures Agrees(out, WavHeader(n), HeaderSize)
  {
    ghost var h := WavHeader(n);
    WriteTag(out, DataTag, 36, h);
    WriteUInt32LE(out, 2 * n, 40, h);
  }

  /** A JavaScript array used as a sample FIFO by `pushArray` and `popBlockI16`. */
  class SampleQueue {
    var items: seq<Int16>

    constructor ()
      ensures items == []
    {
      items := [];
    }

    /** `pushArray`: append each sample in order. */
    method PushArray(src: seq<Int16>)
      modifies this
      ensures items == old(items) + src
    {
      var i := 0;
      while i < |src|
        invariant 0 <= i <= |src|
        invariant items == old(items) + src[..i]
      {
        items := items + [src[i]];
        i := i + 1;
      }
      assert src[..|src|] == src;
    }

    /** `popBlockI16`: nothing below one block; otherwise the first 64 samples, shifted off in order. */
    method PopBlockI16() returns (block: Option<seq<Int16>>)
      modifies this
      ensures |old(items)| < BlockLength ==> block == None && items == old(items)
      ensures |old(items)| >= BlockLength ==> block == Some(old(items)[..BlockLength]) && items == old(items)[BlockLength..]
    {
      if |items| < BlockLength {
        return None;
      }
      var out := new Int16[BlockLength](_ => 0);
      var i := 0;
      while i < BlockLength
        invariant 0 <= i <= BlockLength
        invariant items == old(items)[i..]
        invariant forall j :: 0 <= j < i ==> out[j] == old(items)[j]
      {
        out[i] := items[0];
        items := items[1..];
        i := i + 1;
      }
      assert out[..] == old(items)[..BlockLength];
      block := Some(out[..]);
    }
  }
}

=== FILE: decimator.dfy ===
/** Down-sampling by 4: each output sample is the mean of four consecutive input samples. */
module Decimator {
  import opened Numerics

  const Factor: nat := 4

  /** How many input samples fall in output window `j` (fewer than 4 at the end of the input). */
  function WindowCount(n: int, j: nat): (c: nat)
    ensures c <= Factor
    ensures c == 0 <==> n <= Factor * j
    ensures 0 < c ==> Factor * j + c <= n
  {
    if n - Factor * j >= Factor then Factor else if n - Factor * j <= 0 then 0 else n - Factor * j
  }

  /** The mean of the samples in window `j`, or 0 when the window is empty. */
  function WindowMean(input: seq<real>, j: nat): real
  {
    var c := WindowCount(|input|, j);
    if c == 0 then 0.0 else Sum(input[Factor * j .. Factor * j + c]) / (c as real)
  }

  /** `DecimateBy4(in, out)` for an output span of `n` samples. */
  method DecimateBy4(input: seq<real>, n: nat) returns (out: seq<real>)
    ensures |out| == n
    ensures forall j :: 0 <= j < n ==> out[j] == WindowMean(input, j)
  {
    var a := new real[n];
    var j := 0;
    while j < n
      invariant 0 <= j <= n
      invariant forall i :: 0 <= i < j ==> a[i] == WindowMean(input, i)
    {
      var k0 := j * Factor;
      var acc := 0.0;
      var cnt := 0;
      var t := 0;
      while t < Factor && k0 + t < |input|
        invariant 0 <= t <= Factor && cnt == t
        invariant t > 0 ==> k0 + t <= |input| && acc == Sum(input[k0..k0 + t])
        invariant t == 0 ==> acc == 0.0
        modifies {}
      {
        if t > 0 {
          SumSlice(input, k0, k0 + t);
        } else {
          assert input[k0..k0 + 1] == [input[k0]];
          assert input[k0..k0 + 1][..0] == [];
        }
        acc := acc + input[k0 + t];
        cnt := cnt + 1;
        t := t + 1;
      }
      assert cnt == WindowCount(|input|, j);
      assert k0 == Factor * j;
      a[j] := if cnt != 0 then acc / (cnt as real) else 0.0;
      assert a[j] == WindowMean(input, j);
      j := j + 1;
    }
    out := a[..];
  }

  /** A window lying wholly inside the input is the plain mean of its four samples. */
  lemma FullWindow(input: seq<real>, j: nat)
    requires Factor * j + Factor <= |input|
    ensures WindowMean(input, j) ==
      (input[4 * j] + input[4 * j + 1] + input[4 * j + 2] + input[4 * j + 3]) / 4.0
  {
    var k0 := 4 * j;
    var w := input[k0..k0 + 4];
    assert w[..1][..0] == [];
    assert Sum(w[..1]) == w[0];
    assert w[..2][..1] == w[..1];
    assert Sum(w[..2]) == w[0] + w[1];
    assert w[..3][..2] == w[..2];
    assert Sum(w[..3]) == w[0] + w[1] + w[2];
    assert w[..4] == w && w[..3] == w[..3];
    assert Sum(w) == w[0] + w[1] + w[2] + w[3];
  }

  /** A window past the end of the input yields 0. */
  lemma EmptyWindow(input: seq<real>, j: nat)
    requires Factor * j >= |input|
    ensures WindowMean(input, j) == 0.0
  {
  }

  /** Each output sample lies between the smallest and largest input sample of its window. */
  lemma WindowMeanBounds(input: seq<real>, j: nat, lo: real, hi: real)
    requires Factor * j < |input|
    requires forall i :: 0 <= i < |input| ==> lo <= input[i] <= hi
    ensures lo <= WindowMean(input, j) <= hi
  {
    var c := WindowCount(|input|, j);
    var w := input[Factor * j .. Factor * j + c];
    SumBounds(w, lo, hi);
    var cr := c as real;
    assert cr > 0.0;
    assert cr * lo <= Sum(w) <= cr * hi;
    assert Sum(w) / cr >= lo by {
      assert Sum(w) / cr * cr == Sum(w);
    }
    assert Sum(w) / cr <= hi by {
      assert Sum(w) / cr * cr == Sum(w);
    }
  }
}

=== FILE: echo_canceller3.dfy ===
/**
 * The echo canceller's front end: render blocks wait in a transfer queue of at
 * most 100 blocks (the oldest is dropped beyond that); each capture block first
 * drains the queue into the block processor, in arrival order, and is then
 * processed in place.
 */
module EchoCancellers {
  import RingIndex
  import opened Numerics
  import opened Blocks
  import opened Fft
  import opened RenderDelay
  import opened EchoRemovers
  import opened BlockProcessors
  import opened AudioBuffers
  import opened SubtractorOutputs
  import opened SuppressionGains
  import opened Aec3Common

  /** The transfer queue never holds more than this many render blocks. */
  const MaxQueuedRenderBlocks: nat := 100

  /** `AnalyzeRender`'s queue update: append, then drop the oldest block when over the cap. */
  function Enqueue(queue: seq<Block>, b: Block): (q: seq<Block>)
    ensures |queue| <= MaxQueuedRenderBlocks ==> |q| <= MaxQueuedRenderBlocks
    ensures |q| > 0 && q[|q| - 1] == b
  {
    var appended := queue + [b];
    if |appended| > MaxQueuedRenderBlocks then appended[1..] else appended
  }

  /**
   * Within the cap, the queue is the newest blocks in arrival order: as many of
   * them as fit, the oldest dropped first.
   */
  lemma EnqueueKeepsNewest(queue: seq<Block>, b: Block)
    requires |queue| <= MaxQueuedRenderBlocks
    ensures var n := if |queue| < MaxQueuedRenderBlocks then |queue| + 1 else MaxQueuedRenderBlocks;
      Enqueue(queue, b) == (queue + [b])[|queue| + 1 - n..]
  {
  }

  /** Queuing the blocks of `blocks` one after another. */
  function EnqueueAll(queue: seq<Block>, blocks: seq<Block>): (q: seq<Block>)
    decreases |blocks|
  {
    if |blocks| == 0 then queue else Enqueue(EnqueueAll(queue, blocks[..|blocks| - 1]), blocks[|blocks| - 1])
  }

  /**
   * Any run of render calls leaves, in order, the last (at most 100) blocks of
   * the old queue followed by the new ones.
   */
  lemma {:induction false} EnqueueAllKeepsNewest(queue: seq<Block>, blocks: seq<Block>)
    requires |queue| <= MaxQueuedRenderBlocks
    ensures var all := queue + blocks;
      var n := if |all| < MaxQueuedRenderBlocks then |all| else MaxQueuedRenderBlocks;
      0 <= n <= |all| && EnqueueAll(queue, blocks) == all[|all| - n..]
    decreases |blocks|
  {
    var all := queue + blocks;
    if |blocks| == 0 {
      assert all == queue;
    } else {
      var init := blocks[..|blocks| - 1];
      var b := blocks[|blocks| - 1];
      EnqueueAllKeepsNewest(queue, init);
      var prev := EnqueueAll(queue, init);
      var allInit := queue + init;
      var m := if |allInit| < MaxQueuedRenderBlocks then |allInit| else MaxQueuedRenderBlocks;
      assert prev == allInit[|allInit| - m..];
      EnqueueKeepsNewest(prev, b);
      assert all == allInit + [b];
      assert prev + [b] == all[|allInit| - m..];
    }
  }

  /** The slot `d` places after `write` in the render block ring. */
  function RingSlot(write: int, d: int): (r: int)
    ensures 0 <= r < NumBlocks
  {
    (write + d) % NumBlocks
  }

  /**
   * After the first `i` blocks of `pending` went into a ring whose writer stood at
   * `write0`: the newest of them (as many as the ring holds) sit in order in the
   * slots after `write0`, and the slots not yet reached still hold `buffer0`.
   */
  ghost predicate Drained(buffer0: seq<Block>, buffer: seq<Block>, write0: int, pending: seq<Block>, i: int)
  {
    |buffer0| == NumBlocks && |buffer| == NumBlocks && 0 <= i <= |pending| &&
    (forall d :: 1 <= d <= i && i - d < NumBlocks ==> buffer[RingSlot(write0, d)] == pending[d - 1]) &&
    (forall d :: i < d <= NumBlocks ==> buffer[RingSlot(write0, d)] == buffer0[RingSlot(write0, d)])
  }

  /** Writing block `i` into the next slot extends `Drained` by one block. */
  lemma DrainedStep(buffer0: seq<Block>, buffer: seq<Block>, write0: int, pending: seq<Block>, i: int)
    requires Drained(buffer0, buffer, write0, pending, i) && i < |pending|
    ensures Drained(buffer0, buffer[RingSlot(write0, i + 1) := pending[i]], write0, pending, i + 1)
  {
    var w := RingSlot(write0, i + 1);
    var next := buffer[w := pending[i]];
    forall d | 1 <= d <= i + 1 && i + 1 - d < NumBlocks
      ensures next[RingSlot(write0, d)] == pending[d - 1]
    {
      if d <= i {
        SlotsApart(write0, d, i + 1);
      }
    }
    forall d | i + 1 < d <= NumBlocks
      ensures next[RingSlot(write0, d)] == buffer0[RingSlot(write0, d)]
    {
      SlotsApart(write0, i + 1, d);
    }
  }

  /** Two offsets from the same writer less than a ring apart name different slots. */
  lemma SlotsApart(write0: int, d1: int, d2: int)
    requires d1 < d2 < d1 + NumBlocks
    ensures RingSlot(write0, d1) != RingSlot(write0, d2)
  {
    RingIndex.ModDistinct(write0 + d1, d2 - d1, NumBlocks);
    assert write0 + d1 + (d2 - d1) == write0 + d2;
  }

  class EchoCanceller3 {
    var renderTransferQueue: seq<Block>
    const blockProcessor: BlockProcessor
    var renderBlock: Block
    var captureBlock: Block
    ghost const Repr: set<object>

    /** The block processor is valid and owned, and the queue is within its cap. */
    ghost predicate Valid()
      reads this, Repr
    {
      Repr == {this} + blockProcessor.Repr && this !in blockProcessor.Repr &&
      blockProcessor in blockProcessor.Repr && blockProcessor.Valid() &&
      |renderTransferQueue| <= MaxQueuedRenderBlocks
    }

    /** An empty queue, a fresh block processor and zero blocks. */
    constructor (fft: Aec3Fft, window: Packed, sqrt: real -> real)
      ensures Valid() && fresh(Repr)
      ensures renderTransferQueue == [] && renderBlock == Filled(0.0) && captureBlock == Filled(0.0)
      ensures !blockProcessor.renderProperlyStarted && !blockProcessor.captureProperlyStarted
    {
      var bp := new BlockProcessor(fft, window, sqrt);
      blockProcessor := bp;
      renderTransferQueue := [];
      renderBlock, captureBlock := Filled(0.0), Filled(0.0);
      Repr := {this} + bp.Repr;
    }

    /** `AnalyzeRender`: queue a copy of the render block. */
    method AnalyzeRender(render: AudioBuffer)
      requires Valid()
      modifies this`renderTransferQueue
      ensures Valid()
      ensures renderTransferQueue == Enqueue(old(renderTransferQueue), render.data)
    {
      var b := render.data;
      renderTransferQueue := renderTransferQueue + [b];
      if |renderTransferQueue| > MaxQueuedRenderBlocks {
        renderTransferQueue := renderTransferQueue[1..];
      }
    }

    /**
     * `ProcessCapture`: buffer every queued render block, then run the block
     * processor on a copy of the capture block and write the result back. With
     * only the linear filter on, the result is the prediction error; with the
     * suppressor on, it is the suppressed block the echo remover computes from the
     * capture, its gain memory and the render spectra.
     */
    method ProcessCapture(capture: AudioBuffer)
      returns (ghost output: SubtractorOutput, ghost spectrum: Fft65, ghost gain: Bins, ghost R2: Bins)
      requires Valid() && capture !in Repr
      modifies this`renderTransferQueue, this`renderBlock, this`captureBlock, blockProcessor.Repr, capture`data
      ensures Valid() && renderTransferQueue == []
      ensures capture.data == captureBlock
      ensures blockProcessor.renderProperlyStarted <==> old(blockProcessor.renderProperlyStarted) || old(renderTransferQueue) != []
      ensures !blockProcessor.renderProperlyStarted ==> capture.data == old(capture.data)
      ensures !blockProcessor.echoRemover.enableLinearFilter && !blockProcessor.echoRemover.enableNonlinearSuppressor ==>
        capture.data == old(capture.data)
      ensures var er := blockProcessor.echoRemover;
        blockProcessor.renderProperlyStarted && er.enableLinearFilter && !er.enableNonlinearSuppressor ==>
          capture.data == output.e && forall k :: 0 <= k < BlockSize ==> output.e[k] + output.s[k] == old(capture.data)[k]
      ensures var er := blockProcessor.echoRemover;
        blockProcessor.renderProperlyStarted && er.enableNonlinearSuppressor ==>
          er.Suppressed(capture.data, output, old(capture.data), spectrum, gain, old(er.eOld), old(er.yOld),
                        old(er.suppressionFilter.outputOld), blockProcessor.renderBuffer.GetRenderBuffer(), R2,
                        old(er.suppressionGain.Memory()))
    {
      DrainRenderQueue();
      output, spectrum, gain, R2 := ProcessCaptureBlock(capture);
    }

    /** The capture half of `ProcessCapture`: copy in, process in place, copy back. */
    method ProcessCaptureBlock(capture: AudioBuffer)
      returns (ghost output: SubtractorOutput, ghost spectrum: Fft65, ghost gain: Bins, ghost R2: Bins)
      requires Valid() && capture !in Repr
      modifies this`captureBlock, blockProcessor.Repr, capture`data
      ensures Valid() && capture.data == captureBlock
      ensures blockProcessor.renderProperlyStarted == old(blockProcessor.renderProperlyStarted)
      ensures !blockProcessor.renderProperlyStarted ==> capture.data == old(capture.data)
      ensures !blockProcessor.echoRemover.enableLinearFilter && !blockProcessor.echoRemover.enableNonlinearSuppressor ==>
        capture.data == old(capture.data)
      ensures var er := blockProcessor.echoRemover;
        blockProcessor.renderProperlyStarted && er.enableLinearFilter && !er.enableNonlinearSuppressor ==>
          capture.data == output.e && forall k :: 0 <= k < BlockSize ==> output.e[k] + output.s[k] == old(capture.data)[k]
      ensures var er := blockProcessor.echoRemover;
        blockProcessor.renderProperlyStarted && er.enableNonlinearSuppressor ==>
          er.Suppressed(capture.data, output, old(capture.data), spectrum, gain, old(er.eOld), old(er.yOld),
                        old(er.suppressionFilter.outputOld), blockProcessor.renderBuffer.GetRenderBuffer(), R2,
                        old(er.suppressionGain.Memory()))
    {
      var processed;
      processed, output, spectrum, gain, R2 := RunBlockProcessor(capture.data);
      WriteBack(capture, processed);
    }

    /** The processed block replaces both `capture_block_` and the caller's samples. */
    method WriteBack(capture: AudioBuffer, processed: Block)
      requires Valid() && capture !in Repr
      modifies this`captureBlock, capture`data
      ensures Valid() && captureBlock == processed && capture.data == processed
    {
      captureBlock := processed;
      capture.data := processed;
    }

    /** `block_processor_.ProcessCapture` on a copy of the capture samples. */
    method RunBlockProcessor(samples: Block)
      returns (processed: Block, ghost output: SubtractorOutput, ghost spectrum: Fft65, ghost gain: Bins, ghost R2: Bins)
      requires blockProcessor.Valid()
      modifies blockProcessor.Repr
      ensures blockProcessor.Valid()
      ensures blockProcessor.renderProperlyStarted == old(blockProcessor.renderProperlyStarted)
      ensures !blockProcessor.renderProperlyStarted ==> processed == samples
      ensures !blockProcessor.echoRemover.enableLinearFilter && !blockProcessor.echoRemover.enableNonlinearSuppressor ==>
        processed == samples
      ensures var er := blockProcessor.echoRemover;
        blockProcessor.renderProperlyStarted && er.enableLinearFilter && !er.enableNonlinearSuppressor ==>
          processed == output.e && forall k :: 0 <= k < BlockSize ==> output.e[k] + output.s[k] == samples[k]
      ensures var er := blockProcessor.echoRemover;
        blockProcessor.renderProperlyStarted && er.enableNonlinearSuppressor ==>
          er.Suppressed(processed, output, samples, spectrum, gain, old(er.eOld), old(er.yOld),
                        old(er.suppressionFilter.outputOld), blockProcessor.renderBuffer.GetRenderBuffer(), R2,
                        old(er.suppressionGain.Memory()))
    {
      var o, variability;
      ghost var delaySamples, restarted, trace;
      processed, o, variability, delaySamples, restarted, trace, spectrum, gain, R2 := blockProcessor.ProcessCapture(samples);
      output := o;
    }

    /**
     * Hand every queued render block to the block processor, oldest first: the
     * block ring advances once per block, and the newest blocks (as many as the
     * ring holds) sit in its slots in arrival order, ending at the write cursor.
     */
    method DrainRenderQueue()
      requires Valid()
      modifies this`renderTransferQueue, this`renderBlock, blockProcessor.Repr
      ensures Valid() && renderTransferQueue == []
      ensures var rb := blockProcessor.renderBuffer;
        rb.blocks.write == (old(rb.blocks.write) + |old(renderTransferQueue)|) % NumBlocks
      ensures var rb := blockProcessor.renderBuffer; var q := old(renderTransferQueue);
        forall d :: 1 <= d <= |q| && |q| - d < NumBlocks ==> rb.blocks.buffer[RingSlot(old(rb.blocks.write), d)] == q[d - 1]
      ensures var rb := blockProcessor.renderBuffer; var q := old(renderTransferQueue);
        forall d :: |q| < d <= NumBlocks ==>
          rb.blocks.buffer[RingSlot(old(rb.blocks.write), d)] == old(rb.blocks.buffer)[RingSlot(old(rb.blocks.write), d)]
      ensures blockProcessor.renderProperlyStarted <==> old(blockProcessor.renderProperlyStarted) || old(renderTransferQueue) != []
      ensures blockProcessor.captureProperlyStarted == old(blockProcessor.captureProperlyStarted)
      ensures unchanged(blockProcessor.echoRemover.Repr)
      ensures old(renderTransferQueue) != [] ==>
        var last := old(renderTransferQueue)[|old(renderTransferQueue)| - 1];
        renderBlock == last && blockProcessor.renderBuffer.blocks.buffer[blockProcessor.renderBuffer.blocks.write] == last
    {
      var pending := renderTransferQueue;
      renderTransferQueue := [];
      renderBlock := BufferAll(pending, renderBlock);
    }

    /**
     * The drain loop: buffer `pending` in order; the result is the block most
     * recently moved through `render_block_`.
     */
    method BufferAll(pending: seq<Block>, current: Block) returns (last: Block)
      requires blockProcessor.Valid()
      modifies blockProcessor.Repr
      ensures blockProcessor.Valid()
      ensures var rb := blockProcessor.renderBuffer;
        rb.blocks.write == (old(rb.blocks.write) + |pending|) % NumBlocks
      ensures var rb := blockProcessor.renderBuffer;
        Drained(old(rb.blocks.buffer), rb.blocks.buffer, old(rb.blocks.write), pending, |pending|)
      ensures blockProcessor.renderProperlyStarted <==> old(blockProcessor.renderProperlyStarted) || pending != []
      ensures blockProcessor.captureProperlyStarted == old(blockProcessor.captureProperlyStarted)
      ensures unchanged(blockProcessor.echoRemover.Repr)
      ensures pending == [] ==> last == current
      ensures pending != [] ==>
        last == pending[|pending| - 1] &&
        blockProcessor.renderBuffer.blocks.buffer[blockProcessor.renderBuffer.blocks.write] == last
    {
      var ring := blockProcessor.renderBuffer.blocks;
      ghost var write0 := ring.write;
      ghost var buffer0 := ring.buffer;
      assert 0 <= write0 < NumBlocks && |buffer0| == NumBlocks;
      RingIndex.ModSmall(write0, NumBlocks);
      last := current;
      var i := 0;
      while i < |pending|
        invariant blockProcessor.Valid() && ring == blockProcessor.renderBuffer.blocks
        invariant 0 <= i <= |pending|
        invariant ring.write == (write0 + i) % NumBlocks
        invariant Drained(buffer0, ring.buffer, write0, pending, i)
        invariant blockProcessor.renderProperlyStarted <==> old(blockProcessor.renderProperlyStarted) || i > 0
        invariant blockProcessor.captureProperlyStarted == old(blockProcessor.captureProperlyStarted)
        invariant unchanged(blockProcessor.echoRemover.Repr)
        invariant i == 0 ==> last == current
        invariant i > 0 ==> last == pending[i - 1] && ring.buffer[ring.write] == last
      {
        last := pending[i];
        label step:
        ghost var write := ring.write;
        ghost var event := blockProcessor.BufferRender(last);
        RingIndex.ModAdd(write0 + i, 1, NumBlocks, write);
        assert ring.write == RingSlot(write0, i + 1);
        DrainedStep(buffer0, old@step(ring.buffer), write0, pending, i);
        i := i + 1;
      }
    }

    /** `SetProcessingModes`: forwarded to the block processor. */
    method SetProcessingModes(enableLinear: bool, enableNonlinear: bool)
      requires Valid()
      modifies blockProcessor.echoRemover`enableLinearFilter, blockProcessor.echoRemover`enableNonlinearSuppressor
      ensures Valid()
      ensures blockProcessor.echoRemover.enableLinearFilter == enableLinear
      ensures blockProcessor.echoRemover.enableNonlinearSuppressor == enableNonlinear
    {
      blockProcessor.SetProcessingModes(enableLinear, enableNonlinear);
    }
  }
}

=== FILE: echo_path_delay_estimator.dfy ===
/**
 * The echo-path delay estimator: decimate the capture block, update the matched
 * filter, aggregate its lag, and convert sub-block samples to full-rate samples.
 * A lag that stays the same for more than half a second resets the estimator.
 */
module DelayEstimation {
  import opened Aec3Common
  import opened Blocks
  import opened Decimator
  import opened RingBuffers
  import opened MatchedFilters
  import opened LagAggregation
  import opened Numerics

  const DownSamplingFactor: int := 4
  /** Consecutive equal estimates tolerated before the estimator restarts: half a second of blocks. */
  const MaxConsistentEstimates: int := 125

  lemma HalfSecond()
    ensures MaxConsistentEstimates == NumBlocksPerSecond / 2
  {
  }

  /** The consistency counter after an estimate: one more for a repeated non-negative lag, otherwise 0. */
  function NextCounter(oldLag: int, lag: int, counter: nat): (c: nat)
    ensures c == 0 || (c == counter + 1 && oldLag >= 0 && oldLag == lag)
    ensures oldLag >= 0 && lag >= 0 && oldLag == lag ==> c == counter + 1
  {
    if oldLag >= 0 && lag >= 0 && oldLag == lag then counter + 1 else 0
  }

  /** The capture block decimated by four: the mean of each window of four samples. */
  ghost function Downsampled(capture: seq<real>): seq<real>
  {
    seq(SubBlockSize, j requires 0 <= j => WindowMean(capture, j))
  }

  /** The estimator state one estimate reads: the taps, and the aggregator's log, cursor and convergence flag. */
  datatype EstimatorState = EstimatorState(filters: seq<seq<real>>, data: seq<int>, index: int, found: bool)

  /**
   * What one estimate computes on the way to its delay: the new taps and the
   * candidates of the five filters, the lag their winner reports, the new
   * histogram, its first fullest bin, and the aggregated lag.
   */
  datatype Estimation = Estimation(filters: seq<seq<real>>, cands: seq<Candidate>, reported: int,
                                   hist: seq<int>, candidate: int, aggregated: int)

  /** The state a reset leaves: zero taps, a zero log, the cursor at 0, convergence not seen. */
  ghost predicate IsResetState(s: EstimatorState)
  {
    |s.filters| == NumFilters &&
    (forall n :: 0 <= n < NumFilters ==> |s.filters[n]| == FilterLength) &&
    (forall n, k :: 0 <= n < NumFilters && 0 <= k < FilterLength ==> s.filters[n][k] == 0.0) &&
    |s.data| == HistogramDataSize && (forall i :: 0 <= i < HistogramDataSize ==> s.data[i] == 0) &&
    s.index == 0 && !s.found
  }

  /**
   * One aggregated lag from state `s0` over the down-sampled render ring `x` read
   * from `read`: every filter runs over the decimated capture from its own start,
   * the reported lag is their winner's, and the aggregator votes for it.
   */
  ghost predicate Estimated(s0: EstimatorState, x: seq<real>, read: int, capture: Block, t: Thresholds, e: Estimation)
  {
    0 <= read < |x| && |s0.filters| == NumFilters && |e.filters| == NumFilters && |e.cands| == NumFilters &&
    (forall n :: 0 <= n < NumFilters ==>
      FilterRun(s0.filters[n], x, Downsampled(capture), StartIndex(read, n, |x|), e.filters[n], e.cands[n])) &&
    e.reported == ReportedLag(e.cands, SumSquares(Downsampled(capture))) &&
    AggregateOutcome(s0.data, s0.index, s0.found, t, MaxFilterLag, e.reported, e.hist, e.candidate, e.aggregated)
  }

  /** The delay in full-rate samples: four times the aggregated lag, or -1 when there is none. */
  ghost predicate DelayEstimated(s0: EstimatorState, x: seq<real>, read: int, capture: Block, t: Thresholds,
                                 e: Estimation, delay: int)
  {
    Estimated(s0, x, read, capture, t, e) &&
    delay == (if e.aggregated >= 0 then DownSamplingFactor * e.aggregated else -1)
  }

  /** The state an estimate leaves when no restart follows: its taps, and the aggregator's new log, cursor and flag. */
  ghost predicate Advanced(s0: EstimatorState, t: Thresholds, e: Estimation, s: EstimatorState)
  {
    s.filters == e.filters &&
    AggregatedState(s0.data, s0.index, s0.found, t, e.reported, e.hist, e.candidate, s.data, s.index, s.found)
  }

  /** The estimator as the next estimate finds it: its state, the previous lag and the consistency counter. */
  datatype Snapshot = Snapshot(state: EstimatorState, lastLag: int, counter: nat)

  /**
   * The estimator after an estimate from `s0` that gave `delay`: the reset state
   * once the same lag has been seen more than 125 times in a row, otherwise the
   * estimate's taps and aggregator state, with `delay` as the previous lag and the
   * counter advanced by `NextCounter`.
   */
  ghost predicate EstimatorAfter(s0: Snapshot, t: Thresholds, e: Estimation, delay: int, s: Snapshot)
  {
    var c := NextCounter(s0.lastLag, delay, s0.counter);
    if c > MaxConsistentEstimates then IsResetState(s.state) && s.lastLag == -1 && s.counter == 0
    else Advanced(s0.state, t, e, s.state) && s.lastLag == delay && s.counter == c
  }

  /**
   * The delay is a function of the estimator state, the render ring and the
   * capture: two estimates from the same inputs agree on the taps, the
   * candidates and the delay.
   */
  lemma DelayEstimatedDeterministic(s0: EstimatorState, x: seq<real>, read: int, capture: Block, t: Thresholds,
                                    e1: Estimation, d1: int, e2: Estimation, d2: int)
    requires DelayEstimated(s0, x, read, capture, t, e1, d1)
    requires DelayEstimated(s0, x, read, capture, t, e2, d2)
    ensures e1.filters == e2.filters && e1.cands == e2.cands && d1 == d2
  {
    forall n | 0 <= n < NumFilters
      ensures e1.filters[n] == e2.filters[n] && e1.cands[n] == e2.cands[n]
    {
      ScanPeakUnique(e1.filters[n], e1.cands[n].peak, e2.cands[n].peak);
    }
    assert e1.cands == e2.cands;
    AggregateOutcomeDeterministic(s0.data, s0.index, s0.found, t, MaxFilterLag, e1.reported,
                                  e1.hist, e1.candidate, e1.aggregated, e2.hist, e2.candidate, e2.aggregated);
  }

  /** There is one reset state: zero taps, a zero log, the cursor at 0 and convergence not seen. */
  lemma ResetStateUnique(s1: EstimatorState, s2: EstimatorState)
    requires IsResetState(s1) && IsResetState(s2)
    ensures s1 == s2
  {
    forall n | 0 <= n < NumFilters
      ensures s1.filters[n] == s2.filters[n]
    {
      assert forall k :: 0 <= k < FilterLength ==> s1.filters[n][k] == s2.filters[n][k];
    }
    assert s1.filters == s2.filters;
    assert s1.data == s2.data;
  }

  /**
   * The estimator an estimate leaves is a function of the estimator it started
   * from, the render ring and the capture: two estimates agree on the delay and
   * on the state, previous lag and counter they leave.
   */
  lemma EstimatorAfterDeterministic(s0: Snapshot, x: seq<real>, read: int, capture: Block, t: Thresholds,
                                    e1: Estimation, d1: int, s1: Snapshot, e2: Estimation, d2: int, s2: Snapshot)
    requires DelayEstimated(s0.state, x, read, capture, t, e1, d1) && EstimatorAfter(s0, t, e1, d1, s1)
    requires DelayEstimated(s0.state, x, read, capture, t, e2, d2) && EstimatorAfter(s0, t, e2, d2, s2)
    ensures d1 == d2 && s1 == s2
  {
    DelayEstimatedDeterministic(s0.state, x, read, capture, t, e1, d1, e2, d2);
    assert e1.reported == e2.reported;
    AggregateOutcomeDeterministic(s0.state.data, s0.state.index, s0.state.found, t, MaxFilterLag, e1.reported,
                                  e1.hist, e1.candidate, e1.aggregated, e2.hist, e2.candidate, e2.aggregated);
    if NextCounter(s0.lastLag, d1, s0.counter) > MaxConsistentEstimates {
      ResetStateUnique(s1.state, s2.state);
    } else {
      assert s1.state.filters == s2.state.filters;
    }
  }

  class EchoPathDelayEstimator {
    const matchedFilter: MatchedFilter
    const aggregator: MatchedFilterLagAggregator
    var oldAggregatedLag: int
    var consistentEstimateCounter: nat
    ghost const Repr: set<object>

    /** The sub-objects are distinct and each is valid. */
    ghost predicate Structure()
      reads this, Repr
    {
      Repr == {this, matchedFilter, aggregator, aggregator.peaks} &&
      aggregator.Repr == {aggregator, aggregator.peaks} &&
      this !in {matchedFilter as object, aggregator, aggregator.peaks} &&
      (matchedFilter as object) != aggregator && (matchedFilter as object) != aggregator.peaks &&
      matchedFilter.Valid() && aggregator.Valid() && aggregator.peaks.maxFilterLag == MaxFilterLag
    }

    /** Between calls the counter never exceeds 125 and the last lag is -1 or a multiple of 4. */
    ghost predicate Valid()
      reads this, Repr
    {
      Structure() &&
      consistentEstimateCounter <= MaxConsistentEstimates &&
      (oldAggregatedLag == -1 || (oldAggregatedLag >= 0 && oldAggregatedLag % DownSamplingFactor == 0))
    }

    /** The taps and the aggregator's log, cursor and flag. */
    ghost function State(): (s: EstimatorState)
      reads this, Repr
      requires Valid()
      ensures |s.filters| == NumFilters && |s.data| == HistogramDataSize && 0 <= s.index < HistogramDataSize
    {
      EstimatorState(matchedFilter.filters, aggregator.peaks.histogramData, aggregator.peaks.histogramDataIndex,
                     aggregator.significantCandidateFound)
    }

    /** The state together with the previous lag and the counter. */
    ghost function Snap(): Snapshot
      reads this, Repr
      requires Valid()
    {
      Snapshot(State(), oldAggregatedLag, consistentEstimateCounter)
    }

    /** A fresh matched filter, an aggregator for lags up to `kMaxFilterLag`, no previous lag. */
    constructor ()
      ensures Valid() && fresh(Repr)
      ensures oldAggregatedLag == -1 && consistentEstimateCounter == 0
      ensures aggregator.thresholds == IntendedThresholds()
    {
      matchedFilter := new MatchedFilter();
      var a := new MatchedFilterLagAggregator(MaxFilterLag, IntendedThresholds());
      aggregator := a;
      oldAggregatedLag := -1;
      consistentEstimateCounter := 0;
      Repr := {this, matchedFilter, a, a.peaks};
    }

    /** `Reset` restarts the estimation as `ResetInternal` does. */
    method Reset()
      requires Valid()
      modifies Repr
      ensures Valid()
      ensures oldAggregatedLag == -1 && consistentEstimateCounter == 0
      ensures IsResetState(State())
      ensures matchedFilter.reportedLag == -1 && matchedFilter.winnerLag == -1
    {
      ResetInternal();
    }

    /** `ResetInternal`: hard-reset the aggregator, zero the matched filter, forget the previous lag. */
    method ResetInternal()
      requires Structure()
      modifies Repr
      ensures Valid()
      ensures oldAggregatedLag == -1 && consistentEstimateCounter == 0
      ensures IsResetState(State())
      ensures forall b :: 0 <= b <= MaxFilterLag ==> aggregator.peaks.histogram[b] == 0
      ensures matchedFilter.reportedLag == -1 && matchedFilter.winnerLag == -1
    {
      aggregator.Reset(true);
      matchedFilter.Reset();
      oldAggregatedLag := -1;
      consistentEstimateCounter := 0;
    }

    /**
     * The matched-filter update and the aggregation of its best lag, in down-sampled
     * samples: every filter runs over the decimated capture, the reported lag is the one
     * the candidates select, and the aggregator votes for it and reports its first
     * histogram maximum when the thresholds allow.
     */
    method AggregatedLag(renderBuffer: Ring<real>, capture: Block) returns (lag: int, ghost est: Estimation)
      requires Valid() && renderBuffer.Valid()
      modifies matchedFilter, aggregator, aggregator.peaks
      ensures Valid() && unchanged(this)
      ensures lag == est.aggregated && (lag == -1 || 0 <= lag <= MaxFilterLag)
      ensures Estimated(old(State()), renderBuffer.buffer, renderBuffer.read, capture, aggregator.thresholds, est)
      ensures Advanced(old(State()), aggregator.thresholds, est, State())
      ensures matchedFilter.reportedLag == est.reported
      ensures aggregator.peaks.histogram == est.hist && aggregator.peaks.candidate == est.candidate
    {
      var downsampledCapture := DecimateBy4(View(capture), SubBlockSize);
      assert downsampledCapture == Downsampled(capture);
      ghost var cands := matchedFilter.Update(renderBuffer, downsampledCapture);
      lag := aggregator.Aggregate(matchedFilter.GetBestLagEstimate());
      est := Estimation(matchedFilter.filters, cands, matchedFilter.reportedLag,
                        aggregator.peaks.histogram, aggregator.peaks.candidate, lag);
    }

    /**
     * `EstimateDelay`: the delay in full-rate samples (four times the aggregated
     * down-sampled lag), or -1 when there is none. A lag repeated for more than
     * half a second restarts the estimator; otherwise the estimate's taps and
     * aggregator state are kept.
     */
    method EstimateDelay(renderBuffer: Ring<real>, capture: Block) returns (delay: int, ghost est: Estimation)
      requires Valid() && renderBuffer.Valid()
      modifies Repr
      ensures Valid()
      ensures est.aggregated == -1 || 0 <= est.aggregated <= MaxFilterLag
      ensures DelayEstimated(old(State()), renderBuffer.buffer, renderBuffer.read, capture, aggregator.thresholds, est, delay)
      ensures delay == -1 || (delay >= 0 && delay % DownSamplingFactor == 0)
      ensures EstimatorAfter(old(Snap()), aggregator.thresholds, est, delay, Snap())
      ensures if NextCounter(old(oldAggregatedLag), delay, old(consistentEstimateCounter)) > MaxConsistentEstimates
        then matchedFilter.reportedLag == -1
        else (matchedFilter.reportedLag == est.reported &&
              aggregator.peaks.histogram == est.hist && aggregator.peaks.candidate == est.candidate)
    {
      var lag;
      lag, est := AggregatedLag(renderBuffer, capture);
      if lag >= 0 {
        lag := lag * DownSamplingFactor;
      }
      if oldAggregatedLag >= 0 && lag >= 0 && oldAggregatedLag == lag {
        consistentEstimateCounter := consistentEstimateCounter + 1;
      } else {
        consistentEstimateCounter := 0;
      }
      oldAggregatedLag := lag;
      if consistentEstimateCounter > MaxConsistentEstimates {
        ResetInternal();
      }
      delay := lag;
    }
  }
}

=== FILE: echo_path_variability.dfy ===
/** What happened to the echo path since the previous block. */
module EchoPathVariability {
  datatype DelayChange = NoDelayChange | BufferFlush | NewDetectedDelay

  /** `EchoPathVariability`: the stored delay change. */
  datatype Variability = Variability(delayChange: DelayChange)

  /** `DelayChanged`: anything but "no change". */
  function DelayChanged(v: Variability): (r: bool)
    ensures r <==> v.delayChange == BufferFlush || v.delayChange == NewDetectedDelay
    ensures !r <==> v.delayChange == NoDelayChange
  {
    v.delayChange != NoDelayChange
  }
}

=== FILE: echo_remover.dfy ===
/**
 * The echo remover: dispatch on the linear-filter and nonlinear-suppressor
 * modes, and in the nonlinear path estimate the residual echo, compute the
 * suppression gain and apply it to the chosen spectrum.
 */
module EchoRemovers {
  import opened Numerics
  import opened Fft
  import opened Blocks
  import opened RenderBuffers
  import opened EchoPathVariability
  import opened SubtractorOutputs
  import opened Subtractors
  import opened AecStates
  import opened Erle
  import opened ResidualEcho
  import opened SuppressionGains
  import opened SuppressionFilters

  /** The figures kept from the last processed block. */
  datatype LastMetrics = LastMetrics(e2: real, y2: real, erleAverage: real, linearUsable: bool)

  /** The mean of the 65 ERLE values. */
  function Mean(values: Bins): real
  {
    Sum(values) / 65.0
  }

  /** The mean ERLE stays inside the range every ERLE value keeps. */
  lemma MeanErleInRange(erle: Bins)
    requires forall k :: 0 <= k < 65 ==> 1.0 <= erle[k] <= MaxErle
    ensures 1.0 <= Mean(erle) <= MaxErle
  {
    SumBounds(erle, 1.0, MaxErle);
  }

  /** The power of the difference between the capture and residual spectra: the linear echo's power. */
  function LinearEchoPower(E: Fft65, Y: Fft65): (S2: Bins)
    ensures forall k :: 0 <= k < 65 ==> S2[k] >= 0.0
  {
    seq(65, k requires 0 <= k < 65 => (Y.re[k] - E.re[k]) * (Y.re[k] - E.re[k]) + (Y.im[k] - E.im[k]) * (Y.im[k] - E.im[k]))
  }

  /** When nothing was subtracted the linear echo has no power. */
  lemma NoSubtractionNoLinearEcho(Y: Fft65)
    ensures forall k :: 0 <= k < 65 ==> LinearEchoPower(Y, Y)[k] == 0.0
  {
  }

  /** The bin-wise minimum of two spectra. */
  function MinBins(a: Bins, b: Bins): (r: Bins)
    ensures forall k :: 0 <= k < 65 ==> r[k] <= a[k] && r[k] <= b[k] && (r[k] == a[k] || r[k] == b[k])
  {
    seq(65, k requires 0 <= k < 65 => Min(a[k], b[k]))
  }

  /**
   * The nearend spectrum the gain is computed from: the residual's power capped
   * by the capture's power when the linear estimate is usable, else the capture's power.
   */
  function NearendSpectrum(usable: bool, Y: Fft65, E: Fft65): (n: Bins)
    ensures forall k :: 0 <= k < 65 ==> 0.0 <= n[k] <= PowerSpectrum(Y)[k]
    ensures usable ==> forall k :: 0 <= k < 65 ==> n[k] <= PowerSpectrum(E)[k]
  {
    if usable then MinBins(PowerSpectrum(E), PowerSpectrum(Y)) else PowerSpectrum(Y)
  }

/**
   * The stored gain is the lower-band gain of the nearend spectrum against the
   * residual echo, from the gain computer's memory of the previous block.
   */
  ghost predicate GainFromSpectra(usable: bool, Y: Fft65, E: Fft65, R2: Bins, memory0: GainMemory, lastGain: Bins)
    requires GainMemoryValid(memory0)
  {
    forall k {:trigger LowerBandGainOf(NearendSpectrum(usable, Y, E), R2, memory0)[k]} :: 0 <= k < 65 ==>
      lastGain[k] == LowerBandGainOf(NearendSpectrum(usable, Y, E), R2, memory0)[k]
  }

  class EchoRemover {
    const fft: Aec3Fft
    /** The analysis window and the square root; both are parameters of the model. */
    const window: Packed
    const sqrt: real -> real
    const subtractor: Subtractor
    const suppressionGain: SuppressionGain
    const suppressionFilter: SuppressionFilter
    const residualEchoEstimator: ResidualEchoEstimator
    const aecState: AecState
    var eOld: Block
    var yOld: Block
    var enableLinearFilter: bool
    var enableNonlinearSuppressor: bool
    var lastMetrics: LastMetrics
    ghost const Repr: set<object>

    /** The components own disjoint sets of objects, share the transform, and are each valid. */
    ghost predicate Valid()
      reads this, Repr
    {
      Repr == {this, suppressionFilter, residualEchoEstimator} + subtractor.Repr + suppressionGain.Repr + aecState.Repr &&
      subtractor.Repr !! suppressionGain.Repr && subtractor.Repr !! aecState.Repr && suppressionGain.Repr !! aecState.Repr &&
      {this, suppressionFilter, residualEchoEstimator} !! subtractor.Repr + suppressionGain.Repr + aecState.Repr &&
      subtractor in subtractor.Repr && suppressionGain in suppressionGain.Repr && aecState in aecState.Repr &&
      subtractor.Valid() && suppressionGain.Valid() && aecState.Valid() && residualEchoEstimator.Valid() &&
      subtractor.fft == fft && suppressionFilter.fft == fft && suppressionFilter.window == window
    }

    /** Fresh components, both modes enabled, zero history. */
    constructor (fft: Aec3Fft, window: Packed, sqrt: real -> real)
      ensures Valid() && fresh(Repr)
      ensures enableLinearFilter && enableNonlinearSuppressor
      ensures eOld == Filled(0.0) && yOld == Filled(0.0)
      ensures lastMetrics == LastMetrics(0.0, 0.0, 0.0, false)
    {
      this.fft := fft;
      this.window := window;
      this.sqrt := sqrt;
      var sub := new Subtractor(fft);
      var gainComputer := new SuppressionGain();
      var state := new AecState();
      subtractor, suppressionGain, aecState := sub, gainComputer, state;
      suppressionFilter := new SuppressionFilter(fft, window);
      residualEchoEstimator := new ResidualEchoEstimator();
      eOld, yOld := Filled(0.0), Filled(0.0);
      enableLinearFilter, enableNonlinearSuppressor := true, true;
      lastMetrics := LastMetrics(0.0, 0.0, 0.0, false);
      Repr := {this, suppressionFilter, residualEchoEstimator} + sub.Repr + gainComputer.Repr + state.Repr;
    }

    /**
     * The residual echo as the estimator gives it for the capture spectrum `Y` and
     * the residual spectrum `E`: the linear echo power over the ERLE when the linear
     * estimate is usable, otherwise the gated render power of the delay window less
     * ten times the noise floor, not below 0.
     */
    ghost predicate ResidualEchoEstimated(renderBuffer: RenderBuffer, Y: Fft65, E: Fft65, R2: Bins)
      reads this, Repr, renderBuffer.spectrumBuffer
      requires Valid() && renderBuffer.spectrumBuffer.Valid()
    {
      (aecState.UsableLinearEstimate() ==>
        forall k :: 0 <= k < 65 ==> R2[k] == LinearEchoPower(E, Y)[k] / aecState.Erle()[k]) &&
      (!aecState.UsableLinearEstimate() ==> forall k :: 0 <= k < 65 ==>
        R2[k] == Max(0.0, NoiseGated(WindowMax(Window(renderBuffer.spectrumBuffer.buffer, renderBuffer.spectrumBuffer.read,
                                                      aecState.MinDirectPathFilterDelay()), k))
                          - StationaryGateSlope * residualEchoEstimator.noiseFloor[k])) &&
      forall k :: 0 <= k < 65 ==> R2[k] >= 0.0
    }

    /**
     * What the nonlinear path leaves behind: the blocks kept for the next
     * padded transforms; the residual echo the estimator gives; the suppressed
     * spectrum (the residual's when the linear estimate is usable, else the
     * capture's); a gain that is the square root of the stored gain, which is the
     * lower-band gain of the nearend spectrum against that residual echo from the
     * gain computer's previous memory; the clipped overlap-add output; and the
     * metrics with the mean ERLE in [1, 64].
     */
    ghost predicate Suppressed(y: Block, output: SubtractorOutput, capture: Block, spectrum: Fft65, gain: Bins,
                               eOld0: Block, yOld0: Block, outputOld0: Block,
                               renderBuffer: RenderBuffer, R2: Bins, memory0: GainMemory)
      reads this, Repr, output, renderBuffer.spectrumBuffer
      requires Valid() && renderBuffer.spectrumBuffer.Valid() && GainMemoryValid(memory0)
    {
      var Y := fft.PaddedFft(capture, yOld0);
      var E := fft.PaddedFft(output.e, eOld0);
      yOld == capture && eOld == output.e &&
      ResidualEchoEstimated(renderBuffer, Y, E, R2) &&
      spectrum == (if aecState.UsableLinearEstimate() then E else Y) &&
      (forall k :: 0 <= k < 65 ==> gain[k] == sqrt(suppressionGain.lastGain[k]) && 0.0 < suppressionGain.lastGain[k] <= 1.0) &&
      (forall i :: 0 <= i < 64 ==>
        y[i] == Clip(OverlapAdd(outputOld0[i], fft.Ifft(GainScaled(spectrum, gain))[i], window[64 + i], window[i]))) &&
      lastMetrics == LastMetrics(output.e2, output.y2, Mean(aecState.Erle()), aecState.UsableLinearEstimate()) &&
      1.0 <= lastMetrics.erleAverage <= MaxErle &&
      GainFromSpectra(aecState.UsableLinearEstimate(), Y, E, R2, memory0, suppressionGain.lastGain)
    }

    /** `SetProcessingModes`: only the two mode flags change. */
    method SetProcessingModes(enableLinear: bool, enableNonlinear: bool)
      requires Valid()
      modifies this`enableLinearFilter, this`enableNonlinearSuppressor
      ensures Valid()
      ensures enableLinearFilter == enableLinear && enableNonlinearSuppressor == enableNonlinear
    {
      enableLinearFilter := enableLinear;
      enableNonlinearSuppressor := enableNonlinear;
    }

    /**
     * `ProcessCapture`: after any delay-change handling, pass the block through,
     * return the linear residual, or run the nonlinear suppression, depending on
     * the modes.
     */
    method ProcessCapture(variability: Variability, renderBuffer: RenderBuffer, capture: Block)
      returns (y: Block, output: SubtractorOutput, ghost spectrum: Fft65, ghost gain: Bins, ghost R2: Bins)
      requires Valid()
      requires renderBuffer.blockBuffer.Valid() && renderBuffer.spectrumBuffer.Valid() && renderBuffer.fftBuffer.Valid()
      modifies Repr
      ensures Valid() && fresh(output)
      ensures enableLinearFilter == old(enableLinearFilter) && enableNonlinearSuppressor == old(enableNonlinearSuppressor)
      ensures !enableLinearFilter && !enableNonlinearSuppressor ==>
        y == capture && yOld == old(yOld) && eOld == old(eOld) && lastMetrics == old(lastMetrics)
      ensures enableLinearFilter && !enableNonlinearSuppressor ==>
        y == output.e && (forall k :: 0 <= k < 64 ==> output.e[k] + output.s[k] == capture[k]) &&
        yOld == old(yOld) && eOld == old(eOld) && lastMetrics == old(lastMetrics)
      ensures !enableLinearFilter && enableNonlinearSuppressor ==>
        output.e == capture && output.e2 == output.y2 == SumSquares(capture)
      ensures enableLinearFilter ==> forall k :: 0 <= k < 64 ==> output.e[k] + output.s[k] == capture[k]
      ensures enableNonlinearSuppressor ==>
        Suppressed(y, output, capture, spectrum, gain, old(eOld), old(yOld), old(suppressionFilter.outputOld),
                   renderBuffer, R2, old(suppressionGain.Memory()))
      ensures DelayChanged(variability) && !enableLinearFilter ==>
        forall p :: 0 <= p < FilterLengthBlocks ==> subtractor.filter.H[p] == Cleared()
    {
      HandleDelayChange(variability);
      y, output, spectrum, gain, R2 := Dispatch(renderBuffer, capture);
    }

    /** The mode dispatch that follows the delay-change handling. */
    method Dispatch(renderBuffer: RenderBuffer, capture: Block)
      returns (y: Block, output: SubtractorOutput, ghost spectrum: Fft65, ghost gain: Bins, ghost R2: Bins)
      requires Valid()
      requires renderBuffer.blockBuffer.Valid() && renderBuffer.spectrumBuffer.Valid() && renderBuffer.fftBuffer.Valid()
      modifies Repr
      ensures Valid() && fresh(output)
      ensures enableLinearFilter == old(enableLinearFilter) && enableNonlinearSuppressor == old(enableNonlinearSuppressor)
      ensures !enableLinearFilter && !enableNonlinearSuppressor ==>
        y == capture && yOld == old(yOld) && eOld == old(eOld) && lastMetrics == old(lastMetrics)
      ensures enableLinearFilter && !enableNonlinearSuppressor ==>
        y == output.e && (forall k :: 0 <= k < 64 ==> output.e[k] + output.s[k] == capture[k]) &&
        yOld == old(yOld) && eOld == old(eOld) && lastMetrics == old(lastMetrics)
      ensures !enableLinearFilter && enableNonlinearSuppressor ==>
        output.e == capture && output.e2 == output.y2 == SumSquares(capture)
      ensures enableLinearFilter ==> forall k :: 0 <= k < 64 ==> output.e[k] + output.s[k] == capture[k]
      ensures enableNonlinearSuppressor ==>
        Suppressed(y, output, capture, spectrum, gain, old(eOld), old(yOld), old(suppressionFilter.outputOld),
                   renderBuffer, R2, old(suppressionGain.Memory()))
      ensures !enableLinearFilter ==> subtractor.filter.H == old(subtractor.filter.H)
    {
      output := new SubtractorOutput();
      spectrum, gain, R2 := Cleared(), seq(65, _ => 0.0), seq(65, _ => 0.0);
      if !enableLinearFilter && !enableNonlinearSuppressor {
        y := capture;
      } else if !enableNonlinearSuppressor {
        LinearStage(renderBuffer, capture, output);
        y := output.e;
      } else {
        y, spectrum, gain, R2 := Nonlinear(renderBuffer, capture, output);
      }
    }

    /** The nonlinear path, on the subtractor's residual when the linear filter is on and on the capture otherwise. */
    method Nonlinear(renderBuffer: RenderBuffer, capture: Block, output: SubtractorOutput)
      returns (y: Block, ghost spectrum: Fft65, ghost gain: Bins, ghost R2: Bins)
      requires Valid() && output !in Repr
      requires renderBuffer.blockBuffer.Valid() && renderBuffer.spectrumBuffer.Valid() && renderBuffer.fftBuffer.Valid()
      modifies Repr, output
      ensures Valid()
      ensures enableLinearFilter == old(enableLinearFilter) && enableNonlinearSuppressor == old(enableNonlinearSuppressor)
      ensures !enableLinearFilter ==> output.e == capture && output.e2 == output.y2 == SumSquares(capture)
      ensures enableLinearFilter ==> forall k :: 0 <= k < 64 ==> output.e[k] + output.s[k] == capture[k]
      ensures Suppressed(y, output, capture, spectrum, gain, old(eOld), old(yOld), old(suppressionFilter.outputOld),
                   renderBuffer, R2, old(suppressionGain.Memory()))
      ensures !enableLinearFilter ==> subtractor.filter.H == old(subtractor.filter.H)
    {
      if enableLinearFilter {
        LinearStage(renderBuffer, capture, output);
      } else {
        UnfilteredOutput(capture, output);
      }
      y, spectrum, gain, R2 := Suppress(renderBuffer, capture, output);
    }

    /** The subtractor's output for this block: the residual and the echo estimate add up to the capture. */
    method LinearStage(renderBuffer: RenderBuffer, capture: Block, output: SubtractorOutput)
      requires Valid() && output !in Repr
      requires renderBuffer.spectrumBuffer.Valid() && renderBuffer.fftBuffer.Valid()
      modifies subtractor.Repr, output
      ensures Valid()
      ensures forall k :: 0 <= k < 64 ==> output.e[k] + output.s[k] == capture[k]
    {
      ghost var G := subtractor.Process(renderBuffer, capture, output);
    }

    /** Without the linear filter the residual is the capture itself, measured as the subtractor would. */
    static method UnfilteredOutput(capture: Block, output: SubtractorOutput)
      modifies output
      ensures output.e == capture && output.e2 == output.y2 == SumSquares(capture)
    {
      output.e := capture;
      output.ComputeMetrics(capture);
    }

    /** On a delay change, let the subtractor and the state handle it. */
    method HandleDelayChange(variability: Variability)
      requires Valid()
      modifies subtractor.Repr, aecState.Repr
      ensures Valid()
      ensures DelayChanged(variability) ==> forall p :: 0 <= p < FilterLengthBlocks ==> subtractor.filter.H[p] == Cleared()
    {
      if DelayChanged(variability) {
        subtractor.HandleEchoPathChange(variability);
        aecState.HandleEchoPathChange(variability);
      }
    }

    /**
     * The nonlinear path: transform the capture and residual blocks, update the
     * state, estimate the residual echo, compute the gain and apply it.
     */
    method Suppress(renderBuffer: RenderBuffer, capture: Block, output: SubtractorOutput)
      returns (y: Block, ghost spectrum: Fft65, ghost gain: Bins, ghost R2: Bins)
      requires Valid() && output !in Repr
      requires renderBuffer.blockBuffer.Valid() && renderBuffer.spectrumBuffer.Valid() && renderBuffer.fftBuffer.Valid()
      modifies this`yOld, this`eOld, this`lastMetrics, aecState.Repr, residualEchoEstimator, suppressionGain.Repr, suppressionFilter
      ensures Valid()
      ensures Suppressed(y, output, capture, spectrum, gain, old(eOld), old(yOld), old(suppressionFilter.outputOld),
                   renderBuffer, R2, old(suppressionGain.Memory()))
    {
      var Y, E, residualEcho, usable := SpectraAndResidualEcho(renderBuffer, capture, output);
      R2 := residualEcho;
      y, spectrum, gain := ApplySuppression(Y, E, residualEcho, usable);
      ReportMetrics(output, usable);
    }

    /** The first half of `Suppress`: both padded spectra, the state update and the residual echo. */
    method SpectraAndResidualEcho(renderBuffer: RenderBuffer, capture: Block, output: SubtractorOutput)
      returns (Y: Fft65, E: Fft65, R2: Bins, usable: bool)
      requires Valid() && output !in Repr
      requires renderBuffer.blockBuffer.Valid() && renderBuffer.spectrumBuffer.Valid()
      modifies this`yOld, this`eOld, aecState.Repr, residualEchoEstimator
      ensures Valid()
      ensures Y == fft.PaddedFft(capture, old(yOld)) && E == fft.PaddedFft(output.e, old(eOld))
      ensures yOld == capture && eOld == output.e
      ensures usable == aecState.UsableLinearEstimate()
      ensures ResidualEchoEstimated(renderBuffer, Y, E, R2)
    {
      Y, E := Spectra(capture, output.e);
      R2, usable := Analyse(renderBuffer, Y, E, output);
    }

    /** The metrics of this block: the subtractor's energies, the mean ERLE and whether the linear estimate was used. */
    method ReportMetrics(output: SubtractorOutput, usable: bool)
      requires Valid()
      modifies this`lastMetrics
      ensures Valid()
      ensures lastMetrics == LastMetrics(output.e2, output.y2, Mean(aecState.Erle()), usable)
      ensures 1.0 <= lastMetrics.erleAverage <= MaxErle
    {
      var erleAverage := ErleAverage(aecState.Erle());
      lastMetrics := LastMetrics(output.e2, output.y2, erleAverage, usable);
    }

    /** The windowed transforms of the capture and residual blocks, each padded with its previous block. */
    method Spectra(capture: Block, e: Block) returns (Y: Fft65, E: Fft65)
      requires Valid()
      modifies this`yOld, this`eOld
      ensures Valid()
      ensures Y == fft.PaddedFft(capture, old(yOld)) && E == fft.PaddedFft(e, old(eOld))
      ensures yOld == capture && eOld == e
    {
      Y := fft.PaddedFft(capture, yOld);
      yOld := capture;
      E := fft.PaddedFft(e, eOld);
      eOld := e;
    }

    /** Update the state with this block's spectra and estimate the residual echo. */
    method Analyse(renderBuffer: RenderBuffer, Y: Fft65, E: Fft65, output: SubtractorOutput) returns (R2: Bins, usable: bool)
      requires Valid()
      requires renderBuffer.blockBuffer.Valid() && renderBuffer.spectrumBuffer.Valid()
      modifies aecState.Repr, residualEchoEstimator
      ensures Valid()
      ensures usable == aecState.UsableLinearEstimate()
      ensures ResidualEchoEstimated(renderBuffer, Y, E, R2)
    {
      aecState.Update(renderBuffer, PowerSpectrum(E), PowerSpectrum(Y), output);
      usable := aecState.UsableLinearEstimate();
      R2 := residualEchoEstimator.Estimate(aecState, renderBuffer, LinearEchoPower(E, Y), PowerSpectrum(Y));
    }

    /**
     * The gain from the nearend (the residual's power capped by the capture's
     * power when the linear estimate is usable, else the capture's power) and
     * the residual echo, applied to the residual or the capture spectrum.
     */
    method ApplySuppression(Y: Fft65, E: Fft65, R2: Bins, usable: bool) returns (y: Block, ghost spectrum: Fft65, ghost gain: Bins)
      requires Valid()
      modifies suppressionGain.Repr, suppressionFilter
      ensures Valid()
      ensures spectrum == if usable then E else Y
      ensures GainFromSpectra(usable, Y, E, R2, old(suppressionGain.Memory()), suppressionGain.lastGain)
      ensures forall k :: 0 <= k < 65 ==> gain[k] == sqrt(suppressionGain.lastGain[k]) && 0.0 < suppressionGain.lastGain[k] <= 1.0
      ensures forall i :: 0 <= i < 64 ==>
        y[i] == Clip(OverlapAdd(old(suppressionFilter.outputOld)[i], fft.Ifft(GainScaled(spectrum, gain))[i], window[64 + i], window[i]))
    {
      var G := ComputeGain(Y, E, R2, usable);
      var suppressorInput := if usable then E else Y;
      y := suppressionFilter.ApplyGain(G, suppressorInput);
      spectrum, gain := suppressorInput, G;
    }

    /**
     * The gain half of `ApplySuppression`: the nearend spectrum is the capped
     * residual power or the capture power; the echo spectrum handed over with it
     * is not read by the gain computer.
     */
    method ComputeGain(Y: Fft65, E: Fft65, R2: Bins, usable: bool) returns (G: Bins)
      requires Valid()
      modifies suppressionGain.Repr
      ensures Valid()
      ensures GainFromSpectra(usable, Y, E, R2, old(suppressionGain.Memory()), suppressionGain.lastGain)
      ensures forall k :: 0 <= k < 65 ==> G[k] == sqrt(suppressionGain.lastGain[k]) && 0.0 < suppressionGain.lastGain[k] <= 1.0
    {
      var Y2 := PowerSpectrum(Y);
      var E2 := PowerSpectrum(E);
      if usable {
        E2 := MinBins(E2, Y2);
      }
      var nearend := if usable then E2 else Y2;
      var echo := if usable then LinearEchoPower(E, Y) else R2;
      assert nearend == NearendSpectrum(usable, Y, E);
      G := suppressionGain.GetGain(nearend, echo, R2, sqrt);
    }
  }

  /** The mean ERLE, accumulated front to back and divided by the bin count. */
  method ErleAverage(erle: Bins) returns (average: real)
    requires forall k :: 0 <= k < 65 ==> 1.0 <= erle[k] <= MaxErle
    ensures average == Mean(erle) && 1.0 <= average <= MaxErle
  {
    var total := 0.0;
    var i := 0;
    while i < 65
      invariant 0 <= i <= 65 && total == Sum(erle[..i])
    {
      assert erle[..i + 1][..i] == erle[..i];
      total := total + erle[i];
      i := i + 1;
    }
    assert erle[..65] == erle;
    average := total / 65.0;
    MeanErleInRange(erle);
  }
}

=== FILE: echoback.dfy ===
/**
 * The local echo-back loop: captured samples wait in a device FIFO and are
 * processed 64 at a time against a reference FIFO of earlier outputs; each
 * processed block goes through a fixed-length loopback delay line into a
 * jitter buffer, which starts feeding the speaker FIFO once it holds more than
 * the configured latency. Also the numeric command-line options.
 *
 * The canceller that turns a capture block and a reference block into an
 * output block is a parameter `aec`: the call it stands for is not defined in
 * this code base.
 */
module Echoback {
  import opened Numerics

  /** Samples per block; also the PortAudio period. */
  const BlockLen: nat := 64
  /** The device rate, fixed at 16 kHz. */
  const DeviceRate: int := 16000

  /** Maps a capture block and a reference block to an output block. */
  type Canceller = (seq<Int16>, seq<Int16>) -> seq<Int16>

  /** Every block the canceller returns has the block length. */
  ghost predicate BlockShaped(aec: Canceller)
  {
    forall a, b :: |aec(a, b)| == BlockLen
  }

  function Silence(n: nat): (s: seq<Int16>)
    ensures |s| == n && forall i :: 0 <= i < n ==> s[i] == 0
  {
    seq(n, _ => 0)
  }

  /** A short read padded with zeros up to `len` samples; a full one unchanged. */
  function ZeroFill(s: seq<Int16>, len: nat): (r: seq<Int16>)
    ensures |s| < len ==> r == s + Silence(len - |s|)
    ensures |s| >= len ==> r == s
  {
    if |s| < len then s + Silence(len - |s|) else s
  }

  /** `pop_samples`: remove min(size, n) samples from the front, returning them in order. */
  method PopSamples(q: seq<Int16>, n: nat) returns (rest: seq<Int16>, dst: seq<Int16>, m: nat)
    ensures m == if |q| < n then |q| else n
    ensures dst == q[..m] && rest == q[m..] && dst + rest == q
  {
    m := if |q| < n then |q| else n;
    rest, dst := q, [];
    var i := 0;
    while i < m
      invariant 0 <= i <= m && dst == q[..i] && rest == q[i..]
    {
      dst := dst + [rest[0]];
      rest := rest[1..];
      i := i + 1;
    }
  }

  /** `push_block`: append `src` in order. */
  method PushBlock(q: seq<Int16>, src: seq<Int16>) returns (r: seq<Int16>)
    ensures r == q + src
  {
    r := q;
    var i := 0;
    while i < |src|
      invariant 0 <= i <= |src| && r == q + src[..i]
    {
      r := r + [src[i]];
      i := i + 1;
    }
  }

  /** The five FIFOs and the jitter latch, as one value. */
  datatype Fifos = Fifos(
    recDev: seq<Int16>, outDev: seq<Int16>, refFifo: seq<Int16>,
    delayLine: seq<Int16>, jitter: seq<Int16>, needJitter: bool)

  /** The reference block: the oldest 64 queued outputs, or zeros when fewer wait. */
  function RefBlock(f: Fifos): (r: seq<Int16>)
    ensures |r| == BlockLen
    ensures |f.refFifo| >= BlockLen ==> r == f.refFifo[..BlockLen]
    ensures |f.refFifo| < BlockLen ==> r == Silence(BlockLen)
  {
    if |f.refFifo| >= BlockLen then f.refFifo[..BlockLen] else Silence(BlockLen)
  }

  /** The processed block: the capture block itself in passthrough mode, otherwise the canceller's output. */
  function OutBlock(f: Fifos, passthrough: bool, aec: Canceller): (out: seq<Int16>)
    requires |f.recDev| >= BlockLen && BlockShaped(aec)
    ensures |out| == BlockLen
    ensures passthrough ==> out == f.recDev[..BlockLen]
  {
    var rec := f.recDev[..BlockLen];
    if passthrough then rec else aec(rec, RefBlock(f))
  }

  /**
   * What leaves the delay line after `out` is pushed: its 64 oldest samples,
   * zero-padded if fewer. The line always holds at least the 64 just pushed,
   * so the padding is never used.
   */
  function Looped(line: seq<Int16>, out: seq<Int16>): (looped: seq<Int16>)
    requires |out| == BlockLen
    ensures |looped| == BlockLen
    ensures looped == (line + out)[..BlockLen]
  {
    var pushed := line + out;
    var m := if |pushed| < BlockLen then |pushed| else BlockLen;
    pushed[..m] + Silence(BlockLen - m)
  }

  /** The reference FIFO once the reference block has been taken from it. */
  function RefRest(refFifo: seq<Int16>): (r: seq<Int16>)
    ensures |refFifo| >= BlockLen ==> r == refFifo[BlockLen..]
    ensures |refFifo| < BlockLen ==> r == refFifo
  {
    if |refFifo| >= BlockLen then refFifo[BlockLen..] else refFifo
  }

  /** The jitter buffer, its latch and the block sent to the speaker FIFO. */
  datatype Playout = Playout(jitter: seq<Int16>, needJitter: bool, mixed: seq<Int16>)

  /**
   * The jitter stage: the looped block joins the buffer; the latch opens for
   * good once the buffer holds more than `latency` samples; while it is open
   * and a block waits, the oldest block plays, otherwise silence does.
   */
  function PlayoutStep(jitter: seq<Int16>, needJitter: bool, looped: seq<Int16>, latency: nat): (p: Playout)
    ensures |p.mixed| == BlockLen
    ensures p.needJitter ==> needJitter
    ensures jitter + looped == (if p.needJitter || |jitter + looped| < BlockLen then [] else p.mixed) + p.jitter
  {
    var buffered := jitter + looped;
    var need := needJitter && !(|buffered| > latency);
    if !need && |buffered| >= BlockLen then Playout(buffered[BlockLen..], need, buffered[..BlockLen])
    else Playout(buffered, need, Silence(BlockLen))
  }

  /** One pass of `process_available_blocks`' loop. */
  function BlockStep(f: Fifos, passthrough: bool, latency: nat, aec: Canceller): (g: Fifos)
    requires |f.recDev| >= BlockLen && BlockShaped(aec)
  {
    var out := OutBlock(f, passthrough, aec);
    var p := PlayoutStep(f.jitter, f.needJitter, Looped(f.delayLine, out), latency);
    Fifos(f.recDev[BlockLen..], f.outDev + p.mixed, RefRest(f.refFifo) + out,
          (f.delayLine + out)[BlockLen..], p.jitter, p.needJitter)
  }

  /** The whole loop: blocks are processed while a full capture block waits. */
  function Drain(f: Fifos, passthrough: bool, latency: nat, aec: Canceller): Fifos
    requires BlockShaped(aec)
    decreases |f.recDev|
  {
    if |f.recDev| < BlockLen then f else Drain(BlockStep(f, passthrough, latency, aec), passthrough, latency, aec)
  }

  /**
   * One block moves 64 capture samples out, 64 samples to the speaker FIFO and
   * 64 processed samples into the reference FIFO; the delay line gives out as
   * many samples as it takes in, so its length never changes and what it gives
   * out is the output delayed by that length.
   */
  lemma BlockStepMovesOneBlock(f: Fifos, passthrough: bool, latency: nat, aec: Canceller)
    requires |f.recDev| >= BlockLen && BlockShaped(aec)
    ensures var g := BlockStep(f, passthrough, latency, aec);
      var out := OutBlock(f, passthrough, aec);
      g.recDev == f.recDev[BlockLen..] && |g.outDev| == |f.outDev| + BlockLen &&
      g.outDev[..|f.outDev|] == f.outDev &&
      |g.delayLine| == |f.delayLine| &&
      Looped(f.delayLine, out) + g.delayLine == f.delayLine + out &&
      g.refFifo[|g.refFifo| - BlockLen..] == out &&
      (!f.needJitter ==> !g.needJitter)
  {
    var g := BlockStep(f, passthrough, latency, aec);
    var out := OutBlock(f, passthrough, aec);
    assert (f.delayLine + out)[..BlockLen] + (f.delayLine + out)[BlockLen..] == f.delayLine + out;
  }

  /**
   * The loop consumes whole blocks until fewer than 64 capture samples remain,
   * pushes exactly 64 samples to the speaker FIFO per block, keeps the delay
   * line's length and never re-arms the jitter latch.
   */
  lemma {:induction false} DrainConsumesWholeBlocks(f: Fifos, passthrough: bool, latency: nat, aec: Canceller)
    requires BlockShaped(aec)
    ensures var g := Drain(f, passthrough, latency, aec);
      var blocks := |f.recDev| / BlockLen;
      |g.recDev| < BlockLen && g.recDev == f.recDev[blocks * BlockLen..] &&
      |g.outDev| == |f.outDev| + blocks * BlockLen && g.outDev[..|f.outDev|] == f.outDev &&
      |g.delayLine| == |f.delayLine| &&
      (!f.needJitter ==> !g.needJitter)
    decreases |f.recDev|
  {
    if |f.recDev| >= BlockLen {
      var g := BlockStep(f, passthrough, latency, aec);
      BlockStepMovesOneBlock(f, passthrough, latency, aec);
      DrainConsumesWholeBlocks(g, passthrough, latency, aec);
      var blocks := |f.recDev| / BlockLen;
      assert |g.recDev| / BlockLen == blocks - 1;
      assert g.recDev[(blocks - 1) * BlockLen..] == f.recDev[blocks * BlockLen..];
      var h := Drain(g, passthrough, latency, aec);
      assert h.outDev[..|f.outDev|] == h.outDev[..|g.outDev|][..|f.outDev|];
    }
  }

  /** In passthrough mode each processed block is the capture block, so the loop hears its own input. */
  lemma PassthroughEchoesCapture(f: Fifos, latency: nat, aec: Canceller)
    requires |f.recDev| >= BlockLen && BlockShaped(aec)
    ensures var g := BlockStep(f, true, latency, aec);
      g.refFifo[|g.refFifo| - BlockLen..] == f.recDev[..BlockLen] &&
      Looped(f.delayLine, f.recDev[..BlockLen]) + g.delayLine == f.delayLine + f.recDev[..BlockLen]
  {
    BlockStepMovesOneBlock(f, true, latency, aec);
  }

  /** The echo-back state. */
  class State {
    var recDev: seq<Int16>
    var outDev: seq<Int16>
    var refFifo: seq<Int16>
    var loopbackDelayLine: seq<Int16>
    var jitter: seq<Int16>
    var needJitter: bool
    var passthrough: bool
    var latencySamples: nat

    ghost function Queues(): Fifos
      reads this
    {
      Fifos(recDev, outDev, refFifo, loopbackDelayLine, jitter, needJitter)
    }

    /** The state `main` sets up from the parsed options. */
    constructor (opts: Options)
      requires 0 <= opts.latencyMs && 0 <= opts.loopbackDelayMs
      ensures recDev == [] && outDev == [] && refFifo == [] && jitter == [] && needJitter
      ensures passthrough == opts.passthrough && latencySamples == MsToSamples(opts.latencyMs)
      ensures loopbackDelayLine == Silence(MsToSamples(opts.loopbackDelayMs))
    {
      recDev, outDev, refFifo, jitter := [], [], [], [];
      needJitter := true;
      passthrough := opts.passthrough;
      latencySamples := MsToSamples(opts.latencyMs);
      loopbackDelayLine := Silence(MsToSamples(opts.loopbackDelayMs));
    }

    /** `process_available_blocks`. */
    method ProcessAvailableBlocks(aec: Canceller)
      requires BlockShaped(aec)
      modifies this
      ensures Queues() == Drain(old(Queues()), passthrough, latencySamples, aec)
      ensures passthrough == old(passthrough) && latencySamples == old(latencySamples)
    {
      while |recDev| >= BlockLen
        invariant passthrough == old(passthrough) && latencySamples == old(latencySamples)
        invariant Drain(Queues(), passthrough, latencySamples, aec) == Drain(old(Queues()), passthrough, latencySamples, aec)
        decreases |recDev|
      {
        ProcessBlock(aec);
      }
    }

    /** One pass of the loop, FIFO by FIFO as the source does it. */
    method ProcessBlock(aec: Canceller)
      requires BlockShaped(aec) && |recDev| >= BlockLen
      modifies this
      ensures Queues() == BlockStep(old(Queues()), passthrough, latencySamples, aec)
      ensures passthrough == old(passthrough) && latencySamples == old(latencySamples)
    {
      ghost var f := Queues();
      var rec, ref := TakeBlocks();
      var out := if passthrough then rec else aec(rec, ref);
      assert out == OutBlock(f, passthrough, aec);
      var looped := LoopBack(out);
      PlayOut(looped);
    }

    /** The capture block, and the reference block or silence. */
    method TakeBlocks() returns (rec: seq<Int16>, ref: seq<Int16>)
      requires |recDev| >= BlockLen
      modifies this`recDev, this`refFifo
      ensures rec == old(recDev)[..BlockLen] && recDev == old(recDev)[BlockLen..]
      ensures ref == RefBlock(old(Queues())) && refFifo == RefRest(old(refFifo))
    {
      var n;
      recDev, rec, n := PopSamples(recDev, BlockLen);
      if |refFifo| >= BlockLen {
        refFifo, ref, n := PopSamples(refFifo, BlockLen);
      } else {
        ref := Silence(BlockLen);
      }
    }

    /** The processed block is queued as a later reference and pushed through the loopback delay line. */
    method LoopBack(out: seq<Int16>) returns (looped: seq<Int16>)
      requires |out| == BlockLen
      modifies this`refFifo, this`loopbackDelayLine
      ensures refFifo == old(refFifo) + out
      ensures looped == Looped(old(loopbackDelayLine), out)
      ensures loopbackDelayLine == (old(loopbackDelayLine) + out)[BlockLen..]
    {
      refFifo := PushBlock(refFifo, out);
      loopbackDelayLine := PushBlock(loopbackDelayLine, out);
      var forwarded;
      loopbackDelayLine, looped, forwarded := PopSamples(loopbackDelayLine, BlockLen);
      looped := ZeroFill(looped, BlockLen);
    }

    /** The jitter stage and the push to the speaker FIFO. */
    method PlayOut(looped: seq<Int16>)
      modifies this`jitter, this`needJitter, this`outDev
      ensures var p := PlayoutStep(old(jitter), old(needJitter), looped, latencySamples);
        jitter == p.jitter && needJitter == p.needJitter && outDev == old(outDev) + p.mixed
    {
      jitter := PushBlock(jitter, looped);
      if needJitter && |jitter| > latencySamples {
        needJitter := false;
      }
      var mixed, n;
      if !needJitter && |jitter| >= BlockLen {
        jitter, mixed, n := PopSamples(jitter, BlockLen);
      } else {
        mixed := Silence(BlockLen);
      }
      outDev := PushBlock(outDev, mixed);
    }
  }

  // ---------------------------------------------------------------------------
  // Command-line options

  /** The options `main` reads; the defaults are no latency and a 150 ms loopback delay. */
  datatype Options = Options(
    passthrough: bool, noLinear: bool, noNonlinear: bool,
    latencyMs: int, loopbackDelayMs: int, help: bool)

  const DefaultOptions: Options := Options(false, false, false, 0, 150, false)

  /** `dev_sr * ms / 1000` in 64-bit arithmetic: 16 samples per millisecond. */
  function MsToSamples(ms: int): (n: nat)
    requires ms >= 0
    ensures n == 16 * ms
  {
    DeviceRate * ms / 1000
  }

  predicate IsSpace(c: char)
  {
    c == ' ' || c == '\t' || c == '\n' || c == '\U{000B}' || c == '\U{000C}' || c == '\r'
  }

  predicate IsDigit(c: char)
  {
    '0' <= c <= '9'
  }

  /** The first index at or after `i` that is not white space. */
  function SkipSpace(s: string, i: nat): (j: nat)
    requires i <= |s|
    ensures i <= j <= |s| && (j < |s| ==> !IsSpace(s[j]))
    ensures forall k :: i <= k < j ==> IsSpace(s[k])
    decreases |s| - i
  {
    if i < |s| && IsSpace(s[i]) then SkipSpace(s, i + 1) else i
  }

  /** The first index at or after `i` that is not a decimal digit. */
  function DigitsEnd(s: string, i: nat): (j: nat)
    requires i <= |s|
    ensures i <= j <= |s| && (j < |s| ==> !IsDigit(s[j]))
    ensures forall k :: i <= k < j ==> IsDigit(s[k])
    decreases |s| - i
  {
    if i < |s| && IsDigit(s[i]) then DigitsEnd(s, i + 1) else i
  }

  /** The decimal value of the digits `s[i..j]`. */
  function DigitsValue(s: string, i: nat, j: nat): (v: nat)
    requires i <= j <= |s|
    decreases j - i
  {
    if j == i then 0 else 10 * DigitsValue(s, i, j - 1) + (s[j - 1] as int - '0' as int) % 10
  }

  /** Where the digits begin: after white space and one optional sign. */
  function DigitsStart(s: string): (i: nat)
    ensures i <= |s|
  {
    var i := SkipSpace(s, 0);
    if HasSign(s) then i + 1 else i
  }

  predicate HasSign(s: string)
  {
    var i := SkipSpace(s, 0);
    i < |s| && (s[i] == '+' || s[i] == '-')
  }

  /**
   * `strtol(s, &endp, 10)`: the value and the index `endp` points at. Without
   * any digit nothing is consumed: the value is 0 and `endp` is the start.
   * Values past the range of `long` are not clamped here; they are all
   * rejected by the caller's range check either way.
   */
  function Strtol(s: string): (r: (int, nat))
    ensures r.1 <= |s|
    ensures r.1 == 0 <==> DigitsEnd(s, DigitsStart(s)) == DigitsStart(s)
    ensures r.1 == 0 ==> r.0 == 0
    ensures r.1 > 0 ==> r.1 == DigitsEnd(s, DigitsStart(s))
    ensures r.1 > 0 ==> r.0 == DigitsValue(s, DigitsStart(s), r.1) || r.0 == -(DigitsValue(s, DigitsStart(s), r.1) as int)
    ensures r.0 < 0 ==> HasSign(s) && s[SkipSpace(s, 0)] == '-'
  {
    var i := DigitsStart(s);
    var j := DigitsEnd(s, i);
    if j == i then (0, 0)
    else
      var negative := HasSign(s) && s[SkipSpace(s, 0)] == '-';
      var magnitude: int := DigitsValue(s, i, j);
      var value := if negative then -magnitude else magnitude;
      (value, j)
  }

  /** The value of digits depends only on those digits, wherever they sit. */
  lemma {:induction false} DigitsValueShift(p: string, t: string, k: nat)
    requires k <= |t|
    ensures DigitsValue(p + t, |p|, |p| + k) == DigitsValue(t, 0, k)
    decreases k
  {
    if k > 0 {
      DigitsValueShift(p, t, k - 1);
      assert (p + t)[|p| + k - 1] == t[k - 1];
    }
  }

  /**
   * `strtol` reads back what a decimal rendering writes: the optional minus sign and
   * the digits of `n` give `n` or `-n`, and `endp` is the end of the string.
   */
  lemma StrtolDecimal(n: nat, negative: bool)
    ensures var s := (if negative then "-" else "") + Decimal(n);
      Strtol(s) == (if negative then -(n as int) else n, |s|)
  {
    var p := if negative then "-" else "";
    var d := Decimal(n);
    var s := p + d;
    assert s[0] == (if negative then '-' else d[0]);
    assert !IsSpace(s[0]);
    assert SkipSpace(s, 0) == 0;
    assert DigitsStart(s) == |p|;
    forall k | |p| <= k < |s| ensures IsDigit(s[k]) {
      assert s[k] == d[k - |p|];
    }
    assert DigitsEnd(s, |p|) == |s|;
    DigitsOfDecimal(n);
    DigitsValueShift(p, d, |d|);
  }

  /** The check applied to each millisecond option: the whole string parsed, and 0 <= v < 10000. */
  function ParseMs(s: string): (r: Option<int>)
    ensures r.Some? ==> 0 <= r.value < 10000
  {
    var (v, end) := Strtol(s);
    if end == |s| && 0 <= v < 10000 then Some(v) else None
  }

  /**
   * An accepted value is white space, an optional sign and digits only; the
   * empty string, where `endp` stays at the terminator, is accepted as 0.
   */
  lemma ParseMsAcceptsOnlyDecimal(s: string)
    ensures ParseMs(s).Some? && s != [] ==>
      forall k :: DigitsStart(s) <= k < |s| ==> IsDigit(s[k])
    ensures ParseMs("") == Some(0)
  {
  }

  /** The decimal spelling of a natural number. */
  function Decimal(v: nat): (s: string)
    ensures |s| > 0 && forall k :: 0 <= k < |s| ==> IsDigit(s[k])
    decreases v
  {
    var d := [('0' as int + v % 10) as char];
    if v < 10 then d else Decimal(v / 10) + d
  }

  lemma {:induction false} DigitsOfDecimal(v: nat)
    ensures DigitsEnd(Decimal(v), 0) == |Decimal(v)|
    ensures DigitsValue(Decimal(v), 0, |Decimal(v)|) == v
    decreases v
  {
    var s := Decimal(v);
    DigitsRun(s, 0);
    if v >= 10 {
      var p := Decimal(v / 10);
      DigitsOfDecimal(v / 10);
      DigitsValuePrefix(p, s, |p|);
    }
  }

  /** Every digit run reaches the end of an all-digit string. */
  lemma {:induction false} DigitsRun(s: string, i: nat)
    requires i <= |s| && forall k :: 0 <= k < |s| ==> IsDigit(s[k])
    ensures DigitsEnd(s, i) == |s|
    decreases |s| - i
  {
    if i < |s| {
      DigitsRun(s, i + 1);
    }
  }

  /** The value of a prefix's digits does not depend on what follows. */
  lemma {:induction false} DigitsValuePrefix(p: string, s: string, j: nat)
    requires j <= |p| <= |s| && s[..|p|] == p
    ensures DigitsValue(s, 0, j) == DigitsValue(p, 0, j)
    decreases j
  {
    if j > 0 {
      DigitsValuePrefix(p, s, j - 1);
      assert s[j - 1] == p[j - 1];
    }
  }

  /** Every value the check accepts is accepted when written in decimal. */
  lemma ParseMsDecimal(v: nat)
    requires v < 10000
    ensures ParseMs(Decimal(v)) == Some(v)
  {
    var s := Decimal(v);
    DigitsOfDecimal(v);
    assert !IsSpace(s[0]) && s[0] != '+' && s[0] != '-';
    assert SkipSpace(s, 0) == 0;
  }

  /** Whether `s` starts with `prefix`: `arg.rfind(prefix, 0) == 0`. */
  predicate StartsWith(s: string, prefix: string)
  {
    |prefix| <= |s| && s[..|prefix|] == prefix
  }

  /** A millisecond option value: taken when accepted, otherwise ignored. */
  function TakeMs(current: int, value: string): (r: int)
    ensures r == current || 0 <= r < 10000
    ensures ParseMs(value).Some? ==> r == ParseMs(value).value
    ensures ParseMs(value).None? ==> r == current
  {
    match ParseMs(value)
    case Some(v) => v
    case None => current
  }

  /**
   * One argument of `main`'s loop: the options after it and the index of the
   * next argument (a separate value is consumed with its option).
   */
  function ArgStep(args: seq<string>, i: nat, o: Options): (r: (Options, nat))
    requires i < |args|
    ensures i < r.1 <= |args|
    ensures r.0.latencyMs == o.latencyMs || 0 <= r.0.latencyMs < 10000
    ensures r.0.loopbackDelayMs == o.loopbackDelayMs || 0 <= r.0.loopbackDelayMs < 10000
  {
    var arg := args[i];
    if arg == "--passthrough" || arg == "-p" then (o.(passthrough := true), i + 1)
    else if arg == "--no-linear" then (o.(noLinear := true), i + 1)
    else if arg == "--no-nonlinear" then (o.(noNonlinear := true), i + 1)
    else if arg == "--linear-only" then (o.(noNonlinear := true, noLinear := false), i + 1)
    else if arg == "--nonlinear-only" then (o.(noLinear := true, noNonlinear := false), i + 1)
    else if arg == "--help" || arg == "-h" then (o.(help := true), i + 1)
    else if arg == "--latency-ms" then
      if i + 1 < |args| then (o.(latencyMs := TakeMs(o.latencyMs, args[i + 1])), i + 2) else (o, i + 1)
    else if StartsWith(arg, "--latency-ms=") then
      (o.(latencyMs := TakeMs(o.latencyMs, arg[|"--latency-ms="|..])), i + 1)
    else if arg == "--loopback-delay-ms" then
      if i + 1 < |args| then (o.(loopbackDelayMs := TakeMs(o.loopbackDelayMs, args[i + 1])), i + 2) else (o, i + 1)
    else if StartsWith(arg, "--loopback-delay-ms=") then
      (o.(loopbackDelayMs := TakeMs(o.loopbackDelayMs, arg[|"--loopback-delay-ms="|..])), i + 1)
    else (o, i + 1)
  }

  /** The loop from argument `i` on; `--help` ends it. */
  function ArgsFrom(args: seq<string>, i: nat, o: Options): Options
    requires i <= |args|
    decreases |args| - i
  {
    if i == |args| || o.help then o
    else
      var (o', next) := ArgStep(args, i, o);
      ArgsFrom(args, next, o')
  }

  /** Both millisecond options always end up within 0 <= v < 10000. */
  lemma {:induction false} ArgsKeepRange(args: seq<string>, i: nat, o: Options)
    requires i <= |args| && 0 <= o.latencyMs < 10000 && 0 <= o.loopbackDelayMs < 10000
    ensures var r := ArgsFrom(args, i, o); 0 <= r.latencyMs < 10000 && 0 <= r.loopbackDelayMs < 10000
    decreases |args| - i
  {
    if i < |args| && !o.help {
      var (o', next) := ArgStep(args, i, o);
      ArgsKeepRange(args, next, o');
    }
  }

  /** `main`'s argument loop over `argv[1..]`. */
  method ParseArgs(args: seq<string>) returns (opts: Options)
    ensures opts == ArgsFrom(args, 0, DefaultOptions)
    ensures 0 <= opts.latencyMs < 10000 && 0 <= opts.loopbackDelayMs < 10000
  {
    ArgsKeepRange(args, 0, DefaultOptions);
    opts := DefaultOptions;
    var i := 0;
    while i < |args| && !opts.help
      invariant 0 <= i <= |args|
      invariant ArgsFrom(args, i, opts) == ArgsFrom(args, 0, DefaultOptions)
      decreases |args| - i
    {
      opts, i := ApplyArg(args, i, opts);
    }
  }

  /** One pass of the argument loop: the `if` chain over the recognised options. */
  method ApplyArg(args: seq<string>, i: nat, o: Options) returns (opts: Options, next: nat)
    requires i < |args|
    ensures (opts, next) == ArgStep(args, i, o)
  {
    opts, next := o, i;
    var arg := args[i];
    if arg == "--passthrough" || arg == "-p" {
      opts := opts.(passthrough := true);
    } else if arg == "--no-linear" {
      opts := opts.(noLinear := true);
    } else if arg == "--no-nonlinear" {
      opts := opts.(noNonlinear := true);
    } else if arg == "--linear-only" {
      opts := opts.(noNonlinear := true, noLinear := false);
    } else if arg == "--nonlinear-only" {
      opts := opts.(noLinear := true, noNonlinear := false);
    } else if arg == "--help" || arg == "-h" {
      opts := opts.(help := true);
    } else if arg == "--latency-ms" {
      if next + 1 < |args| {
        next := next + 1;
        opts := opts.(latencyMs := TakeMs(opts.latencyMs, args[next]));
      }
    } else if StartsWith(arg, "--latency-ms=") {
      opts := opts.(latencyMs := TakeMs(opts.latencyMs, arg[|"--latency-ms="|..]));
    } else if arg == "--loopback-delay-ms" {
      if next + 1 < |args| {
        next := next + 1;
        opts := opts.(loopbackDelayMs := TakeMs(opts.loopbackDelayMs, args[next]));
      }
    } else if StartsWith(arg, "--loopback-delay-ms=") {
      opts := opts.(loopbackDelayMs := TakeMs(opts.loopbackDelayMs, arg[|"--loopback-delay-ms="|..]));
    }
    next := next + 1;
  }
}

=== FILE: erle_estimator.dfy ===
/**
 * The echo return loss enhancement per bin: capture power over residual power,
 * clamped to [1, 64], frozen during a startup phase after each reset.
 */
module Erle {
  import opened Numerics
  import opened Fft

  const MaxErle: real := 64.0
  /** The floor both powers are raised to before dividing. */
  const MinPower: real := 0.000001

  /** The ERLE of one bin from the capture power `y2` and the residual power `e2`. */
  function ErleOf(y2: real, e2: real): (r: real)
    ensures 1.0 <= r <= MaxErle
  {
    Max(1.0, Min(Max(y2, MinPower) / Max(e2, MinPower), MaxErle))
  }

  /** More capture power for the same residual never lowers the ERLE. */
  lemma ErleOfMonotone(y2: real, y2b: real, e2: real)
    requires y2 <= y2b
    ensures ErleOf(y2, e2) <= ErleOf(y2b, e2)
  {
    var d := Max(e2, MinPower);
    assert Max(y2, MinPower) <= Max(y2b, MinPower);
    assert Max(y2, MinPower) / d <= Max(y2b, MinPower) / d by {
      assert d > 0.0;
      assert Max(y2b, MinPower) / d - Max(y2, MinPower) / d == (Max(y2b, MinPower) - Max(y2, MinPower)) / d;
    }
  }

  /** Within the clamp range the ERLE is exactly the power ratio. */
  lemma ErleOfIsRatio(y2: real, e2: real)
    requires y2 >= MinPower && e2 >= MinPower && e2 <= y2 <= MaxErle * e2
    ensures ErleOf(y2, e2) == y2 / e2
  {
    var r := y2 / e2;
    RatioInRange(y2, e2);
    assert Max(y2, MinPower) == y2 && Max(e2, MinPower) == e2;
    assert Min(r, MaxErle) == r;
  }

  lemma RatioInRange(y2: real, e2: real)
    requires e2 > 0.0 && e2 <= y2 <= MaxErle * e2
    ensures 1.0 <= y2 / e2 <= MaxErle
  {
    var r := y2 / e2;
    assert r * e2 == y2;
    ProductSign(1.0 - r, e2);
    ProductSign(r - MaxErle, e2);
  }

  class ErleEstimator {
    const startupPhaseLengthBlocks: nat
    var erle: Bins
    var blocksSinceReset: nat

    /** Every bin's ERLE lies in [1, 64]. */
    ghost predicate Valid()
      reads this
    {
      forall k :: 0 <= k < 65 ==> 1.0 <= erle[k] <= MaxErle
    }

    /** Construction is a reset with a delay change. */
    constructor (startupPhaseLengthBlocks: nat)
      ensures Valid() && this.startupPhaseLengthBlocks == startupPhaseLengthBlocks
      ensures forall k :: 0 <= k < 65 ==> erle[k] == 1.0
      ensures blocksSinceReset == 0
    {
      this.startupPhaseLengthBlocks := startupPhaseLengthBlocks;
      erle := seq(65, _ => 1.0);
      blocksSinceReset := 0;
    }

    /** `Reset`: every ERLE back to 1; the startup phase restarts only on a delay change. */
    method Reset(delayChange: bool)
      modifies this
      ensures Valid()
      ensures forall k :: 0 <= k < 65 ==> erle[k] == 1.0
      ensures blocksSinceReset == if delayChange then 0 else old(blocksSinceReset)
    {
      erle := seq(65, _ => 1.0);
      if delayChange {
        blocksSinceReset := 0;
      }
    }

    /**
     * `Update`: count the block; during the startup phase nothing else changes,
     * afterwards every bin takes the clamped power ratio.
     */
    method Update(Y2: Bins, E2: Bins)
      requires Valid()
      modifies this
      ensures Valid()
      ensures blocksSinceReset == old(blocksSinceReset) + 1
      ensures blocksSinceReset < startupPhaseLengthBlocks ==> erle == old(erle)
      ensures blocksSinceReset >= startupPhaseLengthBlocks ==> forall k :: 0 <= k < 65 ==> erle[k] == ErleOf(Y2[k], E2[k])
    {
      blocksSinceReset := blocksSinceReset + 1;
      if blocksSinceReset < startupPhaseLengthBlocks {
        return;
      }
      var a := new real[65](_ => 1.0);
      var k := 0;
      while k < 65
        modifies a
        invariant 0 <= k <= 65
        invariant forall i :: 0 <= i < k ==> a[i] == ErleOf(Y2[i], E2[i])
      {
        var e2 := Max(E2[k], MinPower);
        var y2 := Max(Y2[k], MinPower);
        var erleLin := y2 / e2;
        var maxErle := MaxErle;
        a[k] := Max(1.0, Min(erleLin, maxErle));
        k := k + 1;
      }
      erle := a[..];
    }

    function Erle(): (r: Bins)
      reads this
      requires Valid()
      ensures forall k :: 0 <= k < 65 ==> 1.0 <= r[k] <= MaxErle
    {
      erle
    }
  }
}

=== FILE: fft_data.dfy ===
/**
 * The 65-bin half spectrum of a 128-point real FFT, its packed-array layout, and
 * the transform interface the canceller uses.
 */
module Fft {
  import opened Aec3Common

  /** Real and imaginary parts of bins 0..64. */
  datatype FftData = FftData(re: seq<real>, im: seq<real>)
  {
    predicate Valid() { |re| == FftLengthBy2Plus1 && |im| == FftLengthBy2Plus1 }
  }

  /** An FftData of the right shape. */
  type Fft65 = x: FftData | x.Valid() witness FftData(seq(65, _ => 0.0), seq(65, _ => 0.0))

  /** 65 real values, one per bin (a power spectrum, a gain, an ERLE). */
  type Bins = s: seq<real> | |s| == 65 witness seq(65, _ => 0.0)

  /** 128 real values: a time-domain frame or a packed spectrum. */
  type Packed = s: seq<real> | |s| == 128 witness seq(128, _ => 0.0)

  /**
   * The 128-point transforms. They are parameters of the model: only their
   * shapes are known (65 bins out of a forward transform, 128 samples out of an
   * inverse one); PaddedFft windows the concatenation of an old and a new block,
   * ZeroPaddedFft transforms a block preceded by 64 zeros.
   */
  datatype Aec3Fft = Aec3Fft(
    Fft: Packed -> Fft65,
    Ifft: Fft65 -> Packed,
    PaddedFft: (seq<real>, seq<real>) -> Fft65,
    ZeroPaddedFft: seq<real> -> Fft65)

  /** Bin `k` of the sum of `rows`, accumulated row by row. */
  function ColumnSum(rows: seq<Bins>, k: int): real
    requires 0 <= k < 65
  {
    if rows == [] then 0.0 else ColumnSum(rows[..|rows| - 1], k) + rows[|rows| - 1][k]
  }

  /** Adding one more row adds its bin. */
  lemma ColumnSumAppend(rows: seq<Bins>, row: Bins, k: int)
    requires 0 <= k < 65
    ensures ColumnSum(rows + [row], k) == ColumnSum(rows, k) + row[k]
  {
    assert (rows + [row])[..|rows|] == rows;
  }

  /** A sum of non-negative spectra is non-negative. */
  lemma {:induction false} ColumnSumNonNegative(rows: seq<Bins>, k: int)
    requires 0 <= k < 65
    requires forall p :: 0 <= p < |rows| ==> rows[p][k] >= 0.0
    ensures ColumnSum(rows, k) >= 0.0
  {
    if rows != [] {
      ColumnSumNonNegative(rows[..|rows| - 1], k);
    }
  }

  /** `Assign`: copy of `src` with the imaginary parts of DC and Nyquist forced to 0. */
  function Assign(src: Fft65): (dst: Fft65)
    ensures dst.re == src.re
    ensures dst.im[0] == 0.0 && dst.im[FftLengthBy2] == 0.0
    ensures forall k :: 0 < k < FftLengthBy2 ==> dst.im[k] == src.im[k]
  {
    FftData(src.re, src.im[0 := 0.0][64 := 0.0])
  }

  /** `Clear`: every real and imaginary part 0. */
  function Cleared(): (x: Fft65)
    ensures forall k :: 0 <= k < FftLengthBy2Plus1 ==> x.re[k] == 0.0 && x.im[k] == 0.0
  {
    FftData(seq(65, _ => 0.0), seq(65, _ => 0.0))
  }

  /** `Spectrum`: the power of each bin, which is never negative. */
  function PowerSpectrum(x: Fft65): (p: Bins)
    ensures forall k :: 0 <= k < FftLengthBy2Plus1 ==> p[k] == x.re[k] * x.re[k] + x.im[k] * x.im[k]
    ensures forall k :: 0 <= k < FftLengthBy2Plus1 ==> p[k] >= 0.0
  {
    seq(65, k requires 0 <= k < 65 => x.re[k] * x.re[k] + x.im[k] * x.im[k])
  }

  /** The layout of the packed array: re[0], re[64], then re[k], im[k] for k = 1..63. */
  function Unpack(v: Packed): Fft65
  {
    FftData(
      seq(65, k requires 0 <= k < 65 => if k == 0 then v[0] else if k == 64 then v[1] else v[2 * k]),
      seq(65, k requires 0 <= k < 65 => if k == 0 || k == 64 then 0.0 else v[2 * k + 1]))
  }

  function Pack(x: Fft65): Packed
  {
    seq(128, j requires 0 <= j < 128 =>
      if j == 0 then x.re[0]
      else if j == 1 then x.re[64]
      else if j % 2 == 0 then x.re[j / 2]
      else x.im[j / 2])
  }

  /** Unpacking then packing gives back the packed array. */
  lemma PackUnpack(v: Packed)
    ensures Pack(Unpack(v)) == v
  {
    var x := Unpack(v);
    forall j | 0 <= j < 128
      ensures Pack(x)[j] == v[j]
    {
      if j >= 2 {
        assert 1 <= j / 2 < 64;
        if j % 2 == 0 {
          assert 2 * (j / 2) == j;
        } else {
          assert 2 * (j / 2) + 1 == j;
        }
      }
    }
  }

  /**
   * Packing then unpacking gives back the spectrum exactly when the imaginary
   * parts of DC and Nyquist are 0 (the packed layout has no room for them).
   */
  lemma UnpackPack(x: Fft65)
    ensures Unpack(Pack(x)) == x <==> x.im[0] == 0.0 && x.im[64] == 0.0
  {
    var y := Unpack(Pack(x));
    assert y.im[0] == 0.0 && y.im[64] == 0.0;
    if x.im[0] == 0.0 && x.im[64] == 0.0 {
      forall k | 0 <= k < 65
        ensures y.re[k] == x.re[k] && y.im[k] == x.im[k]
      {
        if 0 < k < 64 {
          assert (2 * k) / 2 == k && (2 * k + 1) / 2 == k;
        }
      }
      assert y.re == x.re && y.im == x.im;
    }
  }

  /** Assign is what a pack/unpack round trip does to a spectrum. */
  lemma AssignIsRoundTrip(x: Fft65)
    ensures Unpack(Pack(x)) == Assign(x)
  {
    var a := Assign(x);
    UnpackPack(a);
    assert Pack(a) == Pack(x);
  }

  /** `CopyFromPackedArray`: fill the bins from a packed array, two values per bin. */
  method CopyFromPackedArray(v: Packed) returns (x: Fft65)
    ensures x == Unpack(v)
  {
    var re := new real[65];
    var im := new real[65];
    re[0] := v[0];
    re[64] := v[1];
    im[0], im[64] := 0.0, 0.0;
    var k, j := 1, 2;
    while k < 64
      invariant 1 <= k <= 64 && j == 2 * k
      invariant re[0] == v[0] && re[64] == v[1] && im[0] == 0.0 && im[64] == 0.0
      invariant forall i :: 1 <= i < k ==> re[i] == v[2 * i] && im[i] == v[2 * i + 1]
    {
      re[k] := v[j];
      j := j + 1;
      im[k] := v[j];
      j := j + 1;
      k := k + 1;
    }
    x := FftData(re[..], im[..]);
    assert x.re == Unpack(v).re;
    assert x.im == Unpack(v).im;
  }

  /** `CopyToPackedArray`: the inverse layout; the imaginary parts of bins 0 and 64 are dropped. */
  method CopyToPackedArray(x: Fft65) returns (v: Packed)
    ensures v == Pack(x)
  {
    var a := new real[128];
    a[0] := x.re[0];
    a[1] := x.re[64];
    var k, j := 1, 2;
    while k < 64
      invariant 1 <= k <= 64 && j == 2 * k
      invariant a[0] == x.re[0] && a[1] == x.re[64]
      invariant forall i :: 1 <= i < k ==> a[2 * i] == x.re[i] && a[2 * i + 1] == x.im[i]
    {
      a[j] := x.re[k];
      j := j + 1;
      a[j] := x.im[k];
      j := j + 1;
      k := k + 1;
    }
    v := a[..];
    forall i | 2 <= i < 128
      ensures v[i] == Pack(x)[i]
    {
      var h := i / 2;
      assert 1 <= h < 64;
      if i % 2 == 0 {
        assert i == 2 * h;
      } else {
        assert i == 2 * h + 1;
      }
    }
  }
}

=== FILE: filter_update_gain.dfy ===
/**
 * The normalized step size of the linear filter: a per-bin gain that is zero
 * during warm-up and for quiet render bins, and a per-bin error estimate
 * `H_error` that shrinks with each step and leaks back up with the echo return
 * loss, kept within [0.001, 2].
 */
module FilterUpdate {
  import opened Numerics
  import opened Fft
  import opened EchoPathVariability
  import opened SubtractorOutputs

  const LeakageConverged: real := 0.00005
  const LeakageDiverged: real := 0.05
  const ErrorFloor: real := 0.001
  const ErrorCeil: real := 2.0
  /** Render power below which a bin gets no adaptation. */
  const NoiseGate: real := 20075344.0
  const HErrorInitial: real := 10000.0
  const PoorExcitationCounterInitial: nat := 1000

  /**
   * The gain is zero while, after this call's increments, the poor-excitation
   * counter is below the partition count or the call counter has not passed it.
   */
  predicate GainSuppressed(poorExcitationCounter: nat, callCounter: nat, sizePartitions: nat)
  {
    poorExcitationCounter + 1 < sizePartitions || callCounter + 1 <= sizePartitions
  }

  /** The step size of bin `k`: zero below the noise gate. */
  function Mu(hError: real, x2: real, e2: real, sizePartitions: nat): (mu: real)
    requires hError >= ErrorFloor && e2 >= 0.0
    ensures x2 < NoiseGate ==> mu == 0.0
    ensures x2 >= NoiseGate ==> mu > 0.0 && mu * (0.5 * hError * x2 + (sizePartitions as real) * e2) == hError
  {
    if x2 >= NoiseGate then
      var d := 0.5 * hError * x2 + (sizePartitions as real) * e2;
      assert d > 0.0 by {
        assert hError * x2 >= ErrorFloor * NoiseGate;
        assert (sizePartitions as real) * e2 >= 0.0;
      }
      hError / d
    else 0.0
  }

  /** `H_error` after the step: `h - 0.5 mu X2 h`. */
  function Stepped(hError: real, x2: real, e2: real, sizePartitions: nat): real
    requires hError >= ErrorFloor && e2 >= 0.0
  {
    hError - 0.5 * Mu(hError, x2, e2, sizePartitions) * x2 * hError
  }

  /**
   * The step never drives the error estimate negative: `0.5 mu X2` is the share
   * of the normalizing denominator taken by the render term, at most 1.
   */
  lemma SteppedNonNegative(hError: real, x2: real, e2: real, sizePartitions: nat)
    requires hError >= ErrorFloor && e2 >= 0.0
    ensures 0.0 <= Stepped(hError, x2, e2, sizePartitions) <= hError
  {
    var mu := Mu(hError, x2, e2, sizePartitions);
    if x2 >= NoiseGate {
      var d := 0.5 * hError * x2 + (sizePartitions as real) * e2;
      var a := 0.5 * hError * x2;
      assert (sizePartitions as real) * e2 >= 0.0;
      assert 0.0 < a <= d;
      assert mu * d == hError;
      assert mu * a <= mu * d by {
        assert mu > 0.0;
      }
      assert 0.5 * mu * x2 * hError == mu * a;
      assert Stepped(hError, x2, e2, sizePartitions) == hError - mu * a;
    }
  }

  /** The leak: slow while the residual holds at most half the capture energy, fast otherwise. */
  function Leakage(e2: real, y2: real): (l: real)
    ensures e2 <= 0.5 * y2 ==> l == LeakageConverged
    ensures e2 > 0.5 * y2 ==> l == LeakageDiverged
  {
    if e2 <= 0.5 * y2 then LeakageConverged else LeakageDiverged
  }

  /** The new `H_error` of one bin: step (unless suppressed), leak, clamp to [0.001, 2]. */
  function NextHError(hError: real, x2: real, e2Bin: real, erl: real, suppressed: bool, leak: real,
                      sizePartitions: nat): (h: real)
    requires hError >= ErrorFloor && e2Bin >= 0.0
    ensures ErrorFloor <= h <= ErrorCeil
  {
    var stepped := if suppressed then hError else Stepped(hError, x2, e2Bin, sizePartitions);
    Clamp(stepped + leak * erl, ErrorFloor, ErrorCeil)
  }

  /** The gain spectrum: zero while suppressed, otherwise the residual spectrum scaled by the step sizes. */
  function Gain(hError: Bins, x2: Bins, E2: Bins, E: Fft65, suppressed: bool, sizePartitions: nat): (G: Fft65)
    requires forall k :: 0 <= k < 65 ==> hError[k] >= ErrorFloor && E2[k] >= 0.0
    ensures suppressed ==> G == Cleared()
    ensures forall k :: 0 <= k < 65 && x2[k] < NoiseGate ==> G.re[k] == 0.0 && G.im[k] == 0.0
  {
    if suppressed then Cleared()
    else FftData(seq(65, k requires 0 <= k < 65 => Mu(hError[k], x2[k], E2[k], sizePartitions) * E.re[k]),
                 seq(65, k requires 0 <= k < 65 => Mu(hError[k], x2[k], E2[k], sizePartitions) * E.im[k]))
  }

  class FilterUpdateGain {
    var hError: Bins
    var poorExcitationCounter: nat
    var callCounter: nat

    /** Every `H_error` bin is at least the floor and at most its initial value. */
    ghost predicate Valid()
      reads this
    {
      forall k :: 0 <= k < 65 ==> ErrorFloor <= hError[k] <= HErrorInitial
    }

    constructor ()
      ensures Valid()
      ensures forall k :: 0 <= k < 65 ==> hError[k] == HErrorInitial
      ensures poorExcitationCounter == PoorExcitationCounterInitial && callCounter == 0
    {
      hError := seq(65, _ => HErrorInitial);
      poorExcitationCounter := PoorExcitationCounterInitial;
      callCounter := 0;
    }

    /** `HandleEchoPathChange`: both counters restart; `H_error` restarts only on a delay change. */
    method HandleEchoPathChange(variability: Variability)
      requires Valid()
      modifies this
      ensures Valid()
      ensures poorExcitationCounter == PoorExcitationCounterInitial && callCounter == 0
      ensures variability.delayChange != NoDelayChange ==> forall k :: 0 <= k < 65 ==> hError[k] == HErrorInitial
      ensures variability.delayChange == NoDelayChange ==> hError == old(hError)
    {
      if variability.delayChange != NoDelayChange {
        hError := seq(65, _ => HErrorInitial);
      }
      poorExcitationCounter := PoorExcitationCounterInitial;
      callCounter := 0;
    }

    /**
     * `Compute`: count the call; while suppressed the gain is zero, otherwise bin
     * `k` gets `mu[k] E[k]` and its error estimate takes the step; then every bin
     * leaks and is clamped.
     */
    method Compute(renderPower: Bins, output: SubtractorOutput, erl: Bins, sizePartitions: nat)
      returns (G: Fft65)
      requires Valid()
      requires forall k :: 0 <= k < 65 ==> output.E2[k] >= 0.0
      modifies this
      ensures Valid()
      ensures callCounter == old(callCounter) + 1 && poorExcitationCounter == old(poorExcitationCounter) + 1
      ensures G == Gain(old(hError), renderPower, output.E2, output.E,
                        GainSuppressed(old(poorExcitationCounter), old(callCounter), sizePartitions), sizePartitions)
      ensures var suppressed := GainSuppressed(old(poorExcitationCounter), old(callCounter), sizePartitions);
        forall k :: 0 <= k < 65 ==>
          hError[k] == NextHError(old(hError)[k], renderPower[k], output.E2[k], erl[k], suppressed,
                                  Leakage(output.e2, output.y2), sizePartitions)
      ensures forall k :: 0 <= k < 65 ==> ErrorFloor <= hError[k] <= ErrorCeil
    {
      callCounter := callCounter + 1;
      poorExcitationCounter := poorExcitationCounter + 1;
      var suppressed := poorExcitationCounter < sizePartitions || callCounter <= sizePartitions;
      var stepped := hError;
      if suppressed {
        G := Cleared();
      } else {
        var mu := StepSizes(hError, renderPower, output.E2, sizePartitions);
        stepped := StepErrors(hError, renderPower, output.E2, mu, sizePartitions);
        G := ScaledGain(mu, output.E);
        ghost var T := Gain(hError, renderPower, output.E2, output.E, false, sizePartitions);
        assert forall k :: 0 <= k < 65 ==> G.re[k] == T.re[k] && G.im[k] == T.im[k];
        assert G.re == T.re && G.im == T.im;
      }
      var filterOk := output.e2 <= 0.5 * output.y2;
      hError := LeakAndClamp(stepped, erl, if filterOk then LeakageConverged else LeakageDiverged);
    }
  }

  /** The error estimates after the step, bin by bin. */
  method StepErrors(hError: Bins, x2: Bins, e2: Bins, mu: Bins, sizePartitions: nat) returns (stepped: Bins)
    requires forall k :: 0 <= k < 65 ==> hError[k] >= ErrorFloor && e2[k] >= 0.0
    requires forall k :: 0 <= k < 65 ==> mu[k] == Mu(hError[k], x2[k], e2[k], sizePartitions)
    ensures forall k :: 0 <= k < 65 ==> stepped[k] == Stepped(hError[k], x2[k], e2[k], sizePartitions)
  {
    var h := new real[65](k requires 0 <= k < 65 => hError[k]);
    var k := 0;
    while k < 65
      invariant 0 <= k <= 65
      invariant forall i :: 0 <= i < k ==> h[i] == Stepped(hError[i], x2[i], e2[i], sizePartitions)
      invariant forall i :: k <= i < 65 ==> h[i] == hError[i]
    {
      h[k] := h[k] - 0.5 * mu[k] * x2[k] * h[k];
      k := k + 1;
    }
    stepped := h[..];
  }

  /** The gain: each bin of the residual spectrum scaled by its step size. */
  method ScaledGain(mu: Bins, E: Fft65) returns (G: Fft65)
    ensures forall k :: 0 <= k < 65 ==> G.re[k] == mu[k] * E.re[k] && G.im[k] == mu[k] * E.im[k]
  {
    var re := new real[65](_ => 0.0);
    var im := new real[65](_ => 0.0);
    var k := 0;
    while k < 65
      invariant 0 <= k <= 65
      invariant forall i :: 0 <= i < k ==> re[i] == mu[i] * E.re[i] && im[i] == mu[i] * E.im[i]
    {
      re[k] := mu[k] * E.re[k];
      im[k] := mu[k] * E.im[k];
      k := k + 1;
    }
    G := FftData(re[..], im[..]);
  }

  /** Every bin leaks by `leak` times its echo return loss and is clamped to [0.001, 2]. */
  method LeakAndClamp(hError: Bins, erl: Bins, leak: real) returns (h: Bins)
    ensures forall k :: 0 <= k < 65 ==> h[k] == Clamp(hError[k] + leak * erl[k], ErrorFloor, ErrorCeil)
  {
    var a := new real[65](k requires 0 <= k < 65 => hError[k]);
    var k := 0;
    while k < 65
      invariant 0 <= k <= 65
      invariant forall i :: 0 <= i < k ==> a[i] == Clamp(hError[i] + leak * erl[i], ErrorFloor, ErrorCeil)
      invariant forall i :: k <= i < 65 ==> a[i] == hError[i]
    {
      a[k] := a[k] + leak * erl[k];
      a[k] := Max(a[k], ErrorFloor);
      a[k] := Min(a[k], ErrorCeil);
      k := k + 1;
    }
    h := a[..];
  }

  /** The step sizes of all bins, from the error estimates before the step. */
  method StepSizes(hError: Bins, x2: Bins, e2: Bins, sizePartitions: nat) returns (mu: Bins)
    requires forall k :: 0 <= k < 65 ==> hError[k] >= ErrorFloor && e2[k] >= 0.0
    ensures forall k :: 0 <= k < 65 ==> mu[k] == Mu(hError[k], x2[k], e2[k], sizePartitions)
  {
    var a := new real[65](_ => 0.0);
    var k := 0;
    while k < 65
      invariant 0 <= k <= 65
      invariant forall i :: 0 <= i < k ==> a[i] == Mu(hError[i], x2[i], e2[i], sizePartitions)
    {
      if x2[k] >= NoiseGate {
        a[k] := hError[k] / (0.5 * hError[k] * x2[k] + (sizePartitions as real) * e2[k]);
      } else {
        a[k] := 0.0;
      }
      k := k + 1;
    }
    mu := a[..];
  }

  /** From construction or a reset, the first `sizePartitions` calls give zero gain. */
  lemma WarmUpSuppresses(calls: nat, sizePartitions: nat)
    requires calls < sizePartitions
    ensures GainSuppressed(PoorExcitationCounterInitial + calls, calls, sizePartitions)
  {
  }

  /** Once both counters have passed the partition count, the gain is no longer suppressed. */
  lemma WarmUpEnds(poor: nat, calls: nat, sizePartitions: nat)
    ensures !GainSuppressed(poor, calls, sizePartitions) <==> poor + 1 >= sizePartitions && calls >= sizePartitions
  {
  }
}

=== FILE: lag_aggregator.dfy ===
/**
 * The lag aggregator: a histogram of the last 250 matched-filter lags, whose most
 * frequent bin is reported once it has been seen often enough.
 */
module LagAggregation {
  const HistogramDataSize: nat := 250
  /** Lags are recorded this many samples early (32 / 4). */
  const Headroom: int := 8

  /** How often `b` occurs in `data`. */
  function Count(data: seq<int>, b: int): nat
  {
    if data == [] then 0 else Count(data[..|data| - 1], b) + (if data[|data| - 1] == b then 1 else 0)
  }

  /** How many entries of `data` lie below `bound`. */
  function CountBelow(data: seq<int>, bound: int): nat
  {
    if data == [] then 0 else CountBelow(data[..|data| - 1], bound) + (if data[|data| - 1] < bound then 1 else 0)
  }

  /** The sum of the first `n` histogram bins. */
  function BinSum(h: seq<int>, n: nat): int
    requires n <= |h|
  {
    if n == 0 then 0 else BinSum(h, n - 1) + h[n - 1]
  }

  /** Replacing one entry moves one unit of count from the old value to the new one. */
  lemma {:induction false} CountUpdate(data: seq<int>, i: int, v: int, b: int)
    requires 0 <= i < |data|
    ensures Count(data[i := v], b) ==
      Count(data, b) - (if data[i] == b then 1 else 0) + (if v == b then 1 else 0)
    decreases |data|
  {
    var n := |data| - 1;
    assert data[i := v][..n] == if i < n then data[..n][i := v] else data[..n];
    if i < n {
      CountUpdate(data[..n], i, v, b);
    }
  }

  lemma {:induction false} CountBelowStep(data: seq<int>, bound: int)
    ensures CountBelow(data, bound + 1) == CountBelow(data, bound) + Count(data, bound)
    decreases |data|
  {
    if data != [] {
      CountBelowStep(data[..|data| - 1], bound);
    }
  }

  lemma {:induction false} CountBelowAll(data: seq<int>, bound: int)
    requires forall i :: 0 <= i < |data| ==> data[i] < bound
    ensures CountBelow(data, bound) == |data|
    decreases |data|
  {
    if data != [] {
      CountBelowAll(data[..|data| - 1], bound);
    }
  }

  /** Bins that hold the counts of `data`, less `offset` in bin 0, sum to the entries below `n`, less `offset`. */
  lemma {:induction false} BinSumCounts(h: seq<int>, data: seq<int>, offset: int, n: nat)
    requires 1 <= n <= |h|
    requires forall b :: 0 <= b < |h| ==> h[b] == Count(data, b) - (if b == 0 then offset else 0)
    requires forall i :: 0 <= i < |data| ==> data[i] >= 0
    ensures BinSum(h, n) == CountBelow(data, n) - offset
  {
    CountBelowStep(data, n - 1);
    if n == 1 {
      CountBelowZero(data);
    } else {
      BinSumCounts(h, data, offset, n - 1);
    }
  }

  lemma {:induction false} CountBelowZero(data: seq<int>)
    requires forall i :: 0 <= i < |data| ==> data[i] >= 0
    ensures CountBelow(data, 0) == 0
    decreases |data|
  {
    if data != [] {
      CountBelowZero(data[..|data| - 1]);
    }
  }

  /** `r` is the first index holding the largest value, as `std::max_element` finds it. */
  ghost predicate IsFirstMax(h: seq<int>, r: int)
  {
    0 <= r < |h| && (forall i :: 0 <= i < |h| ==> h[i] <= h[r]) && (forall i :: 0 <= i < r ==> h[i] < h[r])
  }

  /** The scan of `std::max_element`: a later bin replaces the best only when strictly larger. */
  method FirstMaxIndex(h: seq<int>) returns (r: int)
    requires |h| > 0
    ensures IsFirstMax(h, r)
  {
    r := 0;
    var i := 1;
    while i < |h|
      invariant 1 <= i <= |h| && 0 <= r < i
      invariant forall j :: 0 <= j < i ==> h[j] <= h[r]
      invariant forall j :: 0 <= j < r ==> h[j] < h[r]
    {
      if h[i] > h[r] {
        r := i;
      }
      i := i + 1;
    }
  }

  class HighestPeakAggregator {
    const maxFilterLag: nat
    var histogram: seq<int>
    var histogramData: seq<int>
    var histogramDataIndex: int
    var candidate: int

    /**
     * Bin `b` counts the occurrences of `b` among the last 250 lags, less 250 in
     * bin 0 (the log starts out as 250 zeros that were never counted).
     */
    ghost predicate Valid()
      reads this
    {
      |histogram| == maxFilterLag + 1 && |histogramData| == HistogramDataSize &&
      0 <= histogramDataIndex < HistogramDataSize &&
      (forall i :: 0 <= i < HistogramDataSize ==> 0 <= histogramData[i] <= maxFilterLag) &&
      (forall b :: 0 <= b < |histogram| ==>
        histogram[b] == Count(histogramData, b) - (if b == 0 then HistogramDataSize else 0)) &&
      -1 <= candidate < |histogram|
    }

    /** An all-zero log and histogram for lags up to `maxFilterLag`, no candidate. */
    constructor (maxFilterLag: nat)
      ensures Valid() && this.maxFilterLag == maxFilterLag && candidate == -1
      ensures histogramDataIndex == 0 && forall b :: 0 <= b <= maxFilterLag ==> histogram[b] == 0
    {
      this.maxFilterLag := maxFilterLag;
      histogram := seq(maxFilterLag + 1, _ => 0);
      histogramData := seq(HistogramDataSize, _ => 0);
      histogramDataIndex := 0;
      candidate := -1;
      new;
      ZerosCounted(histogramData);
    }

    /** `Reset`: zero the histogram and the log, rewind the log; the old candidate stays. */
    method Reset()
      requires Valid()
      modifies this
      ensures Valid() && candidate == old(candidate) && histogramDataIndex == 0
      ensures forall b :: 0 <= b <= maxFilterLag ==> histogram[b] == 0
      ensures forall i :: 0 <= i < HistogramDataSize ==> histogramData[i] == 0
    {
      histogram := seq(maxFilterLag + 1, _ => 0);
      histogramData := seq(HistogramDataSize, _ => 0);
      histogramDataIndex := 0;
      ZerosCounted(histogramData);
    }

    /**
     * `Aggregate`: overwrite the oldest lag in the log with `lag`, move one count
     * from the old bin to the new one, and pick the first fullest bin.
     */
    method Aggregate(lag: int)
      requires Valid() && 0 <= lag <= maxFilterLag
      modifies this
      ensures Valid()
      ensures histogramData == old(histogramData)[old(histogramDataIndex) := lag]
      ensures histogramDataIndex == (old(histogramDataIndex) + 1) % HistogramDataSize
      ensures forall b :: 0 <= b < |histogram| ==>
        histogram[b] == old(histogram)[b] - (if old(histogramData)[old(histogramDataIndex)] == b then 1 else 0)
                        + (if lag == b then 1 else 0)
      ensures IsFirstMax(histogram, candidate)
    {
      var oldLag := histogramData[histogramDataIndex];
      histogram := histogram[oldLag := histogram[oldLag] - 1];
      histogramData := histogramData[histogramDataIndex := lag];
      histogram := histogram[lag := histogram[lag] + 1];
      forall b | 0 <= b < |histogram|
        ensures histogram[b] == Count(histogramData, b) - (if b == 0 then HistogramDataSize else 0)
      {
        CountUpdate(old(histogramData), old(histogramDataIndex), lag, b);
      }
      histogramDataIndex := (histogramDataIndex + 1) % HistogramDataSize;
      candidate := FirstMaxIndex(histogram);
    }

    /** The histogram always sums to zero: 250 logged lags against the 250 subtracted from bin 0. */
    lemma HistogramSumsToZero()
      requires Valid()
      ensures BinSum(histogram, |histogram|) == 0
    {
      BinSumCounts(histogram, histogramData, HistogramDataSize, |histogram|);
      CountBelowAll(histogramData, |histogram|);
    }
  }

  /** A log of zeros counts its length in bin 0 and nothing elsewhere. */
  lemma {:induction false} ZerosCounted(data: seq<int>)
    requires forall i :: 0 <= i < |data| ==> data[i] == 0
    ensures forall b :: Count(data, b) == if b == 0 then |data| else 0
    decreases |data|
  {
    if data != [] {
      ZerosCounted(data[..|data| - 1]);
    }
  }

  /** The counts a candidate bin must exceed: before, and after, convergence was seen. */
  datatype Thresholds = Thresholds(initial: int, converged: int)

  /**
   * The thresholds the aggregator's constructor actually installs: its
   * member-initializer list value-initializes the member, which overrides the
   * default member initializer, so both counts are zero.
   */
  function AsWrittenThresholds(): (t: Thresholds)
    ensures t.initial == 0 && t.converged == 0
  {
    Thresholds(0, 0)
  }

  /** The thresholds the member declaration states: 5 before convergence, 20 after. */
  function IntendedThresholds(): (t: Thresholds)
    ensures t.initial == 5 && t.converged == 20
  {
    Thresholds(5, 20)
  }

  /** Whether a candidate bin holding `count` lags is reported, and the new convergence flag. */
  datatype Decision = Decision(report: bool, significantFound: bool)

  function Decide(count: int, significantFound: bool, t: Thresholds): (d: Decision)
    ensures d.significantFound <==> significantFound || count > t.converged
    ensures d.report <==> count > t.converged || (count > t.initial && !significantFound)
  {
    var found := significantFound || count > t.converged;
    Decision(count > t.converged || (count > t.initial && !found), found)
  }

  /** With the thresholds as written, the first non-negative lag is reported at once. */
  lemma AsWrittenReportsFirstLag(found: bool)
    ensures Decide(1, found, AsWrittenThresholds()).report
    ensures forall c :: Decide(c, found, AsWrittenThresholds()).report <==> c > 0
  {
  }

  /**
   * With the intended thresholds a bin needs more than 5 of the last 250 lags
   * before anything is reported, and more than 20 once convergence has been seen.
   */
  lemma IntendedNeedsSixVotes(count: int, found: bool)
    ensures Decide(count, found, IntendedThresholds()).report ==> count > 5
    ensures found && Decide(count, found, IntendedThresholds()).report ==> count > 20
    ensures count > 20 ==> Decide(count, found, IntendedThresholds()).report
  {
  }

  /** The lag recorded for an estimate: `lagEstimate` less the headroom, never below 0. */
  function Voted(lagEstimate: int): (v: int)
    ensures v >= 0 && v >= lagEstimate - Headroom
    ensures lagEstimate >= Headroom ==> v == lagEstimate - Headroom
  {
    if lagEstimate > Headroom then lagEstimate - Headroom else 0
  }

  /**
   * The outcome of `Aggregate` on an aggregator whose log is `data` with cursor
   * `index` and whose convergence flag is `found`: -1 for a negative estimate;
   * otherwise the estimate is voted into the log, `hist` is the histogram of the
   * new log, `candidate` its first fullest bin, and `lag` the candidate when its
   * count clears the thresholds, -1 when it does not.
   */
  ghost predicate AggregateOutcome(data: seq<int>, index: int, found: bool, t: Thresholds, maxFilterLag: nat,
                                   lagEstimate: int, hist: seq<int>, candidate: int, lag: int)
  {
    if lagEstimate < 0 then lag == -1
    else
      0 <= index < |data| &&
      var newData := data[index := Voted(lagEstimate)];
      |hist| == maxFilterLag + 1 &&
      (forall b :: 0 <= b < |hist| ==> hist[b] == Count(newData, b) - (if b == 0 then HistogramDataSize else 0)) &&
      IsFirstMax(hist, candidate) &&
      lag == (if Decide(hist[candidate], found, t).report then candidate else -1)
  }

  /**
   * The aggregator's log, cursor and convergence flag after `Aggregate`: a negative
   * estimate leaves all three alone; otherwise the estimate's vote overwrites the
   * entry under the cursor, the cursor moves on cyclically, and the flag records
   * whether the candidate bin of `hist` has cleared the converged threshold.
   */
  ghost predicate AggregatedState(data0: seq<int>, index0: int, found0: bool, t: Thresholds, lagEstimate: int,
                                  hist: seq<int>, candidate: int, data: seq<int>, index: int, found: bool)
  {
    if lagEstimate < 0 then data == data0 && index == index0 && found == found0
    else
      0 <= index0 < |data0| && 0 <= candidate < |hist| &&
      data == data0[index0 := Voted(lagEstimate)] && index == (index0 + 1) % HistogramDataSize &&
      found == Decide(hist[candidate], found0, t).significantFound
  }

  /** A histogram has one first fullest bin. */
  lemma FirstMaxUnique(h: seq<int>, r1: int, r2: int)
    requires IsFirstMax(h, r1) && IsFirstMax(h, r2)
    ensures r1 == r2
  {
    assert h[r1] <= h[r2] && h[r2] <= h[r1];
  }

  /**
   * The aggregator's answer is a function of its state and the estimate: two
   * outcomes agree, and for a vote they agree on the histogram and its candidate too.
   */
  lemma AggregateOutcomeDeterministic(data: seq<int>, index: int, found: bool, t: Thresholds, maxFilterLag: nat,
                                      lagEstimate: int, hist1: seq<int>, c1: int, lag1: int,
                                      hist2: seq<int>, c2: int, lag2: int)
    requires AggregateOutcome(data, index, found, t, maxFilterLag, lagEstimate, hist1, c1, lag1)
    requires AggregateOutcome(data, index, found, t, maxFilterLag, lagEstimate, hist2, c2, lag2)
    ensures lag1 == lag2
    ensures lagEstimate >= 0 ==> hist1 == hist2 && c1 == c2
  {
    if lagEstimate >= 0 {
      assert hist1 == hist2;
      FirstMaxUnique(hist1, c1, c2);
    }
  }

  class MatchedFilterLagAggregator {
    const peaks: HighestPeakAggregator
    const thresholds: Thresholds
    var significantCandidateFound: bool
    ghost const Repr: set<object>

    ghost predicate Valid()
      reads this, Repr
    {
      Repr == {this, peaks} && this != peaks as object && peaks.Valid()
    }

    /** An empty histogram for lags up to `maxFilterLag`; convergence not yet seen. */
    constructor (maxFilterLag: nat, thresholds: Thresholds)
      ensures Valid() && fresh(Repr) && peaks.maxFilterLag == maxFilterLag && this.thresholds == thresholds
      ensures !significantCandidateFound
    {
      peaks := new HighestPeakAggregator(maxFilterLag);
      this.thresholds := thresholds;
      significantCandidateFound := false;
      Repr := {this, peaks};
    }

    /** `Reset`: clear the histogram; a hard reset also forgets that convergence was seen. */
    method Reset(hardReset: bool)
      requires Valid()
      modifies Repr
      ensures Valid() && peaks.histogramDataIndex == 0
      ensures forall b :: 0 <= b <= peaks.maxFilterLag ==> peaks.histogram[b] == 0
      ensures forall i :: 0 <= i < HistogramDataSize ==> peaks.histogramData[i] == 0
      ensures significantCandidateFound == (old(significantCandidateFound) && !hardReset)
    {
      peaks.Reset();
      if hardReset {
        significantCandidateFound := false;
      }
    }

    /**
     * `Aggregate`: record a non-negative lag, less the headroom, and report the
     * fullest bin when its count clears the applicable threshold.
     */
    method Aggregate(lagEstimate: int) returns (r: int)
      requires Valid() && lagEstimate - Headroom <= peaks.maxFilterLag
      modifies Repr
      ensures Valid()
      ensures r == -1 || 0 <= r <= peaks.maxFilterLag
      ensures lagEstimate < 0 ==> r == -1 && unchanged(this, peaks)
      ensures lagEstimate >= 0 ==>
        peaks.histogramData == old(peaks.histogramData)[old(peaks.histogramDataIndex) := (if lagEstimate > Headroom then lagEstimate - Headroom else 0)] &&
        peaks.histogramDataIndex == (old(peaks.histogramDataIndex) + 1) % HistogramDataSize &&
        IsFirstMax(peaks.histogram, peaks.candidate) &&
        var d := Decide(peaks.histogram[peaks.candidate], old(significantCandidateFound), thresholds);
        significantCandidateFound == d.significantFound &&
        r == if d.report then peaks.candidate else -1
      ensures AggregateOutcome(old(peaks.histogramData), old(peaks.histogramDataIndex), old(significantCandidateFound),
                               thresholds, peaks.maxFilterLag, lagEstimate, peaks.histogram, peaks.candidate, r)
      ensures AggregatedState(old(peaks.histogramData), old(peaks.histogramDataIndex), old(significantCandidateFound),
                              thresholds, lagEstimate, peaks.histogram, peaks.candidate,
                              peaks.histogramData, peaks.histogramDataIndex, significantCandidateFound)
    {
      if lagEstimate >= 0 {
        var lag := if lagEstimate > Headroom then lagEstimate - Headroom else 0;
        peaks.Aggregate(lag);
        var candidate := peaks.candidate;
        var count := peaks.histogram[candidate];
        significantCandidateFound := significantCandidateFound || count > thresholds.converged;
        if count > thresholds.converged || (count > thresholds.initial && !significantCandidateFound) {
          return candidate;
        }
      }
      return -1;
    }
  }
}

=== FILE: matched_filter.dfy ===
/**
 * The matched filter: five NLMS filters of 512 taps over the down-sampled render
 * signal, each starting 384 samples further back, whose squared-peak positions
 * are candidate echo delays. The filter with the smallest prediction error among
 * the reliable ones wins.
 */
module MatchedFilters {
  import RingIndex
  import opened Numerics
  import opened Aec3Common
  import opened RingBuffers

  const Smoothing: real := 0.7
  const MatchingFilterThreshold: real := 0.2
  const ExcitationLimit: real := 150.0
  const NumFilters: nat := 5
  const SubBlockSize: nat := 16
  const FilterLength: nat := 512
  const FilterIntraLagShift: nat := 384
  const MaxFilterLag: nat := 2432

  /** Render energy above which a filter adapts. */
  const X2SumThreshold: real := 11520000.0

  /**
   * The sizes derive from the block size and the matched-filter window: sub-blocks
   * of a quarter block, 32-sub-block filters shifted by 24 sub-blocks, and a
   * threshold of 512 taps at an excitation of 150.
   */
  lemma Dimensions()
    ensures SubBlockSize == BlockSize / 4
    ensures FilterLength == MatchedFilterWindowSizeSubBlocks * SubBlockSize
    ensures FilterIntraLagShift == MatchedFilterAlignmentShiftSizeSubBlocks * SubBlockSize
    ensures MaxFilterLag == NumFilters * FilterIntraLagShift + FilterLength
    ensures X2SumThreshold == (FilterLength as real) * ExcitationLimit * ExcitationLimit
  {
  }

  function Square(v: real): real
  {
    v * v
  }

  /** `p` is where `h` has its largest square (0 for filters shorter than two taps). */
  ghost predicate IsSquarePeak(h: seq<real>, p: int)
  {
    if |h| < 2 then p == 0
    else 0 <= p < |h| && forall i :: 0 <= i < |h| ==> Square(h[i]) <= Square(h[p])
  }

  /** Every tap below `k` is in the even lane or the odd lane. */
  ghost predicate LanesBound(h: seq<real>, k: int, m1: real, m2: real)
    requires 0 <= k <= |h|
  {
    (forall j :: 0 <= j < k / 2 ==> Square(h[2 * j]) <= m1) &&
    (forall j :: 0 <= j < k / 2 ==> Square(h[2 * j + 1]) <= m2)
  }

  lemma LanesCover(h: seq<real>, k: int, m1: real, m2: real, m: real)
    requires 0 <= k <= |h| && k % 2 == 0 && LanesBound(h, k, m1, m2) && m1 <= m && m2 <= m
    ensures forall i :: 0 <= i < k ==> Square(h[i]) <= m
  {
    forall i | 0 <= i < k
      ensures Square(h[i]) <= m
    {
      var j := i / 2;
      assert i == 2 * j || i == 2 * j + 1;
    }
  }

  /** How many taps the two-lane scan covers: all of an even-length filter, all but the last of an odd one. */
  function LaneSpan(n: nat): (span: nat)
    ensures span <= n && (span == n || span == n - 1) && span % 2 == 0
  {
    if n % 2 == 0 then n else n - 1
  }

  /**
   * `p` is the peak the two-lane scan picks: among the taps of largest square, the
   * first even tap the lanes cover; failing that, the first odd tap; failing that,
   * the last tap.
   */
  ghost predicate IsScanPeak(h: seq<real>, p: int)
  {
    IsSquarePeak(h, p) &&
    (|h| >= 2 ==>
      var span := LaneSpan(|h|);
      (p < span && p % 2 == 0 ==> forall j :: 0 <= j < p && j % 2 == 0 ==> Square(h[j]) < Square(h[p])) &&
      (p % 2 == 1 ==> forall j :: 0 <= j < span && (j % 2 == 0 || j < p) ==> Square(h[j]) < Square(h[p])) &&
      (p >= span ==> forall j :: 0 <= j < p ==> Square(h[j]) < Square(h[p])))
  }

  /** The tie rule leaves one choice: a filter has exactly one scan peak. */
  lemma ScanPeakUnique(h: seq<real>, p1: int, p2: int)
    requires IsScanPeak(h, p1) && IsScanPeak(h, p2)
    ensures p1 == p2
  {
    if |h| >= 2 {
      assert Square(h[p1]) <= Square(h[p2]) && Square(h[p2]) <= Square(h[p1]);
    }
  }

  /** All-zero taps (after a reset, or on a silent capture) peak at tap 0. */
  lemma ZeroTapsPeakAtZero(h: seq<real>, p: int)
    requires forall k :: 0 <= k < |h| ==> h[k] == 0.0
    requires IsScanPeak(h, p)
    ensures p == 0
  {
    if |h| >= 2 {
      assert Square(h[0]) == Square(h[p]);
    }
  }

  /**
   * `MaxSquarePeakIndex`: scan even and odd taps in two lanes, each keeping its
   * first largest square, let the odd lane win only when strictly larger, then let
   * the last tap win only when strictly larger.
   */
  method MaxSquarePeakIndex(h: seq<real>) returns (r: int)
    ensures IsScanPeak(h, r)
  {
    if |h| < 2 {
      return 0;
    }
    var maxElement1 := Square(h[0]);
    var maxElement2 := Square(h[1]);
    var lagEstimate1 := 0;
    var lagEstimate2 := 1;
    var lastIndex := |h| - 1;
    var k := 2;
    while k < lastIndex
      invariant 2 <= k <= lastIndex + 1 && k % 2 == 0
      invariant 0 <= lagEstimate1 < k && lagEstimate1 % 2 == 0 && maxElement1 == Square(h[lagEstimate1])
      invariant 0 <= lagEstimate2 < k && lagEstimate2 % 2 == 1 && maxElement2 == Square(h[lagEstimate2])
      invariant LanesBound(h, k, maxElement1, maxElement2)
      invariant forall j :: 0 <= j < lagEstimate1 && j % 2 == 0 ==> Square(h[j]) < maxElement1
      invariant forall j :: 0 <= j < lagEstimate2 && j % 2 == 1 ==> Square(h[j]) < maxElement2
    {
      LanesBelow(h, k, maxElement1, maxElement2);
      var element1 := Square(h[k]);
      var element2 := Square(h[k + 1]);
      if element1 > maxElement1 {
        maxElement1 := element1;
        lagEstimate1 := k;
      }
      if element2 > maxElement2 {
        maxElement2 := element2;
        lagEstimate2 := k + 1;
      }
      k := k + 2;
    }
    assert k == LaneSpan(|h|);
    LanesBelow(h, k, maxElement1, maxElement2);
    var best := if maxElement2 > maxElement1 then maxElement2 else maxElement1;
    LanesCover(h, k, maxElement1, maxElement2, best);
    if maxElement2 > maxElement1 {
      maxElement1 := maxElement2;
      lagEstimate1 := lagEstimate2;
    }
    var lastElement := Square(h[lastIndex]);
    if lastElement > maxElement1 {
      return lastIndex;
    }
    return lagEstimate1;
  }

  /** The pair form of `LanesBound` bounds every even tap below `k` by `m1` and every odd one by `m2`. */
  lemma LanesBelow(h: seq<real>, k: int, m1: real, m2: real)
    requires 0 <= k <= |h| && k % 2 == 0 && LanesBound(h, k, m1, m2)
    ensures forall j :: 0 <= j < k && j % 2 == 0 ==> Square(h[j]) <= m1
    ensures forall j :: 0 <= j < k && j % 2 == 1 ==> Square(h[j]) <= m2
  {
    forall j | 0 <= j < k
      ensures j % 2 == 0 ==> Square(h[j]) <= m1
      ensures j % 2 == 1 ==> Square(h[j]) <= m2
    {
      if j % 2 == 0 {
        assert j == 2 * (j / 2);
      } else {
        assert j == 2 * (j / 2) + 1;
      }
    }
  }

  /** Energy of the `len` render samples from `start` onwards, wrapping at the end of `x`. */
  function WindowEnergy(x: seq<real>, start: int, len: nat): real
    requires |x| > 0
  {
    if len == 0 then 0.0
    else WindowEnergy(x, start, len - 1) + x[(start + len - 1) % |x|] * x[(start + len - 1) % |x|]
  }

  /** Correlation of the first `len` taps with the render samples from `start` onwards. */
  function WindowDot(h: seq<real>, x: seq<real>, start: int, len: nat): real
    requires |x| > 0 && len <= |h|
  {
    if len == 0 then 0.0
    else WindowDot(h, x, start, len - 1) + h[len - 1] * x[(start + len - 1) % |x|]
  }

  lemma {:induction false} WindowEnergyNonNegative(x: seq<real>, start: int, len: nat)
    requires |x| > 0
    ensures WindowEnergy(x, start, len) >= 0.0
  {
    if len > 0 {
      WindowEnergyNonNegative(x, start, len - 1);
    }
  }

  /** The taps after one NLMS step of size `alpha` along the render window. */
  function Adapted(h: seq<real>, x: seq<real>, start: int, alpha: real): (r: seq<real>)
    requires |x| > 0
    ensures |r| == |h|
  {
    seq(|h|, k requires 0 <= k < |h| => h[k] + alpha * x[(start + k) % |x|])
  }

  /** Taps, whether they adapted, and the accumulated squared prediction error. */
  datatype CoreResult = CoreResult(h: seq<real>, updated: bool, errorSum: real)

  /** One capture sample: predict it, and adapt when the render window is energetic enough. */
  function CoreStep(h: seq<real>, x: seq<real>, y: real, start: int, threshold: real): (r: CoreResult)
    requires |x| > 0 && threshold >= 0.0
    ensures |r.h| == |h|
  {
    var e := y - WindowDot(h, x, start, |h|);
    var x2 := WindowEnergy(x, start, |h|);
    if x2 > threshold then CoreResult(Adapted(h, x, start, Smoothing * e / x2), true, e * e)
    else CoreResult(h, false, e * e)
  }

  /** The previous render position, moving backwards through the ring. */
  function Back(start: int, n: int): (r: int)
    requires 0 <= start < n
    ensures 0 <= r < n && r == (start - 1) % n
  {
    RingIndex.ModSmall(start - 1, n);
    if start > 0 then start - 1 else n - 1
  }

  /** `MatchedFilterCore`: each capture sample in turn, the render window moving back one sample each time. */
  function Core(h: seq<real>, x: seq<real>, y: seq<real>, start: int, threshold: real): (r: CoreResult)
    requires 0 <= start < |x| && threshold >= 0.0
    ensures |r.h| == |h|
    decreases |y|
  {
    if y == [] then CoreResult(h, false, 0.0)
    else
      var s := CoreStep(h, x, y[0], start, threshold);
      var rest := Core(s.h, x, y[1..], Back(start, |x|), threshold);
      CoreResult(rest.h, s.updated || rest.updated, s.errorSum + rest.errorSum)
  }

  /** The taps change only when some render window was energetic enough to adapt. */
  lemma {:induction false} CoreKeepsTapsUnlessUpdated(h: seq<real>, x: seq<real>, y: seq<real>, start: int, threshold: real)
    requires 0 <= start < |x| && threshold >= 0.0
    ensures !Core(h, x, y, start, threshold).updated ==> Core(h, x, y, start, threshold).h == h
    decreases |y|
  {
    if y != [] {
      var s := CoreStep(h, x, y[0], start, threshold);
      CoreKeepsTapsUnlessUpdated(s.h, x, y[1..], Back(start, |x|), threshold);
    }
  }

  lemma {:induction false} CoreErrorNonNegative(h: seq<real>, x: seq<real>, y: seq<real>, start: int, threshold: real)
    requires 0 <= start < |x| && threshold >= 0.0
    ensures Core(h, x, y, start, threshold).errorSum >= 0.0
    decreases |y|
  {
    if y != [] {
      var s := CoreStep(h, x, y[0], start, threshold);
      CoreErrorNonNegative(s.h, x, y[1..], Back(start, |x|), threshold);
    }
  }

  /** The render window `i` capture samples after `start` (so `i` samples further back) exceeds the threshold. */
  ghost predicate Energetic(x: seq<real>, start: int, i: int, len: nat, threshold: real)
    requires |x| > 0
  {
    WindowEnergy(x, (start - i) % |x|, len) > threshold
  }

  /** Stepping the start back by one is the same as looking one capture sample further. */
  lemma EnergeticShift(x: seq<real>, start: int, i: int, len: nat, threshold: real)
    requires 0 <= start < |x| && i >= 1
    ensures Energetic(x, Back(start, |x|), i - 1, len, threshold) == Energetic(x, start, i, len, threshold)
  {
    RingIndex.ModAdd(start - 1, -(i - 1), |x|, Back(start, |x|));
  }

  /**
   * The filter adapts exactly when, for some capture sample `i`, the render window
   * `i` samples further back holds energy above the threshold.
   */
  lemma {:induction false} CoreUpdatedIff(h: seq<real>, x: seq<real>, y: seq<real>, start: int, threshold: real)
    requires 0 <= start < |x| && threshold >= 0.0
    ensures Core(h, x, y, start, threshold).updated <==>
      exists i :: 0 <= i < |y| && Energetic(x, start, i, |h|, threshold)
    decreases |y|
  {
    if y != [] {
      var s := CoreStep(h, x, y[0], start, threshold);
      var b := Back(start, |x|);
      CoreUpdatedIff(s.h, x, y[1..], b, threshold);
      RingIndex.ModSmall(start, |x|);
      assert s.updated == Energetic(x, start, 0, |h|, threshold);
      if Core(h, x, y, start, threshold).updated {
        if !s.updated {
          var i :| 0 <= i < |y[1..]| && Energetic(x, b, i, |h|, threshold);
          EnergeticShift(x, start, i + 1, |h|, threshold);
          assert Energetic(x, start, i + 1, |h|, threshold);
        }
      } else {
        forall i | 0 <= i < |y|
          ensures !Energetic(x, start, i, |h|, threshold)
        {
          if i > 0 {
            EnergeticShift(x, start, i, |h|, threshold);
          }
        }
      }
    }
  }

  /** The energy of the render window and its correlation with the taps, in one pass. */
  method WindowStats(h: seq<real>, x: seq<real>, start: int) returns (x2Sum: real, s: real)
    requires 0 <= start < |x|
    ensures x2Sum == WindowEnergy(x, start, |h|) && s == WindowDot(h, x, start, |h|)
  {
    x2Sum, s := 0.0, 0.0;
    var xIndex := start;
    var k := 0;
    while k < |h|
      invariant 0 <= k <= |h| && 0 <= xIndex < |x| && xIndex == (start + k) % |x|
      invariant x2Sum == WindowEnergy(x, start, k) && s == WindowDot(h, x, start, k)
    {
      x2Sum := x2Sum + x[xIndex] * x[xIndex];
      s := s + h[k] * x[xIndex];
      RingIndex.ModAdd(start + k, 1, |x|, xIndex);
      RingIndex.ModSmall(xIndex + 1, |x|);
      xIndex := if xIndex < |x| - 1 then xIndex + 1 else 0;
      k := k + 1;
    }
  }

  /** One NLMS step of size `alpha` along the render window. */
  method AdaptTaps(h: seq<real>, x: seq<real>, start: int, alpha: real) returns (adapted: seq<real>)
    requires 0 <= start < |x|
    ensures adapted == Adapted(h, x, start, alpha)
  {
    adapted := [];
    var xIndex := start;
    RingIndex.ModSmall(start, |x|);
    var k := 0;
    while k < |h|
      invariant 0 <= k <= |h| && 0 <= xIndex < |x| && xIndex == (start + k) % |x| && |adapted| == k
      invariant forall j :: 0 <= j < k ==> adapted[j] == h[j] + alpha * x[(start + j) % |x|]
    {
      adapted := adapted + [h[k] + alpha * x[xIndex]];
      RingIndex.StepIndex(start, k, |x|, xIndex);
      xIndex := RingIndex.IncIndex(xIndex, |x|);
      k := k + 1;
    }
    assert forall j :: 0 <= j < |h| ==> adapted[j] == Adapted(h, x, start, alpha)[j];
  }

  /** The loop invariant of `MatchedFilterCore`: what is done plus what remains is the whole run. */
  ghost predicate CoreProgress(h0: seq<real>, x: seq<real>, y: seq<real>, xStartIndex: int, threshold: real,
                               i: int, start: int, h: seq<real>, filtersUpdated: bool, errorSum: real)
    requires 0 <= xStartIndex < |x| && threshold >= 0.0
  {
    0 <= i <= |y| && 0 <= start < |x| && |h| == |h0| &&
    var rest := Core(h, x, y[i..], start, threshold);
    CoreResult(rest.h, filtersUpdated || rest.updated, errorSum + rest.errorSum) ==
      Core(h0, x, y, xStartIndex, threshold)
  }

  /** Processing capture sample `i` as `CoreStep` does keeps `CoreProgress`. */
  lemma CoreAdvance(h0: seq<real>, x: seq<real>, y: seq<real>, xStartIndex: int, threshold: real,
                    i: int, start: int, h: seq<real>, filtersUpdated: bool, errorSum: real, step: CoreResult)
    requires 0 <= xStartIndex < |x| && threshold >= 0.0 && i < |y|
    requires CoreProgress(h0, x, y, xStartIndex, threshold, i, start, h, filtersUpdated, errorSum)
    requires step == CoreStep(h, x, y[i], start, threshold)
    ensures CoreProgress(h0, x, y, xStartIndex, threshold, i + 1, Back(start, |x|), step.h,
                         filtersUpdated || step.updated, errorSum + step.errorSum)
  {
    assert y[i..][1..] == y[i + 1..];
  }

  /** The body of the capture loop of `MatchedFilterCore`: one prediction and, when enabled, one adaptation. */
  method CoreSample(h: seq<real>, x: seq<real>, y: real, start: int, threshold: real)
    returns (adapted: seq<real>, updated: bool, e2: real)
    requires 0 <= start < |x| && threshold >= 0.0
    ensures CoreResult(adapted, updated, e2) == CoreStep(h, x, y, start, threshold)
  {
    var x2Sum, s := WindowStats(h, x, start);
    var e := y - s;
    e2 := e * e;
    adapted, updated := h, false;
    if x2Sum > threshold {
      var alpha := Smoothing * e / x2Sum;
      adapted := AdaptTaps(h, x, start, alpha);
      updated := true;
    }
    assert CoreStep(h, x, y, start, threshold) ==
      if x2Sum > threshold then CoreResult(Adapted(h, x, start, Smoothing * e / x2Sum), true, e * e)
      else CoreResult(h, false, e * e);
  }

  /**
   * `MatchedFilterCore` as a loop: for every capture sample, correlate and measure
   * the render window, accumulate the squared error, and adapt when the window
   * energy exceeds the threshold.
   */
  method MatchedFilterCore(xStartIndex: int, threshold: real, x: seq<real>, y: seq<real>, h0: seq<real>)
    returns (h: seq<real>, filtersUpdated: bool, errorSum: real)
    requires 0 <= xStartIndex < |x| && threshold >= 0.0
    ensures CoreResult(h, filtersUpdated, errorSum) == Core(h0, x, y, xStartIndex, threshold)
  {
    h, filtersUpdated, errorSum := h0, false, 0.0;
    var start := xStartIndex;
    var i := 0;
    while i < |y|
      invariant CoreProgress(h0, x, y, xStartIndex, threshold, i, start, h, filtersUpdated, errorSum)
    {
      var adapted, updated, e2 := CoreSample(h, x, y[i], start, threshold);
      CoreAdvance(h0, x, y, xStartIndex, threshold, i, start, h, filtersUpdated, errorSum,
                  CoreResult(adapted, updated, e2));
      h := adapted;
      filtersUpdated := filtersUpdated || updated;
      errorSum := errorSum + e2;
      start := Back(start, |x|);
      i := i + 1;
    }
  }

  /** What one filter produced this call: whether it adapted, its peak, its error. */
  datatype Candidate = Candidate(updated: bool, peak: int, errorSum: real)

  /** A peak clear of both ends of the filter and an error well below the capture energy. */
  predicate Reliable(c: Candidate, errorSumAnchor: real)
  {
    c.peak > 2 && c.peak < FilterLength - 10 && c.errorSum < MatchingFilterThreshold * errorSumAnchor
  }

  /** The state of the winner search after some filters. */
  datatype Selection = Selection(winnerErrorSum: real, winnerIndex: int, winnerLag: int, previousLag: int)

  /** The lag filter `n` proposes: its peak plus the filter's alignment shift. */
  function ProposedLag(cands: seq<Candidate>, n: int): int
    requires 0 <= n < |cands|
  {
    cands[n].peak + n * FilterIntraLagShift
  }

  /** Filter `n` could win: it adapted and it is reliable. */
  predicate Eligible(cands: seq<Candidate>, n: int, errorSumAnchor: real)
    requires 0 <= n < |cands|
  {
    cands[n].updated && Reliable(cands[n], errorSumAnchor)
  }

  /**
   * The winner search of `Update` over the filters in order: an eligible filter
   * with a smaller error than the current winner takes over; when it proposes the
   * same lag as the filter before it, the earlier filter is credited.
   */
  function Select(cands: seq<Candidate>, errorSumAnchor: real): Selection
  {
    if cands == [] then Selection(errorSumAnchor, -1, -1, -1)
    else
      var s := Select(cands[..|cands| - 1], errorSumAnchor);
      var n := |cands| - 1;
      var lag := ProposedLag(cands, n);
      if Eligible(cands, n, errorSumAnchor) && cands[n].errorSum < s.winnerErrorSum then
        if s.previousLag >= 0 && s.previousLag == lag then Selection(cands[n].errorSum, n - 1, s.previousLag, lag)
        else Selection(cands[n].errorSum, n, lag, lag)
      else s.(previousLag := lag)
  }

  /** `reported_lag_`: the winner's lag when some filter won, otherwise -1. */
  function ReportedLag(cands: seq<Candidate>, errorSumAnchor: real): int
  {
    var s := Select(cands, errorSumAnchor);
    if s.winnerIndex != -1 then s.winnerLag else -1
  }

  /**
   * Facts about the winner search: a winner exists only if some filter is eligible;
   * the winning lag is the lag some eligible filter proposed; the winning error is
   * no larger than any eligible filter's error nor than the capture energy.
   */
  lemma {:induction false} SelectFacts(cands: seq<Candidate>, errorSumAnchor: real)
    ensures var s := Select(cands, errorSumAnchor);
      (cands == [] ==> s.previousLag == -1) &&
      (cands != [] ==> s.previousLag == ProposedLag(cands, |cands| - 1)) &&
      -1 <= s.winnerIndex < |cands| &&
      (s.winnerIndex == -1 ==> s.winnerLag == -1 && s.winnerErrorSum == errorSumAnchor) &&
      (s.winnerIndex != -1 ==> (exists m :: 0 <= m < |cands| && Eligible(cands, m, errorSumAnchor) &&
                                  s.winnerLag == ProposedLag(cands, m) && s.winnerErrorSum == cands[m].errorSum)) &&
      s.winnerErrorSum <= errorSumAnchor &&
      (forall m :: 0 <= m < |cands| && Eligible(cands, m, errorSumAnchor) ==> s.winnerErrorSum <= cands[m].errorSum)
  {
    if cands != [] {
      var init := cands[..|cands| - 1];
      SelectFacts(init, errorSumAnchor);
      var s := Select(init, errorSumAnchor);
      var n := |cands| - 1;
      assert forall m :: 0 <= m < n ==> ProposedLag(init, m) == ProposedLag(cands, m);
      assert forall m :: 0 <= m < n ==> (Eligible(init, m, errorSumAnchor) <==> Eligible(cands, m, errorSumAnchor));
      if s.winnerIndex != -1 {
        var m :| 0 <= m < |init| && Eligible(init, m, errorSumAnchor) &&
          s.winnerLag == ProposedLag(init, m) && s.winnerErrorSum == init[m].errorSum;
        assert Eligible(cands, m, errorSumAnchor);
      }
    }
  }

  /**
   * The reported lag is -1 or the proposal of an eligible filter, so it lies
   * between 3 and 501 + 4 * 384 = 2037.
   */
  lemma ReportedLagRange(cands: seq<Candidate>, errorSumAnchor: real)
    requires |cands| <= NumFilters
    ensures var r := ReportedLag(cands, errorSumAnchor);
      r == -1 || (3 <= r <= 2037 &&
        exists m :: 0 <= m < |cands| && Eligible(cands, m, errorSumAnchor) && r == ProposedLag(cands, m))
  {
    SelectFacts(cands, errorSumAnchor);
    var s := Select(cands, errorSumAnchor);
    if s.winnerIndex != -1 {
      var m :| 0 <= m < |cands| && Eligible(cands, m, errorSumAnchor) &&
        s.winnerLag == ProposedLag(cands, m) && s.winnerErrorSum == cands[m].errorSum;
      assert 3 <= cands[m].peak <= 501 && 0 <= m <= 4;
      assert m * FilterIntraLagShift <= 4 * 384;
    }
  }

  /** Appending one filter's candidate is one more step of the winner search. */
  lemma SelectAppend(cands: seq<Candidate>, c: Candidate, errorSumAnchor: real)
    ensures var s := Select(cands, errorSumAnchor);
      var all := cands + [c];
      var n := |cands|;
      var lag := c.peak + n * FilterIntraLagShift;
      Select(all, errorSumAnchor) ==
        if c.updated && Reliable(c, errorSumAnchor) && c.errorSum < s.winnerErrorSum then
          if s.previousLag >= 0 && s.previousLag == lag then Selection(c.errorSum, n - 1, s.previousLag, lag)
          else Selection(c.errorSum, n, lag, lag)
        else s.(previousLag := lag)
  {
    assert (cands + [c])[..|cands|] == cands;
  }

  /** Filter `h0` run over the capture gives taps `h`, and `c` records the run and the peak of `h`. */
  ghost predicate FilterRun(h0: seq<real>, x: seq<real>, capture: seq<real>, start: int, h: seq<real>, c: Candidate)
    requires 0 <= start < |x|
  {
    var r := Core(h0, x, capture, start, X2SumThreshold);
    h == r.h && c.updated == r.updated && c.errorSum == r.errorSum && IsScanPeak(h, c.peak)
  }

  /** The capture energy, the anchor every filter's error is compared with. */
  method Energy(capture: seq<real>) returns (e: real)
    ensures e == SumSquares(capture)
  {
    e := 0.0;
    var k := 0;
    while k < |capture|
      invariant 0 <= k <= |capture| && e == SumSquares(capture[..k])
    {
      SumPrefix(capture, k);
      e := e + capture[k] * capture[k];
      k := k + 1;
    }
    assert capture[..|capture|] == capture;
  }

  /** Where filter `n` starts reading the down-sampled render ring. */
  function StartIndex(read: int, n: nat, size: int): (r: int)
    requires 0 <= read && size > 0
    ensures 0 <= r < size
  {
    (read + n * FilterIntraLagShift + SubBlockSize - 1) % size
  }

  /** One filter of `Update`: adapt it from its alignment in the render ring and find its peak. */
  method RunFilter(x: seq<real>, capture: seq<real>, read: int, n: nat, h0: seq<real>) returns (h: seq<real>, c: Candidate)
    requires 0 <= read < |x|
    ensures FilterRun(h0, x, capture, StartIndex(read, n, |x|), h, c)
  {
    var xStartIndex := (read + n * FilterIntraLagShift + SubBlockSize - 1) % |x|;
    var filtersUpdated, errorSum;
    h, filtersUpdated, errorSum := MatchedFilterCore(xStartIndex, X2SumThreshold, x, capture, h0);
    var lagEstimate := MaxSquarePeakIndex(h);
    c := Candidate(filtersUpdated, lagEstimate, errorSum);
  }

  /**
   * The loop over the five filters: run each from its own start in the render
   * ring, and keep the winner search going as each candidate arrives.
   */
  method RunFilters(x: seq<real>, capture: seq<real>, read: int, filters0: seq<seq<real>>, errorSumAnchor: real)
    returns (taps: seq<seq<real>>, ghost cands: seq<Candidate>, winnerIndex: int, lagOfWinner: int)
    requires 0 <= read < |x| && |filters0| == NumFilters
    requires forall m :: 0 <= m < NumFilters ==> |filters0[m]| == FilterLength
    ensures |taps| == NumFilters && |cands| == NumFilters
    ensures forall m :: 0 <= m < NumFilters ==>
      FilterRun(filters0[m], x, capture, StartIndex(read, m, |x|), taps[m], cands[m])
    ensures winnerIndex == Select(cands, errorSumAnchor).winnerIndex
    ensures lagOfWinner == Select(cands, errorSumAnchor).winnerLag
  {
    var winnerErrorSum := errorSumAnchor;
    lagOfWinner := -1;
    var alignmentShift := 0;
    var previousLagEstimate := -1;
    winnerIndex := -1;
    taps := filters0;
    cands := [];
    var n := 0;
    while n < NumFilters
      invariant 0 <= n <= NumFilters && |cands| == n && alignmentShift == n * FilterIntraLagShift
      invariant |taps| == NumFilters && forall m :: n <= m < NumFilters ==> taps[m] == filters0[m]
      invariant forall m :: 0 <= m < n ==>
        FilterRun(filters0[m], x, capture, StartIndex(read, m, |x|), taps[m], cands[m])
      invariant Select(cands, errorSumAnchor) ==
        Selection(winnerErrorSum, winnerIndex, lagOfWinner, previousLagEstimate)
    {
      var h, c := RunFilter(x, capture, read, n, taps[n]);
      var filtersUpdated, lagEstimate, errorSum := c.updated, c.peak, c.errorSum;
      taps := taps[n := h];
      var reliable := lagEstimate > 2 && lagEstimate < |h| - 10 &&
        errorSum < MatchingFilterThreshold * errorSumAnchor;
      var lag := lagEstimate + alignmentShift;
      SelectAppend(cands, c, errorSumAnchor);
      cands := cands + [c];
      if filtersUpdated && reliable && errorSum < winnerErrorSum {
        winnerErrorSum := errorSum;
        winnerIndex := n;
        if previousLagEstimate >= 0 && previousLagEstimate == lag {
          lagOfWinner := previousLagEstimate;
          winnerIndex := n - 1;
        } else {
          lagOfWinner := lag;
        }
      }
      previousLagEstimate := lag;
      alignmentShift := alignmentShift + FilterIntraLagShift;
      n := n + 1;
    }
  }

  class MatchedFilter {
    var filters: seq<seq<real>>
    var reportedLag: int
    var winnerLag: int

    /** Five filters of 512 taps, and a reported lag that is -1 or within [3, 2037]. */
    ghost predicate Valid()
      reads this
    {
      |filters| == NumFilters && (forall n :: 0 <= n < NumFilters ==> |filters[n]| == FilterLength) &&
      (reportedLag == -1 || 3 <= reportedLag <= 2037)
    }

    constructor ()
      ensures Valid() && reportedLag == -1 && winnerLag == -1
      ensures forall n, k :: 0 <= n < NumFilters && 0 <= k < FilterLength ==> filters[n][k] == 0.0
    {
      filters := seq(NumFilters, _ => Zeros(FilterLength));
      reportedLag, winnerLag := -1, -1;
    }

    /** `Reset`: all taps to zero and no lag. */
    method Reset()
      modifies this
      ensures Valid() && reportedLag == -1 && winnerLag == -1
      ensures forall n, k :: 0 <= n < NumFilters && 0 <= k < FilterLength ==> filters[n][k] == 0.0
    {
      filters := seq(NumFilters, _ => Zeros(FilterLength));
      reportedLag, winnerLag := -1, -1;
    }

    /** The lag reported by the last `Update`, in down-sampled samples, or -1. */
    function GetBestLagEstimate(): (r: int)
      reads this
      requires Valid()
      ensures r == reportedLag && (r == -1 || 3 <= r <= 2037)
    {
      reportedLag
    }

    /**
     * `Update`: run every filter over the capture sub-block, take each filter's
     * squared peak, and report the lag of the winner of `Select`. The capture
     * energy is the error every candidate must beat.
     */
    method Update(renderBuffer: Ring<real>, capture: seq<real>) returns (ghost cands: seq<Candidate>)
      requires Valid() && renderBuffer.Valid()
      modifies this
      ensures Valid() && |cands| == NumFilters
      ensures forall n :: 0 <= n < NumFilters ==>
        FilterRun(old(filters)[n], renderBuffer.buffer, capture, StartIndex(renderBuffer.read, n, renderBuffer.size),
                  filters[n], cands[n])
      ensures winnerLag == Select(cands, SumSquares(capture)).winnerLag
      ensures reportedLag == ReportedLag(cands, SumSquares(capture))
    {
      var x := renderBuffer.buffer;
      var errorSumAnchor := Energy(capture);
      var taps, winnerIndex, lagOfWinner;
      taps, cands, winnerIndex, lagOfWinner := RunFilters(x, capture, renderBuffer.read, filters, errorSumAnchor);
      filters := taps;
      winnerLag := lagOfWinner;
      reportedLag := -1;
      if winnerIndex != -1 {
        reportedLag := winnerLag;
      }
      ReportedLagRange(cands, errorSumAnchor);
    }
  }
}

=== FILE: moving_average.dfy ===
/**
 * The moving average over the current input and the `memLen` previous inputs,
 * kept in a ring of slots that the next input overwrites.
 */
module MovingAverages {
  import RingIndex
  import opened Numerics

  /** Bin `i` summed over all stored slots, first slot first. */
  function SlotSum(memory: seq<seq<real>>, i: nat): real
    requires forall s :: 0 <= s < |memory| ==> i < |memory[s]|
  {
    if memory == [] then 0.0 else SlotSum(memory[..|memory| - 1], i) + memory[|memory| - 1][i]
  }

  /** When every slot holds `c` in bin `i`, the slots sum to `|memory|` times `c`. */
  lemma {:induction false} SlotSumConstant(memory: seq<seq<real>>, i: nat, c: real)
    requires forall s :: 0 <= s < |memory| ==> i < |memory[s]| && memory[s][i] == c
    ensures SlotSum(memory, i) == |memory| as real * c
  {
    if memory != [] {
      SlotSumConstant(memory[..|memory| - 1], i, c);
    }
  }

  /** A steady input averages to itself once every slot holds it. */
  lemma SteadyInputIsFixedPoint(memory: seq<seq<real>>, i: nat, c: real)
    requires forall s :: 0 <= s < |memory| ==> i < |memory[s]| && memory[s][i] == c
    ensures (c + SlotSum(memory, i)) * (1.0 / (|memory| + 1) as real) == c
  {
    SlotSumConstant(memory, i, c);
    var n := (|memory| + 1) as real;
    assert c + SlotSum(memory, i) == n * c;
  }

  /**
   * How many inputs ago slot `s` was written, when the next write goes to
   * `index` of a ring of `len` slots.
   */
  function SlotAge(s: int, index: int, len: int): (age: int)
    requires 0 <= s < len && 0 <= index < len
    ensures 0 <= age < len
  {
    (index + len - 1 - s) % len
  }

  /** After a write at `index`, that slot is the newest and every other slot is one input older. */
  lemma SlotAgeStep(s: int, index: int, len: int)
    requires 0 <= s < len && 0 <= index < len
    ensures SlotAge(s, (index + 1) % len, len) == if s == index then 0 else SlotAge(s, index, len) + 1
  {
    RingIndex.ModSmall(index + 1, len);
    RingIndex.ModSmall(index + len - 1 - s, len);
    RingIndex.ModSmall((index + 1) % len + len - 1 - s, len);
  }

  class MovingAverage {
    const numElem: nat
    /** The number of stored previous inputs: one less than the averaging length. */
    const memLen: nat
    const scaling: real
    var memory: seq<seq<real>>
    var memIndex: nat
    /** Every input given to `Average`, oldest first. */
    ghost var history: seq<seq<real>>

    /**
     * `memLen` slots of `numElem` values, the next slot to write in range, and
     * each slot holding the input of its age, or zeros if there was none.
     */
    ghost predicate Valid()
      reads this
    {
      |memory| == memLen &&
      (forall s :: 0 <= s < memLen ==> |memory[s]| == numElem) &&
      (if memLen == 0 then memIndex == 0 else memIndex < memLen) &&
      scaling == 1.0 / (memLen + 1) as real &&
      (forall s :: 0 <= s < memLen ==>
        memory[s] == if SlotAge(s, memIndex, memLen) < |history|
                     then history[|history| - 1 - SlotAge(s, memIndex, memLen)]
                     else Zeros(numElem))
    }

    /** Averages `numElem`-value inputs over `memLength` of them; the memory starts at zero. */
    constructor (numElem: nat, memLength: nat)
      requires memLength >= 1
      ensures Valid() && history == []
      ensures this.numElem == numElem && memLen == memLength - 1
      ensures forall s :: 0 <= s < memLen ==> memory[s] == Zeros(numElem)
    {
      this.numElem := numElem;
      memLen := memLength - 1;
      scaling := 1.0 / memLength as real;
      memory := seq(memLength - 1, _ => Zeros(numElem));
      memIndex := 0;
      history := [];
    }

    /**
     * `Average`: each output value is the input plus every stored slot, times
     * the scaling; then the input replaces the oldest slot.
     */
    method Average(input: seq<real>) returns (output: seq<real>)
      requires Valid() && |input| == numElem
      modifies this
      ensures Valid() && history == old(history) + [input]
      ensures |output| == numElem
      ensures forall i :: 0 <= i < numElem ==> output[i] == (input[i] + SlotSum(old(memory), i)) * scaling
      ensures memLen == 0 ==> output == input && memory == old(memory) && memIndex == old(memIndex)
      ensures memLen > 0 ==> memory == old(memory)[old(memIndex) := input] && memIndex == (old(memIndex) + 1) % memLen
    {
      var out := Accumulate(input, memory);
      output := Scaled(out, scaling);
      assert memLen == 0 ==> forall i :: 0 <= i < numElem ==> output[i] == input[i];
      Store(input);
    }

    /** The input replaces the slot at the write index, which then advances around the ring. */
    method Store(input: seq<real>)
      requires Valid() && |input| == numElem
      modifies this
      ensures Valid() && history == old(history) + [input]
      ensures memLen == 0 ==> memory == old(memory) && memIndex == old(memIndex)
      ensures memLen > 0 ==> memory == old(memory)[old(memIndex) := input] && memIndex == (old(memIndex) + 1) % memLen
    {
      history := history + [input];
      if memLen > 0 {
        ghost var oldIndex := memIndex;
        memory := memory[memIndex := input];
        memIndex := (memIndex + 1) % memLen;
        forall s | 0 <= s < memLen
          ensures SlotAge(s, memIndex, memLen) == if s == oldIndex then 0 else SlotAge(s, oldIndex, memLen) + 1
        {
          SlotAgeStep(s, oldIndex, memLen);
        }
      }
    }
  }

  /** Every value of `a` times `scaling`. */
  method Scaled(a: array<real>, scaling: real) returns (r: seq<real>)
    modifies a
    ensures |r| == a.Length
    ensures forall j :: 0 <= j < a.Length ==> r[j] == old(a[j]) * scaling
  {
    var i := 0;
    while i < a.Length
      invariant 0 <= i <= a.Length
      invariant forall j :: 0 <= j < i ==> a[j] == old(a[j]) * scaling
      invariant forall j :: i <= j < a.Length ==> a[j] == old(a[j])
    {
      a[i] := a[i] * scaling;
      i := i + 1;
    }
    r := a[..];
  }

  /** The input plus every slot, added slot by slot into a fresh array. */
  method Accumulate(input: seq<real>, memory: seq<seq<real>>) returns (out: array<real>)
    requires forall s :: 0 <= s < |memory| ==> |memory[s]| == |input|
    ensures fresh(out) && out.Length == |input|
    ensures forall j :: 0 <= j < |input| ==> out[j] == input[j] + SlotSum(memory, j)
  {
    out := new real[|input|](j requires 0 <= j < |input| => input[j]);
    var s := 0;
    while s < |memory|
      modifies out
      invariant 0 <= s <= |memory|
      invariant forall j :: 0 <= j < |input| ==> out[j] == input[j] + SlotSum(memory[..s], j)
    {
      var k := 0;
      while k < |input|
        modifies out
        invariant 0 <= k <= |input|
        invariant forall j :: 0 <= j < k ==> out[j] == input[j] + SlotSum(memory[..s + 1], j)
        invariant forall j :: k <= j < |input| ==> out[j] == input[j] + SlotSum(memory[..s], j)
      {
        assert memory[..s + 1][..s] == memory[..s];
        out[k] := out[k] + memory[s][k];
        k := k + 1;
      }
      s := s + 1;
    }
    assert memory[..|memory|] == memory;
  }
}

=== FILE: numerics.dfy ===
/** Shared numeric vocabulary: sums, clamps, 16-bit samples and an Option type. */
module Numerics {

  /** A 16-bit signed PCM sample. */
  type Int16 = x: int | -32768 <= x <= 32767

  datatype Option<T> = None | Some(value: T)

  function Max(a: real, b: real): (r: real)
    ensures r >= a && r >= b && (r == a || r == b)
  {
    if a >= b then a else b
  }

  function Min(a: real, b: real): (r: real)
    ensures r <= a && r <= b && (r == a || r == b)
  {
    if a <= b then a else b
  }

  /** The smaller of two integer counts, as `if (x > y) x = y;` computes it. */
  function MinInt(a: int, b: int): (r: int)
    ensures r <= a && r <= b && (r == a || r == b)
  {
    if a <= b then a else b
  }

  /** `std::min(std::max(x, lo), hi)` as the source writes its clamps. */
  function Clamp(x: real, lo: real, hi: real): (r: real)
    requires lo <= hi
    ensures lo <= r <= hi
    ensures lo <= x <= hi ==> r == x
  {
    Min(Max(x, lo), hi)
  }

  /** A product with a positive factor that is not positive has a non-positive other factor. */
  lemma ProductSign(a: real, b: real)
    requires b > 0.0 && a * b <= 0.0
    ensures a <= 0.0
  {
  }

  /** A negative product with a positive factor has a negative other factor. */
  lemma StrictProductSign(a: real, b: real)
    requires b > 0.0 && a * b < 0.0
    ensures a < 0.0
  {
  }

  /** Sum of a sequence, accumulated front to back like `std::accumulate`. */
  function Sum(s: seq<real>): real
  {
    if s == [] then 0.0 else Sum(s[..|s| - 1]) + s[|s| - 1]
  }

  /** Sum of squares, the energy of a block of samples. */
  function SumSquares(s: seq<real>): real
  {
    if s == [] then 0.0 else SumSquares(s[..|s| - 1]) + s[|s| - 1] * s[|s| - 1]
  }

  lemma {:induction false} SumSquaresNonNegative(s: seq<real>)
    ensures SumSquares(s) >= 0.0
  {
    if s != [] {
      SumSquaresNonNegative(s[..|s| - 1]);
    }
  }

  /** Extending a prefix by one element adds that element to the sum. */
  lemma SumPrefix(s: seq<real>, i: nat)
    requires i < |s|
    ensures Sum(s[..i + 1]) == Sum(s[..i]) + s[i]
    ensures SumSquares(s[..i + 1]) == SumSquares(s[..i]) + s[i] * s[i]
  {
    assert s[..i + 1][..i] == s[..i];
  }

  /** Extending a slice by one element adds that element to the sum. */
  lemma SumSlice(s: seq<real>, a: nat, b: nat)
    requires a <= b < |s|
    ensures Sum(s[a..b + 1]) == Sum(s[a..b]) + s[b]
    ensures SumSquares(s[a..b + 1]) == SumSquares(s[a..b]) + s[b] * s[b]
  {
    assert s[a..b + 1][..b - a] == s[a..b];
  }

  /** A sum of `|s|` terms, each within `[lo, hi]`, lies within `[|s| lo, |s| hi]`. */
  lemma {:induction false} SumBounds(s: seq<real>, lo: real, hi: real)
    requires forall i :: 0 <= i < |s| ==> lo <= s[i] <= hi
    ensures (|s| as real) * lo <= Sum(s) <= (|s| as real) * hi
  {
    if s != [] {
      SumBounds(s[..|s| - 1], lo, hi);
      assert (|s| as real) * lo == ((|s| - 1) as real) * lo + lo;
      assert (|s| as real) * hi == ((|s| - 1) as real) * hi + hi;
    }
  }

  function Zeros(n: nat): (r: seq<real>)
    ensures |r| == n && forall i :: 0 <= i < n ==> r[i] == 0.0
  {
    seq(n, _ => 0.0)
  }
}

=== FILE: panode.dfy ===
/**
 * The sample FIFOs of the PortAudio bridge: a fixed array of 48000 16-bit
 * samples with a fill count, shifted down when samples are taken from the
 * front and appended to at the back, one for the microphone and one for the
 * speaker.
 */
module PaNode {
  import opened Numerics

  /** Capacity of a sample buffer. */
  const SampleMax: int := 48000
  /** Largest callback period, in samples. */
  const MaxFramesPerBuffer: int := 1024

  /** How many samples `pushSamples` shifts out before appending `num` to a buffer holding `used`. */
  function Dropped(used: int, num: int): (d: int)
    requires 0 <= used && 0 <= num
    ensures 0 <= d <= used
    ensures used + num <= SampleMax ==> d == 0
    ensures used + num > SampleMax ==> d == MinInt(num, used)
  {
    if used + num > SampleMax then MinInt(num, used) else 0
  }

  /**
   * On overflow, `pushSamples` always drops enough to make room for at most
   * 48000 new samples, and drops all `num` of the oldest whenever it can,
   * which is more than needed unless the buffer was exactly full.
   */
  lemma DroppedMakesRoom(used: int, num: int)
    requires 0 <= used <= SampleMax && 0 <= num <= SampleMax
    ensures used - Dropped(used, num) + num <= SampleMax
    ensures used + num > SampleMax && num <= used ==> Dropped(used, num) == num
    ensures used + num > SampleMax && used < SampleMax && num <= used ==>
      Dropped(used, num) > used + num - SampleMax
  {
  }

  class SampleBuffer {
    const samples: array<Int16>
    var used: int

    ghost predicate Valid()
      reads this
    {
      samples.Length == SampleMax && 0 <= used <= SampleMax
    }

    /** The samples held, oldest first. */
    ghost function Contents(): (c: seq<Int16>)
      requires Valid()
      reads this, samples
      ensures |c| == used
    {
      samples[..used]
    }

    /** `malloc` plus `memset(0)`: all 48000 slots zero and nothing held. */
    constructor ()
      ensures Valid() && fresh(samples) && used == 0
      ensures forall i :: 0 <= i < SampleMax ==> samples[i] == 0
    {
      samples := new Int16[SampleMax](_ => 0);
      used := 0;
    }

    /**
     * `shiftSamples`: take up to `num` samples from the front, copying them to
     * `output` when it is given, and move the rest down to index 0.
     */
    method ShiftSamples(output: array?<Int16>, num: int) returns (n: int)
      requires Valid() && num >= 0
      requires output != null ==> output != samples && output.Length >= MinInt(num, used)
      modifies this, samples, output
      ensures Valid()
      ensures n == MinInt(num, old(used)) && used == old(used) - n
      ensures Contents() == old(Contents())[n..]
      ensures output != null ==> output[..n] == old(Contents())[..n] && output[n..] == old(output[n..])
    {
      var toOutput := num;
      if toOutput > used {
        toOutput := used;
      }
      if output != null {
        CopyFront(output, toOutput);
      }
      DropFront(toOutput);
      n := toOutput;
    }

    /** The move-down loop of `shiftSamples`: the samples after the first `count` slide to the front. */
    method DropFront(count: int)
      requires Valid() && 0 <= count <= used
      modifies this, samples
      ensures Valid() && used == old(used) - count
      ensures Contents() == old(Contents())[count..]
    {
      ghost var before := samples[..used];
      var i := count;
      while i < used
        invariant Valid() && used == old(used) && count <= i <= used
        invariant forall j :: 0 <= j < i - count ==> samples[j] == before[j + count]
        invariant forall j :: i <= j < used ==> samples[j] == before[j]
      {
        samples[i - count] := samples[i];
        i := i + 1;
      }
      used := used - count;
      assert Contents() == before[count..];
    }

    /** The copy-out loop of `shiftSamples` and `getRecordedSamples`. */
    method CopyFront(output: array<Int16>, count: int)
      requires Valid() && output != samples && 0 <= count <= used && count <= output.Length
      modifies output
      ensures output[..count] == Contents()[..count] && output[count..] == old(output[count..])
    {
      var i := 0;
      while i < count
        invariant 0 <= i <= count
        invariant output[..i] == samples[..i] && output[count..] == old(output[count..])
      {
        output[i] := samples[i];
        i := i + 1;
      }
    }

    /**
     * `pushSamples`: when the new samples would not fit, first drop
     * min(num, used) of the oldest; then append them all in order.
     */
    method PushSamples(append: seq<Int16>)
      requires Valid() && |append| <= SampleMax
      modifies this, samples
      ensures Valid()
      ensures var d := Dropped(old(used), |append|);
        used == old(used) - d + |append| && Contents() == old(Contents())[d..] + append
    {
      var num := |append|;
      if used + num > SampleMax {
        var shifted := ShiftSamples(null, num);
      }
      assert used == old(used) - Dropped(old(used), num) && Contents() == old(Contents())[Dropped(old(used), num)..];
      ghost var kept := Contents();
      var i := 0;
      while i < num
        invariant Valid() && used == old(used) - Dropped(old(used), num)
        invariant 0 <= i <= num && used + num <= SampleMax
        invariant samples[..used] == kept
        invariant forall j :: 0 <= j < i ==> samples[used + j] == append[j]
      {
        samples[i + used] := append[i];
        i := i + 1;
      }
      assert samples[..used + num] == kept + append;
      used := used + num;
    }

    /**
     * `getRecordedSamples`: copy min(maxnum, used) leading samples out and
     * leave the buffer as it is; a negative `maxnum` is returned unchanged.
     */
    method CopyRecorded(output: array<Int16>, maxnum: int) returns (n: int)
      requires Valid() && output != samples && output.Length >= MinInt(maxnum, used)
      modifies output
      ensures n == MinInt(maxnum, used)
      ensures n >= 0 ==> output[..n] == Contents()[..n] && output[n..] == old(output[n..])
      ensures n < 0 ==> output[..] == old(output[..])
    {
      n := maxnum;
      if n > used {
        n := used;
      }
      if n >= 0 {
        CopyFront(output, n);
      }
    }
  }

  /** The bridge's global state: the two buffers and the stream parameters. */
  class Node {
    const recBuffer: SampleBuffer
    const playBuffer: SampleBuffer
    var recFreq: int
    var playFreq: int
    var framesPerBuffer: int

    ghost predicate Valid()
      reads this, recBuffer, playBuffer
    {
      recBuffer != playBuffer && recBuffer.samples != playBuffer.samples &&
      recBuffer.Valid() && playBuffer.Valid() && framesPerBuffer <= MaxFramesPerBuffer
    }

    /**
     * `initSampleBuffers`: record the rates, cap the callback period at 1024
     * samples and start with two zeroed, empty buffers.
     */
    constructor (recordRate: int, playRate: int, frames: int)
      ensures Valid() && fresh(recBuffer) && fresh(playBuffer) && fresh(recBuffer.samples) && fresh(playBuffer.samples)
      ensures recFreq == recordRate && playFreq == playRate
      ensures framesPerBuffer == if frames > MaxFramesPerBuffer then MaxFramesPerBuffer else frames
      ensures recBuffer.used == 0 && playBuffer.used == 0
    {
      recFreq, playFreq := recordRate, playRate;
      framesPerBuffer := if frames > MaxFramesPerBuffer then MaxFramesPerBuffer else frames;
      recBuffer := new SampleBuffer();
      playBuffer := new SampleBuffer();
    }

    /** `getRecordedSamples`. */
    method GetRecordedSamples(output: array<Int16>, maxnum: int) returns (n: int)
      requires Valid() && output != recBuffer.samples && output.Length >= MinInt(maxnum, recBuffer.used)
      modifies output
      ensures n == MinInt(maxnum, recBuffer.used)
      ensures n >= 0 ==> output[..n] == recBuffer.Contents()[..n]
    {
      n := recBuffer.CopyRecorded(output, maxnum);
    }

    /** `discardRecordedSamples`: a shift of the record buffer without output. */
    method DiscardRecordedSamples(num: int)
      requires Valid() && num >= 0
      modifies recBuffer, recBuffer.samples
      ensures Valid()
      ensures recBuffer.Contents() == old(recBuffer.Contents())[MinInt(num, old(recBuffer.used))..]
    {
      var n := recBuffer.ShiftSamples(null, num);
    }

    /** `pushSamplesForPlay`. */
    method PushSamplesForPlay(samples: seq<Int16>)
      requires Valid() && |samples| <= SampleMax
      modifies playBuffer, playBuffer.samples
      ensures Valid()
      ensures var d := Dropped(old(playBuffer.used), |samples|);
        playBuffer.Contents() == old(playBuffer.Contents())[d..] + samples
    {
      playBuffer.PushSamples(samples);
    }

    /** The buffer half of `recordCallback`: the period's input, or zeros without one, appended to the record buffer. */
    method RecordCallback(input: Option<seq<Int16>>, frames: int)
      requires Valid() && 0 <= frames <= MaxFramesPerBuffer
      requires input.Some? ==> |input.value| >= frames
      modifies recBuffer, recBuffer.samples
      ensures Valid()
      ensures var block := if input.Some? then input.value[..frames] else seq(frames, _ => 0);
        recBuffer.Contents() == old(recBuffer.Contents())[Dropped(old(recBuffer.used), frames)..] + block
    {
      var block: seq<Int16> := [];
      var i := 0;
      while i < frames
        invariant 0 <= i <= frames && |block| == i
        invariant forall j :: 0 <= j < i ==> block[j] == if input.Some? then input.value[j] else 0
      {
        block := block + [if input.Some? then input.value[i] else 0];
        i := i + 1;
      }
      recBuffer.PushSamples(block);
    }

    /**
     * The buffer half of `playCallback`: silence, consuming nothing, when fewer
     * than a period of samples wait; otherwise exactly one period, in order.
     */
    method PlayCallback(output: array<Int16>, frames: int)
      requires Valid() && 0 <= frames <= output.Length
      requires output != playBuffer.samples && output != recBuffer.samples
      modifies output, playBuffer, playBuffer.samples
      ensures Valid()
      ensures old(playBuffer.used) < frames ==>
        playBuffer.Contents() == old(playBuffer.Contents()) && output[..frames] == seq(frames, _ => 0)
      ensures old(playBuffer.used) >= frames ==>
        output[..frames] == old(playBuffer.Contents())[..frames] &&
        playBuffer.Contents() == old(playBuffer.Contents())[frames..]
    {
      if playBuffer.used < frames {
        FillSilence(output, frames);
        return;
      }
      var n := playBuffer.ShiftSamples(output, frames);
    }
  }

  /** `memset(wptr, 0, ...)`: the first `frames` samples of `output` become zero. */
  method FillSilence(output: array<Int16>, frames: int)
    requires 0 <= frames <= output.Length
    modifies output
    ensures output[..frames] == seq(frames, _ => 0) && output[frames..] == old(output[frames..])
  {
    var i := 0;
    while i < frames
      invariant 0 <= i <= frames
      invariant forall j :: 0 <= j < i ==> output[j] == 0
      invariant output[frames..] == old(output[frames..])
    {
      output[i] := 0;
      i := i + 1;
    }
  }
}

=== FILE: render_buffer.dfy ===
/** The echo remover's read-only view of the render rings. */
module RenderBuffers {
  import RingIndex
  import opened Blocks
  import opened Fft
  import opened RingBuffers

  /** `n` consecutive slots of a ring starting at `start`, wrapping at the end. */
  function Rotation<T>(buffer: seq<T>, start: int, n: nat): (r: seq<T>)
    requires |buffer| > 0
    ensures |r| == n
    ensures forall j :: 0 <= j < n ==> r[j] == buffer[(start + j) % |buffer|]
  {
    seq(n, j requires 0 <= j < n => buffer[(start + j) % |buffer|])
  }

  /** Bin-wise sum of `n` consecutive spectra of a ring starting at `start`. */
  function SpectralSumOf(buffer: seq<Bins>, start: int, n: nat): (x2: Bins)
    requires |buffer| > 0
    ensures forall k :: 0 <= k < 65 ==> x2[k] == ColumnSum(Rotation(buffer, start, n), k)
  {
    seq(65, k requires 0 <= k < 65 => ColumnSum(Rotation(buffer, start, n), k))
  }

  class RenderBuffer {
    const blockBuffer: Ring<Block>
    const spectrumBuffer: Ring<Bins>
    const fftBuffer: Ring<Fft65>

    constructor (blockBuffer: Ring<Block>, spectrumBuffer: Ring<Bins>, fftBuffer: Ring<Fft65>)
      ensures this.blockBuffer == blockBuffer && this.spectrumBuffer == spectrumBuffer
      ensures this.fftBuffer == fftBuffer
    {
      this.blockBuffer := blockBuffer;
      this.spectrumBuffer := spectrumBuffer;
      this.fftBuffer := fftBuffer;
    }

    /** The block `offset` slots after the read cursor of the block ring. */
    function GetBlock(offset: int): (b: Block)
      reads blockBuffer
      requires blockBuffer.Valid() && blockBuffer.size + blockBuffer.read + offset >= 0
      ensures b == blockBuffer.buffer[(blockBuffer.read + offset) % blockBuffer.size]
    {
      blockBuffer.buffer[blockBuffer.OffsetIndex(blockBuffer.read, offset)]
    }

    /** The power spectrum `offset` slots after the read cursor of the spectrum ring. */
    function Spectrum(offset: int): (s: Bins)
      reads spectrumBuffer
      requires spectrumBuffer.Valid() && spectrumBuffer.size + spectrumBuffer.read + offset >= 0
      ensures s == spectrumBuffer.buffer[(spectrumBuffer.read + offset) % spectrumBuffer.size]
    {
      spectrumBuffer.buffer[spectrumBuffer.OffsetIndex(spectrumBuffer.read, offset)]
    }

    function GetFftBuffer(): (f: seq<Fft65>)
      reads fftBuffer
      requires fftBuffer.Valid()
      ensures |f| == fftBuffer.size
    {
      fftBuffer.buffer
    }

    /** The read cursor of the FFT ring, a valid slot. */
    function Position(): (p: int)
      reads fftBuffer
      requires fftBuffer.Valid()
      ensures 0 <= p < |fftBuffer.buffer| && p == fftBuffer.read
    {
      fftBuffer.read
    }

    /**
     * The bin-wise sum of `numSpectra` consecutive power spectra starting at the
     * read cursor of the spectrum ring.
     */
    method SpectralSum(numSpectra: nat) returns (x2: Bins)
      requires spectrumBuffer.Valid()
      ensures x2 == SpectralSumOf(spectrumBuffer.buffer, spectrumBuffer.read, numSpectra)
    {
      var buffer := spectrumBuffer.buffer;
      var read := spectrumBuffer.read;
      var size := spectrumBuffer.size;
      var a := new real[65](_ => 0.0);
      var position := read;
      var j := 0;
      while j < numSpectra
        invariant 0 <= j <= numSpectra
        invariant 0 <= position < size && position == (read + j) % size
        invariant forall k :: 0 <= k < 65 ==> a[k] == ColumnSum(Rotation(buffer, read, j), k)
      {
        var spectrum := buffer[position];
        ghost var done := Rotation(buffer, read, j + 1);
        assert done == Rotation(buffer, read, j) + [spectrum];
        var k := 0;
        while k < 65
          invariant 0 <= k <= 65
          invariant forall i :: 0 <= i < k ==> a[i] == ColumnSum(done, i)
          invariant forall i :: k <= i < 65 ==> a[i] == ColumnSum(Rotation(buffer, read, j), i)
        {
          ColumnSumAppend(Rotation(buffer, read, j), spectrum, k);
          a[k] := a[k] + spectrum[k];
          k := k + 1;
        }
        RingIndex.ModAdd(read + j, 1, size, position);
        position := spectrumBuffer.IncIndex(position);
        j := j + 1;
      }
      x2 := a[..];
      assert x2 == SpectralSumOf(buffer, read, numSpectra);
    }

    /** Summing no spectra gives all zeros. */
    lemma SpectralSumOfNothing(buffer: seq<Bins>, read: int, k: int)
      requires |buffer| > 0 && 0 <= k < 65
      ensures ColumnSum(Rotation(buffer, read, 0), k) == 0.0
    {
    }
  }
}

=== FILE: render_delay_buffer.dfy ===
/**
 * The render delay buffer: every far-end block is stored in four rings (the
 * blocks themselves, their FFTs, their power spectra and a down-sampled copy),
 * and the read cursors are placed so that the echo remover sees the render
 * signal delayed by the current echo-path delay.
 *
 * The block ring runs forwards, the spectrum and FFT rings run backwards; the
 * delay is the distance between a ring's write and read cursors, measured in the
 * ring's own direction, and it is the same in all three rings.
 */
module RenderDelay {
  import RingIndex
  import opened Numerics
  import opened Aec3Common
  import opened Blocks
  import opened Fft
  import opened Decimator
  import opened RingBuffers
  import opened RenderBuffers

  datatype BufferingEvent = NoEvent | RenderUnderrun | RenderOverrun

  const SubBlockSize: int := 16
  const NumBlocks: int := 167
  const DownsampledSize: int := 2448
  const BufferHeadroom: int := 13

  /** `ds` written back to front into `buffer` starting at slot `at`. */
  function WriteReversed(buffer: seq<real>, at: int, ds: seq<real>): (r: seq<real>)
    requires 0 <= at && at + |ds| <= |buffer|
    ensures |r| == |buffer|
    ensures forall i {:trigger ds[i]} :: 0 <= i < |ds| ==> r[at + |ds| - 1 - i] == ds[i]
    ensures forall i :: 0 <= i < |buffer| && !(at <= i < at + |ds|) ==> r[i] == buffer[i]
  {
    buffer[..at] + seq(|ds|, i requires 0 <= i < |ds| => ds[|ds| - 1 - i]) + buffer[at + |ds|..]
  }

  /** Slots from `from` forwards to `to` in a ring of `n` slots. */
  function Gap(to: int, from: int, n: int): (g: int)
    requires 0 <= to < n && 0 <= from < n
    ensures 0 <= g < n && g == (to - from) % n
  {
    RingIndex.ModSmall(to - from, n);
    if to >= from then to - from else to - from + n
  }

  /**
   * Moving the down-sampled write cursor back by one sub-block lengthens the
   * stretch from the write to the read cursor by one sub-block, unless it lands
   * on the read cursor.
   */
  lemma WriteStepGap(r: int, w: int)
    requires 0 <= r < DownsampledSize && 0 <= w < DownsampledSize
    requires r % SubBlockSize == 0 && w % SubBlockSize == 0
    requires r != (w - SubBlockSize) % DownsampledSize
    ensures Gap(r, (w - SubBlockSize) % DownsampledSize, DownsampledSize) == Gap(r, w, DownsampledSize) + SubBlockSize
  {
    RingIndex.ModSmall(w - SubBlockSize, DownsampledSize);
  }

  /** Moving the down-sampled read cursor back by one sub-block shortens a non-empty stretch by one sub-block. */
  lemma ReadStepGap(r: int, w: int)
    requires 0 <= r < DownsampledSize && 0 <= w < DownsampledSize
    requires r % SubBlockSize == 0 && w % SubBlockSize == 0 && r != w
    ensures Gap((r - SubBlockSize) % DownsampledSize, w, DownsampledSize) == Gap(r, w, DownsampledSize) - SubBlockSize
  {
    RingIndex.ModSmall(r - SubBlockSize, DownsampledSize);
  }

  class RenderDelayBuffer {
    const blocks: Ring<Block>
    const spectra: Ring<Bins>
    const ffts: Ring<Fft65>
    const lowRate: Ring<real>
    const echoRemoverBuffer: RenderBuffer
    const fft: Aec3Fft
    var delay: int
    var renderDs: seq<real>
    ghost const Repr: set<object>

    /**
     * The ring sizes and the alignment invariant: the FFT and spectrum cursors move
     * together, the down-sampled cursors stay on sub-block boundaries, and the
     * block ring lags by as many slots as the spectrum ring leads.
     */
    ghost predicate Valid()
      reads this, Repr
    {
      Repr == {this, blocks, spectra, ffts, lowRate} &&
      (blocks as object) != spectra && (blocks as object) != ffts && (blocks as object) != lowRate &&
      (spectra as object) != ffts && (spectra as object) != lowRate && (ffts as object) != lowRate &&
      this !in {blocks as object, spectra, ffts, lowRate} &&
      blocks.Valid() && spectra.Valid() && ffts.Valid() && lowRate.Valid() &&
      blocks.size == NumBlocks && spectra.size == NumBlocks && ffts.size == NumBlocks &&
      lowRate.size == DownsampledSize &&
      echoRemoverBuffer.blockBuffer == blocks && echoRemoverBuffer.spectrumBuffer == spectra &&
      echoRemoverBuffer.fftBuffer == ffts &&
      |renderDs| == SubBlockSize && delay >= -1 &&
      ffts.read == spectra.read && ffts.write == spectra.write &&
      lowRate.write % SubBlockSize == 0 && lowRate.read % SubBlockSize == 0 &&
      Gap(blocks.write, blocks.read, NumBlocks) == Gap(spectra.read, spectra.write, NumBlocks)
    }

    /** The read cursors sit `t` blocks behind the write cursors. */
    ghost predicate Aligned(t: int)
      reads blocks, spectra, ffts
    {
      blocks.read == (blocks.write - t) % NumBlocks &&
      spectra.read == (spectra.write + t) % NumBlocks &&
      ffts.read == (ffts.write + t) % NumBlocks
    }

    /** Rings of 167 blocks and 2448 down-sampled samples, all zero, aligned to the default delay. */
    constructor (fft: Aec3Fft)
      ensures Valid() && fresh(Repr) && this.fft == fft
      ensures delay == -1 && Aligned(10)
      ensures blocks.write == 0 && spectra.write == 0 && lowRate.write == 0
      ensures lowRate.read == SubBlockSize
      ensures forall i :: 0 <= i < NumBlocks ==> blocks.buffer[i] == Filled(0.0)
      ensures forall i :: 0 <= i < DownsampledSize ==> lowRate.buffer[i] == 0.0
    {
      DefaultSizes();
      var b := NewBlockBuffer(GetRenderDelayBufferSize(4, 5, 13));
      var s := NewSpectrumBuffer(b.size);
      var f := NewFftBuffer(b.size);
      var l := NewDownsampledRenderBuffer(GetDownSampledBufferSize(4, 5));
      blocks, spectra, ffts, lowRate := b, s, f, l;
      echoRemoverBuffer := new RenderBuffer(b, s, f);
      this.fft := fft;
      delay := -1;
      renderDs := Zeros(SubBlockSize);
      Repr := {this, b, s, f, l};
      new;
      RingIndex.ModSmall(SubBlockSize, DownsampledSize);
      Reset();
      assert lowRate.write == 0;
    }

    /** `ApplyTotalDelay`: place the three read cursors `t` blocks behind the write cursors. */
    method ApplyTotalDelay(t: int)
      requires Valid() && -NumBlocks <= t <= NumBlocks
      modifies blocks`read, spectra`read, ffts`read
      ensures Valid() && Aligned(t)
    {
      RingIndex.ModSmall(blocks.write - t, NumBlocks);
      RingIndex.ModSmall(spectra.write + t, NumBlocks);
      blocks.read := blocks.OffsetIndex(blocks.write, -t);
      spectra.read := spectra.OffsetIndex(spectra.write, t);
      ffts.read := ffts.OffsetIndex(ffts.write, t);
    }

    /** `Reset`: one sub-block of down-sampled latency, the default delay of 10 blocks, delay unknown. */
    method Reset()
      requires Valid()
      modifies lowRate`read, blocks`read, spectra`read, ffts`read, this`delay
      ensures Valid()
      ensures lowRate.read == (lowRate.write + SubBlockSize) % DownsampledSize
      ensures Aligned(10) && delay == -1
    {
      RingIndex.ModSmall(lowRate.write + SubBlockSize, DownsampledSize);
      lowRate.read := lowRate.OffsetIndex(lowRate.write, SubBlockSize);
      ApplyTotalDelay(10);
      delay := -1;
    }

    /** Whole sub-blocks between the down-sampled write and read cursors. */
    function BufferLatency(): (r: int)
      reads this, Repr
      requires Valid()
      ensures 0 <= r < DownsampledSize / SubBlockSize
      ensures r * SubBlockSize == Gap(lowRate.read, lowRate.write, DownsampledSize)
    {
      var latencySamples := RingIndex.CRem(lowRate.size + lowRate.read - lowRate.write, lowRate.size);
      RingIndex.ModShift(lowRate.read - lowRate.write, 1, lowRate.size);
      latencySamples / SubBlockSize
    }

    /** The largest total delay: the ring minus one slot and the headroom. */
    function MaxDelay(): (r: int)
      reads this, Repr
      requires Valid()
      ensures r == NumBlocks - 1 - BufferHeadroom
    {
      blocks.size - 1 - BufferHeadroom
    }

    /** `InsertBlock`: store `block` at the write cursors together with its derived forms. */
    method InsertBlock(block: Block, previousWrite: int)
      requires Valid() && 0 <= previousWrite < NumBlocks
      modifies blocks`buffer, spectra`buffer, ffts`buffer, lowRate`buffer, this`renderDs
      ensures Valid()
      ensures blocks.buffer == old(blocks.buffer)[blocks.write := block]
      ensures forall j :: 0 <= j < SubBlockSize ==> renderDs[j] == WindowMean(block, j)
      ensures lowRate.buffer == WriteReversed(old(lowRate.buffer), lowRate.write, renderDs)
      ensures ffts.buffer == old(ffts.buffer)[ffts.write :=
        fft.PaddedFft(View(block), View(blocks.buffer[previousWrite]))]
      ensures spectra.buffer == old(spectra.buffer)[spectra.write :=
        PowerSpectrum(ffts.buffer[ffts.write])]
    {
      blocks.buffer := blocks.buffer[blocks.write := block];
      renderDs := DecimateBy4(View(blocks.buffer[blocks.write]), SubBlockSize);
      lowRate.buffer := WriteReversed(lowRate.buffer, lowRate.write, renderDs);
      var x := fft.PaddedFft(View(blocks.buffer[blocks.write]), View(blocks.buffer[previousWrite]));
      ffts.buffer := ffts.buffer[ffts.write := x];
      spectra.buffer := spectra.buffer[spectra.write := PowerSpectrum(ffts.buffer[ffts.write])];
    }

    /** `IncrementWriteIndices`: one sub-block back in the down-sampled ring, one slot in the others. */
    method IncrementWriteIndices()
      requires Valid()
      modifies lowRate`write, blocks`write, spectra`write, ffts`write
      ensures Valid()
      ensures lowRate.write == (old(lowRate.write) - SubBlockSize) % DownsampledSize
      ensures blocks.write == (old(blocks.write) + 1) % NumBlocks
      ensures spectra.write == (old(spectra.write) - 1) % NumBlocks
      ensures ffts.write == (old(ffts.write) - 1) % NumBlocks
    {
      RingIndex.ModSmall(lowRate.write - SubBlockSize, DownsampledSize);
      RingIndex.ModSmall(blocks.write + 1, NumBlocks);
      RingIndex.ModSmall(spectra.write - 1, NumBlocks);
      lowRate.UpdateWriteIndex(-SubBlockSize);
      blocks.IncWriteIndex();
      spectra.DecWriteIndex();
      ffts.DecWriteIndex();
    }

    /** `IncrementReadIndices`: advance the read cursors unless the block ring is empty. */
    method IncrementReadIndices()
      requires Valid()
      modifies blocks`read, spectra`read, ffts`read
      ensures Valid()
      ensures old(blocks.read) != blocks.write ==>
        blocks.read == (old(blocks.read) + 1) % NumBlocks &&
        spectra.read == (old(spectra.read) - 1) % NumBlocks &&
        ffts.read == (old(ffts.read) - 1) % NumBlocks
      ensures old(blocks.read) == blocks.write ==>
        blocks.read == old(blocks.read) && spectra.read == old(spectra.read) && ffts.read == old(ffts.read)
    {
      if blocks.read != blocks.write {
        RingIndex.ModSmall(blocks.read + 1, NumBlocks);
        RingIndex.ModSmall(spectra.read - 1, NumBlocks);
        blocks.IncReadIndex();
        spectra.DecReadIndex();
        ffts.DecReadIndex();
      }
    }

    /**
     * `Insert`: advance the write cursors and store the block. An overrun (a write
     * cursor reaching its read cursor) resets the alignment.
     */
    method Insert(block: Block) returns (event: BufferingEvent)
      requires Valid()
      modifies Repr
      ensures Valid()
      ensures lowRate.write == (old(lowRate.write) - SubBlockSize) % DownsampledSize
      ensures blocks.write == (old(blocks.write) + 1) % NumBlocks
      ensures spectra.write == ffts.write == (old(spectra.write) - 1) % NumBlocks
      ensures blocks.buffer == old(blocks.buffer)[blocks.write := block]
      ensures forall j :: 0 <= j < SubBlockSize ==> renderDs[j] == WindowMean(block, j)
      ensures lowRate.buffer == WriteReversed(old(lowRate.buffer), lowRate.write, renderDs)
      ensures ffts.buffer == old(ffts.buffer)[ffts.write :=
        fft.PaddedFft(View(block), View(old(blocks.buffer)[old(blocks.write)]))]
      ensures spectra.buffer == old(spectra.buffer)[spectra.write :=
        PowerSpectrum(ffts.buffer[ffts.write])]
      ensures event == RenderOverrun <==>
        old(lowRate.read) == lowRate.write || old(blocks.read) == blocks.write
      ensures event == NoEvent || event == RenderOverrun
      ensures event == RenderOverrun ==>
        lowRate.read == (lowRate.write + SubBlockSize) % DownsampledSize && Aligned(10) && delay == -1
      ensures event == NoEvent ==> BufferLatency() == old(BufferLatency()) + 1
      ensures event == NoEvent ==>
        lowRate.read == old(lowRate.read) && blocks.read == old(blocks.read) &&
        spectra.read == old(spectra.read) && ffts.read == old(ffts.read) && delay == old(delay)
    {
      var previousWrite := blocks.write;
      IncrementWriteIndices();
      event := if lowRate.read == lowRate.write || blocks.read == blocks.write then RenderOverrun else NoEvent;
      if event == NoEvent {
        WriteStepGap(lowRate.read, old(lowRate.write));
      }
      InsertBlock(block, previousWrite);
      if event != NoEvent {
        Reset();
      }
    }

    /**
     * `PrepareCaptureProcessing`: consume one block of render. When the
     * down-sampled ring is empty this is an underrun; the full-band cursors still
     * advance and a known delay shrinks by one.
     */
    method PrepareCaptureProcessing() returns (event: BufferingEvent)
      requires Valid()
      modifies Repr
      ensures Valid()
      ensures blocks.write == old(blocks.write) && spectra.write == old(spectra.write)
      ensures ffts.write == old(ffts.write) && lowRate.write == old(lowRate.write)
      ensures blocks.buffer == old(blocks.buffer) && spectra.buffer == old(spectra.buffer)
      ensures ffts.buffer == old(ffts.buffer) && lowRate.buffer == old(lowRate.buffer)
      ensures event == RenderUnderrun <==> old(BufferLatency()) == 0
      ensures event == RenderUnderrun ==> BufferLatency() == 0
      ensures event == NoEvent ==> BufferLatency() == old(BufferLatency()) - 1
      ensures event == NoEvent || event == RenderUnderrun
      ensures event == RenderUnderrun ==>
        lowRate.read == old(lowRate.read) && delay == (if old(delay) > 0 then old(delay) - 1 else old(delay))
      ensures event == NoEvent ==>
        lowRate.read == (old(lowRate.read) - SubBlockSize) % DownsampledSize && delay == old(delay)
      ensures old(blocks.read) != blocks.write ==>
        blocks.read == (old(blocks.read) + 1) % NumBlocks &&
        spectra.read == ffts.read == (old(spectra.read) - 1) % NumBlocks
      ensures old(blocks.read) == blocks.write ==>
        blocks.read == old(blocks.read) && spectra.read == old(spectra.read) && ffts.read == old(ffts.read)
    {
      if lowRate.read == lowRate.write {
        IncrementReadIndices();
        if delay > 0 {
          delay := delay - 1;
        }
        event := RenderUnderrun;
      } else {
        ReadStepGap(lowRate.read, lowRate.write);
        lowRate.UpdateReadIndex(-SubBlockSize);
        IncrementReadIndices();
        event := NoEvent;
      }
    }

    /**
     * `AlignFromDelay`: adopt a new external delay. The total delay is the
     * down-sampled latency plus the external delay, capped at `MaxDelay()`.
     */
    method AlignFromDelay(d: nat) returns (changed: bool)
      requires Valid()
      modifies Repr
      ensures Valid()
      ensures changed <==> old(delay) != d
      ensures unchanged(lowRate) && blocks.write == old(blocks.write)
      ensures spectra.write == old(spectra.write) && ffts.write == old(ffts.write)
      ensures blocks.buffer == old(blocks.buffer) && spectra.buffer == old(spectra.buffer)
      ensures ffts.buffer == old(ffts.buffer)
      ensures changed ==> delay == d && Aligned(if BufferLatency() + d < MaxDelay() then BufferLatency() + d else MaxDelay())
      ensures !changed ==> delay == old(delay) && unchanged(blocks, spectra, ffts)
    {
      if delay == d {
        return false;
      }
      delay := d;
      var totalDelay := BufferLatency() + delay;
      totalDelay := if totalDelay < 0 then 0 else totalDelay;
      totalDelay := if MaxDelay() < totalDelay then MaxDelay() else totalDelay;
      ApplyTotalDelay(totalDelay);
      return true;
    }

    /** The echo remover's view of the rings. */
    function GetRenderBuffer(): (r: RenderBuffer)
      reads this, Repr
      requires Valid()
      ensures r.blockBuffer == blocks && r.spectrumBuffer == spectra && r.fftBuffer == ffts
    {
      echoRemoverBuffer
    }
  }

  /**
   * Both alignments the buffer ever applies keep the three rings consistent: a
   * block ring `t` slots behind its writer matches a spectrum ring `t` slots ahead.
   */
  lemma AlignedIsConsistent(bw: int, br: int, sw: int, sr: int, t: int)
    requires 0 <= bw < NumBlocks && 0 <= sw < NumBlocks
    requires br == (bw - t) % NumBlocks && sr == (sw + t) % NumBlocks
    ensures (bw - br) % NumBlocks == (sr - sw) % NumBlocks == t % NumBlocks
  {
    var q1, q2 := (bw - t) / NumBlocks, (sw + t) / NumBlocks;
    assert bw - br == t + q1 * NumBlocks;
    assert sr - sw == t + (-q2) * NumBlocks;
    RingIndex.ModShift(t, q1, NumBlocks);
    RingIndex.ModShift(t, -q2, NumBlocks);
  }
}

=== FILE: residual_echo_estimator.dfy ===
/**
 * The residual echo power: in linear mode the linear echo estimate divided by
 * the ERLE; otherwise the strongest recent render power, noise-gated, minus a
 * multiple of a slowly tracked render noise floor.
 */
module ResidualEcho {
  import RingIndex
  import opened Numerics
  import opened Fft
  import opened RingBuffers
  import opened RenderBuffers
  import opened Erle
  import opened AecStates

  /** Blocks a noise-floor bin is held before it may rise. */
  const NoiseFloorHold: int := 50
  const MinNoiseFloorPower: real := 1638400.0
  const StationaryGateSlope: real := 10.0
  const NoiseGatePower: real := 27509.42
  const NoiseGateSlope: real := 0.3
  const RenderPreWindowSize: int := 1
  const RenderPostWindowSize: int := 1

  /** `ApplyNoiseGate` on one bin: powers below the gate are pulled further down, not below 0. */
  function NoiseGated(x2: real): (r: real)
    ensures x2 >= NoiseGatePower ==> r == x2
    ensures x2 >= 0.0 ==> 0.0 <= r <= x2
  {
    if NoiseGatePower > x2 then Max(0.0, x2 - NoiseGateSlope * (NoiseGatePower - x2)) else x2
  }

  /** Bin `j` of the bin-wise maximum of `rows`, starting from 0. */
  function WindowMax(rows: seq<Bins>, j: int): (r: real)
    requires 0 <= j < 65
    ensures r >= 0.0
    ensures forall p :: 0 <= p < |rows| ==> r >= rows[p][j]
  {
    if rows == [] then 0.0 else Max(WindowMax(rows[..|rows| - 1], j), rows[|rows| - 1][j])
  }

  /** First and one-past-last window offsets around the filter delay. */
  function WindowStart(filterDelayBlocks: int): int
  {
    if filterDelayBlocks - RenderPreWindowSize > 0 then filterDelayBlocks - RenderPreWindowSize else 0
  }

  function WindowEnd(filterDelayBlocks: int): int
  {
    filterDelayBlocks + RenderPostWindowSize
  }

  /**
   * The spectra the echo-generating power looks at: from the start slot up to,
   * not including, the stop slot, walking forward around the ring.
   */
  function Window(buffer: seq<Bins>, read: int, filterDelayBlocks: nat): (w: seq<Bins>)
    requires 0 <= read < |buffer|
  {
    var size := |buffer|;
    var start := (read + WindowStart(filterDelayBlocks)) % size;
    var stop := (read + WindowEnd(filterDelayBlocks) + 1) % size;
    Rotation(buffer, start, (stop - start) % size)
  }

  /**
   * With filter delay 0 and a ring of at least three spectra, the window is the
   * spectrum at the read cursor and the one after it.
   */
  lemma WindowAtDelayZero(buffer: seq<Bins>, read: int)
    requires 0 <= read < |buffer| && |buffer| >= 3
    ensures Window(buffer, read, 0) == [buffer[read], buffer[(read + 1) % |buffer|]]
  {
    var size := |buffer|;
    RingIndex.ModSmall(read, size);
    RingIndex.ModSmall(read + 2, size);
    var stop := (read + 2) % size;
    RingIndex.ModSmall(stop - read, size);
    assert (stop - read) % size == 2;
  }

  /** A ring of one or two spectra has an empty window at delay 0: the stop slot is the start slot. */
  lemma WindowEmptyForTinyRing(buffer: seq<Bins>, read: int)
    requires 0 <= read < |buffer| <= 2
    ensures Window(buffer, read, 0) == []
  {
    var size := |buffer|;
    if size == 2 {
      RingIndex.ModSmall(read, size);
      RingIndex.ModSmall(read + 2, size);
    }
  }

  /** Walking forward from `s`, slot `t` is reached after exactly `(t - s) mod size` steps. */
  lemma StepsToReach(s: int, t: int, m: int, size: int)
    requires 0 <= s < size && 0 <= t < size && 0 <= m < size
    ensures (s + m) % size == t <==> m == (t - s) % size
  {
    RingIndex.ModSmall(s + m, size);
    RingIndex.ModSmall(t - s, size);
  }

  /** The noise floor of one bin and its hold counter. */
  datatype FloorState = FloorState(floor: real, counter: int)

  /**
   * `UpdateRenderNoisePower` on one bin: a lower power becomes the floor and
   * restarts the hold; otherwise the hold counts up to 50, after which the floor
   * rises by 10% per block, never below the minimum floor.
   */
  function NextFloor(power: real, st: FloorState): (r: FloorState)
    ensures 0 <= st.counter <= NoiseFloorHold ==> 0 <= r.counter <= NoiseFloorHold
    ensures power < st.floor ==> r.floor == power && r.counter == 0
    ensures power >= st.floor && st.counter < NoiseFloorHold ==> r == FloorState(st.floor, st.counter + 1)
  {
    if power < st.floor then FloorState(power, 0)
    else if st.counter >= NoiseFloorHold then FloorState(Max(st.floor * 1.1, MinNoiseFloorPower), st.counter)
    else FloorState(st.floor, st.counter + 1)
  }

  /** The floor state after a run of blocks with the given powers. */
  function FloorAfter(powers: seq<real>, st: FloorState): FloorState
  {
    if powers == [] then st else NextFloor(powers[|powers| - 1], FloorAfter(powers[..|powers| - 1], st))
  }

  /**
   * The hold: after the floor drops (counter 0), up to 50 blocks at or above it
   * leave it unchanged and only count.
   */
  lemma {:induction false} FloorHeld(powers: seq<real>, floor: real)
    requires |powers| <= NoiseFloorHold
    requires forall i :: 0 <= i < |powers| ==> powers[i] >= floor
    ensures FloorAfter(powers, FloorState(floor, 0)) == FloorState(floor, |powers|)
  {
    if powers != [] {
      FloorHeld(powers[..|powers| - 1], floor);
    }
  }

  /** In linear mode each bin is the linear estimate over the ERLE, between 0 and that estimate. */
  lemma LinearResidualBounded(s2: real, erle: real)
    requires s2 >= 0.0 && erle >= 1.0
    ensures 0.0 <= s2 / erle <= s2
  {
    var r := s2 / erle;
    assert r * erle == s2;
    assert s2 - r == r * (erle - 1.0);
  }

  class ResidualEchoEstimator {
    var noiseFloor: Bins
    var noiseFloorCounter: seq<int>

    /** One hold counter per bin, each in [0, 50]. */
    ghost predicate Valid()
      reads this
    {
      |noiseFloorCounter| == 65 && forall k :: 0 <= k < 65 ==> 0 <= noiseFloorCounter[k] <= NoiseFloorHold
    }

    ghost function Floor(k: int): FloorState
      reads this
      requires Valid() && 0 <= k < 65
    {
      FloorState(noiseFloor[k], noiseFloorCounter[k])
    }

    constructor ()
      ensures Valid()
      ensures forall k :: 0 <= k < 65 ==> noiseFloorCounter[k] == NoiseFloorHold && noiseFloor[k] == MinNoiseFloorPower
    {
      noiseFloorCounter := seq(65, _ => NoiseFloorHold);
      noiseFloor := seq(65, _ => MinNoiseFloorPower);
    }

    /** `Reset`: every counter at the hold length and every floor at the minimum. */
    method Reset()
      modifies this
      ensures Valid()
      ensures forall k :: 0 <= k < 65 ==> noiseFloorCounter[k] == NoiseFloorHold && noiseFloor[k] == MinNoiseFloorPower
    {
      noiseFloorCounter := seq(65, _ => NoiseFloorHold);
      noiseFloor := seq(65, _ => MinNoiseFloorPower);
    }

    /** `UpdateRenderNoisePower`: every bin of the floor tracks the render spectrum at the read cursor. */
    method UpdateRenderNoisePower(renderBuffer: RenderBuffer)
      requires Valid() && renderBuffer.spectrumBuffer.Valid()
      modifies this
      ensures Valid()
      ensures forall k :: 0 <= k < 65 ==>
        Floor(k) == NextFloor(renderBuffer.spectrumBuffer.buffer[renderBuffer.spectrumBuffer.read][k], old(Floor(k)))
    {
      var renderPower := renderBuffer.Spectrum(0);
      assert renderPower == renderBuffer.spectrumBuffer.buffer[renderBuffer.spectrumBuffer.read];
      var floor := noiseFloor;
      var counter := noiseFloorCounter;
      var k := 0;
      while k < 65
        modifies {}
        invariant 0 <= k <= 65 && |counter| == 65
        invariant forall i :: 0 <= i < k ==>
          FloorState(floor[i], counter[i]) == NextFloor(renderPower[i], FloorState(noiseFloor[i], noiseFloorCounter[i]))
        invariant forall i :: k <= i < 65 ==> floor[i] == noiseFloor[i] && counter[i] == noiseFloorCounter[i]
      {
        if renderPower[k] < floor[k] {
          floor := floor[k := renderPower[k]];
          counter := counter[k := 0];
        } else {
          if counter[k] >= NoiseFloorHold {
            floor := floor[k := Max(floor[k] * 1.1, MinNoiseFloorPower)];
          } else {
            counter := counter[k := counter[k] + 1];
          }
        }
        k := k + 1;
      }
      noiseFloor, noiseFloorCounter := floor, counter;
    }

    /**
     * `Estimate`: update the noise floor, then in linear mode divide the linear
     * estimate by the ERLE; otherwise take the gated echo-generating power less
     * ten times the new floor, not below 0.
     */
    method Estimate(aecState: AecState, renderBuffer: RenderBuffer, S2Linear: Bins, Y2: Bins) returns (R2: Bins)
      requires Valid() && aecState.Valid() && renderBuffer.spectrumBuffer.Valid()
      modifies this
      ensures Valid()
      ensures forall k :: 0 <= k < 65 ==>
        Floor(k) == NextFloor(renderBuffer.spectrumBuffer.buffer[renderBuffer.spectrumBuffer.read][k], old(Floor(k)))
      ensures aecState.UsableLinearEstimate() ==> forall k :: 0 <= k < 65 ==> R2[k] == S2Linear[k] / aecState.Erle()[k]
      ensures !aecState.UsableLinearEstimate() ==> forall k :: 0 <= k < 65 ==>
        R2[k] == Max(0.0, NoiseGated(WindowMax(Window(renderBuffer.spectrumBuffer.buffer, renderBuffer.spectrumBuffer.read,
                                                      aecState.MinDirectPathFilterDelay()), k))
                          - StationaryGateSlope * noiseFloor[k])
      ensures forall k :: 0 <= k < 65 && S2Linear[k] >= 0.0 ==> 0.0 <= R2[k]
    {
      UpdateRenderNoisePower(renderBuffer);
      if aecState.UsableLinearEstimate() {
        R2 := LinearResidual(S2Linear, aecState.Erle());
      } else {
        var X2 := EchoGeneratingPower(renderBuffer.spectrumBuffer, aecState.MinDirectPathFilterDelay());
        X2 := ApplyNoiseGate(X2);
        R2 := NonlinearResidual(X2, noiseFloor);
      }
    }
  }

  /** The linear-mode residual: each bin of the linear estimate over the ERLE. */
  method LinearResidual(S2Linear: Bins, erle: Bins) returns (R2: Bins)
    requires forall k :: 0 <= k < 65 ==> erle[k] >= 1.0
    ensures forall k :: 0 <= k < 65 ==> R2[k] == S2Linear[k] / erle[k]
    ensures forall k :: 0 <= k < 65 && S2Linear[k] >= 0.0 ==> 0.0 <= R2[k] <= S2Linear[k]
  {
    var a := new real[65](_ => 0.0);
    var k := 0;
    while k < 65
      invariant 0 <= k <= 65
      invariant forall i :: 0 <= i < k ==> a[i] == S2Linear[i] / erle[i]
    {
      a[k] := S2Linear[k] / erle[k];
      k := k + 1;
    }
    R2 := a[..];
    forall k | 0 <= k < 65 && S2Linear[k] >= 0.0
      ensures 0.0 <= R2[k] <= S2Linear[k]
    {
      LinearResidualBounded(S2Linear[k], erle[k]);
    }
  }

  /** The non-linear residual: the gated render power less ten times the floor, not below 0. */
  method NonlinearResidual(X2: Bins, noiseFloor: Bins) returns (R2: Bins)
    ensures forall k :: 0 <= k < 65 ==> R2[k] == Max(0.0, X2[k] - StationaryGateSlope * noiseFloor[k])
  {
    var echoPathGain := 1.0;
    var a := new real[65](_ => 0.0);
    var k := 0;
    while k < 65
      invariant 0 <= k <= 65
      invariant forall i :: 0 <= i < k ==> a[i] == Max(0.0, X2[i] - StationaryGateSlope * noiseFloor[i])
    {
      var x := X2[k] - StationaryGateSlope * noiseFloor[k];
      x := Max(0.0, x);
      a[k] := x * echoPathGain;
      k := k + 1;
    }
    R2 := a[..];
  }

  /** `ApplyNoiseGate` over all bins. */
  method ApplyNoiseGate(X2: Bins) returns (gated: Bins)
    ensures forall k :: 0 <= k < 65 ==> gated[k] == NoiseGated(X2[k])
  {
    gated := X2;
    var k := 0;
    while k < 65
      invariant 0 <= k <= 65 && |gated| == 65
      invariant forall i :: 0 <= i < k ==> gated[i] == NoiseGated(X2[i])
      invariant forall i :: k <= i < 65 ==> gated[i] == X2[i]
    {
      if NoiseGatePower > gated[k] {
        gated := gated[k := Max(0.0, gated[k] - NoiseGateSlope * (NoiseGatePower - gated[k]))];
      }
      k := k + 1;
    }
  }

  /**
   * `EchoGeneratingPower`: the bin-wise maximum, from 0, over the spectra from
   * the window start slot up to the stop slot, the index wrapping around the ring.
   */
  method EchoGeneratingPower(spectrumBuffer: Ring<Bins>, filterDelayBlocks: nat) returns (X2: Bins)
    requires spectrumBuffer.Valid()
    ensures forall j :: 0 <= j < 65 ==> X2[j] == WindowMax(Window(spectrumBuffer.buffer, spectrumBuffer.read, filterDelayBlocks), j)
  {
    var buffer := spectrumBuffer.buffer;
    var size := spectrumBuffer.size;
    var idxStart := spectrumBuffer.OffsetIndex(spectrumBuffer.read, WindowStart(filterDelayBlocks));
    var idxStop := spectrumBuffer.OffsetIndex(spectrumBuffer.read, WindowEnd(filterDelayBlocks) + 1);
    ghost var n := (idxStop - idxStart) % size;
    ghost var window := Window(buffer, spectrumBuffer.read, filterDelayBlocks);
    assert window == Rotation(buffer, idxStart, n);
    var a := new real[65](_ => 0.0);
    var k := idxStart;
    ghost var m := 0;
    RingIndex.ModSmall(idxStart, size);
    assert k == (idxStart + m) % size;
    while k != idxStop
      invariant 0 <= m <= n && 0 <= k < size && k == (idxStart + m) % size
      invariant forall j :: 0 <= j < 65 ==> a[j] == WindowMax(Rotation(buffer, idxStart, m), j)
      decreases n - m
    {
      StepsToReach(idxStart, idxStop, m, size);
      MaxInto(a, buffer[k]);
      forall j | 0 <= j < 65 {
        WindowMaxStep(buffer, idxStart, m, j);
      }
      var next := RingIndex.IncIndex(k, size);
      RingIndex.ModAdd(idxStart + m, 1, size, k);
      assert next == (idxStart + (m + 1)) % size;
      k := next;
      m := m + 1;
    }
    StepsToReach(idxStart, idxStop, m, size);
    X2 := a[..];
  }

  /** Extending a window by the next slot takes the maximum with that slot's spectrum. */
  lemma WindowMaxStep(buffer: seq<Bins>, start: int, m: nat, j: int)
    requires |buffer| > 0 && 0 <= j < 65
    ensures WindowMax(Rotation(buffer, start, m + 1), j)
         == Max(WindowMax(Rotation(buffer, start, m), j), buffer[(start + m) % |buffer|][j])
  {
    var longer := Rotation(buffer, start, m + 1);
    assert longer[..m] == Rotation(buffer, start, m);
  }

  /** Raise every bin of `a` to at least the bin of `spectrum`. */
  method MaxInto(a: array<real>, spectrum: Bins)
    requires a.Length == 65
    modifies a
    ensures forall j :: 0 <= j < 65 ==> a[j] == Max(old(a[j]), spectrum[j])
  {
    var j := 0;
    while j < 65
      invariant 0 <= j <= 65
      invariant forall i :: 0 <= i < j ==> a[i] == Max(old(a[i]), spectrum[i])
      invariant forall i :: j <= i < 65 ==> a[i] == old(a[i])
    {
      a[j] := Max(a[j], spectrum[j]);
      j := j + 1;
    }
  }
}

=== FILE: ring_buffer.dfy ===
/**
 * The four ring buffers of the render path (blocks, power spectra, FFTs and the
 * down-sampled signal) share one shape: a fixed number of slots and a read and a
 * write cursor that move independently. They are one generic class here; each
 * buffer kind is a factory that fills the slots the way its constructor does.
 */
module RingBuffers {
  import RingIndex
  import opened Blocks
  import opened Fft

  class Ring<T> {
    const size: int
    var buffer: seq<T>
    var write: int
    var read: int

    ghost predicate Valid()
      reads this
    {
      size > 0 && |buffer| == size && 0 <= write < size && 0 <= read < size
    }

    constructor (size: int, init: T)
      requires size > 0
      ensures Valid() && this.size == size
      ensures buffer == seq(size, _ => init) && write == 0 && read == 0
    {
      this.size := size;
      buffer := seq(size, _ => init);
      write, read := 0, 0;
    }

    function IncIndex(index: int): (r: int)
      ensures 0 <= index < size ==> 0 <= r < size && r == (index + 1) % size
    {
      RingIndex.IncIndex(index, size)
    }

    function DecIndex(index: int): (r: int)
      ensures 0 <= index < size ==> 0 <= r < size && r == (index - 1) % size
    {
      RingIndex.DecIndex(index, size)
    }

    function OffsetIndex(index: int, offset: int): (r: int)
      requires size > 0
      ensures size + index + offset >= 0 ==> 0 <= r < size && r == (index + offset) % size
    {
      RingIndex.OffsetIndex(index, offset, size)
    }

    method UpdateWriteIndex(offset: int)
      requires Valid() && size + write + offset >= 0
      modifies this`write
      ensures Valid() && write == (old(write) + offset) % size
    {
      write := OffsetIndex(write, offset);
    }

    method IncWriteIndex()
      requires Valid()
      modifies this`write
      ensures Valid() && write == (old(write) + 1) % size
    {
      write := IncIndex(write);
    }

    method DecWriteIndex()
      requires Valid()
      modifies this`write
      ensures Valid() && write == (old(write) - 1) % size
    {
      write := DecIndex(write);
    }

    method UpdateReadIndex(offset: int)
      requires Valid() && size + read + offset >= 0
      modifies this`read
      ensures Valid() && read == (old(read) + offset) % size
    {
      read := OffsetIndex(read, offset);
    }

    method IncReadIndex()
      requires Valid()
      modifies this`read
      ensures Valid() && read == (old(read) + 1) % size
    {
      read := IncIndex(read);
    }

    method DecReadIndex()
      requires Valid()
      modifies this`read
      ensures Valid() && read == (old(read) - 1) % size
    {
      read := DecIndex(read);
    }
  }

  /** `BlockBuffer(size)`: `size` all-zero blocks, both cursors at 0. */
  method NewBlockBuffer(size: int) returns (b: Ring<Block>)
    requires size > 0
    ensures fresh(b) && b.Valid() && b.size == size && b.write == 0 && b.read == 0
    ensures forall i :: 0 <= i < size ==> b.buffer[i] == Filled(0.0)
  {
    b := new Ring(size, Filled(0.0));
  }

  /** `SpectrumBuffer(size)`: `size` zeroed 65-bin spectra, both cursors at 0. */
  method NewSpectrumBuffer(size: int) returns (b: Ring<Bins>)
    requires size > 0
    ensures fresh(b) && b.Valid() && b.size == size && b.write == 0 && b.read == 0
    ensures forall i, k :: 0 <= i < size && 0 <= k < 65 ==> b.buffer[i][k] == 0.0
  {
    var zero: Bins := seq(65, _ => 0.0);
    b := new Ring(size, zero);
  }

  /** `FftBuffer(size)`: `size` cleared spectra, both cursors at 0. */
  method NewFftBuffer(size: int) returns (b: Ring<Fft65>)
    requires size > 0
    ensures fresh(b) && b.Valid() && b.size == size && b.write == 0 && b.read == 0
    ensures forall i :: 0 <= i < size ==> b.buffer[i] == Cleared()
  {
    b := new Ring(size, Cleared());
  }

  /** `DownsampledRenderBuffer(size)`: `size` zero samples, both cursors at 0. */
  method NewDownsampledRenderBuffer(size: int) returns (b: Ring<real>)
    requires size > 0
    ensures fresh(b) && b.Valid() && b.size == size && b.write == 0 && b.read == 0
    ensures forall i :: 0 <= i < size ==> b.buffer[i] == 0.0
  {
    b := new Ring(size, 0.0);
  }
}

=== FILE: ring_index.dfy ===
/**
 * Circular-buffer index arithmetic shared by every ring buffer of the canceller.
 * Indices are C++ `int`s; the offset helper uses C++ `%`, which truncates toward zero.
 */
module RingIndex {

  /** C++ integer remainder: the result takes the sign of the dividend. */
  function CRem(a: int, n: int): (r: int)
    requires n > 0
    ensures a >= 0 ==> 0 <= r < n
    ensures a < 0 ==> -n < r <= 0
  {
    if a >= 0 then a % n else -((-a) % n)
  }

  /** The slot after `index`, wrapping from the last slot to 0. */
  function IncIndex(index: int, size: int): (r: int)
    ensures 0 <= index < size ==> 0 <= r < size && r == (index + 1) % size
  {
    if index < size - 1 then index + 1 else 0
  }

  /** The slot before `index`, wrapping from 0 to the last slot. */
  function DecIndex(index: int, size: int): (r: int)
    ensures 0 <= index < size ==> 0 <= r < size && r == (index - 1) % size
  {
    if index > 0 then index - 1 else size - 1
  }

  /**
   * The slot `offset` positions away from `index`. It is the mathematical residue
   * only while `size + index + offset` is not negative; below that the C++
   * remainder is negative (or zero) and is not a slot at all.
   */
  function OffsetIndex(index: int, offset: int, size: int): (r: int)
    requires size > 0
    ensures size + index + offset >= 0 ==> 0 <= r < size && r == (index + offset) % size
    ensures size + index + offset < 0 ==> -size < r <= 0
  {
    ModShift(index + offset, 1, size);
    CRem(size + index + offset, size)
  }

  /** A positive multiple of `n` is at least `n`. */
  lemma {:induction false} MulAtLeast(k: int, n: int)
    requires k >= 1 && n > 0
    ensures k * n >= n
    decreases k
  {
    if k > 1 {
      MulAtLeast(k - 1, n);
      assert k * n == (k - 1) * n + n;
    }
  }

  /** Euclidean division is unique: a quotient and remainder in range are `a / n` and `a % n`. */
  lemma DivModUnique(a: int, n: int, q: int, r: int)
    requires n > 0 && a == q * n + r && 0 <= r < n
    ensures a / n == q && a % n == r
  {
    var q0, r0 := a / n, a % n;
    assert a == q0 * n + r0;
    if q > q0 {
      MulAtLeast(q - q0, n);
      assert false;
    } else if q < q0 {
      MulAtLeast(q0 - q, n);
      assert false;
    }
  }

  /** Adding a multiple of the modulus does not change the residue. */
  lemma ModShift(a: int, k: int, n: int)
    requires n > 0
    ensures (a + k * n) % n == a % n
  {
    var q0, r0 := a / n, a % n;
    assert a == q0 * n + r0;
    assert a + k * n == (q0 + k) * n + r0;
    DivModUnique(a + k * n, n, q0 + k, r0);
  }

  /** Within one modulus of the range, the residue is a single wrap-around. */
  lemma ModSmall(a: int, n: int)
    requires n > 0 && -n <= a < 2 * n
    ensures a % n == if a < 0 then a + n else if a < n then a else a - n
  {
    if a < 0 {
      DivModUnique(a, n, -1, a + n);
    } else if a < n {
      DivModUnique(a, n, 0, a);
    } else {
      DivModUnique(a, n, 1, a - n);
    }
  }

  /** Residues compose: with `x == a % n`, `(x + b) % n == (a + b) % n`. */
  lemma ModAdd(a: int, b: int, n: int, x: int)
    requires n > 0 && x == a % n
    ensures (x + b) % n == (a + b) % n
  {
    assert a == (a / n) * n + x;
    ModShift(x + b, a / n, n);
  }

  /** Two positions less than a ring apart fall in different slots. */
  lemma ModDistinct(a: int, d: int, n: int)
    requires n > 0 && 0 < d < n
    ensures (a + d) % n != a % n
  {
    var x := a % n;
    ModAdd(a, d, n, x);
    ModSmall(x + d, n);
  }

  /** Stepping a ring cursor that sits at `(start + k) % size` lands on `(start + k + 1) % size`. */
  lemma StepIndex(start: int, k: int, size: int, index: int)
    requires size > 0 && index == (start + k) % size
    ensures IncIndex(index, size) == (start + k + 1) % size
  {
    ModAdd(start + k, 1, size, index);
    ModSmall(index + 1, size);
  }

  lemma IncDecInverse(index: int, size: int)
    requires 0 <= index < size
    ensures DecIndex(IncIndex(index, size), size) == index
    ensures IncIndex(DecIndex(index, size), size) == index
  {
  }

  /** Offsets of 0, +1 and -1 are the identity, IncIndex and DecIndex. */
  lemma OffsetSpecialCases(index: int, size: int)
    requires 0 <= index < size
    ensures OffsetIndex(index, 0, size) == index
    ensures OffsetIndex(index, 1, size) == IncIndex(index, size)
    ensures OffsetIndex(index, -1, size) == DecIndex(index, size)
  {
  }

  /**
   * Two offsets compose into one whenever every intermediate sum stays
   * non-negative, the condition under which the C++ remainder is a residue.
   */
  lemma OffsetCompose(index: int, a: int, b: int, size: int)
    requires size > 0 && 0 <= index < size
    requires size + index + a >= 0 && size + index + a + b >= 0
    requires size + OffsetIndex(index, a, size) + b >= 0
    ensures OffsetIndex(OffsetIndex(index, a, size), b, size) == OffsetIndex(index, a + b, size)
  {
    var x := OffsetIndex(index, a, size);
    var y := OffsetIndex(x, b, size);
    var z := OffsetIndex(index, a + b, size);
    assert x == (index + a) % size;
    assert y == (x + b) % size;
    assert z == (index + a + b) % size;
    ModAdd(index + a, b, size, x);
  }

  /** The side condition of OffsetCompose is needed: without it the composition differs. */
  lemma OffsetComposeNeedsSideCondition()
    ensures OffsetIndex(OffsetIndex(0, -5, 10), -14, 10) == 1
    ensures OffsetIndex(0, -19, 10) == -9
  {
  }
}

=== FILE: subtractor.dfy ===
/**
 * The linear echo subtractor: a 13-partition adaptive filter predicts the echo,
 * the prediction is subtracted from the capture block, and the filter adapts
 * with a gain computed from the previous frequency response.
 */
module Subtractors {
  import opened Numerics
  import opened Blocks
  import opened Fft
  import opened RingBuffers
  import opened RenderBuffers
  import opened EchoPathVariability
  import opened AdaptiveFir
  import opened FilterUpdate
  import opened SubtractorOutputs

  const FilterLengthBlocks: nat := 13

  /** The second half of the inverse transform, scaled by 1/64: the time-domain echo estimate. */
  function EchoEstimate(fft: Aec3Fft, S: Fft65): (s: Block)
    ensures forall k :: 0 <= k < 64 ==> s[k] == fft.Ifft(S)[64 + k] * (1.0 / 64.0)
  {
    var tmp := fft.Ifft(S);
    seq(64, k requires 0 <= k < 64 => tmp[64 + k] * (1.0 / 64.0))
  }

  /**
   * `PredictionError`: the residual `e = y - s` and, when the caller passes a
   * place for it, the echo estimate `s` itself.
   */
  method PredictionError(fft: Aec3Fft, S: Fft65, y: seq<real>, wantEstimate: bool)
    returns (e: Block, s: Option<Block>)
    requires |y| == 64
    ensures wantEstimate <==> s.Some?
    ensures s.Some? ==> s.value == EchoEstimate(fft, S)
    ensures forall k :: 0 <= k < 64 ==> e[k] == y[k] - EchoEstimate(fft, S)[k]
    ensures s.Some? ==> forall k :: 0 <= k < 64 ==> e[k] + s.value[k] == y[k]
  {
    var tmp := fft.Ifft(S);
    var scale := 1.0 / 64.0;
    var a := new real[64](_ => 0.0);
    var k := 0;
    while k < 64
      invariant 0 <= k <= 64
      invariant forall i :: 0 <= i < k ==> a[i] == y[i] - tmp[64 + i] * scale
    {
      a[k] := y[k] - tmp[64 + k] * scale;
      k := k + 1;
    }
    e := a[..];
    s := None;
    if wantEstimate {
      var b := new real[64](_ => 0.0);
      k := 0;
      while k < 64
        invariant 0 <= k <= 64
        invariant forall i :: 0 <= i < k ==> b[i] == scale * tmp[64 + i]
      {
        b[k] := scale * tmp[k + 64];
        k := k + 1;
      }
      s := Some(b[..]);
      assert s.value == EchoEstimate(fft, S);
    }
  }

  class Subtractor {
    const fft: Aec3Fft
    const filter: AdaptiveFirFilter
    const updateGain: FilterUpdateGain
    var frequencyResponse: seq<Bins>
    ghost const Repr: set<object>

    /** 13 partitions, a valid gain state, and a non-negative frequency response row per partition. */
    ghost predicate Valid()
      reads this, Repr
    {
      Repr == {this, filter, updateGain} &&
      this !in {filter as object, updateGain} && (filter as object) != updateGain &&
      filter.Valid() && filter.sizePartitions == FilterLengthBlocks && filter.fft == fft &&
      updateGain.Valid() &&
      |frequencyResponse| == FilterLengthBlocks &&
      forall p, j :: 0 <= p < FilterLengthBlocks && 0 <= j < 65 ==> frequencyResponse[p][j] >= 0.0
    }

    /** A cleared 13-partition filter, a fresh gain, and zero frequency responses. */
    constructor (fft: Aec3Fft)
      ensures Valid() && fresh(Repr) && this.fft == fft
      ensures forall p :: 0 <= p < FilterLengthBlocks ==> filter.H[p] == Cleared()
      ensures forall p, j :: 0 <= p < FilterLengthBlocks && 0 <= j < 65 ==> frequencyResponse[p][j] == 0.0
    {
      this.fft := fft;
      filter := new AdaptiveFirFilter(fft, FilterLengthBlocks);
      updateGain := new FilterUpdateGain();
      frequencyResponse := seq(FilterLengthBlocks, _ => ZeroBins());
      Repr := {this, filter, updateGain};
    }

    /** `HandleEchoPathChange`: on a delay change, clear the filter and restart the gain; otherwise nothing. */
    method HandleEchoPathChange(variability: Variability)
      requires Valid()
      modifies Repr
      ensures Valid()
      ensures !DelayChanged(variability) ==>
        filter.H == old(filter.H) && updateGain.hError == old(updateGain.hError) &&
        updateGain.poorExcitationCounter == old(updateGain.poorExcitationCounter) &&
        updateGain.callCounter == old(updateGain.callCounter)
      ensures DelayChanged(variability) ==>
        (forall p :: 0 <= p < FilterLengthBlocks ==> filter.H[p] == Cleared()) &&
        updateGain.poorExcitationCounter == PoorExcitationCounterInitial && updateGain.callCounter == 0 &&
        forall k :: 0 <= k < 65 ==> updateGain.hError[k] == HErrorInitial
      ensures frequencyResponse == old(frequencyResponse)
    {
      if variability.delayChange != NoDelayChange {
        filter.HandleEchoPathChange();
        updateGain.HandleEchoPathChange(variability);
      }
    }

    /**
     * `Process`: predict the echo with the current filter, subtract it from the
     * capture block, measure the energies and the residual spectrum, compute the
     * gain against the echo return loss of the previous frequency response, adapt,
     * and store the new frequency response.
     */
    method Process(renderBuffer: RenderBuffer, capture: Block, output: SubtractorOutput) returns (ghost G: Fft65)
      requires Valid() && renderBuffer.fftBuffer.Valid() && renderBuffer.spectrumBuffer.Valid()
      modifies Repr, output
      ensures Valid()
      ensures output.s == EchoEstimate(fft, FilterOutput(renderBuffer.fftBuffer.buffer, renderBuffer.fftBuffer.read,
                                                         old(filter.H), FilterLengthBlocks))
      ensures forall k :: 0 <= k < 64 ==> output.e[k] + output.s[k] == capture[k]
      ensures output.y2 == SumSquares(capture) && output.e2 == SumSquares(output.e)
      ensures output.E == fft.ZeroPaddedFft(output.e) && output.E2 == PowerSpectrum(output.E)
      ensures var x2 := SpectralSumOf(renderBuffer.spectrumBuffer.buffer, renderBuffer.spectrumBuffer.read, FilterLengthBlocks);
        var suppressed := GainSuppressed(old(updateGain.poorExcitationCounter), old(updateGain.callCounter), FilterLengthBlocks);
        G == Gain(old(updateGain.hError), x2, output.E2, output.E, suppressed, FilterLengthBlocks) &&
        forall k :: 0 <= k < 65 ==>
          updateGain.hError[k] == NextHError(old(updateGain.hError)[k], x2[k], output.E2[k], ColumnSum(old(frequencyResponse), k),
                                             suppressed, Leakage(output.e2, output.y2), FilterLengthBlocks)
      ensures filter.H == ConstrainPartition(fft, AdaptAll(old(filter.H), renderBuffer.fftBuffer.buffer, renderBuffer.fftBuffer.read,
                                                           G, FilterLengthBlocks), old(filter.partitionToConstrain))
      ensures filter.partitionToConstrain == (old(filter.partitionToConstrain) + 1) % FilterLengthBlocks
      ensures forall p :: 0 <= p < FilterLengthBlocks ==> frequencyResponse[p] == PowerSpectrum(filter.H[p])
      ensures updateGain.callCounter == old(updateGain.callCounter) + 1
      ensures updateGain.poorExcitationCounter == old(updateGain.poorExcitationCounter) + 1
    {
      Predict(renderBuffer, capture, output);
      G := Learn(renderBuffer, output);
    }

    /** The prediction half of `Process`: echo estimate, error, energies and error spectrum. */
    method Predict(renderBuffer: RenderBuffer, capture: Block, output: SubtractorOutput)
      requires Valid() && renderBuffer.fftBuffer.Valid()
      modifies output
      ensures output.s == EchoEstimate(fft, FilterOutput(renderBuffer.fftBuffer.buffer, renderBuffer.fftBuffer.read,
                                                         filter.H, FilterLengthBlocks))
      ensures forall k :: 0 <= k < 64 ==> output.e[k] + output.s[k] == capture[k]
      ensures output.y2 == SumSquares(capture) && output.e2 == SumSquares(output.e)
      ensures output.E == fft.ZeroPaddedFft(output.e) && output.E2 == PowerSpectrum(output.E)
    {
      var y := View(capture);
      var S := filter.Filter(renderBuffer);
      var e, s := PredictionError(fft, S, y, true);
      output.e := e;
      output.s := s.value;
      output.ComputeMetrics(y);
      output.E := fft.ZeroPaddedFft(output.e);
      output.E2 := PowerSpectrum(output.E);
    }

    /** The learning half of `Process`: gain, adaptation and the new frequency response. */
    method Learn(renderBuffer: RenderBuffer, output: SubtractorOutput) returns (ghost G: Fft65)
      requires Valid() && renderBuffer.fftBuffer.Valid() && renderBuffer.spectrumBuffer.Valid()
      requires output.E2 == PowerSpectrum(output.E)
      modifies Repr
      ensures Valid()
      ensures var x2 := SpectralSumOf(renderBuffer.spectrumBuffer.buffer, renderBuffer.spectrumBuffer.read, FilterLengthBlocks);
        var suppressed := GainSuppressed(old(updateGain.poorExcitationCounter), old(updateGain.callCounter), FilterLengthBlocks);
        G == Gain(old(updateGain.hError), x2, output.E2, output.E, suppressed, FilterLengthBlocks) &&
        forall k :: 0 <= k < 65 ==>
          updateGain.hError[k] == NextHError(old(updateGain.hError)[k], x2[k], output.E2[k], ColumnSum(old(frequencyResponse), k),
                                             suppressed, Leakage(output.e2, output.y2), FilterLengthBlocks)
      ensures filter.H == ConstrainPartition(fft, AdaptAll(old(filter.H), renderBuffer.fftBuffer.buffer, renderBuffer.fftBuffer.read,
                                                           G, FilterLengthBlocks), old(filter.partitionToConstrain))
      ensures filter.partitionToConstrain == (old(filter.partitionToConstrain) + 1) % FilterLengthBlocks
      ensures forall p :: 0 <= p < FilterLengthBlocks ==> frequencyResponse[p] == PowerSpectrum(filter.H[p])
      ensures updateGain.callCounter == old(updateGain.callCounter) + 1
      ensures updateGain.poorExcitationCounter == old(updateGain.poorExcitationCounter) + 1
    {
      var x2 := renderBuffer.SpectralSum(filter.SizePartitions());
      var erl := ComputeErl(frequencyResponse);
      var gain := updateGain.Compute(x2, output, erl, filter.SizePartitions());
      G := gain;
      filter.Adapt(renderBuffer, gain);
      frequencyResponse := filter.FrequencyResponse();
    }
  }
}

=== FILE: subtractor_output.dfy ===
/** What the echo subtractor hands on for one capture block: estimate, residual and their powers. */
module SubtractorOutputs {
  import opened Numerics
  import opened Blocks
  import opened Fft

  class SubtractorOutput {
    /** The echo estimate and the residual, 64 samples each. */
    var s: Block
    var e: Block
    /** The residual's spectrum and its power spectrum. */
    var E: Fft65
    var E2: Bins
    /** Energies of the residual and of the capture block. */
    var e2: real
    var y2: real

    /** Both energies start at 0 (the arrays start zeroed here). */
    constructor ()
      ensures e2 == 0.0 && y2 == 0.0
      ensures s == Filled(0.0) && e == Filled(0.0) && E == Cleared() && E2 == PowerSpectrum(Cleared())
    {
      s, e := Filled(0.0), Filled(0.0);
      E := Cleared();
      E2 := PowerSpectrum(Cleared());
      e2, y2 := 0.0, 0.0;
    }

    /**
     * `ComputeMetrics`: `y2` becomes the energy of the capture samples `y` and `e2`
     * the energy of the stored residual; nothing else changes.
     */
    method ComputeMetrics(y: seq<real>)
      modifies this`y2, this`e2
      ensures y2 == SumSquares(y) && e2 == SumSquares(e)
      ensures y2 >= 0.0 && e2 >= 0.0
    {
      y2 := Energy(y);
      e2 := Energy(e);
    }
  }

  /** `std::accumulate` of `a + b * b` from 0, front to back. */
  method Energy(v: seq<real>) returns (acc: real)
    ensures acc == SumSquares(v) && acc >= 0.0
  {
    acc := 0.0;
    var i := 0;
    while i < |v|
      invariant 0 <= i <= |v| && acc == SumSquares(v[..i])
    {
      SumPrefix(v, i);
      acc := acc + v[i] * v[i];
      i := i + 1;
    }
    assert v[..|v|] == v;
    SumSquaresNonNegative(v);
  }
}

=== FILE: subtractor_output_analyzer.dfy ===
/** Decides, block by block, whether the linear filter has converged. */
module SubtractorOutputAnalysis {
  import opened Aec3Common
  import opened SubtractorOutputs

  /** `50 * 50 * kBlockSize`: a capture energy of 50 per sample over a block. */
  const ConvergenceThreshold: real := 160000.0

  lemma ConvergenceThresholdValue()
    ensures ConvergenceThreshold == (50 * 50 * BlockSize) as real
  {
  }

  /** The residual has less than half the capture energy, and the capture is loud enough. */
  predicate ConvergedNow(e2: real, y2: real)
  {
    e2 < 0.5 * y2 && y2 > ConvergenceThreshold
  }

  class SubtractorOutputAnalyzer {
    var filterConverged: bool

    constructor ()
      ensures !filterConverged
    {
      filterConverged := false;
    }

    /** `Update`: the flag is recomputed from this block alone and reported. */
    method Update(output: SubtractorOutput) returns (anyFilterConverged: bool)
      modifies this
      ensures filterConverged == ConvergedNow(output.e2, output.y2)
      ensures anyFilterConverged == filterConverged
    {
      anyFilterConverged := false;
      var y2 := output.y2;
      var e2 := output.e2;
      var filterConvergedNow := e2 < 0.5 * y2 && y2 > ConvergenceThreshold;
      filterConverged := filterConvergedNow;
      anyFilterConverged := filterConverged;
    }

    method HandleEchoPathChange()
      modifies this
      ensures !filterConverged
    {
      filterConverged := false;
    }
  }
}

=== FILE: suppression_filter.dfy ===
/**
 * The suppression filter: scale the error spectrum by the gain, transform it
 * back, overlap-add with the previous frame under the square-root Hann window,
 * and clip each sample to the 16-bit range.
 */
module SuppressionFilters {
  import opened Numerics
  import opened Aec3Common
  import opened Fft
  import opened Blocks

  const IfftNormalization: real := 2.0 / 128.0
  const SampleMin: real := -32768.0
  const SampleMax: real := 32767.0

  /** The spectrum `Assign` copies, every bin scaled by its gain. */
  function GainScaled(spectrum: Fft65, gain: Bins): (r: Fft65)
    ensures forall i :: 0 <= i < 65 ==> r.re[i] == spectrum.re[i] * gain[i]
    ensures r.im[0] == 0.0 && r.im[64] == 0.0
    ensures forall i :: 0 < i < 64 ==> r.im[i] == spectrum.im[i] * gain[i]
  {
    var a := Assign(spectrum);
    FftData(seq(65, i requires 0 <= i < 65 => a.re[i] * gain[i]), seq(65, i requires 0 <= i < 65 => a.im[i] * gain[i]))
  }

  /** A unit gain leaves the spectrum as `Assign` copies it. */
  lemma UnitGainIsAssign(spectrum: Fft65, gain: Bins)
    requires forall i :: 0 <= i < 65 ==> gain[i] == 1.0
    ensures GainScaled(spectrum, gain) == Assign(spectrum)
  {
    var r := GainScaled(spectrum, gain);
    var a := Assign(spectrum);
    assert r.re == a.re;
    assert r.im == a.im;
  }

  /** A zero gain silences the spectrum. */
  lemma ZeroGainClears(spectrum: Fft65, gain: Bins)
    requires forall i :: 0 <= i < 65 ==> gain[i] == 0.0
    ensures GainScaled(spectrum, gain) == Cleared()
  {
    var r := GainScaled(spectrum, gain);
    assert r.re == Cleared().re;
    assert r.im == Cleared().im;
  }

  /** One output sample before clipping: the old second half and the new first half, windowed and summed. */
  function OverlapAdd(previous: real, extended: real, windowOld: real, windowNew: real): real
  {
    (previous * windowOld + extended * windowNew) * IfftNormalization
  }

  /** A sample clipped into the 16-bit range. */
  function Clip(x: real): (r: real)
    ensures SampleMin <= r <= SampleMax
    ensures SampleMin <= x <= SampleMax ==> r == x
    ensures x < SampleMin ==> r == SampleMin
    ensures x > SampleMax ==> r == SampleMax
  {
    if x < SampleMin then SampleMin else if x > SampleMax then SampleMax else x
  }

  class SuppressionFilter {
    const fft: Aec3Fft
    /** The 128-point square-root Hann window; its values are a parameter of the model. */
    const window: Packed
    var outputOld: Block

    constructor (fft: Aec3Fft, window: Packed)
      ensures this.fft == fft && this.window == window
      ensures outputOld == Filled(0.0)
    {
      this.fft := fft;
      this.window := window;
      outputOld := Filled(0.0);
    }

    /**
     * `ApplyGain`: the clipped overlap-add of the previous second half and the
     * inverse transform of the gain-scaled spectrum; the new second half is kept.
     */
    method ApplyGain(gain: Bins, spectrum: Fft65) returns (e: Block)
      modifies this`outputOld
      ensures var extended := fft.Ifft(GainScaled(spectrum, gain));
        (forall i :: 0 <= i < 64 ==>
          e[i] == Clip(OverlapAdd(old(outputOld)[i], extended[i], window[64 + i], window[i]))) &&
        outputOld == extended[64..]
      ensures forall i :: 0 <= i < 64 ==> SampleMin <= e[i] <= SampleMax
    {
      var scaled := ScaleBins(spectrum, gain);
      var extended := fft.Ifft(scaled);
      var a := OverlapAddHalves(outputOld, extended, window);
      outputOld := extended[64..];
      ClipSamples(a);
      e := a[..];
    }
  }

  /** `Assign`, then every bin of both parts multiplied by its gain. */
  method ScaleBins(spectrum: Fft65, gain: Bins) returns (scaled: Fft65)
    ensures scaled == GainScaled(spectrum, gain)
  {
    var E := Assign(spectrum);
    ghost var expected := GainScaled(spectrum, gain);
    var re := E.re;
    var im := E.im;
    var i := 0;
    while i < 65
      invariant 0 <= i <= 65 && |re| == 65 && |im| == 65
      invariant forall j :: 0 <= j < i ==> re[j] == expected.re[j] && im[j] == expected.im[j]
      invariant forall j :: i <= j < 65 ==> re[j] == E.re[j] && im[j] == E.im[j]
    {
      re := re[i := re[i] * gain[i]];
      im := im[i := im[i] * gain[i]];
      i := i + 1;
    }
    assert re == expected.re && im == expected.im;
    scaled := FftData(re, im);
  }

  /** The windowed sum of the previous second half and the new first half, normalised. */
  method OverlapAddHalves(previous: Block, extended: Packed, window: Packed) returns (a: array<real>)
    ensures fresh(a) && a.Length == 64
    ensures forall j :: 0 <= j < 64 ==> a[j] == OverlapAdd(previous[j], extended[j], window[64 + j], window[j])
  {
    a := new real[64](_ => 0.0);
    var i := 0;
    while i < 64
      modifies a
      invariant 0 <= i <= 64
      invariant forall j :: 0 <= j < i ==> a[j] == OverlapAdd(previous[j], extended[j], window[64 + j], window[j])
    {
      var sample := previous[i] * window[64 + i];
      sample := sample + extended[i] * window[i];
      a[i] := sample * IfftNormalization;
      i := i + 1;
    }
  }

  /** Each sample clipped into the 16-bit range, in place. */
  method ClipSamples(a: array<real>)
    modifies a
    ensures forall j :: 0 <= j < a.Length ==> a[j] == Clip(old(a[j]))
  {
    var i := 0;
    while i < a.Length
      invariant 0 <= i <= a.Length
      invariant forall j :: 0 <= j < i ==> a[j] == Clip(old(a[j]))
      invariant forall j :: i <= j < a.Length ==> a[j] == old(a[j])
    {
      if a[i] < SampleMin {
        a[i] := SampleMin;
      }
      if a[i] > SampleMax {
        a[i] := SampleMax;
      }
      i := i + 1;
    }
  }
}

=== FILE: suppression_gain.dfy ===
/**
 * The per-bin suppression gain of the lower band: a gain that leaves no
 * audible echo, bounded above by a rise limit on the previous gain and below
 * by a minimum gain, then shaped at the low and high ends of the spectrum.
 */
module SuppressionGains {
  import opened Numerics
  import opened Fft
  import opened MovingAverages

  const MaxIncFactor: real := 2.0
  const MaxDecFactorLf: real := 0.25
  const MaxGainFloor: real := 0.00001
  const MinEchoPower: real := 64.0
  const LastLfBand: int := 5
  const FirstHfBand: int := 8
  const LastLfSmoothingBand: int := 5
  const LastPermanentLfSmoothingBand: int := 0
  /** The bin of 2 kHz: `64 * 2000 / 8000`. */
  const FirstBandToLimit: int := 16
  const FloorPower: real := 128.0
  /** `kFloorPower` times the audibility factor 10, the same in all three bands. */
  const AudibilityThreshold: real := 1280.0
  const AudibilityNormalizer: real := 1.0 / 1152.0
  const NearendAverageLength: nat := 4

  // ----- transparency thresholds -----

  /** The low/high-frequency blend weight of bin `k`: 0 up to bin 5, rising over bins 6 and 7, then 1. */
  function BlendWeight(k: int): (a: real)
    ensures 0.0 <= a <= 1.0
    ensures k <= LastLfBand ==> a == 0.0
    ensures k >= FirstHfBand ==> a == 1.0
  {
    if k <= LastLfBand then 0.0
    else if k < FirstHfBand then (k - LastLfBand) as real / (FirstHfBand - LastLfBand) as real
    else 1.0
  }

  function Blend(a: real, lf: real, hf: real): real
  {
    (1.0 - a) * lf + a * hf
  }

  function EnrTransparent(k: int): real { Blend(BlendWeight(k), 0.3, 0.07) }
  function EnrSuppress(k: int): real { Blend(BlendWeight(k), 0.4, 0.1) }
  function EmrTransparent(k: int): real { Blend(BlendWeight(k), 0.3, 0.3) }

  /** In every bin the suppression threshold lies above the transparency threshold. */
  lemma ThresholdsOrdered(k: int)
    ensures EnrSuppress(k) - EnrTransparent(k) > 0.0
    ensures EnrTransparent(k) > 0.0 && EmrTransparent(k) == 0.3
  {
    var a := BlendWeight(k);
    assert EnrSuppress(k) - EnrTransparent(k) == 0.1 - 0.07 * a;
    assert EnrTransparent(k) == 0.3 - 0.23 * a;
  }

  /**
   * `GainToNoAudibleEcho` for bin `k`: 1 unless both the echo-to-nearend and
   * the echo-to-mask ratios exceed their transparency thresholds, in which case
   * a gain strictly between 0 and 1.
   */
  function NoAudibleEchoGain(k: int, nearend: real, echo: real): (g: real)
    requires nearend != -1.0
    ensures 0.0 < g <= 1.0
    ensures g < 1.0 <==> (echo / (nearend + 1.0) > EnrTransparent(k) && echo > EmrTransparent(k))
  {
    ThresholdsOrdered(k);
    var enr := echo / (nearend + 1.0);
    var emr := echo / 1.0;
    if enr > EnrTransparent(k) && emr > EmrTransparent(k) then
      var g1 := (EnrSuppress(k) - enr) / (EnrSuppress(k) - EnrTransparent(k));
      var g2 := EmrTransparent(k) / emr;
      assert g1 < 1.0 by { Quotient(EnrSuppress(k) - enr, EnrSuppress(k) - EnrTransparent(k)); }
      assert 0.0 < g2 < 1.0 by { Quotient(EmrTransparent(k), emr); }
      Max(g1, g2)
    else 1.0
  }

  /** A positive denominator orders the quotient against 1 as it orders the numerator against the denominator. */
  lemma Quotient(num: real, den: real)
    requires den > 0.0
    ensures num < den ==> num / den < 1.0
    ensures num > 0.0 ==> num / den > 0.0
  {
    var q := num / den;
    assert q * den == num;
    if num < den {
      StrictProductSign(q - 1.0, den);
    }
    if num > 0.0 {
      StrictProductSign(-q, den);
    }
  }

  // ----- audibility weighting -----

  /**
   * The audibility weighting of one echo power: unchanged from the threshold
   * up, and below it scaled down by a factor in [0, 1] that falls with the
   * square of the distance to the threshold.
   */
  function AudibilityWeighted(echo: real): (w: real)
    ensures echo >= AudibilityThreshold ==> w == echo
    ensures echo >= 0.0 ==> 0.0 <= w <= echo
  {
    if echo < AudibilityThreshold then
      var tmp := (AudibilityThreshold - echo) * AudibilityNormalizer;
      var factor := Max(0.0, 1.0 - tmp * tmp);
      assert 0.0 <= factor <= 1.0;
      assert echo >= 0.0 ==> echo * factor <= echo * 1.0;
      echo * factor
    else echo
  }

  /** The weighting thresholds are ten times the floor power, and the normalizer spans the gap to the floor. */
  lemma AudibilityConstants()
    ensures AudibilityThreshold == FloorPower * 10.0
    ensures AudibilityNormalizer == 1.0 / (AudibilityThreshold - FloorPower)
  {
  }

  // ----- gain limits -----

  /** `GetMaxGain` for one bin: twice the previous gain, at least 1e-5, at most 1. */
  function MaxGainOf(lastGain: real): (g: real)
    ensures MaxGainFloor <= g <= 1.0
    ensures lastGain * MaxIncFactor <= 1.0 && lastGain * MaxIncFactor >= MaxGainFloor ==> g == lastGain * MaxIncFactor
  {
    Min(Max(lastGain * MaxIncFactor, MaxGainFloor), 1.0)
  }

  /** The minimum gain before low-frequency smoothing: 64 over the echo power, or 1 without echo, at most 1. */
  function BaseMinGain(weightedEcho: real): (g: real)
    ensures 0.0 < g <= 1.0
    ensures weightedEcho <= MinEchoPower ==> g == 1.0
  {
    if weightedEcho > 0.0 then
      Quotient(MinEchoPower, weightedEcho);
      if weightedEcho <= MinEchoPower then
        assert MinEchoPower / weightedEcho >= 1.0 by {
          var q := MinEchoPower / weightedEcho;
          assert q * weightedEcho == MinEchoPower;
          ProductSign(1.0 - q, weightedEcho);
        }
        Min(MinEchoPower / weightedEcho, 1.0)
      else Min(MinEchoPower / weightedEcho, 1.0)
    else 1.0
  }

  /** Whether bin `k` is held to a quarter of its previous gain. */
  predicate LfSmoothed(k: int, lastNearend: real, lastEcho: real)
  {
    k <= LastLfSmoothingBand && (lastNearend > lastEcho || k <= LastPermanentLfSmoothingBand)
  }

  /**
   * `GetMinGain` for bin `k`: the base minimum, and in the smoothed low bins
   * at least a quarter of the previous gain, never above 1.
   */
  function MinGainOf(k: int, weightedEcho: real, lastNearend: real, lastEcho: real, lastGain: real): (g: real)
    ensures 0.0 < g <= 1.0
    ensures !LfSmoothed(k, lastNearend, lastEcho) ==> g == BaseMinGain(weightedEcho)
    ensures LfSmoothed(k, lastNearend, lastEcho) ==> g >= Min(lastGain * MaxDecFactorLf, 1.0) && g >= BaseMinGain(weightedEcho)
  {
    var base := BaseMinGain(weightedEcho);
    if LfSmoothed(k, lastNearend, lastEcho) then Min(Max(base, lastGain * MaxDecFactorLf), 1.0) else base
  }

  /**
   * One bin of the combined gain: the no-audible-echo gain capped by the
   * maximum, then raised to the minimum, never above 1.
   */
  function Combined(g: real, maxGain: real, minGain: real): (r: real)
    ensures 0.0 < minGain <= 1.0 ==> minGain <= r <= 1.0
    ensures minGain <= maxGain ==> r <= maxGain
    ensures minGain <= g <= maxGain && g <= 1.0 ==> r == g
  {
    Min(1.0, Max(Min(g, maxGain), minGain))
  }

  /**
   * The minimum gain can exceed the maximum gain, so the combined gain may
   * rise by more than the factor 2: a previous gain of 1e-5 with no echo gives 1.
   */
  lemma RiseLimitNotGuaranteed()
    ensures Combined(1.0, MaxGainOf(MaxGainFloor), MinGainOf(10, 0.0, 0.0, 0.0, MaxGainFloor)) > MaxIncFactor * MaxGainFloor
  {
  }

  // ----- shaping -----

  /** `LimitLowFrequencyGains`: bins 0 and 1 both take the smaller of bins 1 and 2. */
  function LimitLow(g: Bins): (r: Bins)
    ensures r[0] == r[1] == Min(g[1], g[2])
    ensures forall k :: 2 <= k < 65 ==> r[k] == g[k]
  {
    var m := Min(g[1], g[2]);
    g[0 := m][1 := m]
  }

  /** `LimitHighFrequencyGains`: no bin above 2 kHz exceeds the 2 kHz bin, and the last bin copies the one before. */
  function LimitHigh(g: Bins): (r: Bins)
    ensures forall k :: 0 <= k <= FirstBandToLimit ==> r[k] == g[k]
    ensures forall k :: FirstBandToLimit < k < 64 ==> r[k] == Min(g[k], g[FirstBandToLimit])
    ensures r[64] == r[63]
  {
    seq(65, k requires 0 <= k < 65 => HighLimitedBin(g, k))
  }

  function HighLimitedBin(g: Bins, k: int): real
    requires 0 <= k < 65
  {
    if k == 64 then Min(g[63], g[FirstBandToLimit])
    else if k > FirstBandToLimit then Min(g[k], g[FirstBandToLimit])
    else g[k]
  }

  /** After high-frequency limiting no bin above 2 kHz exceeds the 2 kHz bin. */
  lemma HighBinsBelowTwoKilohertz(g: Bins)
    ensures forall k :: FirstBandToLimit < k < 65 ==> LimitHigh(g)[k] <= LimitHigh(g)[FirstBandToLimit]
  {
  }

  /** Both limiters keep every bin inside (lo, 1] when it started there. */
  lemma LimitersKeepRange(g: Bins, lo: real)
    requires forall k :: 0 <= k < 65 ==> lo < g[k] <= 1.0
    ensures forall k :: 0 <= k < 65 ==> lo < LimitLow(g)[k] <= 1.0
    ensures forall k :: 0 <= k < 65 ==> lo < LimitHigh(LimitLow(g))[k] <= 1.0
  {
    var l := LimitLow(g);
    assert forall k :: 0 <= k < 65 ==> lo < l[k] <= 1.0;
  }

  // ----- per-spectrum gains -----

  function MaxGains(lastGain: Bins): (r: Bins)
    ensures forall k :: 0 <= k < 65 ==> MaxGainFloor <= r[k] <= 1.0
  {
    seq(65, k requires 0 <= k < 65 => MaxGainOf(lastGain[k]))
  }

  function MinGains(weightedEcho: Bins, lastNearend: Bins, lastEcho: Bins, lastGain: Bins): (r: Bins)
    ensures forall k :: 0 <= k < 65 ==> 0.0 < r[k] <= 1.0
  {
    seq(65, k requires 0 <= k < 65 => MinGainOf(k, weightedEcho[k], lastNearend[k], lastEcho[k], lastGain[k]))
  }

  function NoAudibleEchoGains(nearend: Bins, echo: Bins): (r: Bins)
    requires forall k :: 0 <= k < 65 ==> nearend[k] >= 0.0
    ensures forall k :: 0 <= k < 65 ==> 0.0 < r[k] <= 1.0
  {
    seq(65, k requires 0 <= k < 65 => NoAudibleEchoGain(k, nearend[k], echo[k]))
  }

  function CombinedGains(g: Bins, maxGain: Bins, minGain: Bins): Bins
  {
    seq(65, k requires 0 <= k < 65 => Combined(g[k], maxGain[k], minGain[k]))
  }

  /** The gain before the square root: combined, then shaped at both ends. */
  function ShapedGain(g: Bins, maxGain: Bins, minGain: Bins): Bins
  {
    LimitHigh(LimitLow(CombinedGains(g, maxGain, minGain)))
  }

  /** With every minimum gain in (0, 1], every shaped gain is in (0, 1]. */
  lemma ShapedGainInUnitInterval(g: Bins, maxGain: Bins, minGain: Bins)
    requires forall k :: 0 <= k < 65 ==> 0.0 < minGain[k] <= 1.0
    ensures forall k :: 0 <= k < 65 ==> 0.0 < ShapedGain(g, maxGain, minGain)[k] <= 1.0
  {
    var c := CombinedGains(g, maxGain, minGain);
    assert forall k :: 0 <= k < 65 ==> 0.0 < c[k] <= 1.0;
    LimitersKeepRange(c, 0.0);
  }

  /** `WeightEchoForAudibility` over all bins: every band uses the same threshold and normalizer. */
  method WeightEchoForAudibility(echo: Bins) returns (weighted: Bins)
    ensures forall k :: 0 <= k < 65 ==> weighted[k] == AudibilityWeighted(echo[k])
  {
    var a := new real[65](_ => 0.0);
    var k := 0;
    while k < 65
      invariant 0 <= k <= 65
      invariant forall j :: 0 <= j < k ==> a[j] == AudibilityWeighted(echo[j])
    {
      if echo[k] < AudibilityThreshold {
        var tmp := (AudibilityThreshold - echo[k]) * AudibilityNormalizer;
        a[k] := echo[k] * Max(0.0, 1.0 - tmp * tmp);
      } else {
        a[k] := echo[k];
      }
      k := k + 1;
    }
    weighted := a[..];
  }

  /** Every previous nearend value held by the smoother is non-negative. */
  ghost predicate NonNegativeSlots(memory: seq<seq<real>>)
  {
    forall s, i :: 0 <= s < |memory| && 0 <= i < |memory[s]| ==> memory[s][i] >= 0.0
  }

  lemma {:induction false} SlotSumNonNegative(memory: seq<seq<real>>, i: nat)
    requires forall s :: 0 <= s < |memory| ==> i < |memory[s]|
    requires NonNegativeSlots(memory)
    ensures SlotSum(memory, i) >= 0.0
  {
    if memory != [] {
      SlotSumNonNegative(memory[..|memory| - 1], i);
    }
  }

  /** The four-block average of the nearend: the input and three stored spectra. */
  ghost function Smoothed(input: Bins, memory: seq<seq<real>>): (r: Bins)
    requires forall s :: 0 <= s < |memory| ==> |memory[s]| == 65
    ensures forall k :: 0 <= k < 65 ==> r[k] == (input[k] + SlotSum(memory, k)) * (1.0 / NearendAverageLength as real)
  {
    seq(65, k requires 0 <= k < 65 => (input[k] + SlotSum(memory, k)) * (1.0 / NearendAverageLength as real))
  }

  /** What the gain computer carries from one block to the next. */
  datatype GainMemory = GainMemory(smoother: seq<seq<real>>, lastNearend: Bins, lastEcho: Bins, lastGain: Bins)

  /** The smoother holds 65-bin spectra of non-negative power. */
  ghost predicate GainMemoryValid(m: GainMemory)
  {
    (forall s :: 0 <= s < |m.smoother| ==> |m.smoother[s]| == 65) && NonNegativeSlots(m.smoother)
  }

  /** The residual echo after the audibility weighting, bin by bin. */
  function WeightedEchoes(residualEcho: Bins): (w: Bins)
    ensures forall k :: 0 <= k < 65 && residualEcho[k] >= 0.0 ==> 0.0 <= w[k] <= residualEcho[k]
  {
    seq(65, k requires 0 <= k < 65 => AudibilityWeighted(residualEcho[k]))
  }

  /**
   * The gain `LowerBandGain` stores, before its square root, for a nearend
   * spectrum and a residual echo, given what the previous block left: the
   * no-audible-echo gain of the smoothed nearend against the weighted echo,
   * bounded by the maximum and minimum gains and shaped.
   */
  ghost function LowerBandGainOf(nearendSpectrum: Bins, residualEcho: Bins, m: GainMemory): (g: Bins)
    requires GainMemoryValid(m) && forall k :: 0 <= k < 65 ==> nearendSpectrum[k] >= 0.0
    ensures forall k :: 0 <= k < 65 ==> 0.0 < g[k] <= 1.0
  {
    var nearend := Smoothed(nearendSpectrum, m.smoother);
    assert forall k :: 0 <= k < 65 ==> nearend[k] >= 0.0 by {
      forall k | 0 <= k < 65
        ensures nearend[k] >= 0.0
      {
        SlotSumNonNegative(m.smoother, k);
      }
    }
    var echo := WeightedEchoes(residualEcho);
    var minGain := MinGains(echo, m.lastNearend, m.lastEcho, m.lastGain);
    ShapedGainInUnitInterval(NoAudibleEchoGains(nearend, echo), MaxGains(m.lastGain), minGain);
    ShapedGain(NoAudibleEchoGains(nearend, echo), MaxGains(m.lastGain), minGain)
  }

  class SuppressionGain {
    var lastGain: Bins
    var lastNearend: Bins
    var lastEcho: Bins
    const nearendSmoother: MovingAverage
    ghost const Repr: set<object>

    /** The smoother averages four 65-bin spectra of non-negative power; every stored gain is in (0, 1]. */
    ghost predicate Valid()
      reads this, Repr
    {
      Repr == {this, nearendSmoother} &&
      nearendSmoother.Valid() && nearendSmoother.numElem == 65 && nearendSmoother.memLen == NearendAverageLength - 1 &&
      NonNegativeSlots(nearendSmoother.memory) &&
      forall k :: 0 <= k < 65 ==> 0.0 < lastGain[k] <= 1.0
    }

    /** The state the next block's gain depends on. */
    ghost function Memory(): (m: GainMemory)
      reads this, Repr
      requires Valid()
      ensures GainMemoryValid(m)
    {
      GainMemory(nearendSmoother.memory, lastNearend, lastEcho, lastGain)
    }

    /** Previous gains all 1; previous nearend and echo all 0. */
    constructor ()
      ensures Valid() && fresh(Repr)
      ensures forall k :: 0 <= k < 65 ==> lastGain[k] == 1.0 && lastNearend[k] == 0.0 && lastEcho[k] == 0.0
    {
      lastNearend := seq(65, _ => 0.0);
      lastEcho := seq(65, _ => 0.0);
      lastGain := seq(65, _ => 1.0);
      nearendSmoother := new MovingAverage(65, NearendAverageLength);
      Repr := {this, nearendSmoother};
    }

    /** `GetMaxGain`. */
    method GetMaxGain() returns (maxGain: Bins)
      ensures maxGain == MaxGains(lastGain)
    {
      var a := new real[65](_ => 0.0);
      var k := 0;
      while k < 65
        invariant 0 <= k <= 65
        invariant forall j :: 0 <= j < k ==> a[j] == MaxGainOf(lastGain[j])
      {
        a[k] := Min(Max(lastGain[k] * MaxIncFactor, MaxGainFloor), 1.0);
        k := k + 1;
      }
      maxGain := a[..];
    }

    /** `GetMinGain`: the base minimum in every bin, then the low-frequency smoothing in bins 0 to 5. */
    method GetMinGain(weightedEcho: Bins, lastNearendIn: Bins, lastEchoIn: Bins) returns (minGain: Bins)
      ensures minGain == MinGains(weightedEcho, lastNearendIn, lastEchoIn, lastGain)
    {
      var a := new real[65](_ => 0.0);
      var k := 0;
      while k < 65
        invariant 0 <= k <= 65
        invariant forall j :: 0 <= j < k ==> a[j] == BaseMinGain(weightedEcho[j])
      {
        a[k] := if weightedEcho[k] > 0.0 then MinEchoPower / weightedEcho[k] else 1.0;
        a[k] := Min(a[k], 1.0);
        k := k + 1;
      }
      k := 0;
      while k <= LastLfSmoothingBand
        invariant 0 <= k <= LastLfSmoothingBand + 1
        invariant forall j :: 0 <= j < k ==> a[j] == MinGainOf(j, weightedEcho[j], lastNearendIn[j], lastEchoIn[j], lastGain[j])
        invariant forall j :: k <= j < 65 ==> a[j] == BaseMinGain(weightedEcho[j])
      {
        if lastNearendIn[k] > lastEchoIn[k] || k <= LastPermanentLfSmoothingBand {
          a[k] := Max(a[k], lastGain[k] * MaxDecFactorLf);
          a[k] := Min(a[k], 1.0);
        }
        k := k + 1;
      }
      minGain := a[..];
      assert forall j :: 0 <= j < 65 ==> minGain[j] == MinGainOf(j, weightedEcho[j], lastNearendIn[j], lastEchoIn[j], lastGain[j]);
    }

    /** `GainToNoAudibleEcho` over all bins. */
    method GainToNoAudibleEcho(nearend: Bins, echo: Bins) returns (gain: Bins)
      requires forall k :: 0 <= k < 65 ==> nearend[k] >= 0.0
      ensures gain == NoAudibleEchoGains(nearend, echo)
    {
      var a := new real[65](_ => 0.0);
      var k := 0;
      while k < 65
        invariant 0 <= k <= 65
        invariant forall j :: 0 <= j < k ==> a[j] == NoAudibleEchoGain(j, nearend[j], echo[j])
      {
        var w := BlendWeight(k);
        var enrTransparent := (1.0 - w) * 0.3 + w * 0.07;
        var enrSuppress := (1.0 - w) * 0.4 + w * 0.1;
        var emrTransparent := (1.0 - w) * 0.3 + w * 0.3;
        var enr := echo[k] / (nearend[k] + 1.0);
        var emr := echo[k] / 1.0;
        var g := 1.0;
        if enr > enrTransparent && emr > emrTransparent {
          g := (enrSuppress - enr) / (enrSuppress - enrTransparent);
          g := Max(g, emrTransparent / emr);
        }
        a[k] := g;
        k := k + 1;
      }
      gain := a[..];
    }

    /**
     * `LowerBandGain`: smooth the nearend, weight the residual echo, combine
     * and shape the gain, remember nearend, echo and gain for the next block,
     * and return the square root of each gain.
     */
    method LowerBandGain(suppressorInput: Bins, residualEcho: Bins, sqrt: real -> real)
      returns (gain: Bins, ghost nearend: Bins)
      requires Valid()
      requires forall k :: 0 <= k < 65 ==> suppressorInput[k] >= 0.0
      modifies Repr
      ensures Valid()
      ensures nearend == Smoothed(suppressorInput, old(nearendSmoother.memory))
      ensures lastNearend == nearend && forall k :: 0 <= k < 65 ==> nearend[k] >= 0.0
      ensures forall k :: 0 <= k < 65 ==> lastEcho[k] == AudibilityWeighted(residualEcho[k])
      ensures lastGain == ShapedGain(NoAudibleEchoGains(nearend, lastEcho), MaxGains(old(lastGain)),
                                     MinGains(lastEcho, old(lastNearend), old(lastEcho), old(lastGain)))
      ensures forall k :: 0 <= k < 65 ==> gain[k] == sqrt(lastGain[k])
    {
      var maxGain := GetMaxGain();
      var smoothed := SmoothNearend(suppressorInput);
      nearend := smoothed;
      var weighted := WeightEchoForAudibility(residualEcho);
      var minGain := GetMinGain(weighted, lastNearend, lastEcho);
      var g := GainToNoAudibleEcho(smoothed, weighted);
      var shaped := CombineAndShape(g, maxGain, minGain);
      gain := SquareRoots(shaped, sqrt);
      Remember(smoothed, weighted, shaped);
    }

    /** Keep this block's nearend, weighted echo and pre-root gain for the next block. */
    method Remember(nearend: Bins, echo: Bins, gain: Bins)
      requires Valid()
      requires forall k :: 0 <= k < 65 ==> 0.0 < gain[k] <= 1.0
      modifies this`lastNearend, this`lastEcho, this`lastGain
      ensures Valid()
      ensures lastNearend == nearend && lastEcho == echo && lastGain == gain
    {
      lastNearend, lastEcho, lastGain := nearend, echo, gain;
    }

    /** The nearend smoother's average of the suppressor input; it stays non-negative. */
    method SmoothNearend(suppressorInput: Bins) returns (nearend: Bins)
      requires Valid()
      requires forall k :: 0 <= k < 65 ==> suppressorInput[k] >= 0.0
      modifies nearendSmoother
      ensures Valid()
      ensures nearend == Smoothed(suppressorInput, old(nearendSmoother.memory))
      ensures forall k :: 0 <= k < 65 ==> nearend[k] >= 0.0
    {
      ghost var memory := nearendSmoother.memory;
      var smoothed := nearendSmoother.Average(suppressorInput);
      nearend := smoothed;
      forall k | 0 <= k < 65
        ensures nearend[k] >= 0.0
      {
        SlotSumNonNegative(memory, k);
      }
      assert NonNegativeSlots(nearendSmoother.memory);
      assert forall k :: 0 <= k < 65 ==> nearend[k] == Smoothed(suppressorInput, memory)[k];
    }

    /** `GetGain`: only the lower-band gain is computed; the echo spectrum is not used. */
    method GetGain(nearendSpectrum: Bins, echoSpectrum: Bins, residualEchoSpectrum: Bins, sqrt: real -> real)
      returns (lowBandGain: Bins)
      requires Valid()
      requires forall k :: 0 <= k < 65 ==> nearendSpectrum[k] >= 0.0
      modifies Repr
      ensures Valid()
      ensures forall k :: 0 <= k < 65 ==> lowBandGain[k] == sqrt(lastGain[k])
      ensures lastGain == LowerBandGainOf(nearendSpectrum, residualEchoSpectrum, old(Memory()))
      ensures lastEcho == WeightedEchoes(residualEchoSpectrum)
      ensures lastNearend == Smoothed(nearendSpectrum, old(nearendSmoother.memory))
    {
      ghost var nearend;
      lowBandGain, nearend := LowerBandGain(nearendSpectrum, residualEchoSpectrum, sqrt);
      assert lastEcho == WeightedEchoes(residualEchoSpectrum);
    }
  }

  /** The combining loop followed by both limiters. */
  method CombineAndShape(g: Bins, maxGain: Bins, minGain: Bins) returns (shaped: Bins)
    requires forall k :: 0 <= k < 65 ==> 0.0 < minGain[k] <= 1.0
    ensures shaped == ShapedGain(g, maxGain, minGain)
    ensures forall k :: 0 <= k < 65 ==> 0.0 < shaped[k] <= 1.0
  {
    var a := new real[65](_ => 1.0);
    var k := 0;
    while k < 65
      invariant 0 <= k <= 65
      invariant forall j :: 0 <= j < k ==> a[j] == Combined(g[j], maxGain[j], minGain[j])
      invariant forall j :: k <= j < 65 ==> a[j] == 1.0
    {
      var gk := Max(Min(g[k], maxGain[k]), minGain[k]);
      a[k] := Min(a[k], gk);
      k := k + 1;
    }
    var m := Min(a[1], a[2]);
    a[0], a[1] := m, m;
    var upper := a[FirstBandToLimit];
    k := FirstBandToLimit + 1;
    while k < 65
      invariant FirstBandToLimit + 1 <= k <= 65
      invariant forall j :: FirstBandToLimit < j < k ==> a[j] == Min(LimitLow(CombinedGains(g, maxGain, minGain))[j], upper)
      invariant forall j :: (0 <= j <= FirstBandToLimit || k <= j < 65) ==> a[j] == LimitLow(CombinedGains(g, maxGain, minGain))[j]
    {
      a[k] := Min(a[k], upper);
      k := k + 1;
    }
    a[64] := a[63];
    shaped := a[..];
    assert forall j :: 0 <= j < 65 ==> shaped[j] == ShapedGain(g, maxGain, minGain)[j];
    ShapedGainInUnitInterval(g, maxGain, minGain);
  }

  /** The square root of every gain; the gains are already non-negative. */
  method SquareRoots(g: Bins, sqrt: real -> real) returns (r: Bins)
    requires forall k :: 0 <= k < 65 ==> g[k] >= 0.0
    ensures forall k :: 0 <= k < 65 ==> r[k] == sqrt(g[k])
  {
    var a := new real[65](_ => 0.0);
    var i := 0;
    while i < 65
      invariant 0 <= i <= 65
      invariant forall j :: 0 <= j < i ==> a[j] == sqrt(g[j])
    {
      var v := g[i];
      if v < 0.0 {
        v := 0.0;
      }
      a[i] := sqrt(v);
      i := i + 1;
    }
    r := a[..];
  }
}
